=== FILE: README.md ===
# HarshNoiseGo core in Dafny

This project models the audio core of HarshNoiseGo, a Java noise synthesiser. It covers:

- the noise generator, with its eight colours and the mixer;
- the eleven effects behind the `AudioEffect` interface and the effect chain that runs them in order;
- the effect registry and the controller that configures new effects with per-effect defaults;
- the Perlin noise source, its parameter configuration and the modulator that drives five engine parameters from it;
- the engine's per-block loop: synthesis, tone tilt, chain, 16-bit PCM packing, recording and the waveform ring;
- the WAV recorder: validation, little-endian writers, the 44-byte RIFF/WAVE header and file-name handling;
- the observable model with change detection and batched notifications.

Floats are reals. `sqrt`, `tanh`, `sin`, `exp` and `pow` are function parameters constrained by the facts the code relies on, for example `|tanh x| <= 1` and `sqrt(w)*sqrt(w) == w`. Random draws are values in `[0,1)` passed in as sequences or as a function from draw index to value. Every Java object becomes an immutable datatype, and every mutating method becomes a function or method returning the new state. An operation that can throw in Java returns `Option`/`Result`, with `None`/`Fail` standing for the exception.

One module per Java file:

- `Common`: shared arithmetic, clamps, remainders and random draws.
- One effect module per effect: `BypassEffect`, `DelayEffect`, `ReverbEffect`, `BitcrusherEffect`, `OverdriveEffect`, `DistortionEffect`, `FuzzEffect`, `WavefolderEffect`, `ReverseDelayEffect`, `GranularEffect`, `LooperEffect`.
- `Units`: the `AudioEffect` interface, as a sum type over the eleven effect states.
- The rest: `Chain`, `Registry`, `Controller`, `NoiseGenerator`, `PerlinNoise`, `PerlinConfig`, `PerlinModulator`, `AudioEngine`, `Recorder`, `AudioModel`.

## Model

| member | source | states |
|---|---|---|
| Common.Clamp | src/main/java/com/harshnoise/audio/effects/DelayEffect.java:227-229 | the effects' `clamp`: the result lies in [lo,hi], equals v when v is inside, and equals the nearer bound otherwise |
| Common.NextInt | src/main/java/com/harshnoise/audio/effects/GranularEffect.java:344-398 | `Random.nextInt(bound)` from a draw in [0,1): the result lies in [0,bound) |
| Common.Trunc | src/main/java/com/harshnoise/audio/effects/DelayEffect.java:146 | Java's `(int)` cast of a double: truncation toward zero, never past the value |
| Common.JRem | src/main/java/com/harshnoise/audio/effects/DelayEffect.java:161-162 | Java's `%` on ints: the remainder has the dividend's sign and equals the Euclidean one for non-negative dividends |
| Common.FMod | src/main/java/com/harshnoise/PerlinParameterConfig.java:153-155 | Java's `%` on doubles: a result in [0,b) for a non-negative dividend, in (-b,0] for a negative one |
| Common.OnePole | src/main/java/com/harshnoise/audio/effects/OverdriveEffect.java:200-214 | the one-pole low-pass step lands between the old state and the input |
| Common.LowpassCoeff | src/main/java/com/harshnoise/audio/effects/OverdriveEffect.java:219-231 | the tone coefficient f/(1+f) capped at 0.99 |
| Common.LowpassCoeffMonotone | src/main/java/com/harshnoise/audio/effects/OverdriveEffect.java:219-231 | a higher cutoff never gives a smaller coefficient |
| BypassEffect.Init | src/main/java/com/harshnoise/audio/effects/BypassEffect.java:20-23 | a new bypass is enabled, fully wet, with gain 1 |
| BypassEffect.SetParameter | src/main/java/com/harshnoise/audio/effects/BypassEffect.java:46-48 | the value is stored under its name; every other name, and the flags, are unchanged |
| BypassEffect.GetParameter | src/main/java/com/harshnoise/audio/effects/BypassEffect.java:51-53 | a stored name reads back its value; a name never stored reads 0 |
| BypassEffect.SetWetDryRatio | src/main/java/com/harshnoise/audio/effects/BypassEffect.java:56-58 | the ratio is clamped to [0,1], stored when already in range, and nothing else changes |
| BypassEffect.SetSampleRate | src/main/java/com/harshnoise/audio/effects/BypassEffect.java:66-68 | only the sample rate changes |
| BypassEffect.Reset | src/main/java/com/harshnoise/audio/effects/BypassEffect.java:94-96 | reset changes nothing: there is no time-based state |
| BypassEffect.Process | src/main/java/com/harshnoise/audio/effects/BypassEffect.java:76-91 | same length as the input; disabled copies the input; enabled mixes each sample with its gained copy by the wet ratio |
| BypassEffect.MixIdentity | src/main/java/com/harshnoise/audio/effects/BypassEffect.java:76-91 | gain 1 or a dry ratio gives back the input sample; a wet ratio of 1 gives the gained sample |
| BypassEffect.FreshBypassIsIdentity | src/main/java/com/harshnoise/audio/effects/BypassEffect.java:20-23 | a new bypass passes any block through unchanged, whatever wet ratio is set |
| BypassEffect.DryIsIdentity | src/main/java/com/harshnoise/audio/effects/BypassEffect.java:76-91 | at wet 0 processing returns the block unchanged |
| DelayEffect.BufferLength | src/main/java/com/harshnoise/audio/effects/DelayEffect.java:211-222 | the delay line holds at least one sample |
| DelayEffect.Reset | src/main/java/com/harshnoise/audio/effects/DelayEffect.java:196-206 | both lines are zeroed with the write pointers at 0; parameters, sizes and the invariant are kept |
| DelayEffect.InitializeBuffers | src/main/java/com/harshnoise/audio/effects/DelayEffect.java:211-222 | fresh zeroed lines of the length the sample rate gives; parameters unchanged |
| DelayEffect.Init | src/main/java/com/harshnoise/audio/effects/DelayEffect.java:47-55 | defaults, cleared lines of 52920 samples at 44.1 kHz, enabled |
| DelayEffect.SetParameter | src/main/java/com/harshnoise/audio/effects/DelayEffect.java:78-99 | time/delayTime is clamped and read back under both names; feedback and wet/mix are clamped, and wet/mix reads back under "wet" only ("mix" is never stored); other names are stored verbatim; buffers untouched |
| DelayEffect.GetParameter | src/main/java/com/harshnoise/audio/effects/DelayEffect.java:102-108 | "delayTime" reads the value stored under "time", or the default time 320 ms when none is; any other name reads its stored value or 0 |
| DelayEffect.SetWetDryRatio | src/main/java/com/harshnoise/audio/effects/DelayEffect.java:111-114 | the clamped ratio is stored and mirrored in the parameter map |
| DelayEffect.SetSampleRate | src/main/java/com/harshnoise/audio/effects/DelayEffect.java:122-125 | new rate, lines reallocated for it and cleared |
| DelayEffect.DelaySamples | src/main/java/com/harshnoise/audio/effects/DelayEffect.java:133-193 | the delay in samples is the truncated time times the rate when it fits, and always lies in [0,len-1] |
| DelayEffect.ReadIndex | src/main/java/com/harshnoise/audio/effects/DelayEffect.java:133-193 | the read position is the write position minus the delay, wrapped once |
| DelayEffect.Step | src/main/java/com/harshnoise/audio/effects/DelayEffect.java:133-193 | one sample: each line stores input plus fed-back delayed sample and advances; output is the equal-power mix of input and the two delayed samples |
| DelayEffect.CleanStep | src/main/java/com/harshnoise/audio/effects/DelayEffect.java:133-193 | on cleared lines with no feedback, fully wet, the output at i is the input d samples earlier (0 before that) |
| DelayEffect.DryStep | src/main/java/com/harshnoise/audio/effects/DelayEffect.java:133-193 | with dry gain 1 and wet gain 0 a step outputs its input |
| DelayEffect.StepMix | src/main/java/com/harshnoise/audio/effects/DelayEffect.java:157-192 | the wet/dry gains act after the delay lines: a step leaves the fully wet step's state and outputs x times the dry gain plus the wet gain times the fully wet output |
| DelayEffect.Block | src/main/java/com/harshnoise/audio/effects/DelayEffect.java:157-192 | the sample loop keeps the invariant, every parameter and the line length, and gives one output per input |
| DelayEffect.BlockDry | src/main/java/com/harshnoise/audio/effects/DelayEffect.java:157-192 | at dry gain 1 and wet gain 0 the loop returns its input |
| DelayEffect.BlockMix | src/main/java/com/harshnoise/audio/effects/DelayEffect.java:157-192 | over a block the final state is the fully wet run's, and every output is the dry term plus the wet gain times the fully wet output at that position |
| DelayEffect.BlockClean | src/main/java/com/harshnoise/audio/effects/DelayEffect.java:157-192 | from cleared lines, fully wet, without feedback, while shorter than the line, output i is input i-d, silence before that; a delay of 0 reads the slot about to be overwritten and is silent |
| DelayEffect.Output | src/main/java/com/harshnoise/audio/effects/DelayEffect.java:133-193 | disabled hands back the state and the block; otherwise the loop at the delay the time gives and the gains sqrt(1-wet), sqrt(wet); wet 0 passes the block; parameters kept |
| DelayEffect.Process | src/main/java/com/harshnoise/audio/effects/DelayEffect.java:133-193 | computes exactly Output; at wet 0 the block passes through; from cleared lines, fully wet and without feedback, a block shorter than the line comes out delayed by exactly the configured delay; in general each output is the dry term plus the wet gain times the fully wet output |
| ReverbEffect.ClearBank | src/main/java/com/harshnoise/audio/effects/ReverbEffect.java:222-265 | all comb/allpass lines zeroed, shapes kept |
| ReverbEffect.SilentBank | src/main/java/com/harshnoise/audio/effects/ReverbEffect.java:270-296 | new lines of the given lengths, all zero |
| ReverbEffect.PredelaySamples | src/main/java/com/harshnoise/audio/effects/ReverbEffect.java:301-307 | the predelay in samples is the floor of ms times rate over 1000 |
| ReverbEffect.PredelayLength | src/main/java/com/harshnoise/audio/effects/ReverbEffect.java:301-307 | the predelay line has that many slots, at least one |
| ReverbEffect.Reset | src/main/java/com/harshnoise/audio/effects/ReverbEffect.java:222-265 | every line and filter state cleared; parameters and sizes kept |
| ReverbEffect.UpdatePredelay | src/main/java/com/harshnoise/audio/effects/ReverbEffect.java:301-307 | recomputes the predelay length and reallocates a zeroed predelay line; nothing else changes |
| ReverbEffect.InitializeBuffers | src/main/java/com/harshnoise/audio/effects/ReverbEffect.java:270-296 | comb and allpass lines of the fixed tunings, predelay for the rate, all cleared |
| ReverbEffect.Init | src/main/java/com/harshnoise/audio/effects/ReverbEffect.java:71-80 | defaults, cleared, enabled, no predelay |
| ReverbEffect.SetParameter | src/main/java/com/harshnoise/audio/effects/ReverbEffect.java:103-131 | room/roomSize, damp/damping, wet/mix and predelay are clamped; only room/roomSize and damp/damping are readable under both names; wet/mix is stored under "wet" only and predelay under its one name; other names stored; lines untouched |
| ReverbEffect.GetParameter | src/main/java/com/harshnoise/audio/effects/ReverbEffect.java:134-143 | "roomSize" and "damping" read the values stored under "room" and "damp", or their defaults 0.6 and 0.4; any other name reads its stored value or 0 |
| ReverbEffect.SetWetDryRatio | src/main/java/com/harshnoise/audio/effects/ReverbEffect.java:146-149 | the clamped ratio is stored and mirrored |
| ReverbEffect.SetSampleRate | src/main/java/com/harshnoise/audio/effects/ReverbEffect.java:157-160 | new rate; predelay recomputed for it; every line cleared |
| ReverbEffect.CombGain | src/main/java/com/harshnoise/audio/effects/ReverbEffect.java:354 | comb feedback rises from 0.7 at room 0 to 0.98 at room 1 |
| ReverbEffect.CombGainMonotone | src/main/java/com/harshnoise/audio/effects/ReverbEffect.java:354 | a larger room never gives less feedback |
| ReverbEffect.Comb | src/main/java/com/harshnoise/audio/effects/ReverbEffect.java:341-370 | returns the delayed sample; the damping state moves the fraction 1-damp of the way from its old value toward the delayed one, so it lies between them; the slot gets input plus feedback gain times the new damping state |
| ReverbEffect.DampingBetween | src/main/java/com/harshnoise/audio/effects/ReverbEffect.java:341-370 | the damping update is a one-pole step of fraction 1-damp, and lands between the old state and the delayed sample |
| ReverbEffect.ReadIsWrite | src/main/java/com/harshnoise/audio/effects/ReverbEffect.java:341-370 | the read index (w-len+len)%len, wrapped, is the write index: each filter reads the slot it is about to overwrite |
| ReverbEffect.Advance | src/main/java/com/harshnoise/audio/effects/ReverbEffect.java:341-370 | the pointer moves one slot, wrapping |
| ReverbEffect.CombPair | src/main/java/com/harshnoise/audio/effects/ReverbEffect.java:168-219 | left and right share one pointer per comb, so a sample advances it twice: left reads slot w, right reads w+1 |
| ReverbEffect.CombsFrom | src/main/java/com/harshnoise/audio/effects/ReverbEffect.java:168-219 | running the combs from j on advances exactly those pointers by two |
| ReverbEffect.Allpass | src/main/java/com/harshnoise/audio/effects/ReverbEffect.java:375-396 | output is the delayed sample minus 0.7 times the input; the slot gets the input plus 0.7 times the output |
| ReverbEffect.AllpassPair | src/main/java/com/harshnoise/audio/effects/ReverbEffect.java:168-219 | the shared allpass pointer also advances twice per sample |
| ReverbEffect.AllpassesFrom | src/main/java/com/harshnoise/audio/effects/ReverbEffect.java:168-219 | the allpasses from j on each advance by two |
| ReverbEffect.Predelay | src/main/java/com/harshnoise/audio/effects/ReverbEffect.java:312-336 | without predelay the sample passes; otherwise the stored sample is returned and replaced, pointer wrapping at n |
| ReverbEffect.AroundIsRemainder | src/main/java/com/harshnoise/audio/effects/ReverbEffect.java:341-370 | t single wrapping advances equal adding t modulo the length |
| ReverbEffect.AroundAdd | src/main/java/com/harshnoise/audio/effects/ReverbEffect.java:341-370 | advancing by t then u is advancing by t+u |
| ReverbEffect.MovedAgain | src/main/java/com/harshnoise/audio/effects/ReverbEffect.java:168-219 | pointer advances compose across samples |
| ReverbEffect.PredelayStage | src/main/java/com/harshnoise/audio/effects/ReverbEffect.java:312-336 | the predelay stage keeps the invariant and touches neither bank; with no predelay it is the identity |
| ReverbEffect.CombStage | src/main/java/com/harshnoise/audio/effects/ReverbEffect.java:168-219 | the comb stage advances every comb pointer by two and leaves the allpasses |
| ReverbEffect.AllpassStage | src/main/java/com/harshnoise/audio/effects/ReverbEffect.java:168-219 | the allpass stage advances every allpass pointer by two and leaves the combs |
| ReverbEffect.Step | src/main/java/com/harshnoise/audio/effects/ReverbEffect.java:185-218 | the imperative sample computes exactly Sample |
| ReverbEffect.Sample | src/main/java/com/harshnoise/audio/effects/ReverbEffect.java:185-218 | one sample through predelay, combs and allpasses, then the mono mix: no parameter changes, and dry gain 1 with wet gain 0 returns the input |
| ReverbEffect.SampleSilent | src/main/java/com/harshnoise/audio/effects/ReverbEffect.java:185-218 | on a silent tank every comb reads zero, so the output is the dry part alone |
| ReverbEffect.SampleMix | src/main/java/com/harshnoise/audio/effects/ReverbEffect.java:185-218 | the state a sample leaves does not depend on the gains; the output is x times the dry gain plus the wet gain times the fully wet output |
| ReverbEffect.SampleAdvances | src/main/java/com/harshnoise/audio/effects/ReverbEffect.java:185-218 | one sample moves every comb and allpass index two slots |
| ReverbEffect.ClearedIsSilent | src/main/java/com/harshnoise/audio/effects/ReverbEffect.java:222-265 | a state reset leaves is silent |
| ReverbEffect.BlockAdvances | src/main/java/com/harshnoise/audio/effects/ReverbEffect.java:185-218 | over n samples every comb and allpass index moves 2n slots |
| ReverbEffect.BlockKeeps | src/main/java/com/harshnoise/audio/effects/ReverbEffect.java:185-218 | the loop changes no parameter and gives one output per input |
| ReverbEffect.BlockMix | src/main/java/com/harshnoise/audio/effects/ReverbEffect.java:185-218 | over a block the final state is the fully wet run's, and every output is the dry term plus the wet gain times the fully wet output at that position |
| ReverbEffect.BlockDry | src/main/java/com/harshnoise/audio/effects/ReverbEffect.java:185-218 | at dry gain 1 and wet gain 0 the loop returns its input |
| ReverbEffect.BlockFirst | src/main/java/com/harshnoise/audio/effects/ReverbEffect.java:185-218 | from a silent tank the first output is the first input times the dry gain |
| ReverbEffect.Output | src/main/java/com/harshnoise/audio/effects/ReverbEffect.java:168-219 | disabled hands back the state and the block; otherwise the loop with gains sqrt(1-wet), sqrt(wet); wet 0 passes the block; parameters kept |
| ReverbEffect.Run | src/main/java/com/harshnoise/audio/effects/ReverbEffect.java:185-218 | the loop computes exactly Block |
| ReverbEffect.Block | src/main/java/com/harshnoise/audio/effects/ReverbEffect.java:185-218 | the sample loop gives one output per input sample; its mix, advance and dry-run properties are the Block* lemmas |
| ReverbEffect.Process | src/main/java/com/harshnoise/audio/effects/ReverbEffect.java:168-219 | computes exactly Output; disabled or wet 0 passes the block; enabled moves every comb and allpass index two slots per sample; from the reset state the first output is the dry part alone; in general each output is the dry term plus the wet gain times the fully wet output |
| ReverbEffect.EvenCombsHalveTheirDelay | src/main/java/com/harshnoise/audio/effects/ReverbEffect.java:168-219 | because of the double advance, every even-length comb repeats after half its tuned length |
| BitcrusherEffect.Pow2 | src/main/java/com/harshnoise/audio/effects/BitcrusherEffect.java:246-249 | helper for the quantisation step: 2^b (the code's `1 << bitDepth`) is positive |
| BitcrusherEffect.QuantStep | src/main/java/com/harshnoise/audio/effects/BitcrusherEffect.java:246-249 | the quantisation step 2/(2^bits-1) is positive |
| BitcrusherEffect.StepSize | src/main/java/com/harshnoise/audio/effects/BitcrusherEffect.java:254-260 | the phase step is positive, and 1 when the host rate is not positive |
| BitcrusherEffect.Quantize | src/main/java/com/harshnoise/audio/effects/BitcrusherEffect.java:228-241 | the rounded grid value, clamped to [-1,1] |
| BitcrusherEffect.HoldLoop | src/main/java/com/harshnoise/audio/effects/BitcrusherEffect.java:198-223 | the phase loses its integer part; a wrap takes a new held sample |
| BitcrusherEffect.ProcessSample | src/main/java/com/harshnoise/audio/effects/BitcrusherEffect.java:198-223 | phase stays in [0,1); on a wrap the hold becomes the quantised input, otherwise it is kept |
| BitcrusherEffect.Reset | src/main/java/com/harshnoise/audio/effects/BitcrusherEffect.java:184-193 | holds and phases cleared, step size recomputed, parameters kept |
| BitcrusherEffect.Init | src/main/java/com/harshnoise/audio/effects/BitcrusherEffect.java:51-59 | defaults with a 10-bit grid (step 2/1023), enabled, cleared |
| BitcrusherEffect.SetParameter | src/main/java/com/harshnoise/audio/effects/BitcrusherEffect.java:82-107 | bit depth is clamped then truncated; rate is clamped and the step size recomputed; wet/mix clamped; other names stored |
| BitcrusherEffect.GetParameter | src/main/java/com/harshnoise/audio/effects/BitcrusherEffect.java:110-119 | "bitDepth" and "sampleRate" read the values stored under "bitdepth" and "rate", or the defaults 10 and 12000; any other name reads its stored value or 0 |
| BitcrusherEffect.SetWetDryRatio | src/main/java/com/harshnoise/audio/effects/BitcrusherEffect.java:122-125 | the clamped ratio is stored and mirrored |
| BitcrusherEffect.SetSampleRate | src/main/java/com/harshnoise/audio/effects/BitcrusherEffect.java:133-138 | new rate, step size recomputed for it, state cleared |
| BitcrusherEffect.Sample | src/main/java/com/harshnoise/audio/effects/BitcrusherEffect.java:165-180 | per channel: a phase wrap takes the quantised input, otherwise the held value and the advanced phase are kept; only phases and holds change; the output mixes the two holds; dry-only returns the input |
| BitcrusherEffect.Block | src/main/java/com/harshnoise/audio/effects/BitcrusherEffect.java:165-180 | the sample loop keeps the invariant and the settings, one output per input, phases in [0,1) after a non-empty block, equal channels stay equal |
| BitcrusherEffect.BlockDry | src/main/java/com/harshnoise/audio/effects/BitcrusherEffect.java:161-180 | at dry gain 1 and wet gain 0 the loop returns its input |
| BitcrusherEffect.BlockFirst | src/main/java/com/harshnoise/audio/effects/BitcrusherEffect.java:165-180 | wet only from the reset state, the first output is the quantised first input |
| BitcrusherEffect.Output | src/main/java/com/harshnoise/audio/effects/BitcrusherEffect.java:146-181 | disabled passes the block and state through; wet 0 passes the block; otherwise the sample loop under gains sqrt(1-wet), sqrt(wet) |
| BitcrusherEffect.Step | src/main/java/com/harshnoise/audio/effects/BitcrusherEffect.java:165-180 | the imperative sample computes exactly Sample |
| BitcrusherEffect.Run | src/main/java/com/harshnoise/audio/effects/BitcrusherEffect.java:165-180 | the loop computes exactly Block |
| BitcrusherEffect.Process | src/main/java/com/harshnoise/audio/effects/BitcrusherEffect.java:146-181 | computes exactly Output: disabled or dry passes the block; fully wet from cleared, the first output is the quantised first input |
| BitcrusherEffect.FullScaleClamps | src/main/java/com/harshnoise/audio/effects/BitcrusherEffect.java:228-241 | full scale quantises to exactly ±1, through the final clamp |
| BitcrusherEffect.Pow2Grows | src/main/java/com/harshnoise/audio/effects/BitcrusherEffect.java:246-249 | helper for FullScaleClamps: at the minimum bit depth there are at least 64 levels |
| BitcrusherEffect.FullScaleOffGrid | src/main/java/com/harshnoise/audio/effects/BitcrusherEffect.java:228-241 | ±1 is never a grid point, so the clamp is what yields full scale |
| OverdriveEffect.Cutoff | src/main/java/com/harshnoise/audio/effects/OverdriveEffect.java:219-231 | tone maps the cutoff into [2 kHz, 10 kHz] |
| OverdriveEffect.ToneCoeff | src/main/java/com/harshnoise/audio/effects/OverdriveEffect.java:219-231 | the one-pole coefficient lies in [0,0.99], between the coefficients of the 2000 Hz and 10000 Hz cutoffs |
| OverdriveEffect.ToneBrightens | src/main/java/com/harshnoise/audio/effects/OverdriveEffect.java:219-231 | more tone never lowers the coefficient |
| OverdriveEffect.Reset | src/main/java/com/harshnoise/audio/effects/OverdriveEffect.java:163-167 | filter states zeroed, everything else kept |
| OverdriveEffect.Init | src/main/java/com/harshnoise/audio/effects/OverdriveEffect.java:45-53 | defaults, enabled, cleared |
| OverdriveEffect.SetParameter | src/main/java/com/harshnoise/audio/effects/OverdriveEffect.java:76-96 | drive, tone and wet/mix are clamped and read back; other names stored; filter state untouched |
| OverdriveEffect.GetParameter | src/main/java/com/harshnoise/audio/effects/OverdriveEffect.java:99-101 | a stored name reads back its value; a name never stored reads 0 |
| OverdriveEffect.SetWetDryRatio | src/main/java/com/harshnoise/audio/effects/OverdriveEffect.java:104-107 | the clamped ratio is stored and mirrored |
| OverdriveEffect.SetSampleRate | src/main/java/com/harshnoise/audio/effects/OverdriveEffect.java:115-118 | new rate and tone coefficient; nothing else |
| OverdriveEffect.Shape | src/main/java/com/harshnoise/audio/effects/OverdriveEffect.java:172-195 | the soft-clipped sample divided by the drive lies within ±1/drive, hence in [-1,1] |
| OverdriveEffect.Step | src/main/java/com/harshnoise/audio/effects/OverdriveEffect.java:126-160 | both filter states take one one-pole step toward the shaped sample; dry-only output is the input; wet-only lies in [-1,1] |
| OverdriveEffect.Process | src/main/java/com/harshnoise/audio/effects/OverdriveEffect.java:126-160 | disabled or dry passes through; fully wet output stays within ±1 |
| OverdriveEffect.Sample | src/main/java/com/harshnoise/audio/effects/OverdriveEffect.java:144-159 | each channel's filter takes one one-pole step toward its shaped sample; only the filters change; the output is the mono mix; dry gain 1 with wet gain 0 returns the input; dry 0 with wet 1 stays within ±1 |
| OverdriveEffect.Block | src/main/java/com/harshnoise/audio/effects/OverdriveEffect.java:144-159 | the sample loop keeps the invariant and parameters, one output per input; equal channels stay equal; dry only returns the input; wet only stays within ±1 |
| OverdriveEffect.Output | src/main/java/com/harshnoise/audio/effects/OverdriveEffect.java:126-160 | disabled hands back the state and the block; wet 0 passes the block; fully wet stays within ±1 |
| OverdriveEffect.SilenceStaysSilent | src/main/java/com/harshnoise/audio/effects/OverdriveEffect.java:172-214 | silence in, silent filter state: silence out |
| DistortionEffect.Cutoff | src/main/java/com/harshnoise/audio/effects/DistortionEffect.java:251-263 | tone maps the cutoff into [1.5 kHz, 13.5 kHz] |
| DistortionEffect.ToneCoeff | src/main/java/com/harshnoise/audio/effects/DistortionEffect.java:251-263 | the one-pole coefficient lies in [0,0.99], between the coefficients of the 1500 Hz and 13500 Hz cutoffs |
| DistortionEffect.ToneBrightens | src/main/java/com/harshnoise/audio/effects/DistortionEffect.java:251-263 | monotone in tone |
| DistortionEffect.Reset | src/main/java/com/harshnoise/audio/effects/DistortionEffect.java:173-177 | filter states zeroed only |
| DistortionEffect.Init | src/main/java/com/harshnoise/audio/effects/DistortionEffect.java:49-58 | defaults, enabled, cleared |
| DistortionEffect.SetParameter | src/main/java/com/harshnoise/audio/effects/DistortionEffect.java:81-105 | drive, shape, tone, wet/mix clamped and read back; other names stored |
| DistortionEffect.GetParameter | src/main/java/com/harshnoise/audio/effects/DistortionEffect.java:108-110 | a stored name reads back its value; a name never stored reads 0 |
| DistortionEffect.SetWetDryRatio | src/main/java/com/harshnoise/audio/effects/DistortionEffect.java:113-116 | the clamped ratio is stored and mirrored |
| DistortionEffect.SetSampleRate | src/main/java/com/harshnoise/audio/effects/DistortionEffect.java:124-127 | new rate and coefficient only |
| DistortionEffect.BlendBounded | src/main/java/com/harshnoise/audio/effects/DistortionEffect.java:201-211 | a blend of two values in [-1,1] stays in [-1,1] |
| DistortionEffect.Distort | src/main/java/com/harshnoise/audio/effects/DistortionEffect.java:201-227 | shape 0 is the hard clip, shape 1 the tanh of it, in between a blend; always in [-1,1] |
| DistortionEffect.Shape | src/main/java/com/harshnoise/audio/effects/DistortionEffect.java:182-196 | the distorted sample divided by the drive lies within ±1/drive, hence in [-1,1] |
| DistortionEffect.HardClipTransparent | src/main/java/com/harshnoise/audio/effects/DistortionEffect.java:182-219 | with shape 0, a sample the drive keeps within ±1 comes back unchanged; beyond, it pins at ±1/drive |
| DistortionEffect.Step | src/main/java/com/harshnoise/audio/effects/DistortionEffect.java:135-170 | one-pole step toward the shaped sample; dry-only is the input; wet-only within ±1 |
| DistortionEffect.Process | src/main/java/com/harshnoise/audio/effects/DistortionEffect.java:135-170 | disabled or dry passes through; fully wet within ±1 |
| DistortionEffect.Sample | src/main/java/com/harshnoise/audio/effects/DistortionEffect.java:154-169 | each channel's filter takes one one-pole step toward its shaped sample; only the filters change; the output is the mono mix; dry gain 1 with wet gain 0 returns the input; dry 0 with wet 1 stays within ±1 |
| DistortionEffect.Block | src/main/java/com/harshnoise/audio/effects/DistortionEffect.java:154-169 | the sample loop keeps the invariant and parameters, one output per input; dry only returns the input; wet only stays within ±1 |
| DistortionEffect.Output | src/main/java/com/harshnoise/audio/effects/DistortionEffect.java:135-170 | disabled hands back the state and the block; wet 0 passes the block; fully wet stays within ±1 |
| FuzzEffect.Cutoff | src/main/java/com/harshnoise/audio/effects/FuzzEffect.java:250-262 | cutoff in [800 Hz, 8.8 kHz] |
| FuzzEffect.ToneCoeff | src/main/java/com/harshnoise/audio/effects/FuzzEffect.java:250-262 | the one-pole coefficient lies in [0,0.99], between the coefficients of the 800 Hz and 8800 Hz cutoffs |
| FuzzEffect.ToneBrightens | src/main/java/com/harshnoise/audio/effects/FuzzEffect.java:250-262 | monotone in tone |
| FuzzEffect.Reset | src/main/java/com/harshnoise/audio/effects/FuzzEffect.java:173-177 | filter states zeroed only |
| FuzzEffect.Init | src/main/java/com/harshnoise/audio/effects/FuzzEffect.java:49-58 | defaults, enabled, cleared |
| FuzzEffect.SetParameter | src/main/java/com/harshnoise/audio/effects/FuzzEffect.java:81-105 | drive, bias, tone, wet/mix clamped and read back; other names stored |
| FuzzEffect.GetParameter | src/main/java/com/harshnoise/audio/effects/FuzzEffect.java:108-110 | a stored name reads back its value; a name never stored reads 0 |
| FuzzEffect.SetWetDryRatio | src/main/java/com/harshnoise/audio/effects/FuzzEffect.java:113-116 | the clamped ratio is stored and mirrored |
| FuzzEffect.SetSampleRate | src/main/java/com/harshnoise/audio/effects/FuzzEffect.java:124-127 | new rate and coefficient only |
| FuzzEffect.Noise | src/main/java/com/harshnoise/audio/effects/FuzzEffect.java:204-226 | the added noise is a small symmetric draw |
| FuzzEffect.FuzzRaw | src/main/java/com/harshnoise/audio/effects/FuzzEffect.java:204-226 | the asymmetric fuzz before the final clamp stays within its peak |
| FuzzEffect.Fuzz | src/main/java/com/harshnoise/audio/effects/FuzzEffect.java:204-226 | the fuzzed sample lies in [-1,1] |
| FuzzEffect.FinalClampInactive | src/main/java/com/harshnoise/audio/effects/FuzzEffect.java:204-226 | the final clamp never changes anything: the raw fuzz is already inside its peak |
| FuzzEffect.Shape | src/main/java/com/harshnoise/audio/effects/FuzzEffect.java:182-199 | the fuzz divided by the drive lies within ±1/drive, and within the peak over the minimum drive of 3 |
| FuzzEffect.Step | src/main/java/com/harshnoise/audio/effects/FuzzEffect.java:135-170 | each channel filters its own noisy fuzz; dry-only is the input; wet-only within ±1 |
| FuzzEffect.Process | src/main/java/com/harshnoise/audio/effects/FuzzEffect.java:135-170 | disabled or dry passes through; fully wet within ±1 |
| FuzzEffect.Sample | src/main/java/com/harshnoise/audio/effects/FuzzEffect.java:154-169 | each channel's filter takes one one-pole step toward its shaped sample with its own noise draw; only the filters change; the output is the mono mix; dry gain 1 with wet gain 0 returns the input; dry 0 with wet 1 stays within ±1 |
| FuzzEffect.Block | src/main/java/com/harshnoise/audio/effects/FuzzEffect.java:154-169 | the sample loop keeps the invariant and parameters, one output per input; dry only returns the input; wet only stays within ±1 |
| FuzzEffect.Output | src/main/java/com/harshnoise/audio/effects/FuzzEffect.java:135-170 | disabled hands back the state and the block; wet 0 passes the block; fully wet stays within ±1 |
| WavefolderEffect.Cutoff | src/main/java/com/harshnoise/audio/effects/WavefolderEffect.java:279-291 | cutoff in [800 Hz, 12.8 kHz] |
| WavefolderEffect.ToneCoeff | src/main/java/com/harshnoise/audio/effects/WavefolderEffect.java:279-291 | the one-pole coefficient lies in [0,0.99], between the coefficients of the 800 Hz and 12800 Hz cutoffs |
| WavefolderEffect.ToneBrightens | src/main/java/com/harshnoise/audio/effects/WavefolderEffect.java:279-291 | monotone in tone |
| WavefolderEffect.Reset | src/main/java/com/harshnoise/audio/effects/WavefolderEffect.java:178-182 | filter states zeroed only |
| WavefolderEffect.Init | src/main/java/com/harshnoise/audio/effects/WavefolderEffect.java:49-58 | defaults, enabled, cleared |
| WavefolderEffect.SetParameter | src/main/java/com/harshnoise/audio/effects/WavefolderEffect.java:81-105 | fold, symmetry, tone, wet/mix clamped and read back; other names stored |
| WavefolderEffect.GetParameter | src/main/java/com/harshnoise/audio/effects/WavefolderEffect.java:108-110 | a stored name reads back its value; a name never stored reads 0 |
| WavefolderEffect.SetWetDryRatio | src/main/java/com/harshnoise/audio/effects/WavefolderEffect.java:113-116 | the clamped ratio is stored and mirrored |
| WavefolderEffect.SetSampleRate | src/main/java/com/harshnoise/audio/effects/WavefolderEffect.java:124-127 | new rate and coefficient only |
| WavefolderEffect.Threshold | src/main/java/com/harshnoise/audio/effects/WavefolderEffect.java:209-255 | the fold threshold lies in [0.4,0.6], 0.5 at zero symmetry |
| WavefolderEffect.Passes | src/main/java/com/harshnoise/audio/effects/WavefolderEffect.java:209-255 | between 3 and 20 folding passes, 3 below fold 2 |
| WavefolderEffect.ReflectionFactor | src/main/java/com/harshnoise/audio/effects/WavefolderEffect.java:209-255 | the random reflection factor lies in [0.9,1.1), 1 at the middle draw |
| WavefolderEffect.Reflect | src/main/java/com/harshnoise/audio/effects/WavefolderEffect.java:209-255 | inside the threshold nothing happens; beyond it the sample is mirrored about the threshold; [-1,1] is preserved |
| WavefolderEffect.Fold | src/main/java/com/harshnoise/audio/effects/WavefolderEffect.java:209-255 | the passes preserve [-1,1] and leave samples inside the threshold alone |
| WavefolderEffect.Wavefold | src/main/java/com/harshnoise/audio/effects/WavefolderEffect.java:209-255 | the folded, harmonically enriched sample lies in [-1,1] |
| WavefolderEffect.Shape | src/main/java/com/harshnoise/audio/effects/WavefolderEffect.java:187-204 | the processed sample lies in [-1,1] |
| WavefolderEffect.Gains | src/main/java/com/harshnoise/audio/effects/WavefolderEffect.java:135-175 | the gains are 0.9·sqrt(1-w) dry and 1.1·sqrt(w) wet, so a dry ratio of 0 still scales the input by 0.9 |
| WavefolderEffect.Sample | src/main/java/com/harshnoise/audio/effects/WavefolderEffect.java:135-175 | each channel's filter moves one pole step toward its own folded sample; only the filters change; dry-only output is 0.9·x; wet-only within ±1.1 |
| WavefolderEffect.Block | src/main/java/com/harshnoise/audio/effects/WavefolderEffect.java:158-174 | the sample loop keeps the invariant and the parameters, and gives one output per input |
| WavefolderEffect.BlockDry | src/main/java/com/harshnoise/audio/effects/WavefolderEffect.java:149-172 | at dry gain 0.9 and wet gain 0 every output sample is 0.9 times its input |
| WavefolderEffect.BlockWet | src/main/java/com/harshnoise/audio/effects/WavefolderEffect.java:149-172 | at dry gain 0 and wet gain 1.1 every output sample lies within ±1.1 |
| WavefolderEffect.Process | src/main/java/com/harshnoise/audio/effects/WavefolderEffect.java:135-175 | disabled passes through; wet 0 gives 0.9 times the input, not the input; fully wet within ±1.1 |
| ReverseDelayEffect.BlockSize | src/main/java/com/harshnoise/audio/effects/ReverseDelayEffect.java:360-363 | block length is the truncated time times rate, at least 1 |
| ReverseDelayEffect.CrossfadeSamples | src/main/java/com/harshnoise/audio/effects/ReverseDelayEffect.java:368-371 | crossfade length is never negative |
| ReverseDelayEffect.BlockFits | src/main/java/com/harshnoise/audio/effects/ReverseDelayEffect.java:337-363 | at or below the construction rate, every legal time fits the buffers allocated at construction |
| ReverseDelayEffect.BlockOverflows | src/main/java/com/harshnoise/audio/effects/ReverseDelayEffect.java:337-363 | at 96 kHz the longest time asks for 192000 samples from 88200-sample buffers |
| ReverseDelayEffect.ClearChannel | src/main/java/com/harshnoise/audio/effects/ReverseDelayEffect.java:202-224 | buffers kept in size, pointers at 0 |
| ReverseDelayEffect.Reset | src/main/java/com/harshnoise/audio/effects/ReverseDelayEffect.java:202-224 | everything cleared and back to recording; parameters, sizes and fit kept |
| ReverseDelayEffect.Init | src/main/java/com/harshnoise/audio/effects/ReverseDelayEffect.java:70-80 | 88200-sample buffers, a 26460-sample block, defaults, enabled |
| ReverseDelayEffect.SetParameter | src/main/java/com/harshnoise/audio/effects/ReverseDelayEffect.java:103-132 | time, feedback, crossfade, wet/mix clamped; freeze is v > 0.5 and reads back 0/1; only time changes the block size |
| ReverseDelayEffect.GetParameter | src/main/java/com/harshnoise/audio/effects/ReverseDelayEffect.java:135-137 | a stored name reads back its value; a name never stored reads 0 |
| ReverseDelayEffect.SetWetDryRatio | src/main/java/com/harshnoise/audio/effects/ReverseDelayEffect.java:140-143 | the clamped ratio is stored and mirrored |
| ReverseDelayEffect.SetSampleRate | src/main/java/com/harshnoise/audio/effects/ReverseDelayEffect.java:151-156 | new rate and block size, state cleared, buffers not reallocated |
| ReverseDelayEffect.ReverseInto | src/main/java/com/harshnoise/audio/effects/ReverseDelayEffect.java:295-314 | the first n outputs are the block reversed; the rest unchanged |
| ReverseDelayEffect.ClearPrefix | src/main/java/com/harshnoise/audio/effects/ReverseDelayEffect.java:319-332 | the first n slots are zeroed, the rest unchanged |
| ReverseDelayEffect.ProcessSample | src/main/java/com/harshnoise/audio/effects/ReverseDelayEffect.java:229-290 | one channel's sample; the other channel and sizes untouched; None is the index exception |
| ReverseDelayEffect.SampleKeepsFit | src/main/java/com/harshnoise/audio/effects/ReverseDelayEffect.java:229-290 | while the block fits the buffers, a sample never throws and keeps it fitting |
| ReverseDelayEffect.RecordPastEndFails | src/main/java/com/harshnoise/audio/effects/ReverseDelayEffect.java:229-290 | recording at an index past the buffer throws |
| ReverseDelayEffect.BlockCompletes | src/main/java/com/harshnoise/audio/effects/ReverseDelayEffect.java:229-314 | the last sample of a block switches to playback with the block reversed; the read pointer keeps its old value |
| ReverseDelayEffect.PlaybackIsForward | src/main/java/com/harshnoise/audio/effects/ReverseDelayEffect.java:229-314 | the decrementing read of the reversed buffer plays the block forward |
| ReverseDelayEffect.PlaybackFromZeroIsOneSample | src/main/java/com/harshnoise/audio/effects/ReverseDelayEffect.java:229-314 | playback that starts at read index 0 plays one sample and returns to recording |
| ReverseDelayEffect.LeftCompletionWipesRight | src/main/java/com/harshnoise/audio/effects/ReverseDelayEffect.java:229-332 | shared flags: when the left block completes, the right channel's call the same sample re-arms recording and zeroes its block |
| ReverseDelayEffect.Sample | src/main/java/com/harshnoise/audio/effects/ReverseDelayEffect.java:183-198 | left channel, then right, then the mono mix; only the channels, flags and crossfade change; dry gain 1 with wet gain 0 returns the input; None is the index exception |
| ReverseDelayEffect.SampleNeverFails | src/main/java/com/harshnoise/audio/effects/ReverseDelayEffect.java:183-198 | while the block fits the buffers a sample never throws and the block keeps fitting |
| ReverseDelayEffect.SampleMix | src/main/java/com/harshnoise/audio/effects/ReverseDelayEffect.java:183-198 | whether a sample throws and the state it leaves do not depend on the gains; the output is x times the dry gain plus the wet gain times the fully wet output |
| ReverseDelayEffect.Block | src/main/java/com/harshnoise/audio/effects/ReverseDelayEffect.java:183-198 | the sample loop; the first throwing sample fails the call; a successful run keeps the parameters and gives one output per input |
| ReverseDelayEffect.BlockFailsLater | src/main/java/com/harshnoise/audio/effects/ReverseDelayEffect.java:183-198 | once a prefix of the block throws, the whole block throws |
| ReverseDelayEffect.BlockNeverFails | src/main/java/com/harshnoise/audio/effects/ReverseDelayEffect.java:183-198 | from a state whose block fits the buffers, the loop never throws and the block keeps fitting |
| ReverseDelayEffect.BlockDry | src/main/java/com/harshnoise/audio/effects/ReverseDelayEffect.java:183-198 | at dry gain 1 and wet gain 0 a successful loop returns its input |
| ReverseDelayEffect.BlockMix | src/main/java/com/harshnoise/audio/effects/ReverseDelayEffect.java:183-198 | the loop throws exactly when the fully wet loop does; otherwise it leaves the same state and every output is the dry term plus the wet gain times the fully wet output |
| ReverseDelayEffect.Output | src/main/java/com/harshnoise/audio/effects/ReverseDelayEffect.java:164-199 | disabled hands back the state and the block; otherwise the loop with gains sqrt(1-wet), sqrt(wet); wet 0 passes the block; parameters kept |
| ReverseDelayEffect.Process | src/main/java/com/harshnoise/audio/effects/ReverseDelayEffect.java:164-199 | computes exactly Output; disabled passes through; while the block fits the buffers it never throws and keeps fitting; wet 0 passes the block; otherwise each output is the dry term plus the wet gain times the fully wet output |
| GranularEffect.RingSize | src/main/java/com/harshnoise/audio/effects/GranularEffect.java:312-323 | the capture ring has at least five slots |
| GranularEffect.GrainLength | src/main/java/com/harshnoise/audio/effects/GranularEffect.java:344-398 | a grain is at least one sample and shorter than the ring |
| GranularEffect.ActiveCount | src/main/java/com/harshnoise/audio/effects/GranularEffect.java:328-339 | the number of active grains is at most the pool size |
| GranularEffect.Reset | src/main/java/com/harshnoise/audio/effects/GranularEffect.java:288-307 | ring cleared, all grains inactive, counters zero |
| GranularEffect.InitializeBuffers | src/main/java/com/harshnoise/audio/effects/GranularEffect.java:312-323 | a cleared ring sized for the rate; parameters kept |
| GranularEffect.Init | src/main/java/com/harshnoise/audio/effects/GranularEffect.java:96-113 | defaults, a 220500-slot ring, enabled, cleared |
| GranularEffect.SetParameter | src/main/java/com/harshnoise/audio/effects/GranularEffect.java:136-167 | grainSize, density, pitch, jitter, reverseProb, wet/mix clamped and read back; other names stored |
| GranularEffect.GetParameter | src/main/java/com/harshnoise/audio/effects/GranularEffect.java:170-172 | a stored name reads back its value; a name never stored reads 0 |
| GranularEffect.SetWetDryRatio | src/main/java/com/harshnoise/audio/effects/GranularEffect.java:175-178 | the clamped ratio is stored and mirrored |
| GranularEffect.SetSampleRate | src/main/java/com/harshnoise/audio/effects/GranularEffect.java:186-190 | new rate, ring reallocated and cleared |
| GranularEffect.FreeSlot | src/main/java/com/harshnoise/audio/effects/GranularEffect.java:344-398 | the first inactive grain slot, or slot 0 when all are busy |
| GranularEffect.NewGrain | src/main/java/com/harshnoise/audio/effects/GranularEffect.java:344-398 | a new grain is active and well formed; reversed exactly when its draw is below the probability; amplitude in [0.4,1.6) |
| GranularEffect.JitterRange | src/main/java/com/harshnoise/audio/effects/GranularEffect.java:344-398 | the start jitter range is at least 1 and at most the latest start |
| GranularEffect.Trigger | src/main/java/com/harshnoise/audio/effects/GranularEffect.java:344-398 | the chosen slot gets the new grain and the counter goes up by one |
| GranularEffect.TriggerLoop | src/main/java/com/harshnoise/audio/effects/GranularEffect.java:328-339 | triggers one grain per whole unit of accumulated density |
| GranularEffect.UpdateGrains | src/main/java/com/harshnoise/audio/effects/GranularEffect.java:328-339 | the density accumulator ends in [0,1) |
| GranularEffect.CounterDrifts | src/main/java/com/harshnoise/audio/effects/GranularEffect.java:344-398 | with every slot busy, a trigger overwrites slot 0 yet still increments the counter past the pool size |
| GranularEffect.Envelope | src/main/java/com/harshnoise/audio/effects/GranularEffect.java:446-459 | the Hann envelope lies in [0,1] |
| GranularEffect.ReadIndices | src/main/java/com/harshnoise/audio/effects/GranularEffect.java:422-441 | both interpolation indices lie in the ring, the second just after the first |
| GranularEffect.AdvanceGrain | src/main/java/com/harshnoise/audio/effects/GranularEffect.java:403-417 | the grain stays active exactly until its envelope ends |
| GranularEffect.ActiveCountUpdate | src/main/java/com/harshnoise/audio/effects/GranularEffect.java:403-417 | replacing one grain changes the active count by that grain's change |
| GranularEffect.AdvanceKeepsWellFormed | src/main/java/com/harshnoise/audio/effects/GranularEffect.java:403-417 | advancing an active grain keeps its read position inside the ring |
| GranularEffect.AdvanceAll | src/main/java/com/harshnoise/audio/effects/GranularEffect.java:403-417 | every slot advanced, one per slot, each still well formed |
| GranularEffect.TriggerKeepsCount | src/main/java/com/harshnoise/audio/effects/GranularEffect.java:344-398 | with a free slot, the counter stays equal to the true active count |
| GranularEffect.Render | src/main/java/com/harshnoise/audio/effects/GranularEffect.java:198-285 | every active grain is summed and advanced; the active count drops by the grains that ended |
| GranularEffect.DryOnlyWhenLoud | src/main/java/com/harshnoise/audio/effects/GranularEffect.java:198-285 | with wet 0, loud samples pass unchanged but quiet ones are attenuated by the power normalisation |
| GranularEffect.Write | src/main/java/com/harshnoise/audio/effects/GranularEffect.java:198-285 | the input lands at the write pointer, which advances with wrap |
| GranularEffect.NewestBehindPointer | src/main/java/com/harshnoise/audio/effects/GranularEffect.java:198-285 | the newest sample sits one slot behind the write pointer |
| GranularEffect.Step | src/main/java/com/harshnoise/audio/effects/GranularEffect.java:218-284 | the imperative sample, with the grain loop run in place, computes exactly Sample |
| GranularEffect.Sample | src/main/java/com/harshnoise/audio/effects/GranularEffect.java:218-284 | write, trigger, render and mix one sample, changing only rings, pointers, grains and counters |
| GranularEffect.SampleCounts | src/main/java/com/harshnoise/audio/effects/GranularEffect.java:218-284 | when the active counter matches the active slots before the render, it still does after |
| GranularEffect.SampleDry | src/main/java/com/harshnoise/audio/effects/GranularEffect.java:218-284 | at wet 0 a loud sample passes unchanged and a quiet non-zero one comes out strictly quieter |
| GranularEffect.SampleStateGainFree | src/main/java/com/harshnoise/audio/effects/GranularEffect.java:218-284 | the state a sample leaves does not depend on the gains |
| GranularEffect.Block | src/main/java/com/harshnoise/audio/effects/GranularEffect.java:218-284 | the sample loop keeps the parameters and gives one output per input |
| GranularEffect.BlockStateGainFree | src/main/java/com/harshnoise/audio/effects/GranularEffect.java:218-284 | the grains, rings and draws a block leaves do not depend on the gains |
| GranularEffect.BlockDry | src/main/java/com/harshnoise/audio/effects/GranularEffect.java:218-284 | at wet 0, every loud sample of a block passes unchanged and every quiet non-zero one comes out strictly quieter |
| GranularEffect.Output | src/main/java/com/harshnoise/audio/effects/GranularEffect.java:198-285 | disabled hands back the state and the block; otherwise the loop with gains sqrt(1-wet), sqrt(wet); invariant and parameters kept |
| GranularEffect.Process | src/main/java/com/harshnoise/audio/effects/GranularEffect.java:198-285 | computes exactly Output; disabled passes through; the invariant and parameters are kept; at wet 0 a loud sample passes and a quiet non-zero one comes out strictly quieter, so the input does not pass unchanged |
| LooperEffect.BufferSize | src/main/java/com/harshnoise/audio/effects/LooperEffect.java:506-520 | the loop buffer has at least 8 slots |
| LooperEffect.LoopLength | src/main/java/com/harshnoise/audio/effects/LooperEffect.java:525-528 | the loop length lies in [1, buffer size] |
| LooperEffect.SliceLength | src/main/java/com/harshnoise/audio/effects/LooperEffect.java:533-536 | the stutter slice is at least 1 and no longer than any legal loop |
| LooperEffect.Reset | src/main/java/com/harshnoise/audio/effects/LooperEffect.java:301-325 | idle, buffers zeroed, pointers and stutter state cleared, parameters kept |
| LooperEffect.InitializeBuffers | src/main/java/com/harshnoise/audio/effects/LooperEffect.java:506-520 | zeroed buffers sized for the rate; loop and slice lengths recomputed |
| LooperEffect.Init | src/main/java/com/harshnoise/audio/effects/LooperEffect.java:99-114 | idle, 352800-slot buffer, 88200-sample loop, 2646-sample slice |
| LooperEffect.SetParameter | src/main/java/com/harshnoise/audio/effects/LooperEffect.java:137-186 | unknown names are stored verbatim and nothing else changes |
| LooperEffect.GetParameter | src/main/java/com/harshnoise/audio/effects/LooperEffect.java:189-191 | a stored name reads back its value; a name never stored reads 0 |
| LooperEffect.SetParameterStores | src/main/java/com/harshnoise/audio/effects/LooperEffect.java:137-186 | each known parameter is clamped or thresholded at 0.5; loopLen recomputes the loop length |
| LooperEffect.SetLength | src/main/java/com/harshnoise/audio/effects/LooperEffect.java:137-186 | loopLen and sliceLen keep the invariant and change only parameters, configuration and their sample counts |
| LooperEffect.SetCfg | src/main/java/com/harshnoise/audio/effects/LooperEffect.java:137-186 | the other known names keep the invariant and change only parameters and configuration |
| LooperEffect.SetWetDryRatio | src/main/java/com/harshnoise/audio/effects/LooperEffect.java:194-197 | the clamped ratio is stored and mirrored |
| LooperEffect.SetSampleRate | src/main/java/com/harshnoise/audio/effects/LooperEffect.java:205-209 | new rate, buffers reallocated, idle, slice length left at 0 |
| LooperEffect.StartRecord | src/main/java/com/harshnoise/audio/effects/LooperEffect.java:550-556 | only from idle: record mode with write pointers at 0 |
| LooperEffect.StartPlay | src/main/java/com/harshnoise/audio/effects/LooperEffect.java:561-567 | from record or idle: play mode with read pointers at 0 |
| LooperEffect.StartOverdub | src/main/java/com/harshnoise/audio/effects/LooperEffect.java:572-576 | only from play: overdub mode |
| LooperEffect.Clear | src/main/java/com/harshnoise/audio/effects/LooperEffect.java:581-584 | idle with everything zeroed |
| LooperEffect.ModeTransitions | src/main/java/com/harshnoise/audio/effects/LooperEffect.java:550-591 | as getState reports it: record only from IDLE, play from RECORD or IDLE, overdub only from PLAY, clear always to IDLE; any other request leaves the state |
| LooperEffect.ApplyFeedback | src/main/java/com/harshnoise/audio/effects/LooperEffect.java:480-487 | scales the loop by the feedback; beyond the loop nothing changes |
| LooperEffect.FeedbackDecays | src/main/java/com/harshnoise/audio/effects/LooperEffect.java:480-487 | feedback never amplifies a sample; feedback 0 silences the loop |
| LooperEffect.WrapPosition | src/main/java/com/harshnoise/audio/effects/LooperEffect.java:356-407 | one wrap by the loop length, taken exactly when the position left the loop |
| LooperEffect.Interpolate | src/main/java/com/harshnoise/audio/effects/LooperEffect.java:492-501 | defined exactly when the integer part indexes the buffer; on a grid point it is that sample |
| LooperEffect.NormalPlayback | src/main/java/com/harshnoise/audio/effects/LooperEffect.java:356-407 | on success the read position advances by ±speed (backwards when reversed) and wraps into the loop; mode and everything but positions and buffers kept |
| LooperEffect.PlaybackFails | src/main/java/com/harshnoise/audio/effects/LooperEffect.java:356-407 | playback throws exactly when a wrapped read position, truncated, falls outside the buffers |
| LooperEffect.PlaybackStaysInLoop | src/main/java/com/harshnoise/audio/effects/LooperEffect.java:356-407 | from a position inside the loop, playback never throws and stays inside |
| LooperEffect.SoftKnee | src/main/java/com/harshnoise/audio/effects/LooperEffect.java:356-407 | identity inside the knee, compressing but order-keeping outside |
| LooperEffect.SoftKneeMonotone | src/main/java/com/harshnoise/audio/effects/LooperEffect.java:356-407 | the knee is monotone |
| LooperEffect.MaxRepeats | src/main/java/com/harshnoise/audio/effects/LooperEffect.java:465 | the repeat limit lies in [8,15] |
| LooperEffect.StartStutter | src/main/java/com/harshnoise/audio/effects/LooperEffect.java:412-425 | enters a stutter at a slice inside the loop with counters reset |
| LooperEffect.ProcessStutter | src/main/java/com/harshnoise/audio/effects/LooperEffect.java:430-475 | a zero slice length throws; otherwise the stutter ends only after at least 8 repeats |
| LooperEffect.ProcessPlayback | src/main/java/com/harshnoise/audio/effects/LooperEffect.java:330-351 | without stutter it is normal playback |
| LooperEffect.StutterAfterResetThrows | src/main/java/com/harshnoise/audio/effects/LooperEffect.java:301-351 | after reset the slice length is 0, so a triggered stutter divides by zero |
| LooperEffect.RecordSample | src/main/java/com/harshnoise/audio/effects/LooperEffect.java:244-291 | recording writes the input at the write pointer, which wraps at the loop length |
| LooperEffect.Overdubbed | src/main/java/com/harshnoise/audio/effects/LooperEffect.java:356-407 | in overdub the input is blended into both buffers at the read position; only the buffers change, and they keep their lengths |
| LooperEffect.Sample | src/main/java/com/harshnoise/audio/effects/LooperEffect.java:240-297 | idle starts recording at the first sample; idle and record pass the input as the loop signal and never throw; play and overdub play back; dry gain 1 with wet gain 0 returns the input |
| LooperEffect.SampleModes | src/main/java/com/harshnoise/audio/effects/LooperEffect.java:240-297 | idle becomes record exactly at the first sample; record stays record; play and overdub keep their mode |
| LooperEffect.SampleMix | src/main/java/com/harshnoise/audio/effects/LooperEffect.java:240-297 | whether a sample throws and the state it leaves do not depend on the gains; the output is x times the dry gain plus the wet gain times the fully wet output |
| LooperEffect.Out | src/main/java/com/harshnoise/audio/effects/LooperEffect.java:293-296 | fully wet (dry gain 0) gives the loop times the wet gain; wet gain 0 gives the input times the dry gain |
| LooperEffect.OutBounded | src/main/java/com/harshnoise/audio/effects/LooperEffect.java:236-237 | with input and loop in [-1,1] and non-negative gains the output stays within the sum of the gains |
| LooperEffect.Block | src/main/java/com/harshnoise/audio/effects/LooperEffect.java:240-297 | the sample loop with the first sample flagged; the first throwing sample fails the call; a successful run keeps the invariant and parameters and gives one output per input |
| LooperEffect.BlockFailsLater | src/main/java/com/harshnoise/audio/effects/LooperEffect.java:240-297 | once a prefix of the block throws, the whole block throws |
| LooperEffect.BlockModes | src/main/java/com/harshnoise/audio/effects/LooperEffect.java:240-297 | idle and record never throw; idle with input ends in record, record stays record, play and overdub keep their mode |
| LooperEffect.BlockDry | src/main/java/com/harshnoise/audio/effects/LooperEffect.java:240-297 | at dry gain 1 and wet gain 0 a successful loop returns its input |
| LooperEffect.BlockMix | src/main/java/com/harshnoise/audio/effects/LooperEffect.java:240-297 | the loop throws exactly when the fully wet loop does; otherwise it leaves the same state and every output is the dry term plus the wet gain times the fully wet output |
| LooperEffect.Output | src/main/java/com/harshnoise/audio/effects/LooperEffect.java:217-298 | disabled hands back the state and the block; otherwise the loop with gains sqrt(1-wet), sqrt(wet); wet 0 passes the block |
| LooperEffect.Step | src/main/java/com/harshnoise/audio/effects/LooperEffect.java:240-297 | extends the result for a prefix of the block by one sample, exactly as Block does |
| LooperEffect.Run | src/main/java/com/harshnoise/audio/effects/LooperEffect.java:240-297 | the loop computes exactly Block |
| LooperEffect.Process | src/main/java/com/harshnoise/audio/effects/LooperEffect.java:217-298 | computes exactly Output; disabled passes through; idle or record never throws; idle with input moves to record, record stays, play and overdub keep their mode; wet 0 passes the block; otherwise each output is the dry term plus the wet gain times the fully wet output |
| Units.EffectIdsCount | src/main/java/com/harshnoise/audio/effects/EffectRegistry.java:23-34 | there are exactly eleven effect ids |
| Units.Id | src/main/java/com/harshnoise/audio/effects/AudioEffect.java:10-20 | every effect reports one of the eleven ids |
| Units.IdDeterminesKind | src/main/java/com/harshnoise/audio/effects/AudioEffect.java:10-20 | two effects with the same id are the same kind |
| Units.InvWet | src/main/java/com/harshnoise/audio/effects/AudioEffect.java:47-51 | every well-formed effect has a wet ratio in [0,1] and a valid rate |
| Units.Create | src/main/java/com/harshnoise/audio/effects/EffectRegistry.java:23-34 | an effect exists exactly for the eleven ids, with that id, enabled |
| Units.SetEnabled | src/main/java/com/harshnoise/audio/effects/AudioEffect.java:22-31 | only the flag changes; parameters, wet ratio and rate read back the same |
| Units.EnableRoundTrip | src/main/java/com/harshnoise/audio/effects/AudioEffect.java:22-31 | restoring the old flag restores the effect |
| Units.SetParameter | src/main/java/com/harshnoise/audio/effects/AudioEffect.java:33-38 | id, flag and rate kept |
| Units.GetParameter | src/main/java/com/harshnoise/audio/effects/AudioEffect.java:40-45 | a name outside the five alias names reads the effect's stored value or 0; the bitcrusher, delay and reverb aliases fall back to their own defaults |
| Units.SetWetDryRatio | src/main/java/com/harshnoise/audio/effects/AudioEffect.java:47-51 | the ratio read back is the clamped one; every effect but bypass also exposes it as "wet" |
| Units.SetSampleRate | src/main/java/com/harshnoise/audio/effects/AudioEffect.java:59-63 | the new rate; parameters, flag and wet kept |
| Units.Reset | src/main/java/com/harshnoise/audio/effects/AudioEffect.java:79-83 | reset leaves every parameter, the wet ratio, the flag and the rate as they were |
| Units.Process | src/main/java/com/harshnoise/audio/effects/AudioEffect.java:71-77 | computes exactly Out: same length out; disabled passes through; only reverse delay and looper can throw; id, flag, ratio and rate kept; wet 0 passes the input for all but wavefolder and granular |
| Units.Out | src/main/java/com/harshnoise/audio/effects/AudioEffect.java:71-77 | each effect's process as a value: only reverse delay and looper can throw; the invariant, id, flag, ratio and rate are kept; disabled passes the block; wet 0 passes it for all but wavefolder and granular |
| Units.OutFilter | src/main/java/com/harshnoise/audio/effects/AudioEffect.java:71-77 | the same promises for bypass, delay, reverb and bitcrusher |
| Units.OutShaper | src/main/java/com/harshnoise/audio/effects/AudioEffect.java:71-77 | the same promises for overdrive, distortion, fuzz and wavefolder |
| Units.OutBuffer | src/main/java/com/harshnoise/audio/effects/AudioEffect.java:71-77 | the same promises for reverse delay, granular and looper |
| Units.ProcessFilter | src/main/java/com/harshnoise/audio/effects/AudioEffect.java:71-77 | the imperative dispatch computes exactly OutFilter |
| Units.ProcessShaper | src/main/java/com/harshnoise/audio/effects/AudioEffect.java:71-77 | the imperative dispatch computes exactly OutShaper |
| Units.ProcessBuffer | src/main/java/com/harshnoise/audio/effects/AudioEffect.java:71-77 | the imperative dispatch computes exactly OutBuffer |
| Units.FuzzDraws | src/main/java/com/harshnoise/audio/effects/FuzzEffect.java:204-226 | two draws in [0,1) per sample, one for each channel |
| Units.FoldDraws | src/main/java/com/harshnoise/audio/effects/WavefolderEffect.java:135-175 | one row of draws per channel sample, shaped as the fold passes need |
| Registry.Default | src/main/java/com/harshnoise/audio/effects/EffectRegistry.java:23-34 | the static table maps exactly the eleven ids, each to its own kind |
| Registry.Register | src/main/java/com/harshnoise/audio/effects/EffectRegistry.java:46-48 | registering adds or replaces one id; the count grows only for a new id |
| Registry.Create | src/main/java/com/harshnoise/audio/effects/EffectRegistry.java:55-61 | an effect exactly for a registered id, of the registered kind, enabled |
| Registry.AvailableIds | src/main/java/com/harshnoise/audio/effects/EffectRegistry.java:67-69 | the ids are exactly the registered ones |
| Registry.Count | src/main/java/com/harshnoise/audio/effects/EffectRegistry.java:84-86 | the count is the number of registered ids |
| Registry.DefaultRegistry | src/main/java/com/harshnoise/audio/effects/EffectRegistry.java:23-61 | the default table creates each built-in id and nothing else |
| Registry.DefaultCount | src/main/java/com/harshnoise/audio/effects/EffectRegistry.java:84-86 | the default count is 11 |
| Registry.RegisterOverwrites | src/main/java/com/harshnoise/audio/effects/EffectRegistry.java:46-48 | the last registration under an id wins |
| Chain.Init | src/main/java/com/harshnoise/audio/effects/EffectChain.java:24-29 | an empty chain with the given buffer size and rate |
| Chain.Remove | src/main/java/com/harshnoise/audio/effects/EffectChain.java:60-67 | removal at i shifts the tail left by one |
| Chain.Insert | src/main/java/com/harshnoise/audio/effects/EffectChain.java:75-85 | insertion at i shifts the tail right by one |
| Chain.RemoveInsert | src/main/java/com/harshnoise/audio/effects/EffectChain.java:75-85 | removing what was just inserted restores the list |
| Chain.InsertRemove | src/main/java/com/harshnoise/audio/effects/EffectChain.java:75-85 | re-inserting what was just removed restores the list |
| Chain.InsertRemovePermutes | src/main/java/com/harshnoise/audio/effects/EffectChain.java:75-85 | moving an element keeps the multiset of effects |
| Chain.AddEffect | src/main/java/com/harshnoise/audio/effects/EffectChain.java:35-42 | a null effect is ignored; otherwise it is appended with the chain's rate |
| Chain.RemoveEffect | src/main/java/com/harshnoise/audio/effects/EffectChain.java:49-53 | removes the first equal effect and reports whether there was one |
| Chain.FirstIndex | src/main/java/com/harshnoise/audio/effects/EffectChain.java:49-53 | the first position holding the effect, or the length when absent |
| Chain.RemoveAt | src/main/java/com/harshnoise/audio/effects/EffectChain.java:60-67 | a valid index removes and returns that effect; otherwise nothing changes |
| Chain.AddThenRemoveLast | src/main/java/com/harshnoise/audio/effects/EffectChain.java:35-67 | adding then removing the last index gives back the chain and the added effect |
| Chain.Reorder | src/main/java/com/harshnoise/audio/effects/EffectChain.java:75-85 | with both indices valid the effect moves from `from` to `to` and the others keep their order; otherwise nothing changes |
| Chain.ReorderPermutes | src/main/java/com/harshnoise/audio/effects/EffectChain.java:75-85 | reordering is a permutation |
| Chain.ReorderInverse | src/main/java/com/harshnoise/audio/effects/EffectChain.java:75-85 | moving back undoes a move |
| Chain.GetEffect | src/main/java/com/harshnoise/audio/effects/EffectChain.java:112-119 | the effect at a valid index, none otherwise |
| Chain.SetSampleRate | src/main/java/com/harshnoise/audio/effects/EffectChain.java:159-167 | the chain and every effect take the new rate; order, kinds, flags, ratios and every parameter read back kept |
| Chain.Reset | src/main/java/com/harshnoise/audio/effects/EffectChain.java:182-188 | every effect is reset in place; order, kinds, flags, ratios, rates and every parameter read back kept |
| Chain.Clear | src/main/java/com/harshnoise/audio/effects/EffectChain.java:193-197 | no effects remain |
| Chain.Process | src/main/java/com/harshnoise/audio/effects/EffectChain.java:128-153 | computes exactly Output; too large a block throws; an empty chain copies the first n input samples into the output; a non-empty chain with every effect disabled leaves the output buffer as it was; the output past n is untouched; only a reverse delay or looper makes it throw; enabled effects that all hand the block through copy the input |
| Chain.Stage | src/main/java/com/harshnoise/audio/effects/EffectChain.java:136-147 | computes exactly StageOut: a disabled effect is skipped; only a reverse delay or looper can fail; a transparent effect hands the block back |
| Chain.Run | src/main/java/com/harshnoise/audio/effects/EffectChain.java:136-147 | the loop computes exactly FoldEnabled |
| Chain.FoldEnabled | src/main/java/com/harshnoise/audio/effects/EffectChain.java:136-147 | a loop that completes hands back one unit per unit |
| Chain.FoldSplit | src/main/java/com/harshnoise/audio/effects/EffectChain.java:136-147 | the loop over a + b is the loop over a, then the loop over b on its output; the flag is the disjunction; an exception in a ends the call |
| Chain.StageOut | src/main/java/com/harshnoise/audio/effects/EffectChain.java:136-147 | a disabled effect hands back itself and the block; an enabled one is its process |
| Chain.Output | src/main/java/com/harshnoise/audio/effects/EffectChain.java:128-153 | too large a block throws; an empty chain copies the first n input samples into the output buffer, the rest untouched |
| Chain.FoldShape | src/main/java/com/harshnoise/audio/effects/EffectChain.java:136-147 | the loop hands back one unit per unit, each still valid and of the same kind, flag, ratio and rate, and a block of the same length |
| Chain.FoldFlag | src/main/java/com/harshnoise/audio/effects/EffectChain.java:136-147 | the flag is set exactly when some effect is enabled; with none enabled neither the units nor the block change |
| Chain.FoldThrows | src/main/java/com/harshnoise/audio/effects/EffectChain.java:136-147 | only a chain holding a reverse delay or looper can fail |
| Chain.FoldTransparent | src/main/java/com/harshnoise/audio/effects/EffectChain.java:136-147 | effects that all hand the block through leave it unchanged |
| Controller.DefaultParams | src/main/java/com/harshnoise/audio/effects/EffectsController.java:26-127 | unknown ids and bypass get no default parameters |
| Controller.DefaultWet | src/main/java/com/harshnoise/audio/effects/EffectsController.java:26-127 | every known id except bypass gets a default wet ratio in [0,1] |
| Controller.SetEffectParameter | src/main/java/com/harshnoise/audio/effects/EffectsController.java:155-162 | succeeds exactly for a valid index and touches only that effect |
| Controller.GetEffectParameter | src/main/java/com/harshnoise/audio/effects/EffectsController.java:170-176 | 0 for an index out of range, otherwise that effect's getParameter |
| Controller.SetEffectEnabled | src/main/java/com/harshnoise/audio/effects/EffectsController.java:184-191 | valid index only; that effect's flag becomes the value |
| Controller.IsEffectEnabled | src/main/java/com/harshnoise/audio/effects/EffectsController.java:198-204 | true exactly when the index is valid and that effect is enabled |
| Controller.EnabledReadBack | src/main/java/com/harshnoise/audio/effects/EffectsController.java:184-204 | reading the flag back after setEffectEnabled gives the flag set, or false for an invalid index |
| Controller.SetEffectWetDryRatio | src/main/java/com/harshnoise/audio/effects/EffectsController.java:212-219 | valid index only; that effect's ratio ends in [0,1] |
| Controller.GetEffectWetDryRatio | src/main/java/com/harshnoise/audio/effects/EffectsController.java:226-232 | 0 for an index out of range, otherwise that effect's ratio |
| Controller.WetReadBack | src/main/java/com/harshnoise/audio/effects/EffectsController.java:212-232 | reading the ratio back after setEffectWetDryRatio gives it clamped to [0,1], or 0 for an invalid index |
| Controller.SetAll | src/main/java/com/harshnoise/audio/effects/EffectsController.java:26-127 | applying a parameter list keeps id, flag and rate |
| Controller.ApplyParams | src/main/java/com/harshnoise/audio/effects/EffectsController.java:26-127 | the list is applied to one effect only |
| Controller.Configure | src/main/java/com/harshnoise/audio/effects/EffectsController.java:26-127 | a new effect gets its id's defaults and default wet ratio |
| Controller.AddEffect | src/main/java/com/harshnoise/audio/effects/EffectsController.java:26-127 | an unknown id adds nothing; otherwise the configured effect is appended with the chain's rate |
| Controller.ConfigureIsSetterSequence | src/main/java/com/harshnoise/audio/effects/EffectsController.java:26-127 | configuring equals the code's sequence of index-checked setter calls |
| Controller.WetRoundTrip | src/main/java/com/harshnoise/audio/effects/EffectsController.java:212-232 | the ratio read back is the clamped ratio set, or 0 for an invalid index |
| Controller.EnabledRoundTrip | src/main/java/com/harshnoise/audio/effects/EffectsController.java:184-204 | the flag read back is the flag set, or false for an invalid index |
| Controller.SettersAreLocal | src/main/java/com/harshnoise/audio/effects/EffectsController.java:155-232 | setting a parameter changes no getter's answer at another index |
| Controller.DelayConfigure | src/main/java/com/harshnoise/audio/effects/EffectsController.java:26-127 | a configured delay has 320 ms, feedback 0.35 and wet 0.25 |
| Controller.DelayDefaults | src/main/java/com/harshnoise/audio/effects/EffectsController.java:26-127 | adding "delay" through the default registry yields a delay |
| NoiseGenerator.ToUnit | src/main/java/com/harshnoise/NoiseGenerator.java:119-124 | the xorshift state maps into [-1,1) |
| NoiseGenerator.Frand | src/main/java/com/harshnoise/NoiseGenerator.java:119-124 | one xorshift step and its value in [-1,1) |
| NoiseGenerator.Xorshift | src/main/java/com/harshnoise/NoiseGenerator.java:120-122 | the step is invertible: undoing the three shifts in reverse order recovers the state |
| NoiseGenerator.XorshiftZero | src/main/java/com/harshnoise/NoiseGenerator.java:119-124 | xorshift maps 0 and only 0 to 0 |
| NoiseGenerator.Stream | src/main/java/com/harshnoise/NoiseGenerator.java:119-124 | k successive values, each in [-1,1) |
| NoiseGenerator.EqualHalvesFoldToZero | src/main/java/com/harshnoise/NoiseGenerator.java:61-64 | a seed whose two halves are equal folds to state 0 |
| NoiseGenerator.SeedRng | src/main/java/com/harshnoise/NoiseGenerator.java:61-64 | the state is the seed's low 32-bit word exclusive-or its high word |
| NoiseGenerator.ZeroStateIsStuck | src/main/java/com/harshnoise/NoiseGenerator.java:119-124 | from state 0 the generator returns -1 for ever |
| NoiseGenerator.SeedZeroIsStuck | src/main/java/com/harshnoise/NoiseGenerator.java:61-64 | seed 0 gives a stuck generator |
| NoiseGenerator.GrainTable | src/main/java/com/harshnoise/NoiseGenerator.java:50-56 | the granular table has its fixed length and values within ±0.5 |
| NoiseGenerator.New | src/main/java/com/harshnoise/NoiseGenerator.java:50-56 | a new generator is well formed with the fixed initial state |
| NoiseGenerator.NewSeeded | src/main/java/com/harshnoise/NoiseGenerator.java:61-64 | seeding only changes the xorshift state |
| NoiseGenerator.Reset | src/main/java/com/harshnoise/NoiseGenerator.java:69-107 | every filter, phase and history is back at its initial value |
| NoiseGenerator.ResetIsFresh | src/main/java/com/harshnoise/NoiseGenerator.java:50-107 | a reset generator equals a new one |
| NoiseGenerator.Undenorm | src/main/java/com/harshnoise/NoiseGenerator.java:140-142 | tiny values become 0; others pass |
| NoiseGenerator.SoftClip | src/main/java/com/harshnoise/NoiseGenerator.java:147-149 | the soft clip lies in [-1,1] |
| NoiseGenerator.SinEntry | src/main/java/com/harshnoise/NoiseGenerator.java:129-135 | sine table entries lie in [-1,1] |
| NoiseGenerator.FastSin | src/main/java/com/harshnoise/NoiseGenerator.java:129-135 | the table sine lies in [-1,1] |
| NoiseGenerator.White | src/main/java/com/harshnoise/NoiseGenerator.java:155-157 | one xorshift step; sample in [-1,1] |
| NoiseGenerator.Pink | src/main/java/com/harshnoise/NoiseGenerator.java:163-183 | the six Voss–McCartney poles update, the seventh is untouched, and the DC blocker follows its recurrence |
| NoiseGenerator.Brown | src/main/java/com/harshnoise/NoiseGenerator.java:189-205 | three leaky integrators and the DC blocker follow their recurrence |
| NoiseGenerator.GrainSize | src/main/java/com/harshnoise/NoiseGenerator.java:212-246 | the grain size used is at least 1 |
| NoiseGenerator.Granular | src/main/java/com/harshnoise/NoiseGenerator.java:212-246 | phase advances by 1/grain size modulo 1; the table index steps and wraps |
| NoiseGenerator.Blue | src/main/java/com/harshnoise/NoiseGenerator.java:252-260 | remembers the new white value |
| NoiseGenerator.Violet | src/main/java/com/harshnoise/NoiseGenerator.java:266-278 | remembers the last two white values |
| NoiseGenerator.BlueDifferences | src/main/java/com/harshnoise/NoiseGenerator.java:252-260 | blue noise is the soft-clipped first difference of successive white values |
| NoiseGenerator.VioletDifferences | src/main/java/com/harshnoise/NoiseGenerator.java:266-278 | violet noise is the soft-clipped second difference |
| NoiseGenerator.Impulse | src/main/java/com/harshnoise/NoiseGenerator.java:284-293 | a rare draw gives an impulse of magnitude 0.7..1, otherwise a small noise floor |
| NoiseGenerator.LfoStep | src/main/java/com/harshnoise/NoiseGenerator.java:299-315 | the LFO phase advances and wraps into [0,1) |
| NoiseGenerator.Modulated | src/main/java/com/harshnoise/NoiseGenerator.java:299-315 | only the LFO phase and the random state change |
| NoiseGenerator.Generate | src/main/java/com/harshnoise/NoiseGenerator.java:330-401 | each colour touches only its own state |
| NoiseGenerator.Add | src/main/java/com/harshnoise/NoiseGenerator.java:335-390 | one branch of the mix: a colour with positive level is generated and adds its sample times the level; a level of 0 or below skips the colour, its state and the sum |
| NoiseGenerator.Contribute | src/main/java/com/harshnoise/NoiseGenerator.java:335-390 | a colour with positive level advances its own generator state; otherwise nothing changes; no other colour's state moves |
| NoiseGenerator.AddEach | src/main/java/com/harshnoise/NoiseGenerator.java:335-390 | running the branches over a list of colours gives the fold SumFrom |
| NoiseGenerator.SumFromKept | src/main/java/com/harshnoise/NoiseGenerator.java:335-390 | colours whose level is 0 or below keep their filter state; when every level is, the state and sum are unchanged |
| NoiseGenerator.SumFromAbsent | src/main/java/com/harshnoise/NoiseGenerator.java:335-390 | with only one colour asked for, the branches of every other colour leave state and sum alone |
| NoiseGenerator.SumFromSolo | src/main/java/com/harshnoise/NoiseGenerator.java:335-390 | with only one colour asked for, the eight branches amount to that colour's branch |
| NoiseGenerator.Only | src/main/java/com/harshnoise/NoiseGenerator.java:392-394 | a level set with one colour at v: that colour's level and the total are v, every other level 0 |
| NoiseGenerator.MixSum | src/main/java/com/harshnoise/NoiseGenerator.java:333-390 | the sum and state are the fold of the eight branches in the order white, pink, granular, brown, blue, violet, impulse, modulated; silent levels give 0 with no state change; each silent colour keeps its filter state |
| NoiseGenerator.Normalize | src/main/java/com/harshnoise/NoiseGenerator.java:330-401 | the sum is divided by the total level only when it exceeds 1 |
| NoiseGenerator.Mixed | src/main/java/com/harshnoise/NoiseGenerator.java:330-401 | the result is the fold's sum, divided by the total level when that exceeds 1, plus 1e-12, soft-clipped and flushed; it lies in [-1,1]; silence yields the clipped bias; colours not asked for keep their state |
| NoiseGenerator.Finish | src/main/java/com/harshnoise/NoiseGenerator.java:392-400 | total at most 1: no division; above 1: the sum is divided by the total; then the bias, the soft clip and the denormal flush; always in [-1,1] |
| NoiseGenerator.SoloMix | src/main/java/com/harshnoise/NoiseGenerator.java:335-400 | one colour alone at level v > 0: the normalised sum is the colour's sample when v > 1 (normalisation undoes the level) and the sample times v otherwise |
| NoiseGenerator.ApplyDistortion | src/main/java/com/harshnoise/NoiseGenerator.java:409-415 | level 0 passes the sample; otherwise the result lies in [-1,1] |
| NoiseGenerator.ApplyLowPass | src/main/java/com/harshnoise/NoiseGenerator.java:423-430 | level 0 passes the sample; otherwise one one-pole step; only the last sample changes |
| PerlinNoise.Identity | src/main/java/com/harshnoise/PerlinNoise.java:28-57 | the identity table 0..n-1 |
| PerlinNoise.Swap | src/main/java/com/harshnoise/PerlinNoise.java:28-57 | exchanges two entries |
| PerlinNoise.SwapPermutes | src/main/java/com/harshnoise/PerlinNoise.java:28-57 | a swap keeps the multiset |
| PerlinNoise.Shuffle | src/main/java/com/harshnoise/PerlinNoise.java:28-57 | the Fisher–Yates shuffle is a permutation |
| PerlinNoise.PermutationRange | src/main/java/com/harshnoise/PerlinNoise.java:28-57 | a permutation of 0..255 only holds values in [0,256) |
| PerlinNoise.New | src/main/java/com/harshnoise/PerlinNoise.java:28-57 | the table is a permutation repeated twice; gradients are ±1 |
| PerlinNoise.Reseed | src/main/java/com/harshnoise/PerlinNoise.java:62-87 | reseeding gives exactly the table a new generator would build from the same draws |
| PerlinNoise.Hash | src/main/java/com/harshnoise/PerlinNoise.java:107-109 | the hash of x is the permutation at x & 255, in [0,256) |
| PerlinNoise.Hash2 | src/main/java/com/harshnoise/PerlinNoise.java:114-116 | the double hash stays in [0,256) |
| PerlinNoise.HashPeriodic | src/main/java/com/harshnoise/PerlinNoise.java:107-109 | the hash has period 256 |
| PerlinNoise.FadeSymmetric | src/main/java/com/harshnoise/PerlinNoise.java:93-95 | fade(t) + fade(1-t) = 1 |
| PerlinNoise.FadeRange | src/main/java/com/harshnoise/PerlinNoise.java:93-95 | fade maps [0,1] onto [0,1] with fade(0)=0 and fade(1)=1 |
| PerlinNoise.Noise | src/main/java/com/harshnoise/PerlinNoise.java:122-153 | 1-D gradient noise lies in [-0.5,0.5] |
| PerlinNoise.NoiseAtLattice | src/main/java/com/harshnoise/PerlinNoise.java:122-153 | noise is 0 at integer points |
| PerlinNoise.PowPositive | src/main/java/com/harshnoise/PerlinNoise.java:213-228 | powers of a positive number are positive |
| PerlinNoise.OctavesBound | src/main/java/com/harshnoise/PerlinNoise.java:213-228 | the octave sum is at most half the amplitude total, and that total is positive |
| PerlinNoise.Fbm | src/main/java/com/harshnoise/PerlinNoise.java:213-228 | no octaves yields NaN (None); otherwise normalised fBm in [-0.5,0.5] |
| PerlinNoise.FbmOneOctave | src/main/java/com/harshnoise/PerlinNoise.java:213-228 | one octave is plain noise |
| PerlinNoise.FbmDefault | src/main/java/com/harshnoise/PerlinNoise.java:233-235 | the three-octave default lies in [-0.5,0.5] |
| PerlinNoise.WarpedFbm | src/main/java/com/harshnoise/PerlinNoise.java:247-257 | defined exactly when fBm is; bounded; zero warp is plain fBm |
| PerlinNoise.Turbulence | src/main/java/com/harshnoise/PerlinNoise.java:288-290 | turbulence is non-negative and at most 0.5 |
| PerlinNoise.Ridged | src/main/java/com/harshnoise/PerlinNoise.java:295-297 | ridged noise lies in [0.5,1] |
| PerlinConfig.Default | src/main/java/com/harshnoise/PerlinParameterConfig.java:43-46 | range [0,1], clamp edges, three octaves |
| PerlinConfig.EffectiveTime | src/main/java/com/harshnoise/PerlinParameterConfig.java:114-117 | unit speed, no offset and no warp leave the time unchanged |
| PerlinConfig.WarpShifts | src/main/java/com/harshnoise/PerlinParameterConfig.java:114-117 | the warp shifts the time by noise times amplitude, independently of the base time |
| PerlinConfig.Range | src/main/java/com/harshnoise/PerlinParameterConfig.java:122-124 | the range is max - min, non-negative exactly when min <= max |
| PerlinConfig.Center | src/main/java/com/harshnoise/PerlinParameterConfig.java:129-131 | the centre is equidistant from both ends and inside a proper range |
| PerlinConfig.ApplyEdge | src/main/java/com/harshnoise/PerlinParameterConfig.java:136-161 | in-range values pass; clamp lands in range; reflect mirrors once and lands in range iff the overshoot is at most the range; wrap lands in a non-empty range; wrap on an empty range is NaN exactly outside it |
| PerlinConfig.EdgeSettles | src/main/java/com/harshnoise/PerlinParameterConfig.java:136-161 | applying an edge behaviour twice is applying it once, where it lands in range |
| PerlinConfig.ReflectFarOvershootEscapes | src/main/java/com/harshnoise/PerlinParameterConfig.java:136-161 | reflecting an overshoot beyond the range leaves the range (-1.5 to 1.5 on [0,1]) |
| PerlinConfig.PresetConfig | src/main/java/com/harshnoise/PerlinParameterConfig.java:166-247 | every preset has a proper range, at least three octaves, persistence 0.55, lacunarity 2, never wraps, and reflects exactly for the filter presets |
| PerlinConfig.RandomizeOffset | src/main/java/com/harshnoise/PerlinParameterConfig.java:252-255 | the offset becomes a draw in [-1,1); nothing else changes |
| PerlinModulator.Set | src/main/java/com/harshnoise/PerlinModulator.java:366-384 | updates one channel and no other |
| PerlinModulator.ChannelOf | src/main/java/com/harshnoise/PerlinModulator.java:404-419 | exactly the five parameter names have a channel |
| PerlinModulator.New | src/main/java/com/harshnoise/PerlinModulator.java:61-108 | inactive, valid configs with randomised offsets in [-1,1), filter reflects |
| PerlinModulator.Start | src/main/java/com/harshnoise/PerlinModulator.java:127-143 | active, nothing else changes |
| PerlinModulator.Stop | src/main/java/com/harshnoise/PerlinModulator.java:148-163 | inactive, nothing else changes |
| PerlinModulator.Toggle | src/main/java/com/harshnoise/PerlinModulator.java:168-174 | flips the activity, nothing else changes |
| PerlinModulator.RawNoise | src/main/java/com/harshnoise/PerlinModulator.java:251-264 | the raw value lies in [-1,1]; volume, distortion and grain size use plain fBm |
| PerlinModulator.Expanded | src/main/java/com/harshnoise/PerlinModulator.java:267-304 | the expanded value lies in [-1,1]; volume is tripled and clamped |
| PerlinModulator.Normalized | src/main/java/com/harshnoise/PerlinModulator.java:267-304 | the shaped value lies in [0,1]; filter at most 0.8 |
| PerlinModulator.Target | src/main/java/com/harshnoise/PerlinModulator.java:307-320 | clamp and wrap configs give a value inside the range |
| PerlinModulator.MaxChange | src/main/java/com/harshnoise/PerlinModulator.java:323-331 | the step limit is slewRate/150, five times that for tone, distortion and filter |
| PerlinModulator.Slew | src/main/java/com/harshnoise/PerlinModulator.java:351-361 | moves at most the limit toward the target, reaching it when within the limit |
| PerlinModulator.ComputeParameter | src/main/java/com/harshnoise/PerlinModulator.java:246-337 | the published value of the channel is Next: its target slew-limited against its previous value; it is also stored as previous; no other channel changes; an in-range value stays in range |
| PerlinModulator.NextBounds | src/main/java/com/harshnoise/PerlinModulator.java:324-337 | the published value moves at most the channel's step from the previous value and stays in range when both are |
| PerlinModulator.ComputeNewValues | src/main/java/com/harshnoise/PerlinModulator.java:227-241 | inactive changes nothing; active publishes on every channel its slew-limited target, all computed with one warp value (the second noise's fbm at half the time, doubled), so every channel moves at most its slew limit |
| PerlinModulator.ComputeAll | src/main/java/com/harshnoise/PerlinModulator.java:236-240 | the five calls in order publish Tick: each channel's value depends only on its own previous value |
| PerlinModulator.Tick | src/main/java/com/harshnoise/PerlinModulator.java:236-240 | every channel's entry is that channel's Next |
| PerlinModulator.TickBounds | src/main/java/com/harshnoise/PerlinModulator.java:324-337 | when every channel holds its published value every channel moved at most its step |
| PerlinModulator.WarpAt | src/main/java/com/harshnoise/PerlinModulator.java:233 | the warp value lies in [-1,1] |
| PerlinModulator.CurrentValue | src/main/java/com/harshnoise/PerlinModulator.java:404-419 | the current value of a known name, 0 for an unknown name |
| PerlinModulator.UpdateConfig | src/main/java/com/harshnoise/PerlinModulator.java:438-440 | replaces one channel's config only |
| AudioEngine.WithLevel | src/main/java/com/harshnoise/AudioEngine.java:304-342 | sets one colour's level, leaving the others |
| AudioEngine.SetNoiseLevel | src/main/java/com/harshnoise/AudioEngine.java:304-342 | the level is clamped to [0,1]; other colours and settings unchanged |
| AudioEngine.SetVolume | src/main/java/com/harshnoise/AudioEngine.java:344-347 | the volume is clamped and never reaches the block parameters |
| AudioEngine.Snapshot | src/main/java/com/harshnoise/AudioEngine.java:213-225 | a block reads the eight levels, tone, distortion, filter and grain size, and nothing else |
| AudioEngine.SnapshotIgnoresVolume | src/main/java/com/harshnoise/AudioEngine.java:213-225 | the volume is not among the values a block reads |
| AudioEngine.SetTone | src/main/java/com/harshnoise/AudioEngine.java:349-351 | tone clamped to [0,1], nothing else changes |
| AudioEngine.SetDistortion | src/main/java/com/harshnoise/AudioEngine.java:353-355 | distortion clamped to [0,1], nothing else changes |
| AudioEngine.SetFilter | src/main/java/com/harshnoise/AudioEngine.java:357-359 | filter clamped to [0,1], nothing else changes |
| AudioEngine.SetGrainSize | src/main/java/com/harshnoise/AudioEngine.java:361-363 | grain size clamped to [1,1024] |
| AudioEngine.PcmSample | src/main/java/com/harshnoise/AudioEngine.java:266-284 | NaN gives 0; the clipped sample times 32767 is truncated toward zero and lies in ±32767 |
| AudioEngine.DecodePcm | src/main/java/com/harshnoise/AudioEngine.java:266-284 | two little-endian bytes read as a signed 16-bit value |
| AudioEngine.PcmRoundTrip | src/main/java/com/harshnoise/AudioEngine.java:266-284 | every 16-bit sample survives packing into two bytes |
| AudioEngine.PcmBytesRoundTrip | src/main/java/com/harshnoise/AudioEngine.java:266-284 | every byte pair survives decoding and re-packing |
| AudioEngine.EncodeBlock | src/main/java/com/harshnoise/AudioEngine.java:266-284 | two bytes per sample, each pair decoding to that sample's PCM value |
| AudioEngine.Pack | src/main/java/com/harshnoise/AudioEngine.java:279-284 | sample i becomes bytes 2i and 2i+1, the low and high byte of its PCM value |
| AudioEngine.EmptyRing | src/main/java/com/harshnoise/AudioEngine.java:66-91 | the waveform ring starts not ready |
| AudioEngine.Write | src/main/java/com/harshnoise/AudioEngine.java:231-260 | one slot written, index advanced with wrap, ring ready |
| AudioEngine.Latest | src/main/java/com/harshnoise/AudioEngine.java:437-452 | no snapshot before the first write; otherwise 1024 samples ending with the newest |
| AudioEngine.WriteSlides | src/main/java/com/harshnoise/AudioEngine.java:231-260 | writing a sample slides the snapshot window by one |
| AudioEngine.TiltCoeff | src/main/java/com/harshnoise/AudioEngine.java:369-388 | the tilt filter coefficient lies in (0,1) |
| AudioEngine.TiltGain | src/main/java/com/harshnoise/AudioEngine.java:369-388 | the tilt gain lies in ±0.6 and is 0 exactly at tone 0.5 |
| AudioEngine.LoudnessComp | src/main/java/com/harshnoise/AudioEngine.java:369-388 | the compensation lies in [0.91,1] and is 1 exactly without tilt |
| AudioEngine.ToneTilt | src/main/java/com/harshnoise/AudioEngine.java:369-388 | the filter state moves between its old value and the input; tone 0.5 is transparent |
| AudioEngine.New | src/main/java/com/harshnoise/AudioEngine.java:66-91 | silent levels, volume 0.7, not playing or recording |
| AudioEngine.Start | src/main/java/com/harshnoise/AudioEngine.java:96-144 | a running engine is unchanged; otherwise it plays exactly when the line opens, with the tilt reset |
| AudioEngine.Stop | src/main/java/com/harshnoise/AudioEngine.java:149-179 | stopped with the tilt reset |
| AudioEngine.StartRecording | src/main/java/com/harshnoise/AudioEngine.java:406-410 | recording with an empty buffer |
| AudioEngine.StopRecording | src/main/java/com/harshnoise/AudioEngine.java:412-415 | not recording; the recorded bytes are kept |
| AudioEngine.Synthesize | src/main/java/com/harshnoise/AudioEngine.java:231-260 | 1024 samples, and the ring snapshot afterwards is exactly the block |
| AudioEngine.Voice | src/main/java/com/harshnoise/AudioEngine.java:232-254 | one sample: the generator stays well formed; the stored sample is the tilted sample times the fixed 0.7 gain plus the denormal bias, so a sample within ±1 is stored within ±0.7 plus the bias; with the tone flat, no low pass and distortion at most 1 the tilted sample lies within ±1 |
| AudioEngine.RingSlotsDistinct | src/main/java/com/harshnoise/AudioEngine.java:231-260 | within one block no ring slot is written twice |
| AudioEngine.Block | src/main/java/com/harshnoise/AudioEngine.java:211-298 | 2048 bytes per block, appended to the recording exactly when recording; the chain's output for the synthesised block fails exactly when the block fails, and otherwise the bytes decode to the PCM of that output and the chain is its new state |
| AudioEngine.RunChain | src/main/java/com/harshnoise/AudioEngine.java:263 | the result is the chain's output for the block written in place; an empty chain returns the block unchanged |
| AudioEngine.Emit | src/main/java/com/harshnoise/AudioEngine.java:266-292 | packs 2048 bytes; the recording grows by them only while recording and stays block-aligned |
| AudioEngine.WarmUp | src/main/java/com/harshnoise/AudioEngine.java:188-207 | warm-up touches neither settings nor recording nor waveform; an exception stops playback |
| Recorder.LE16 | src/main/java/com/harshnoise/Recorder.java:109-112 | two bytes, low first |
| Recorder.LE32 | src/main/java/com/harshnoise/Recorder.java:117-122 | four bytes, low first |
| Recorder.ReadLE16 | src/main/java/com/harshnoise/Recorder.java:109-112 | the reader's view of a 16-bit field is below 2^16 |
| Recorder.ReadLE32 | src/main/java/com/harshnoise/Recorder.java:117-122 | the reader's view of a 32-bit field is below 2^32 |
| Recorder.LE16RoundTrip | src/main/java/com/harshnoise/Recorder.java:109-112 | the 16-bit writer keeps the value modulo 2^16 |
| Recorder.LE32RoundTrip | src/main/java/com/harshnoise/Recorder.java:117-122 | the 32-bit writer keeps the value modulo 2^32, so an overflowed int still yields the intended unsigned size |
| Recorder.Header | src/main/java/com/harshnoise/Recorder.java:129-148 | 44 bytes: RIFF, size 36+len, WAVE, fmt with size 16, PCM, mono, 44100 Hz, 88200 B/s, align 2, 16 bits, data, len |
| Recorder.HeaderReads | src/main/java/com/harshnoise/Recorder.java:129-148 | each numeric header field reads back as the intended number |
| Recorder.ParseWav | src/main/java/com/harshnoise/Recorder.java:129-148 | an accepted file is at least 44 bytes and its payload follows the header |
| Recorder.WavFile | src/main/java/com/harshnoise/Recorder.java:71-76 | the file is 44 + len bytes, the data after the header |
| Recorder.WavRoundTrip | src/main/java/com/harshnoise/Recorder.java:71-76 | parsing the written file gives back the data and a consistent 16-bit mono 44.1 kHz format |
| Recorder.Validate | src/main/java/com/harshnoise/Recorder.java:33-47 | accepts exactly non-empty, even-length data whose RIFF size fits 32 bits; null or empty data is reported as such, odd length as odd |
| Recorder.ExportToWav | src/main/java/com/harshnoise/Recorder.java:32-104 | fails exactly on invalid data; otherwise the path ends in .wav and the bytes parse back to the data |
| Recorder.Trim | src/main/java/com/harshnoise/Recorder.java:282-292 | no longer than the name; a non-empty trimmed name starts and ends with a visible character |
| Recorder.TrimIsSlice | src/main/java/com/harshnoise/Recorder.java:282-292 | the trim is one contiguous slice of the name, and everything cut off on either side is at most U+0020 |
| Recorder.TrimFixed | src/main/java/com/harshnoise/Recorder.java:282-292 | a name that starts and ends with a visible character is its own trim |
| Recorder.EnsureWavExtension | src/main/java/com/harshnoise/Recorder.java:282-292 | blank gives "audio.wav"; a name already ending in .wav (any case) is only trimmed; otherwise ".wav" is appended |
| Recorder.EnsureWavIdempotent | src/main/java/com/harshnoise/Recorder.java:282-292 | ensuring the extension twice equals ensuring it once |
| AudioModel.New | src/main/java/com/harshnoise/model/AudioModel.java:11-42 | all levels 0, volume 0.7, tone 0, grain size 1, flags off, no batch |
| AudioModel.Changed | src/main/java/com/harshnoise/model/AudioModel.java:49-54 | inside a batch only the dirty mark is set; outside, exactly one notification |
| AudioModel.SetParam | src/main/java/com/harshnoise/model/AudioModel.java:46-55 | a value within 1e-9 changes nothing; otherwise it is stored and notifies or marks dirty; it always reads back within 1e-9 |
| AudioModel.SetVolume | src/main/java/com/harshnoise/model/AudioModel.java:142-154 | ignored while locked; otherwise the same change-detecting setter |
| AudioModel.SetTone | src/main/java/com/harshnoise/model/AudioModel.java:157-166 | a value within 1e-9 of the stored tone changes nothing; otherwise the value clamped to [0,1] is stored, the value itself when in range, with a notification outside a batch |
| AudioModel.ToneAtBoundStillNotifies | src/main/java/com/harshnoise/model/AudioModel.java:157-166 | at tone 1, asking for 2 stores nothing new yet notifies, every time |
| AudioModel.SetGrainSize | src/main/java/com/harshnoise/model/AudioModel.java:202-211 | an equal size changes nothing |
| AudioModel.SetFlag | src/main/java/com/harshnoise/model/AudioModel.java:214-247 | an equal flag changes nothing; other flags are kept |
| AudioModel.SetVolumeLocked | src/main/java/com/harshnoise/model/AudioModel.java:170-175 | a change notifies at once, even inside a batch |
| AudioModel.ResetNoiseLevels | src/main/java/com/harshnoise/model/AudioModel.java:252-267 | the eight levels become 0 and it notifies or marks dirty even if they already were |
| AudioModel.BeginUpdate | src/main/java/com/harshnoise/model/AudioModel.java:274-276 | the depth grows by one, nothing else changes |
| AudioModel.EndUpdate | src/main/java/com/harshnoise/model/AudioModel.java:281-290 | the depth drops with a floor of 0; leaving the outermost batch notifies once exactly when dirty and clears the mark |
| AudioModel.Apply | src/main/java/com/harshnoise/model/AudioModel.java:44-267 | any setter keeps the model well formed and the batch depth, and never withdraws a notification |
| AudioModel.Run | src/main/java/com/harshnoise/model/AudioModel.java:296-303 | a sequence of setters keeps the model well formed and the batch depth |
| AudioModel.SetParamsBatch | src/main/java/com/harshnoise/model/AudioModel.java:296-303 | a batch returns to the depth it started at |
| AudioModel.ApplyInBatch | src/main/java/com/harshnoise/model/AudioModel.java:44-267 | inside a batch each call has the unbatched effect on the data; it marks dirty instead of notifying, except a lock change |
| AudioModel.RunInBatch | src/main/java/com/harshnoise/model/AudioModel.java:44-267 | a batch body leaves the data of the calls made one by one, with no more notifications |
| AudioModel.BatchCoalesces | src/main/java/com/harshnoise/model/AudioModel.java:274-303 | a batch from idle ends idle with the unbatched data, notifies at all exactly when the unbatched calls would, and at most once without lock changes |
| AudioModel.EmptyBatchIsSilent | src/main/java/com/harshnoise/model/AudioModel.java:296-303 | an empty batch changes nothing |

## Left out

- Threads, `volatile` fields, locks and `synchronized` blocks. Each operation is modelled as one atomic step.
- Audio and file I/O:
  - the sound line's open, write and drain, and thread start and join in the engine;
  - the temporary file, atomic move, directory lookup, clock-based default name and playback in the recorder.
  The recorder model returns the path and the bytes it would write.
- Transcendental functions are parameters constrained by the facts the code needs. They are not implemented.
- Random draws:
  - `java.util.Random`, `Math.random` and `nextBoolean` are draws in [0,1); `nextBoolean` is a draw below 0.5;
  - the generators' own algorithms are not modelled.
- Floating point:
  - Java `float`/`double` are reals, so rounding is not modelled;
  - NaN is modelled only where the code produces it: empty-range WRAP, zero octaves, an `fbm` whose amplitude sum cancels to zero (persistence -1 with an even octave count), and the PCM guard;
  - the `(int)` casts truncate toward zero, but their saturation at the int limits is not modelled.
- The waveform snapshot's `float` narrowing.
- An exception leaves the Java object in the state it had reached when it threw. The model returns None and keeps no partial state.
- `PerlinModulator.ValidConfig` requires at least one octave, positive persistence and a non-empty WRAP range. Zero octaves and an empty WRAP range make the code produce NaN, and NaN propagation through the slew limiter is not modelled. A persistence of 0 or below usually still gives a finite fractal sum (only -1 with an even octave count divides by zero), but the [-0.5, 0.5] bound on `fbm` that the mapping relies on (`PerlinNoise.OctavesBound`) needs positive amplitudes, so configurations with persistence 0 or below are not covered.
- `Chain.RemoveEffect` compares effects by value. Java compares by identity, and two equal states are indistinguishable here.
- `Registry.Register` records the kind of effect a factory builds, not an arbitrary factory object.
- The chain assumes its buffers are at least `n` long, as every caller in the code guarantees.
- The controller's `removeEffect`, `reorderEffect`, `clearEffects`, `resetAllEffects`, `getEffectCount` and `getEffect` only delegate. They are modelled by the `Chain` members directly.
- `getEffectsSnapshot` is not modelled: a copy of an immutable sequence is the sequence.
- `NoiseGenerator.setLfoHz` is not modelled because nothing calls it. `noise2D` is private; `fbm2D` is public but nothing calls it.
- These parts of the modulator are not modelled:
  - `setGlobalTimeScale` and the getters;
  - the UI timer that copies values to the view;
  - the background executor that drives `computeNewValues`;
  - `updateParameterConfig` for names other than the five channels.
- The setters of `AudioModel` are observed through a notification count. Observer callbacks are not modelled.
- `AudioModel.SetParamsBatch`: the batch body is a sequence of setter calls. A body that throws part-way is that sequence's prefix, still followed by the end of the batch.
- `Recorder.EnsureWavExtension`: lower-casing is ASCII only, because `toLowerCase` on other characters is locale-dependent.
- `AudioEngine.Voice` states the generator's well-formedness and the fixed 0.7 gain with the denormal bias. The value of the tilted sample before the gain is stated through `ToneTilt` and `NoiseGenerator.Mixed` (the normalised, soft-clipped mix), not by `Voice`.
- Sample rates below 1 Hz: every effect, the chain and `setSampleRate` require a rate of at least 1 Hz (`ValidRate`). The code accepts any float. What the buffer lengths and filter coefficients become at such rates is not modelled.
- `Units.FuzzDraws`, `Units.FoldDraws`: every call of `process` takes its draws from the start of the random source, so two successive blocks see the same draws. The Java `Random` keeps its position across blocks. Each block's output is stated for any draws in [0,1), so the stated properties do not depend on where the draws come from.
- `PerlinModulator.Start`, `PerlinModulator.Stop`: only the active flag is modelled. The start time taken from the clock, the background executor, the UI timer and the `setPerlinNoiseActive` notification to the model are left out, because they are clock, thread and observer side effects.
- `LooperEffect.SetParameter` states the stored values in the separate `SetParameterStores` lemma. This keeps the function's contract cheap to check.
- The `AudioEffect` interface is a sum type over the eleven effect states. An interface with open implementations has no counterpart here.

=== FILE: audio_engine.dfy ===
/** AudioEngine: the parameter block the UI writes, the per-block loop that
    synthesises 1024 samples, runs them through the effect chain and packs
    them as 16-bit little-endian PCM (appending them to the recording while
    it is on), the tone-tilt filter, and the waveform ring the display
    reads. The sound line and the audio thread are left to the caller. */
module AudioEngine {
  import opened Common
  import opened NoiseGenerator
  import Chain
  import Units

  const SampleRate := 44100.0
  const BufferSize := 1024
  const BytesPerSample := 2
  const BlockBytes := 2048
  const WarmupBlocks := 15
  const FixedVolume := 0.7
  const DenormalBias := 0.00000000000000000001
  const PivotFreq := 1200.0
  /** `Math.PI` as the double literal. */
  const Pi := 3.141592653589793

  // ------------------------------------------------------------ settings

  /** The volatile parameters the UI sets. */
  datatype Settings = Settings(levels: Levels, volume: real, tone: real,
                               distortion: real, filter: real, grainSize: int)

  predicate Unit01(x: real) { 0.0 <= x <= 1.0 }

  predicate SettingsInv(s: Settings) {
    && Unit01(s.levels.white) && Unit01(s.levels.pink) && Unit01(s.levels.granular)
    && Unit01(s.levels.brown) && Unit01(s.levels.blue) && Unit01(s.levels.violet)
    && Unit01(s.levels.impulse) && Unit01(s.levels.modulated)
    && Unit01(s.volume) && Unit01(s.tone) && Unit01(s.distortion) && Unit01(s.filter)
    && 1 <= s.grainSize <= 1024
  }

  function WithLevel(l: Levels, c: Colour, v: real): (r: Levels)
    ensures LevelOf(r, c) == v
    ensures forall other :: other != c ==> LevelOf(r, other) == LevelOf(l, other)
  {
    match c
    case WhiteC => l.(white := v)
    case PinkC => l.(pink := v)
    case GranularC => l.(granular := v)
    case BrownC => l.(brown := v)
    case BlueC => l.(blue := v)
    case VioletC => l.(violet := v)
    case ImpulseC => l.(impulse := v)
    case ModulatedC => l.(modulated := v)
  }

  /** What one block reads, taken once at its start (the `final` locals):
      the eight levels, tone, distortion, filter and grain size. The volume
      is not among them; the block scales by the fixed 0.7 instead. */
  datatype BlockParams = BlockParams(levels: Levels, tone: real, distortion: real,
                                     filter: real, grainSize: int)

  function Snapshot(s: Settings): (r: BlockParams)
    ensures r.levels == s.levels && r.tone == s.tone && r.distortion == s.distortion
    ensures r.filter == s.filter && r.grainSize == s.grainSize
  {
    BlockParams(s.levels, s.tone, s.distortion, s.filter, s.grainSize)
  }

  /** The volume is not among the values a block reads. */
  lemma SnapshotIgnoresVolume(s: Settings, v: real)
    ensures Snapshot(s.(volume := v)) == Snapshot(s)
  {
  }

  /** `setWhiteNoiseLevel` ... `setModulatedNoiseLevel`: clamped to [0, 1]. */
  function SetNoiseLevel(s: Settings, c: Colour, level: real): (r: Settings)
    requires SettingsInv(s)
    ensures SettingsInv(r) && LevelOf(r.levels, c) == Clamp(level, 0.0, 1.0)
    ensures forall other :: other != c ==> LevelOf(r.levels, other) == LevelOf(s.levels, other)
    ensures r.(levels := s.levels) == s
  {
    s.(levels := WithLevel(s.levels, c, Clamp(level, 0.0, 1.0)))
  }

  /** `setVolume`: clamped and stored, yet no block ever reads it. */
  function SetVolume(s: Settings, v: real): (r: Settings)
    requires SettingsInv(s)
    ensures SettingsInv(r) && r.volume == Clamp(v, 0.0, 1.0)
    ensures Snapshot(r) == Snapshot(s)
  {
    s.(volume := Clamp(v, 0.0, 1.0))
  }

  function SetTone(s: Settings, v: real): (r: Settings)
    requires SettingsInv(s)
    ensures SettingsInv(r) && r.tone == Clamp(v, 0.0, 1.0) && r.(tone := s.tone) == s
  {
    s.(tone := Clamp(v, 0.0, 1.0))
  }

  function SetDistortion(s: Settings, v: real): (r: Settings)
    requires SettingsInv(s)
    ensures SettingsInv(r) && r.distortion == Clamp(v, 0.0, 1.0) && r.(distortion := s.distortion) == s
  {
    s.(distortion := Clamp(v, 0.0, 1.0))
  }

  function SetFilter(s: Settings, v: real): (r: Settings)
    requires SettingsInv(s)
    ensures SettingsInv(r) && r.filter == Clamp(v, 0.0, 1.0) && r.(filter := s.filter) == s
  {
    s.(filter := Clamp(v, 0.0, 1.0))
  }

  /** `setGrainSize`: clamped to [1, 1024]. */
  function SetGrainSize(s: Settings, size: int): (r: Settings)
    requires SettingsInv(s)
    ensures SettingsInv(r) && r.(grainSize := s.grainSize) == s
    ensures 1 <= size <= 1024 ==> r.grainSize == size
    ensures size < 1 ==> r.grainSize == 1
    ensures size > 1024 ==> r.grainSize == 1024
  {
    s.(grainSize := if size < 1 then 1 else if size > 1024 then 1024 else size)
  }

  // ------------------------------------------------------------ PCM

  /** A `float` sample as the PCM stage sees it: finite, or NaN/infinite. */
  datatype Float = Finite(v: real) | NonFinite

  /** NaN and infinities become 0, the rest is hard-clipped to [-1, 1] and
      scaled by 32767 with truncation toward zero. */
  function PcmSample(x: Float): (p: int)
    ensures -32767 <= p <= 32767
    ensures x.NonFinite? ==> p == 0
    ensures x.Finite? && x.v >= 1.0 ==> p == 32767
    ensures x.Finite? && x.v <= -1.0 ==> p == -32767
    // inside the clip range the code is within one step of v * 32767, toward zero
    ensures x.Finite? && 0.0 <= x.v <= 1.0 ==> 0 <= p && x.v * 32767.0 - 1.0 < p as real <= x.v * 32767.0
    ensures x.Finite? && -1.0 <= x.v < 0.0 ==> p <= 0 && x.v * 32767.0 <= p as real < x.v * 32767.0 + 1.0
  {
    match x
    case NonFinite => 0
    case Finite(v) =>
      var clipped := if v > 1.0 then 1.0 else if v < -1.0 then -1.0 else v;
      Trunc(clipped * 32767.0)
  }

  /** `(byte) (pcm & 0xFF)`: the two's-complement low byte. */
  function LowByte(p: int): Byte {
    p % 256
  }

  /** `(byte) ((pcm >> 8) & 0xFF)`: the arithmetic shift is floor division. */
  function HighByte(p: int): Byte {
    (p / 256) % 256
  }

  /** Reading a little-endian signed 16-bit sample back. */
  function DecodePcm(lo: Byte, hi: Byte): (p: int)
    ensures -32768 <= p < 32768
  {
    var u := lo + 256 * hi;
    if u >= 32768 then u - 65536 else u
  }

  /** Every 16-bit value survives packing into two bytes and reading back. */
  lemma {:induction false} PcmRoundTrip(p: int)
    requires -32768 <= p < 32768
    ensures DecodePcm(LowByte(p), HighByte(p)) == p
  {
    var q := p / 256;
    assert p == 256 * q + LowByte(p);
    assert -128 <= q < 128;
    if q < 0 {
      assert HighByte(p) == q + 256 by { ModLap(q, 256); }
    }
  }

  /** Every byte pair is the packing of the sample it decodes to. */
  lemma {:induction false} PcmBytesRoundTrip(lo: Byte, hi: Byte)
    ensures LowByte(DecodePcm(lo, hi)) == lo && HighByte(DecodePcm(lo, hi)) == hi
  {
    var d := DecodePcm(lo, hi);
    if hi < 128 {
      DivModUnique(d, 256, hi, lo);
    } else {
      DivModUnique(d, 256, hi - 256, lo);
      ModLap(hi - 256, 256);
    }
  }

  /** The PCM block: sample i becomes bytes 2i (low) and 2i + 1 (high). */
  function Pack(s: seq<real>): (bytes: seq<Byte>)
    ensures |bytes| == 2 * |s|
    ensures forall i :: 0 <= i < |s| ==>
      bytes[2 * i] == LowByte(PcmSample(Finite(s[i]))) && bytes[2 * i + 1] == HighByte(PcmSample(Finite(s[i])))
  {
    assert forall i :: 0 <= i < |s| ==> (2 * i) / 2 == i && (2 * i) % 2 == 0 && (2 * i + 1) / 2 == i && (2 * i + 1) % 2 == 1;
    seq(2 * |s|, k requires 0 <= k < 2 * |s| =>
      var p := PcmSample(Finite(s[k / 2]));
      if k % 2 == 0 then LowByte(p) else HighByte(p))
  }

  lemma {:induction false} PackAt(s: seq<real>, i: int)
    requires 0 <= i < |s|
    ensures |Pack(s)| == 2 * |s|
    ensures DecodePcm(Pack(s)[2 * i], Pack(s)[2 * i + 1]) == PcmSample(Finite(s[i]))
  {
    var p := PcmSample(Finite(s[i]));
    assert (2 * i) / 2 == i && (2 * i) % 2 == 0;
    assert (2 * i + 1) / 2 == i && (2 * i + 1) % 2 == 1;
    assert Pack(s)[2 * i] == LowByte(p) && Pack(s)[2 * i + 1] == HighByte(p);
    PcmRoundTrip(p);
  }

  function EncodeBlock(s: seq<real>): (bytes: seq<Byte>)
    ensures |bytes| == 2 * |s|
    ensures forall i :: 0 <= i < |s| ==>
      DecodePcm(bytes[2 * i], bytes[2 * i + 1]) == PcmSample(Finite(s[i]))
  {
    forall i | 0 <= i < |s|
      ensures DecodePcm(Pack(s)[2 * i], Pack(s)[2 * i + 1]) == PcmSample(Finite(s[i]))
    {
      PackAt(s, i);
    }
    Pack(s)
  }

  // ------------------------------------------------------------ waveform ring

  /** The display ring: the last 1024 samples written, the next write
      position, and whether anything was written yet. */
  datatype Ring = Ring(buffer: seq<real>, index: int, ready: bool)

  predicate RingInv(r: Ring) {
    |r.buffer| == BufferSize && 0 <= r.index < BufferSize
  }

  function EmptyRing(): (r: Ring)
    ensures RingInv(r) && !r.ready
  {
    Ring(Zeros(BufferSize), 0, false)
  }

  /** One store into the ring and the advance of its write index. */
  function Write(r: Ring, x: real): (r': Ring)
    requires RingInv(r)
    ensures RingInv(r') && r'.ready
    ensures r'.index == (r.index + 1) % BufferSize
    ensures r'.buffer[r.index] == x
    ensures forall k :: 0 <= k < BufferSize && k != r.index ==> r'.buffer[k] == r.buffer[k]
  {
    Ring(r.buffer[r.index := x], (r.index + 1) % BufferSize, true)
  }

  /** `getLatestWaveformSamples`: null before the first sample, otherwise a
      copy starting at the write index, so that index 0 is the oldest. */
  function Latest(r: Ring): (s: Option<seq<real>>)
    requires RingInv(r)
    ensures s.None? <==> !r.ready
    ensures s.Some? ==> |s.value| == BufferSize && s.value[BufferSize - 1] == r.buffer[(r.index + BufferSize - 1) % BufferSize]
  {
    if !r.ready then None
    else Some(seq(BufferSize, i requires 0 <= i < BufferSize => r.buffer[(r.index + i) % BufferSize]))
  }

  /** Writing one sample slides the window: the oldest sample drops out
      and the new one is last. */
  lemma {:induction false} WriteSlides(r: Ring, x: real)
    requires RingInv(r) && r.ready
    ensures Latest(Write(r, x)).value == Latest(r).value[1..] + [x]
  {
    var a := Latest(Write(r, x)).value;
    var b := Latest(r).value[1..] + [x];
    forall i | 0 <= i < BufferSize ensures a[i] == b[i] {
      if i < BufferSize - 1 {
        ModAdd(r.index + 1, i, BufferSize);
        assert (r.index + 1 + i) % BufferSize == (r.index + (i + 1)) % BufferSize;
      } else {
        ModAdd(r.index + 1, i, BufferSize);
        ModLap(r.index, BufferSize);
      }
    }
  }

  // ------------------------------------------------------------ tone tilt

  /** `Math.exp` on negative arguments: strictly between 0 and 1. */
  ghost predicate ValidExp(exp: real -> real) {
    forall x :: x < 0.0 ==> 0.0 < exp(x) < 1.0
  }

  /** The tilt filter's one-pole coefficient for the 1200 Hz pivot. */
  function TiltCoeff(exp: real -> real): (a: real)
    requires ValidExp(exp)
    ensures 0.0 < a < 1.0
  {
    1.0 - exp(-2.0 * Pi * PivotFreq / SampleRate)
  }

  /** The tilt gain: (t - 0.5) * 1.2. */
  function TiltGain(t: real): (g: real)
    ensures 0.0 <= t <= 1.0 ==> -0.6 <= g <= 0.6
    ensures t == 0.5 <==> g == 0.0
  {
    (t - 0.5) * 1.2
  }

  /** The loudness compensation 1 - |g| * 0.15. */
  function LoudnessComp(g: real): (c: real)
    ensures -0.6 <= g <= 0.6 ==> 0.91 <= c <= 1.0
    ensures c == 1.0 <==> g == 0.0
  {
    1.0 - (if g < 0.0 then -g else g) * 0.15
  }

  /** `applyToneTilt`: the state follows the input through a one-pole low
      pass, and the output adds the high-passed part with gain g, scaled by
      the loudness compensation. */
  function ToneTilt(state: real, x: real, t: real, a: real): (r: (real, real))
    requires 0.0 < a < 1.0
    ensures Min(state, x) <= r.0 <= Max(state, x)
    // the middle setting is flat: the sample passes unchanged
    ensures t == 0.5 ==> r.1 == x
  {
    OnePoleBetween(state, x, a);
    var state' := state + Mul(a, x - state);
    var g := TiltGain(t);
    MulComm(g, x - state');
    MulUnit(0.0);
    MulComm(0.0, x - state');
    var tilted := x + Mul(g, x - state');
    (state', Mul(tilted, LoudnessComp(g)))
  }

  // ------------------------------------------------------------ the engine

  datatype Engine = Engine(
    gen: Gen, chain: Chain.Chain, settings: Settings, tilt: real, ring: Ring,
    playing: bool, recording: bool, recorded: seq<Byte>)

  /** The recording only ever grows by whole blocks. */
  ghost predicate Inv(e: Engine) {
    && NoiseGenerator.Inv(e.gen) && Chain.Inv(e.chain) && e.chain.maxBufferSize == BufferSize
    && SettingsInv(e.settings) && RingInv(e.ring)
    && |e.recorded| % BlockBytes == 0
  }

  /** The constructor: silent start (every level 0), volume 0.7, tone,
      distortion and filter 0, grain size 1, an empty chain at 44.1 kHz. */
  function New(draws: seq<real>): (e: Engine)
    requires |draws| == GranularLength && Draws(draws)
    ensures Inv(e) && !e.playing && !e.recording && |e.recorded| == 0
    ensures Silent(e.settings.levels) && e.settings.volume == 0.7
  {
    Engine(NoiseGenerator.New(draws), Chain.Init(BufferSize, SampleRate),
      Settings(Levels(0.0, 0.0, 0.0, 0.0, 0.0, 0.0, 0.0, 0.0), 0.7, 0.0, 0.0, 0.0, 1),
      0.0, EmptyRing(), false, false, [])
  }

  /** `start`: nothing when already playing; otherwise playing with a
      cleared tilt state if the line opens, and still stopped if it does not. */
  function Start(e: Engine, lineOpens: bool): (r: Engine)
    requires Inv(e)
    ensures Inv(r)
    ensures e.playing ==> r == e
    ensures !e.playing ==> r.playing == lineOpens
    ensures !e.playing && lineOpens ==> r.tilt == 0.0
    ensures r.(playing := e.playing, tilt := e.tilt) == e
  {
    if e.playing then e
    else if !lineOpens then e
    else e.(playing := true, tilt := 0.0)
  }

  /** `stop`: not playing, tilt state cleared. */
  function Stop(e: Engine): (r: Engine)
    requires Inv(e)
    ensures Inv(r) && !r.playing && r.tilt == 0.0
    ensures r.(playing := e.playing, tilt := e.tilt) == e
  {
    e.(playing := false, tilt := 0.0)
  }

  /** `startRecording`: on, with the buffer emptied. */
  function StartRecording(e: Engine): (r: Engine)
    requires Inv(e)
    ensures Inv(r) && r.recording && |r.recorded| == 0
    ensures r.(recording := e.recording, recorded := e.recorded) == e
  {
    e.(recording := true, recorded := [])
  }

  /** `stopRecording`: off, the bytes kept for `getRecordedAudioData`. */
  function StopRecording(e: Engine): (r: Engine)
    requires Inv(e)
    ensures Inv(r) && !r.recording && r.recorded == e.recorded
    ensures r.(recording := e.recording) == e
  {
    e.(recording := false)
  }

  /** One sample of the first loop: mixed noise, distortion, low pass, tone
      tilt, the fixed 0.7 gain and the denormal bias. */
  method Voice(g: Gen, tilt: real, p: BlockParams, m: Math, a: real)
    returns (g': Gen, tilt': real, y: real, sample: real)
    requires NoiseGenerator.Inv(g) && ValidMath(m) && 0.0 < a < 1.0
    ensures NoiseGenerator.Inv(g')
    // the tilted sample is scaled by the fixed gain, then biased
    ensures sample == y * FixedVolume + DenormalBias
    ensures -1.0 <= y <= 1.0 ==> -FixedVolume + DenormalBias <= sample <= FixedVolume + DenormalBias
    // with the tone flat and no low pass, the mixed and distorted sample stays within full scale
    ensures p.tone == 0.5 && p.filter <= 0.0 && p.distortion <= 1.0 ==> -1.0 <= y <= 1.0
  {
    var mixed := Mixed(g, p.levels, p.grainSize, m);
    var s := ApplyDistortion(mixed.1, p.distortion, m);
    var lp := ApplyLowPass(mixed.0, s, p.filter);
    var tt := ToneTilt(tilt, lp.1, p.tone, a);
    g', tilt', y := lp.0, tt.0, tt.1;
    sample := y * FixedVolume + DenormalBias;
  }

  /** The first loop of a block: 1024 samples into the audio buffer, each
      also written to the waveform ring. After a full block the ring's
      window is exactly the block. */
  method Synthesize(g: Gen, tilt: real, ring: Ring, p: BlockParams, m: Math, a: real)
    returns (g': Gen, tilt': real, ring': Ring, buf: seq<real>)
    requires NoiseGenerator.Inv(g) && RingInv(ring) && ValidMath(m) && 0.0 < a < 1.0
    ensures NoiseGenerator.Inv(g') && RingInv(ring') && ring'.ready
    ensures |buf| == BufferSize && ring'.index == ring.index
    ensures Latest(ring') == Some(buf)
  {
    g', tilt', ring', buf := g, tilt, ring, [];
    var i := 0;
    while i < BufferSize
      invariant 0 <= i <= BufferSize && |buf| == i
      invariant NoiseGenerator.Inv(g') && RingInv(ring')
      invariant i > 0 ==> ring'.ready
      invariant Holds(ring.index, ring', buf)
    {
      var y, s;
      g', tilt', y, s := Voice(g', tilt', p, m, a);
      RingStep(ring.index, ring', buf, s);
      ring' := Write(ring', s);
      buf := buf + [s];
      i := i + 1;
    }
    RingFull(ring.index, ring', buf);
  }

  /** The ring holds `buf` from slot `start` on, and its write index is
      just past it. */
  predicate Holds(start: int, ring: Ring, buf: seq<real>)
    requires RingInv(ring)
  {
    && ring.index == Slot(start, |buf|)
    && forall k :: 0 <= k < |buf| ==> ring.buffer[Slot(start, k)] == buf[k]
  }

  /** The ring slot `k` writes after `start`. */
  function Slot(start: int, k: int): (j: int)
    ensures 0 <= j < BufferSize
  {
    (start + k) % BufferSize
  }

  lemma {:induction false} RingStep(start: int, ring: Ring, buf: seq<real>, s: real)
    requires RingInv(ring) && 0 <= start < BufferSize && |buf| < BufferSize
    requires Holds(start, ring, buf)
    ensures Holds(start, Write(ring, s), buf + [s])
  {
    var i := |buf|;
    ModAdd(start + i, 1, BufferSize);
    forall k | 0 <= k < i ensures Slot(start, k) != ring.index {
      RingSlotsDistinct(start, k, i);
    }
  }

  lemma {:induction false} RingFull(start: int, ring: Ring, buf: seq<real>)
    requires RingInv(ring) && ring.ready && 0 <= start < BufferSize && |buf| == BufferSize
    requires Holds(start, ring, buf)
    ensures ring.index == start && Latest(ring) == Some(buf)
  {
    ModLap(start, BufferSize);
    var shown := Latest(ring).value;
    assert forall k :: 0 <= k < BufferSize ==> shown[k] == ring.buffer[Slot(start, k)];
    assert shown == buf;
  }

  /** Fewer than a full lap of writes land in distinct slots. */
  lemma {:induction false} RingSlotsDistinct(start: int, k: int, i: int)
    requires 0 <= k < i < BufferSize
    ensures (start + k) % BufferSize != (start + i) % BufferSize
  {
    ModAdd(start + k, i - k, BufferSize);
    var a := (start + k) % BufferSize;
    assert (a + (i - k)) % BufferSize == Wrap(a + (i - k), BufferSize);
  }

  /** One pass of the `while (isPlaying)` loop: synthesise, run the chain
      in place, pack 2048 bytes, append them to the recording if recording
      was on when the block began. An exception from the chain ends the
      loop: None, nothing written or recorded, the engine still marked
      playing. */
  method Block(e: Engine, m: Math, o: Units.Oracles, exp: real -> real)
    returns (r: Engine, pcm: Option<seq<Byte>>)
    requires Inv(e) && ValidMath(m) && Units.ValidOracles(o) && ValidExp(exp)
    ensures Inv(r) && r.settings == e.settings && r.playing == e.playing && r.recording == e.recording
    ensures pcm.None? ==> r.recorded == e.recorded
    ensures pcm.Some? ==> |pcm.value| == BlockBytes
    ensures pcm.Some? ==> r.recorded == e.recorded + (if e.recording then pcm.value else [])
    ensures pcm.Some? ==> forall i :: 0 <= i < BufferSize ==>
      -32767 <= DecodePcm(pcm.value[2 * i], pcm.value[2 * i + 1]) <= 32767
    ensures Latest(r.ring).Some?
    ensures |e.chain.effects| == 0 ==> pcm.Some? && ChainInput(pcm.value, Latest(r.ring).value)
    // the bytes are the PCM of the chain's output for the synthesised block, which the ring shows
    ensures var out := Chain.Output(e.chain, Latest(r.ring).value, Latest(r.ring).value, BufferSize, o);
      && (pcm.None? <==> out.None?)
      && (pcm.Some? ==> r.chain == out.value.0 && |out.value.1| == BufferSize && ChainInput(pcm.value, out.value.1))
  {
    var recordingActive := e.recording;
    var params := Snapshot(e.settings);
    var g, tilt, ring, buf := Synthesize(e.gen, e.tilt, e.ring, params, m, TiltCoeff(exp));
    var res := RunChain(e.chain, buf, o);
    if res.None? {
      r := e.(gen := g, tilt := tilt, ring := ring);
      pcm := None;
      return;
    }
    var bytes, recorded := Emit(res.value.1, e.recorded, recordingActive);
    r := e.(gen := g, tilt := tilt, ring := ring, chain := res.value.0, recorded := recorded);
    pcm := Some(bytes);
  }

  /** `effectChain.process(audioBuffer, audioBuffer, BUFFER_SIZE)`: in place
      on a full block. */
  method RunChain(c: Chain.Chain, buf: seq<real>, o: Units.Oracles) returns (res: Option<(Chain.Chain, seq<real>)>)
    requires Chain.Inv(c) && c.maxBufferSize == BufferSize && |buf| == BufferSize && Units.ValidOracles(o)
    ensures res == Chain.Output(c, buf, buf, BufferSize, o)
    ensures res.Some? ==> Chain.Inv(res.value.0) && res.value.0.maxBufferSize == BufferSize && |res.value.1| == BufferSize
    ensures |c.effects| == 0 ==> res == Some((c, buf))
  {
    res := Chain.Process(c, buf, buf, BufferSize, o);
    assert buf[..BufferSize] + buf[BufferSize..] == buf;
  }

  /** The PCM loop and the recording append of one block. */
  method Emit(out: seq<real>, recorded: seq<Byte>, recordingActive: bool) returns (bytes: seq<Byte>, recorded': seq<Byte>)
    requires |out| == BufferSize && |recorded| % BlockBytes == 0
    ensures |bytes| == BlockBytes && |recorded'| % BlockBytes == 0
    ensures recorded' == recorded + (if recordingActive then bytes else [])
    ensures forall i :: 0 <= i < BufferSize ==>
      DecodePcm(bytes[2 * i], bytes[2 * i + 1]) == PcmSample(Finite(out[i]))
  {
    bytes := EncodeBlock(out);
    ModLap(|recorded|, BlockBytes);
    recorded' := if recordingActive then recorded + bytes else recorded;
  }

  /** With an empty chain the bytes are the PCM of the synthesised block,
      the same samples the display ring shows. */
  predicate ChainInput(bytes: seq<Byte>, shown: seq<real>)
    requires |bytes| == BlockBytes && |shown| == BufferSize
  {
    forall i :: 0 <= i < BufferSize ==>
      DecodePcm(bytes[2 * i], bytes[2 * i + 1]) == PcmSample(Finite(shown[i]))
  }

  /** The warm-up: up to 15 blocks of the denormal bias through the chain
      into a scratch buffer. It sits outside the loop's `try`, so an
      exception ends the audio thread, whose handler clears `isPlaying`. */
  method WarmUp(e: Engine, o: Units.Oracles) returns (r: Engine)
    requires Inv(e) && Units.ValidOracles(o)
    ensures Inv(r) && r.settings == e.settings && r.recorded == e.recorded && r.ring == e.ring
    ensures r.playing ==> e.playing
    ensures |e.chain.effects| == 0 ==> r == e
  {
    r := e;
    var silence := seq(BufferSize, _ => DenormalBias);
    var scratch := Zeros(BufferSize);
    var k := 0;
    while k < WarmupBlocks && r.playing
      invariant Inv(r) && r.settings == e.settings && r.recorded == e.recorded && r.ring == e.ring
      invariant r.playing ==> e.playing
      invariant |e.chain.effects| == 0 ==> r == e
    {
      var res := Chain.Process(r.chain, silence, scratch, BufferSize, o);
      if res.None? {
        r := r.(playing := false);
        return;
      }
      r := r.(chain := res.value.0);
      k := k + 1;
    }
  }
}

=== FILE: audio_model.dfy ===
/** AudioModel: the observable state behind the user interface. Every
    setter ignores a value indistinguishable from the current one; an
    effective change notifies the observers at once, or only marks the model
    dirty while a batch is open. Closing the outermost batch sends the one
    notification the batch owes. */
module AudioModel {
  import opened Common

  /** Values closer than this count as unchanged. */
  const Eps := 0.000000001

  /** The real-valued parameters with the common setter shape: the eight
      noise levels, distortion and filter. Volume has its own lock and tone
      its own clamp, so they are separate fields. */
  datatype Param =
    | White | Pink | Granular | Brown | Blue | Violet | Impulse | Modulated
    | Distortion | Filter

  predicate IsNoiseLevel(p: Param) {
    p != Distortion && p != Filter
  }

  datatype Model = Model(
    values: map<Param, real>,
    volume: real, tone: real, grainSize: int,
    chaos: bool, perlin: bool, recording: bool, volumeLocked: bool,
    depth: nat, dirty: bool,
    // how many times the observers have been notified so far
    notifications: nat)

  /** Every parameter has a value, and a model is only dirty inside a batch. */
  predicate Inv(m: Model) {
    (forall p: Param :: p in m.values) && (m.dirty ==> m.depth > 0)
  }

  /** The field initialisers. */
  function New(): (m: Model)
    ensures Inv(m) && m.depth == 0 && !m.dirty && m.notifications == 0
    ensures forall p: Param :: m.values[p] == 0.0
    ensures m.volume == 0.7 && m.tone == 0.0 && m.grainSize == 1
    ensures !m.chaos && !m.perlin && !m.recording && !m.volumeLocked
  {
    var values := map[White := 0.0, Pink := 0.0, Granular := 0.0, Brown := 0.0, Blue := 0.0,
                      Violet := 0.0, Impulse := 0.0, Modulated := 0.0, Distortion := 0.0, Filter := 0.0];
    EveryParam(values.Keys);
    Model(values, 0.7, 0.0, 1, false, false, false, false, 0, false, 0)
  }

  /** A set holding every constructor holds every parameter. */
  lemma EveryParam(keys: set<Param>)
    requires {White, Pink, Granular, Brown, Blue, Violet, Impulse, Modulated, Distortion, Filter} <= keys
    ensures forall p: Param :: p in keys
  {
    forall p: Param ensures p in keys {
      match p
      case White => case Pink => case Granular => case Brown => case Blue =>
      case Violet => case Impulse => case Modulated => case Distortion => case Filter =>
    }
  }

  predicate Close(a: real, b: real) {
    -Eps < a - b < Eps
  }

  /** The tail every setter shares: mark dirty inside a batch, otherwise
      notify. */
  function Changed(m: Model): (r: Model)
    ensures m.depth > 0 ==> r == m.(dirty := true)
    ensures m.depth == 0 ==> r == m.(notifications := m.notifications + 1)
  {
    if m.depth > 0 then m.(dirty := true) else m.(notifications := m.notifications + 1)
  }

  /** The level, distortion and filter setters. */
  function SetParam(m: Model, p: Param, v: real): (r: Model)
    requires Inv(m)
    ensures Inv(r)
    // afterwards the parameter reads back within Eps of the requested value
    ensures Close(r.values[p], v)
    // a value within Eps of the current one changes nothing, not even the count
    ensures Close(m.values[p], v) ==> r == m
    ensures !Close(m.values[p], v) ==>
      (r.values == m.values[p := v]
       && (m.depth == 0 ==> r.notifications == m.notifications + 1 && r.dirty == m.dirty)
       && (m.depth > 0 ==> r.notifications == m.notifications && r.dirty))
  {
    if Close(m.values[p], v) then m else Changed(m.(values := m.values[p := v]))
  }

  /** `setVolume`: ignored outright while the volume is locked. */
  function SetVolume(m: Model, v: real): (r: Model)
    requires Inv(m)
    ensures Inv(r)
    ensures m.volumeLocked || Close(m.volume, v) ==> r == m
    ensures !m.volumeLocked ==> Close(r.volume, v)
    ensures !m.volumeLocked && !Close(m.volume, v) ==>
      (r.volume == v
       && (m.depth == 0 ==> r.notifications == m.notifications + 1)
       && (m.depth > 0 ==> r.notifications == m.notifications && r.dirty))
  {
    if m.volumeLocked || Close(m.volume, v) then m else Changed(m.(volume := v))
  }

  /** `setTone`: stores the argument clamped to [0,1], but decides whether
      anything changed by comparing the unclamped argument. */
  function SetTone(m: Model, v: real): (r: Model)
    requires Inv(m)
    ensures Inv(r)
    ensures Close(m.tone, v) ==> r == m
    ensures !Close(m.tone, v) ==>
      (r.tone == Clamp(v, 0.0, 1.0) && (0.0 <= v <= 1.0 ==> r.tone == v)
       && (m.depth == 0 ==> r.notifications == m.notifications + 1))
  {
    if Close(m.tone, v) then m else Changed(m.(tone := Clamp(v, 0.0, 1.0)))
  }

  /** The comparison against the unclamped argument makes an out-of-range
      request at a bound notify without changing anything, every time. */
  lemma {:induction false} ToneAtBoundStillNotifies(m: Model)
    requires Inv(m) && m.depth == 0 && m.tone == 1.0
    ensures SetTone(m, 2.0).tone == m.tone
    ensures SetTone(m, 2.0) == m.(notifications := m.notifications + 1)
    ensures SetTone(SetTone(m, 2.0), 2.0).notifications == m.notifications + 2
  {
  }

  /** `setGrainSize`: exact integer comparison. */
  function SetGrainSize(m: Model, n: int): (r: Model)
    requires Inv(m)
    ensures Inv(r) && r.grainSize == n
    ensures m.grainSize == n <==> r == m
  {
    if m.grainSize == n then m else Changed(m.(grainSize := n))
  }

  datatype Flag = ChaosFlag | PerlinFlag | RecordingFlag

  function GetFlag(m: Model, f: Flag): bool {
    match f
    case ChaosFlag => m.chaos
    case PerlinFlag => m.perlin
    case RecordingFlag => m.recording
  }

  function WithFlag(m: Model, f: Flag, b: bool): Model {
    match f
    case ChaosFlag => m.(chaos := b)
    case PerlinFlag => m.(perlin := b)
    case RecordingFlag => m.(recording := b)
  }

  /** `setChaosModeActive`, `setPerlinNoiseActive`, `setRecording`. */
  function SetFlag(m: Model, f: Flag, b: bool): (r: Model)
    requires Inv(m)
    ensures Inv(r) && GetFlag(r, f) == b
    ensures GetFlag(m, f) == b <==> r == m
    ensures forall g: Flag :: g != f ==> GetFlag(r, g) == GetFlag(m, g)
  {
    if GetFlag(m, f) == b then m else Changed(WithFlag(m, f, b))
  }

  /** `setVolumeLocked`: a change notifies immediately, batch or not. */
  function SetVolumeLocked(m: Model, locked: bool): (r: Model)
    requires Inv(m)
    ensures Inv(r) && r.volumeLocked == locked
    ensures m.volumeLocked == locked ==> r == m
    ensures m.volumeLocked != locked ==>
      r == m.(volumeLocked := locked, notifications := m.notifications + 1)
  {
    if m.volumeLocked == locked then m
    else m.(volumeLocked := locked, notifications := m.notifications + 1)
  }

  /** `resetNoiseLevels`: zeroes the eight noise levels and notifies (or
      marks dirty) even when they were all zero already. */
  function ResetNoiseLevels(m: Model): (r: Model)
    requires Inv(m)
    ensures Inv(r)
    ensures forall p: Param :: r.values[p] == if IsNoiseLevel(p) then 0.0 else m.values[p]
    ensures m.depth == 0 ==> r.notifications == m.notifications + 1
    ensures m.depth > 0 ==> r.dirty && r.notifications == m.notifications
  {
    var values := map p | p in m.values :: if IsNoiseLevel(p) then 0.0 else m.values[p];
    Changed(m.(values := values))
  }

  /** `beginUpdate`. */
  function BeginUpdate(m: Model): (r: Model)
    requires Inv(m)
    ensures Inv(r) && r.depth == m.depth + 1
    ensures r.(depth := m.depth) == m
  {
    m.(depth := m.depth + 1)
  }

  /** `endUpdate`: the depth never drops below zero, and leaving the
      outermost batch notifies exactly when the batch changed something. */
  function EndUpdate(m: Model): (r: Model)
    requires Inv(m)
    ensures Inv(r)
    ensures r.depth == if m.depth >= 1 then m.depth - 1 else 0
    ensures r.values == m.values && r.volume == m.volume && r.tone == m.tone
    ensures m.depth <= 1 ==>
      (!r.dirty && r.notifications == m.notifications + (if m.dirty then 1 else 0))
    ensures m.depth > 1 ==> r == m.(depth := m.depth - 1)
  {
    var d := m.depth - 1;
    if d <= 0 then
      if m.dirty then m.(depth := 0, notifications := m.notifications + 1, dirty := false)
      else m.(depth := 0)
    else m.(depth := d)
  }

  /** The calls a batch body may make. */
  datatype Op =
    | SetParamOp(p: Param, v: real)
    | SetVolumeOp(v: real)
    | SetToneOp(v: real)
    | SetGrainSizeOp(n: int)
    | SetFlagOp(f: Flag, b: bool)
    | SetVolumeLockedOp(locked: bool)
    | ResetNoiseLevelsOp

  function Apply(m: Model, op: Op): (r: Model)
    requires Inv(m)
    ensures Inv(r) && r.depth == m.depth && r.notifications >= m.notifications
  {
    match op
    case SetParamOp(p, v) => SetParam(m, p, v)
    case SetVolumeOp(v) => SetVolume(m, v)
    case SetToneOp(v) => SetTone(m, v)
    case SetGrainSizeOp(n) => SetGrainSize(m, n)
    case SetFlagOp(f, b) => SetFlag(m, f, b)
    case SetVolumeLockedOp(locked) => SetVolumeLocked(m, locked)
    case ResetNoiseLevelsOp => ResetNoiseLevels(m)
  }

  function Run(m: Model, ops: seq<Op>): (r: Model)
    requires Inv(m)
    ensures Inv(r) && r.depth == m.depth && r.notifications >= m.notifications
    decreases |ops|
  {
    if |ops| == 0 then m else Run(Apply(m, ops[0]), ops[1..])
  }

  /** `setParamsBatch`: the body runs between a begin and an end; an
      exception part-way is the run of a prefix, still followed by the end. */
  function SetParamsBatch(m: Model, ops: seq<Op>): (r: Model)
    requires Inv(m)
    ensures Inv(r) && r.depth == m.depth
  {
    EndUpdate(Run(BeginUpdate(m), ops))
  }

  /** Everything except the batching bookkeeping. */
  function Data(m: Model): Model {
    m.(depth := 0, dirty := false, notifications := 0)
  }

  predicate NoLockOps(ops: seq<Op>) {
    forall i :: 0 <= i < |ops| ==> !ops[i].SetVolumeLockedOp?
  }

  /** What one call does inside a batch (`b`, from `mb`) compared with
      outside (`u`, from `mu`): the same data, and no notification inside
      the batch unless it is a lock change; otherwise the batch turns dirty
      exactly when the unbatched call notifies. */
  predicate InBatchStep(mb: Model, mu: Model, b: Model, u: Model, lockChange: bool) {
    && Data(b) == Data(u) && u.dirty == mu.dirty
    && (lockChange ==>
          (b.dirty == mb.dirty
           && b.notifications - mb.notifications == u.notifications - mu.notifications))
    && (!lockChange ==>
          (b.notifications == mb.notifications
           && (b.dirty <==> mb.dirty || u.notifications > mu.notifications)
           && u.notifications <= mu.notifications + 1))
  }

  predicate Paired(mb: Model, mu: Model) {
    Inv(mb) && Inv(mu) && mb.depth >= 1 && mu.depth == 0 && Data(mb) == Data(mu)
  }

  /** The common setter shape: either ignored, or an update followed by
      `Changed`. */
  lemma {:induction false} GuardedInBatch(mb: Model, mu: Model, ignored: bool, xb: Model, xu: Model)
    requires Paired(mb, mu) && Data(xb) == Data(xu)
    requires xb.(values := mb.values, volume := mb.volume, tone := mb.tone, grainSize := mb.grainSize,
                 chaos := mb.chaos, perlin := mb.perlin, recording := mb.recording) == mb
    requires xu.(values := mu.values, volume := mu.volume, tone := mu.tone, grainSize := mu.grainSize,
                 chaos := mu.chaos, perlin := mu.perlin, recording := mu.recording) == mu
    ensures InBatchStep(mb, mu, if ignored then mb else Changed(xb), if ignored then mu else Changed(xu), false)
  {
  }

  lemma {:induction false} ParamInBatch(mb: Model, mu: Model, p: Param, v: real)
    requires Paired(mb, mu)
    ensures InBatchStep(mb, mu, SetParam(mb, p, v), SetParam(mu, p, v), false)
  {
    assert mb.values == mu.values;
    var values := mb.values[p := v];
    var xb := mb.(values := values);
    var xu := mu.(values := values);
    assert Data(xb) == Data(mb).(values := values);
    assert Data(xu) == Data(mu).(values := values);
    assert SetParam(mb, p, v) == if Close(mb.values[p], v) then mb else Changed(xb);
    assert SetParam(mu, p, v) == if Close(mb.values[p], v) then mu else Changed(xu);
    GuardedInBatch(mb, mu, Close(mb.values[p], v), xb, xu);
  }

  lemma {:induction false} VolumeInBatch(mb: Model, mu: Model, v: real)
    requires Paired(mb, mu)
    ensures InBatchStep(mb, mu, SetVolume(mb, v), SetVolume(mu, v), false)
  {
    assert mb.volume == mu.volume && mb.volumeLocked == mu.volumeLocked;
    GuardedInBatch(mb, mu, mb.volumeLocked || Close(mb.volume, v), mb.(volume := v), mu.(volume := v));
  }

  lemma {:induction false} ToneInBatch(mb: Model, mu: Model, v: real)
    requires Paired(mb, mu)
    ensures InBatchStep(mb, mu, SetTone(mb, v), SetTone(mu, v), false)
  {
    assert mb.tone == mu.tone;
    GuardedInBatch(mb, mu, Close(mb.tone, v),
      mb.(tone := Clamp(v, 0.0, 1.0)), mu.(tone := Clamp(v, 0.0, 1.0)));
  }

  lemma {:induction false} GrainSizeInBatch(mb: Model, mu: Model, n: int)
    requires Paired(mb, mu)
    ensures InBatchStep(mb, mu, SetGrainSize(mb, n), SetGrainSize(mu, n), false)
  {
    assert mb.grainSize == mu.grainSize;
    GuardedInBatch(mb, mu, mb.grainSize == n, mb.(grainSize := n), mu.(grainSize := n));
  }

  lemma {:induction false} FlagInBatch(mb: Model, mu: Model, f: Flag, b: bool)
    requires Paired(mb, mu)
    ensures InBatchStep(mb, mu, SetFlag(mb, f, b), SetFlag(mu, f, b), false)
  {
    assert GetFlag(mb, f) == GetFlag(mu, f);
    GuardedInBatch(mb, mu, GetFlag(mb, f) == b, WithFlag(mb, f, b), WithFlag(mu, f, b));
  }

  lemma {:induction false} ResetInBatch(mb: Model, mu: Model)
    requires Paired(mb, mu)
    ensures InBatchStep(mb, mu, ResetNoiseLevels(mb), ResetNoiseLevels(mu), false)
  {
    assert mb.values == mu.values;
    var values := map p | p in mb.values :: if IsNoiseLevel(p) then 0.0 else mb.values[p];
    GuardedInBatch(mb, mu, false, mb.(values := values), mu.(values := values));
  }

  lemma {:induction false} ApplyInBatch(mb: Model, mu: Model, op: Op)
    requires Paired(mb, mu)
    ensures InBatchStep(mb, mu, Apply(mb, op), Apply(mu, op), op.SetVolumeLockedOp?)
  {
    match op
    case SetParamOp(p, v) => ParamInBatch(mb, mu, p, v);
    case SetVolumeOp(v) => VolumeInBatch(mb, mu, v);
    case SetToneOp(v) => ToneInBatch(mb, mu, v);
    case SetGrainSizeOp(n) => GrainSizeInBatch(mb, mu, n);
    case SetFlagOp(f, b) => FlagInBatch(mb, mu, f, b);
    case SetVolumeLockedOp(locked) => assert mb.volumeLocked == mu.volumeLocked;
    case ResetNoiseLevelsOp => ResetInBatch(mb, mu);
  }

  /** A batch body, run inside a batch, leaves the same data as the same
      calls made one by one, with no more notifications: the setters'
      notifications collapse into the dirty mark. */
  lemma {:induction false} RunInBatch(mb: Model, mu: Model, ops: seq<Op>)
    requires Paired(mb, mu)
    requires !mu.dirty
    ensures var b := Run(mb, ops); var u := Run(mu, ops);
      && Data(b) == Data(u) && !u.dirty
      && b.notifications - mb.notifications + (if b.dirty && !mb.dirty then 1 else 0)
           <= u.notifications - mu.notifications
      && (mb.dirty ==> b.dirty)
      && (b.notifications > mb.notifications || b.dirty <==>
           u.notifications > mu.notifications || mb.dirty)
      && (NoLockOps(ops) ==> b.notifications == mb.notifications)
    decreases |ops|
  {
    if |ops| > 0 {
      var b1 := Apply(mb, ops[0]);
      var u1 := Apply(mu, ops[0]);
      ApplyInBatch(mb, mu, ops[0]);
      RunInBatch(b1, u1, ops[1..]);
      assert NoLockOps(ops) ==> NoLockOps(ops[1..]) by {
        if NoLockOps(ops) {
          forall i | 0 <= i < |ops[1..]| ensures !ops[1..][i].SetVolumeLockedOp? {
            assert ops[1..][i] == ops[i + 1];
          }
        }
      }
    }
  }

  /** A batch opened on an idle model ends idle with the data of the
      unbatched calls, notifying at most as often as they would and at all
      exactly when they would; without lock changes it notifies at most once. */
  lemma {:induction false} BatchCoalesces(m: Model, ops: seq<Op>)
    requires Inv(m) && m.depth == 0
    ensures var b := SetParamsBatch(m, ops); var u := Run(m, ops);
      && Data(b) == Data(u) && b.depth == 0 && !b.dirty
      && b.notifications - m.notifications <= u.notifications - m.notifications
      && (b.notifications > m.notifications <==> u.notifications > m.notifications)
      && (NoLockOps(ops) ==> b.notifications <= m.notifications + 1)
  {
    var mb := BeginUpdate(m);
    assert !m.dirty;
    RunInBatch(mb, m, ops);
  }

  /** A body that changes nothing leaves a batch silent. */
  lemma {:induction false} EmptyBatchIsSilent(m: Model)
    requires Inv(m) && m.depth == 0
    ensures SetParamsBatch(m, []) == m
  {
  }
}

=== FILE: bitcrusher.dfy ===
/** BitcrusherEffect: amplitude quantization to a bit depth followed by a
    sample-and-hold that re-captures the quantized input whenever a phase
    accumulator crosses 1, per channel, folded to mono with equal-power gains. */
module BitcrusherEffect {
  import opened Common

  const Id: string := "bitcrusher"

  const DefaultBitDepth: int := 10
  const DefaultRate: real := 12000.0
  const DefaultWet: real := 0.35
  const MinBitDepth: int := 6
  const MaxBitDepth: int := 12
  const MinRate: real := 8000.0
  const MaxRate: real := 24000.0
  /** The gain applied after the [-1, 1] clamp and before quantization. */
  const PreGain: real := 1.5

  datatype State = State(
    enabled: bool, wet: real, sampleRate: real, params: Params,
    bitDepth: int, rate: real,
    holdL: real, holdR: real, phaseL: real, phaseR: real,
    stepSize: real, quantStep: real)

  /** Helper: 2^b, the number of levels of a b-bit grid. */
  function Pow2(b: nat): (p: nat)
    ensures p >= 1
  {
    if b == 0 then 1 else 2 * Pow2(b - 1)
  }

  /** `2 / ((1 << bitdepth) - 1)`: the spacing of the quantization grid. */
  function QuantStep(bitDepth: int): (q: real)
    requires MinBitDepth <= bitDepth <= MaxBitDepth
    ensures q > 0.0
  {
    assert Pow2(bitDepth) >= 2 by {
      assert Pow2(bitDepth) == 2 * Pow2(bitDepth - 1);
    }
    2.0 / (Pow2(bitDepth) - 1) as real
  }

  /** `updateStepSize`: the phase increment `rate / sampleRate`, or 1 when
      the rate of the host is not positive. */
  function StepSize(rate: real, sampleRate: real): (step: real)
    requires rate > 0.0
    ensures step > 0.0
    ensures sampleRate <= 0.0 ==> step == 1.0
  {
    if sampleRate > 0.0 then rate / sampleRate else 1.0
  }

  /** The grid index `Math.round(clamp(x) * 1.5 / step)` a sample is sent to. */
  function Level(x: real, q: real): int
    requires q > 0.0
  {
    Round(Clamp(x, -1.0, 1.0) * PreGain / q)
  }

  /** `quantizeSample`: clamp, pre-gain, round to the grid, clamp again. */
  function Quantize(x: real, q: real): (r: real)
    requires q > 0.0
    ensures -1.0 <= r <= 1.0
    ensures -1.0 <= Mul(Level(x, q) as real, q) <= 1.0 ==> r == Mul(Level(x, q) as real, q)
    ensures Mul(Level(x, q) as real, q) > 1.0 ==> r == 1.0
    ensures Mul(Level(x, q) as real, q) < -1.0 ==> r == -1.0
  {
    Clamp(Mul(Level(x, q) as real, q), -1.0, 1.0)
  }

  /** The sample-and-hold `while (phase >= 1) { hold = q; phase -= 1; }`. */
  function HoldLoop(phase: real, hold: real, q: real): (res: (real, real))
    ensures phase >= 0.0 ==> 0.0 <= res.0 < 1.0 && res.0 == phase - phase.Floor as real
    ensures phase >= 1.0 ==> res.1 == q
    ensures phase < 1.0 ==> res == (phase, hold)
    decreases if phase >= 1.0 then phase.Floor else 0
  {
    if phase >= 1.0 then HoldLoop(phase - 1.0, q, q) else (phase, hold)
  }

  /** `processSample` for one channel: the new phase and held value. */
  function ProcessSample(phase: real, hold: real, x: real, step: real, q: real): (res: (real, real))
    requires q > 0.0
    ensures phase + step >= 0.0 ==> 0.0 <= res.0 < 1.0
    ensures phase + step >= 1.0 ==> res.1 == Quantize(x, q)
    ensures phase + step < 1.0 ==> res == (phase + step, hold)
  {
    HoldLoop(phase + step, hold, Quantize(x, q))
  }

  /** The invariant every public operation keeps: the typed fields mirror
      the table, values are in range, the grid follows the bit depth, the
      phases lie in [0, 1] and the held values in [-1, 1]. */
  ghost predicate Inv(s: State) {
    && "bitdepth" in s.params && s.params["bitdepth"] == s.bitDepth as real
    && "rate" in s.params && s.params["rate"] == s.rate
    && "wet" in s.params && s.params["wet"] == s.wet
    && MinBitDepth <= s.bitDepth <= MaxBitDepth
    && MinRate <= s.rate <= MaxRate
    && 0.0 <= s.wet <= 1.0
    && s.quantStep == QuantStep(s.bitDepth)
    && s.stepSize > 0.0
    && 0.0 <= s.phaseL <= 1.0 && 0.0 <= s.phaseR <= 1.0
    && -1.0 <= s.holdL <= 1.0 && -1.0 <= s.holdR <= 1.0
  }

  /** Both channels see the same input with the same settings, so their
      states never differ. */
  predicate Symmetric(s: State) {
    s.holdL == s.holdR && s.phaseL == s.phaseR
  }

  /** The state `reset` leaves: nothing held and both phases at 1, so that
      the next sample is captured at once. */
  predicate Cleared(s: State) {
    s.holdL == 0.0 && s.holdR == 0.0 && s.phaseL == 1.0 && s.phaseR == 1.0
  }

  /** `reset`: clears the holds, sets the phases to 1, recomputes the step size. */
  function Reset(s: State): (r: State)
    requires s.rate > 0.0
    ensures Cleared(r) && Symmetric(r)
    ensures r.stepSize == StepSize(s.rate, s.sampleRate)
    ensures r.(holdL := s.holdL, holdR := s.holdR, phaseL := s.phaseL, phaseR := s.phaseR, stepSize := s.stepSize) == s
    ensures Inv(s) ==> Inv(r)
  {
    s.(holdL := 0.0, holdR := 0.0, phaseL := 1.0, phaseR := 1.0, stepSize := StepSize(s.rate, s.sampleRate))
  }

  /** The constructor. It sets the grid but not the step size, which keeps
      its initial value 1 until the rate, the sample rate or a reset changes it. */
  function Init(): (s: State)
    ensures Inv(s) && Cleared(s) && Symmetric(s) && s.enabled
    ensures s.bitDepth == DefaultBitDepth && s.rate == DefaultRate && s.wet == DefaultWet
    ensures s.stepSize == 1.0 && s.quantStep == 2.0 / 1023.0
  {
    State(true, DefaultWet, 44100.0,
      map["bitdepth" := DefaultBitDepth as real, "rate" := DefaultRate, "wet" := DefaultWet],
      DefaultBitDepth, DefaultRate, 0.0, 0.0, 1.0, 1.0, 1.0, QuantStep(DefaultBitDepth))
  }

  /** `getParameter`: the alias names read their canonical key. */
  function GetParameter(s: State, name: string): (v: real)
    ensures name == "bitDepth" ==> v == if "bitdepth" in s.params then s.params["bitdepth"] else DefaultBitDepth as real
    ensures name == "sampleRate" ==> v == if "rate" in s.params then s.params["rate"] else DefaultRate
    ensures name !in {"bitDepth", "sampleRate"} ==> v == if name in s.params then s.params[name] else 0.0
  {
    if name == "bitDepth" then GetOr(s.params, "bitdepth", DefaultBitDepth as real)
    else if name == "sampleRate" then GetOr(s.params, "rate", DefaultRate)
    else GetOr(s.params, name, 0.0)
  }

  /** `setParameter`: the bit depth is clamped to [6, 12] and truncated,
      the rate clamped to [8000, 24000], both stored under both names and
      their derived quantities recomputed. */
  function SetParameter(s: State, name: string, v: real): (r: State)
    requires Inv(s)
    ensures Inv(r)
    ensures name == "bitdepth" || name == "bitDepth" ==>
      r.bitDepth == Trunc(Clamp(v, MinBitDepth as real, MaxBitDepth as real))
      && r.quantStep == QuantStep(r.bitDepth)
      && GetParameter(r, "bitdepth") == r.bitDepth as real && GetParameter(r, "bitDepth") == r.bitDepth as real
    ensures name == "rate" || name == "sampleRate" ==>
      r.rate == Clamp(v, MinRate, MaxRate) && r.stepSize == StepSize(r.rate, s.sampleRate)
      && GetParameter(r, "rate") == r.rate && GetParameter(r, "sampleRate") == r.rate
    ensures name == "wet" || name == "mix" ==> r.wet == Clamp(v, 0.0, 1.0) && GetParameter(r, "wet") == r.wet
    ensures name !in {"bitdepth", "bitDepth", "rate", "sampleRate", "wet", "mix"} ==>
      GetParameter(r, name) == v && r.bitDepth == s.bitDepth && r.rate == s.rate && r.wet == s.wet
    ensures r.enabled == s.enabled && r.sampleRate == s.sampleRate
    ensures r.holdL == s.holdL && r.holdR == s.holdR && r.phaseL == s.phaseL && r.phaseR == s.phaseR
  {
    if name == "bitdepth" || name == "bitDepth" then
      var b := Trunc(Clamp(v, MinBitDepth as real, MaxBitDepth as real));
      s.(bitDepth := b, params := s.params["bitdepth" := b as real]["bitDepth" := b as real],
         quantStep := QuantStep(b))
    else if name == "rate" || name == "sampleRate" then
      var x := Clamp(v, MinRate, MaxRate);
      s.(rate := x, params := s.params["rate" := x]["sampleRate" := x], stepSize := StepSize(x, s.sampleRate))
    else if name == "wet" || name == "mix" then
      var x := Clamp(v, 0.0, 1.0);
      s.(wet := x, params := s.params["wet" := x])
    else
      s.(params := s.params[name := v])
  }

  /** `setWetDryRatio`: clamps to [0, 1] and mirrors the value under "wet". */
  function SetWetDryRatio(s: State, w: real): (r: State)
    requires Inv(s)
    ensures Inv(r) && r.wet == Clamp(w, 0.0, 1.0) && GetParameter(r, "wet") == r.wet
    ensures r.bitDepth == s.bitDepth && r.rate == s.rate && r.enabled == s.enabled && r.sampleRate == s.sampleRate
  {
    SetParameter(s, "wet", w)
  }

  /** `setSampleRate`: recomputes the step size (1 for a rate that is not
      positive) and the grid, then resets. */
  function SetSampleRate(s: State, sr: real): (r: State)
    requires Inv(s)
    ensures Inv(r) && Cleared(r) && Symmetric(r) && r.sampleRate == sr
    ensures r.stepSize == StepSize(s.rate, sr)
    ensures r.params == s.params && r.enabled == s.enabled && r.wet == s.wet
  {
    Reset(s.(sampleRate := sr, quantStep := QuantStep(s.bitDepth)))
  }

  /** The state fields a sample of `process` leaves alone: everything but
      the phases and the held values. */
  predicate Frame(r: State, s: State) {
    r.(holdL := s.holdL, holdR := s.holdR, phaseL := s.phaseL, phaseR := s.phaseR) == s
  }

  /** One sample of `process` as a value: both channels, then the mono mix. */
  function Sample(s: State, x: real, dryGain: real, wetGain: real): (res: (State, real))
    requires Inv(s)
    ensures Inv(res.0) && Frame(res.0, s)
    ensures 0.0 <= res.0.phaseL < 1.0 && 0.0 <= res.0.phaseR < 1.0
    ensures s.phaseL + s.stepSize >= 1.0 ==> res.0.holdL == Quantize(x, s.quantStep)
    ensures s.phaseR + s.stepSize >= 1.0 ==> res.0.holdR == Quantize(x, s.quantStep)
    ensures s.phaseL + s.stepSize < 1.0 ==> res.0.holdL == s.holdL && res.0.phaseL == s.phaseL + s.stepSize
    ensures s.phaseR + s.stepSize < 1.0 ==> res.0.holdR == s.holdR && res.0.phaseR == s.phaseR + s.stepSize
    ensures Symmetric(s) ==> Symmetric(res.0)
    ensures res.1 == MonoMix(x, res.0.holdL, res.0.holdR, dryGain, wetGain)
    ensures dryGain == 1.0 && wetGain == 0.0 ==> res.1 == x
  {
    var l := ProcessSample(s.phaseL, s.holdL, x, s.stepSize, s.quantStep);
    var r := ProcessSample(s.phaseR, s.holdR, x, s.stepSize, s.quantStep);
    MonoMixEnds(x, l.1, r.1);
    (s.(phaseL := l.0, holdL := l.1, phaseR := r.0, holdR := r.1), MonoMix(x, l.1, r.1, dryGain, wetGain))
  }

  /** The sample loop of `process` as a value. */
  function Block(s: State, input: seq<real>, dryGain: real, wetGain: real): (res: (State, seq<real>))
    requires Inv(s)
    ensures Inv(res.0) && Frame(res.0, s) && |res.1| == |input|
    ensures |input| > 0 ==> 0.0 <= res.0.phaseL < 1.0 && 0.0 <= res.0.phaseR < 1.0
    ensures Symmetric(s) ==> Symmetric(res.0)
    decreases |input|
  {
    if |input| == 0 then (s, [])
    else
      var p := Block(s, input[..|input| - 1], dryGain, wetGain);
      var q := Sample(p.0, input[|input| - 1], dryGain, wetGain);
      (q.0, p.1 + [q.1])
  }

  /** Dry only: the loop passes the block through unchanged. */
  lemma {:induction false} BlockDry(s: State, input: seq<real>)
    requires Inv(s)
    ensures Block(s, input, 1.0, 0.0).1 == input
    decreases |input|
  {
    if |input| > 0 {
      var n := |input| - 1;
      BlockDry(s, input[..n]);
      assert input[..n] + [input[n]] == input;
    }
  }

  /** Wet only from a cleared state: the first output sample is the
      quantised first input, because both phases start at 1 and wrap at once. */
  lemma {:induction false} BlockFirst(s: State, input: seq<real>)
    requires Inv(s) && Cleared(s) && |input| > 0
    ensures Block(s, input, 0.0, 1.0).1[0] == Quantize(input[0], s.quantStep)
    decreases |input|
  {
    var n := |input| - 1;
    if n == 0 {
      var q := Sample(s, input[0], 0.0, 1.0);
      MonoMixEnds(input[0], q.0.holdL, q.0.holdR);
      assert input[..n] == [];
    } else {
      BlockFirst(s, input[..n]);
      assert input[..n][0] == input[0];
    }
  }

  /** `process` as a value. */
  function Output(s: State, input: seq<real>, sqrt: real -> real): (res: (State, seq<real>))
    requires Inv(s) && SqrtOracle(sqrt)
    ensures Inv(res.0) && Frame(res.0, s) && |res.1| == |input|
    ensures !s.enabled ==> res == (s, input)
    ensures s.wet == 0.0 ==> res.1 == input
    ensures s.enabled && |input| > 0 ==> 0.0 <= res.0.phaseL < 1.0 && 0.0 <= res.0.phaseR < 1.0
    ensures Symmetric(s) ==> Symmetric(res.0)
    ensures s.enabled && s.wet == 1.0 && Cleared(s) && |input| > 0 ==> res.1[0] == Quantize(input[0], s.quantStep)
  {
    if !s.enabled then (s, input)
    else
      if s.wet == 0.0 then BlockDry(s, input); Block(s, input, sqrt(1.0 - s.wet), sqrt(s.wet))
      else if s.wet == 1.0 && Cleared(s) && |input| > 0 then
        BlockFirst(s, input); Block(s, input, sqrt(1.0 - s.wet), sqrt(s.wet))
      else Block(s, input, sqrt(1.0 - s.wet), sqrt(s.wet))
  }

  /** One sample of `process`. */
  method Step(s: State, x: real, dryGain: real, wetGain: real) returns (r: State, y: real)
    requires Inv(s)
    ensures (r, y) == Sample(s, x, dryGain, wetGain)
  {
    var left := ProcessSample(s.phaseL, s.holdL, x, s.stepSize, s.quantStep);
    var right := ProcessSample(s.phaseR, s.holdR, x, s.stepSize, s.quantStep);
    r := s.(phaseL := left.0, holdL := left.1, phaseR := right.0, holdR := right.1);
    y := MonoMix(x, left.1, right.1, dryGain, wetGain);
  }

  /** `process`. */
  method Process(s: State, input: seq<real>, sqrt: real -> real) returns (r: State, out: seq<real>)
    requires Inv(s) && SqrtOracle(sqrt)
    ensures (r, out) == Output(s, input, sqrt)
    ensures Inv(r) && |out| == |input|
    ensures !s.enabled ==> r == s && out == input
    ensures s.wet == 0.0 ==> out == input
    ensures s.enabled && |input| > 0 ==> 0.0 <= r.phaseL < 1.0 && 0.0 <= r.phaseR < 1.0
    ensures Symmetric(s) ==> Symmetric(r)
    ensures s.enabled && s.wet == 1.0 && Cleared(s) && |input| > 0 ==> out[0] == Quantize(input[0], s.quantStep)
    ensures r.params == s.params && r.bitDepth == s.bitDepth && r.rate == s.rate
    ensures r.wet == s.wet && r.enabled == s.enabled && r.sampleRate == s.sampleRate
  {
    if !s.enabled {
      return s, Copy(input);
    }
    r, out := Run(s, input, sqrt(1.0 - s.wet), sqrt(s.wet));
  }

  /** The per-sample loop of `process` for given mix gains. */
  method Run(s: State, input: seq<real>, dryGain: real, wetGain: real) returns (r: State, out: seq<real>)
    requires Inv(s)
    ensures (r, out) == Block(s, input, dryGain, wetGain)
  {
    r := s;
    out := [];
    var i := 0;
    while i < |input|
      invariant 0 <= i <= |input|
      invariant Inv(r) && (r, out) == Block(s, input[..i], dryGain, wetGain)
    {
      assert input[..i + 1][..i] == input[..i];
      var y;
      r, y := Step(r, input[i], dryGain, wetGain);
      out := out + [y];
      i := i + 1;
    }
    assert input[..|input|] == input;
  }

  /** A full-scale input is clamped back to exactly 1 at every bit depth. */
  lemma {:induction false} FullScaleClamps(b: int)
    requires MinBitDepth <= b <= MaxBitDepth
    ensures Quantize(1.0, QuantStep(b)) == 1.0
    ensures Quantize(-1.0, QuantStep(b)) == -1.0
  {
    var q := QuantStep(b);
    var n := Level(1.0, q);
    assert Mul(n as real, q) > 1.0 by {
      assert n as real > PreGain / q - 0.5;
      assert Mul(n as real, q) == n as real * q;
      assert (PreGain / q - 0.5) * q == PreGain - 0.5 * q;
      MulMonoRight(PreGain / q - 0.5, n as real, q);
      assert q <= 2.0 / 63.0 by {
        assert Pow2(b) >= 64 by { Pow2Grows(b); }
      }
    }
    var m := Level(-1.0, q);
    assert Mul(m as real, q) < -1.0 by {
      assert m as real <= -PreGain / q + 0.5;
      assert (-PreGain / q + 0.5) * q == -PreGain + 0.5 * q;
      MulMonoRight(m as real, -PreGain / q + 0.5, q);
      assert q <= 2.0 / 63.0 by {
        assert Pow2(b) >= 64 by { Pow2Grows(b); }
      }
    }
  }

  /** Helper for FullScaleClamps: the smallest legal depth already has 64 levels. */
  lemma {:induction false} Pow2Grows(b: nat)
    requires b >= MinBitDepth
    ensures Pow2(b) >= 64
  {
    if b > MinBitDepth {
      Pow2Grows(b - 1);
    }
  }

  /** The grid `k * 2 / (2^b - 1)` never reaches ±1, because 2^b - 1 is odd:
      so the ±1 the final clamp produces are off the grid. */
  lemma {:induction false} FullScaleOffGrid(b: int, k: int)
    requires MinBitDepth <= b <= MaxBitDepth
    ensures Mul(k as real, QuantStep(b)) != 1.0 && Mul(k as real, QuantStep(b)) != -1.0
  {
    var l := Pow2(b) - 1;
    var half := Pow2(b - 1);
    assert l == 2 * half - 1;
    GridScaled(k, l);
    assert (2 * k) != l && (-2 * k) != l;
  }

  lemma {:induction false} GridScaled(k: int, l: int)
    requires l >= 1
    ensures Mul(k as real, 2.0 / l as real) * l as real == (2 * k) as real
  {
    var q := 2.0 / l as real;
    assert q * l as real == 2.0;
    assert Mul(k as real, q) * l as real == k as real * (q * l as real);
  }
}

=== FILE: bypass.dfy ===
/** BypassEffect: a pass-through unit with an unclamped parameter table and a
    linear wet/dry crossfade against `input * gain`. */
module BypassEffect {
  import opened Common

  const Id: string := "bypass"

  datatype State = State(enabled: bool, wet: real, sampleRate: real, params: Params)

  /** The constructor: enabled, fully wet, 44.1 kHz, gain 1. */
  function Init(): (s: State)
    ensures s.enabled && s.wet == 1.0 && GetParameter(s, "gain") == 1.0
  {
    State(true, 1.0, 44100.0, map["gain" := 1.0])
  }

  /** `getParameter`: the stored value, 0 for a name never set. */
  function GetParameter(s: State, name: string): (v: real)
    ensures name in s.params ==> v == s.params[name]
    ensures name !in s.params ==> v == 0.0
  {
    GetOr(s.params, name, 0.0)
  }

  /** `setParameter`: any name, any value, stored verbatim. */
  function SetParameter(s: State, name: string, v: real): (r: State)
    ensures GetParameter(r, name) == v
    ensures forall n :: n != name ==> GetParameter(r, n) == GetParameter(s, n)
    ensures r.enabled == s.enabled && r.wet == s.wet && r.sampleRate == s.sampleRate
  {
    s.(params := s.params[name := v])
  }

  /** `setWetDryRatio` clamps to [0, 1]. */
  function SetWetDryRatio(s: State, w: real): (r: State)
    ensures 0.0 <= r.wet <= 1.0
    ensures 0.0 <= w <= 1.0 ==> r.wet == w
    ensures r.(wet := s.wet) == s
  {
    s.(wet := Clamp(w, 0.0, 1.0))
  }

  /** `setSampleRate` records the rate; nothing else depends on it. */
  function SetSampleRate(s: State, sr: real): (r: State)
    ensures r.sampleRate == sr && r.(sampleRate := s.sampleRate) == s
  {
    s.(sampleRate := sr)
  }

  /** `reset`: there is no time-based state, so nothing changes. */
  function Reset(s: State): (r: State)
    ensures r == s
  {
    s
  }

  /** One output sample: `in * (1 - w) + (in * gain) * w`. */
  function Mix(x: real, gain: real, w: real): real {
    Mul(x, 1.0 - w) + Mul(Mul(x, gain), w)
  }

  /** `process`: a copy when disabled, the linear crossfade otherwise. */
  function Process(s: State, input: seq<real>): (out: seq<real>)
    ensures |out| == |input|
    ensures !s.enabled ==> out == input
    ensures s.enabled ==> forall i :: 0 <= i < |input| ==>
              out[i] == Mix(input[i], GetParameter(s, "gain"), s.wet)
  {
    if !s.enabled then Copy(input)
    else
      var gain := GetParameter(s, "gain");
      seq(|input|, i requires 0 <= i < |input| => Mix(input[i], gain, s.wet))
  }

  /** With unit gain the crossfade is the identity for every wet ratio, and
      with ratio 0 it is the identity for every gain. */
  lemma {:induction false} MixIdentity(x: real, gain: real, w: real)
    ensures gain == 1.0 ==> Mix(x, gain, w) == x
    ensures w == 0.0 ==> Mix(x, gain, w) == x
    ensures w == 1.0 ==> Mix(x, gain, w) == Mul(x, gain)
  {
    assert x * (1.0 - w) + x * w == x;
  }

  /** A freshly constructed bypass leaves every block unchanged, whatever
      wet ratio is set afterwards. */
  lemma {:induction false} FreshBypassIsIdentity(w: real, input: seq<real>)
    ensures Process(SetWetDryRatio(Init(), w), input) == input
  {
    var s := SetWetDryRatio(Init(), w);
    var out := Process(s, input);
    forall i | 0 <= i < |input|
      ensures out[i] == input[i]
    {
      MixIdentity(input[i], 1.0, s.wet);
    }
  }

  /** At wet ratio 0 every block passes unchanged, whatever the gain. */
  lemma {:induction false} DryIsIdentity(s: State, input: seq<real>)
    requires s.wet == 0.0
    ensures Process(s, input) == input
  {
    var out := Process(s, input);
    forall i | 0 <= i < |input|
      ensures out[i] == input[i]
    {
      MixIdentity(input[i], GetParameter(s, "gain"), s.wet);
    }
  }
}

=== FILE: chain.dfy ===
/** EffectChain: an ordered list of effect units run in series on a block,
    with a fixed maximum block size and a shared sample rate. */
module Chain {
  import opened Common
  import opened Units

  datatype Chain = Chain(effects: seq<Unit>, maxBufferSize: int, sampleRate: real)

  /** Every unit keeps its own invariant and runs at the chain's rate. */
  ghost predicate Inv(c: Chain) {
    && ValidRate(c.sampleRate)
    && forall k :: 0 <= k < |c.effects| ==> Units.Inv(c.effects[k]) && SampleRate(c.effects[k]) == c.sampleRate
  }

  /** The constructor: no effects. */
  function Init(maxBufferSize: int, sampleRate: real): (c: Chain)
    requires ValidRate(sampleRate)
    ensures Inv(c) && |c.effects| == 0 && c.maxBufferSize == maxBufferSize && c.sampleRate == sampleRate
  {
    Chain([], maxBufferSize, sampleRate)
  }

  /** The list with the element at `i` taken out. */
  function Remove<T>(s: seq<T>, i: int): (r: seq<T>)
    requires 0 <= i < |s|
    ensures |r| == |s| - 1
    ensures forall j :: 0 <= j < i ==> r[j] == s[j]
    ensures forall j :: i <= j < |r| ==> r[j] == s[j + 1]
  {
    s[..i] + s[i + 1..]
  }

  /** The list with `x` inserted so that it lands at index `i`. */
  function Insert<T>(s: seq<T>, i: int, x: T): (r: seq<T>)
    requires 0 <= i <= |s|
    ensures |r| == |s| + 1 && r[i] == x
    ensures forall j :: 0 <= j < i ==> r[j] == s[j]
    ensures forall j :: i < j < |r| ==> r[j] == s[j - 1]
  {
    s[..i] + [x] + s[i..]
  }

  /** Taking out what was just inserted gives the list back. */
  lemma {:induction false} RemoveInsert<T>(s: seq<T>, i: int, x: T)
    requires 0 <= i <= |s|
    ensures Remove(Insert(s, i, x), i) == s
  {
    var r := Remove(Insert(s, i, x), i);
    assert forall j :: 0 <= j < |s| ==> r[j] == s[j];
  }

  /** Putting back what was just taken out gives the list back. */
  lemma {:induction false} InsertRemove<T>(s: seq<T>, i: int)
    requires 0 <= i < |s|
    ensures Insert(Remove(s, i), i, s[i]) == s
  {
    var r := Insert(Remove(s, i), i, s[i]);
    assert forall j :: 0 <= j < |s| ==> r[j] == s[j];
  }

  /** Taking out an element and inserting it elsewhere keeps the multiset. */
  lemma {:induction false} InsertRemovePermutes<T>(s: seq<T>, i: int, j: int)
    requires 0 <= i < |s| && 0 <= j < |s|
    ensures multiset(Insert(Remove(s, i), j, s[i])) == multiset(s)
  {
    var t := Remove(s, i);
    calc {
      multiset(Insert(t, j, s[i]));
      multiset(t[..j] + [s[i]] + t[j..]);
      multiset(t[..j]) + multiset([s[i]]) + multiset(t[j..]);
      { assert t == t[..j] + t[j..]; }
      multiset(t) + multiset([s[i]]);
      multiset(s[..i]) + multiset(s[i + 1..]) + multiset([s[i]]);
      { assert s == s[..i] + [s[i]] + s[i + 1..]; }
      multiset(s);
    }
  }

  /** Putting a valid unit at the chain's rate in place of another keeps
      the invariant. */
  lemma InvReplace(c: Chain, i: int, u: Unit)
    requires Inv(c) && 0 <= i < |c.effects| && Units.Inv(u) && SampleRate(u) == c.sampleRate
    ensures Inv(c.(effects := c.effects[i := u]))
  {
  }

  /** `addEffect`: a null effect is ignored; otherwise the effect is set to
      the chain's rate and appended. */
  function AddEffect(c: Chain, e: Option<Unit>): (r: Chain)
    requires Inv(c) && (e.Some? ==> Units.Inv(e.value))
    ensures Inv(r) && r.maxBufferSize == c.maxBufferSize && r.sampleRate == c.sampleRate
    ensures e.None? ==> r == c
    ensures e.Some? ==> |r.effects| == |c.effects| + 1 && r.effects[..|c.effects|] == c.effects
    ensures e.Some? ==> var u := r.effects[|c.effects|];
      Id(u) == Id(e.value) && Enabled(u) == Enabled(e.value) && Wet(u) == Wet(e.value)
      && (forall n :: GetParameter(u, n) == GetParameter(e.value, n))
  {
    if e.None? then c
    else c.(effects := c.effects + [Units.SetSampleRate(e.value, c.sampleRate)])
  }

  /** `removeEffect(effect)`: the first effect equal to the argument is
      taken out; `false` when there is none. */
  function RemoveEffect(c: Chain, e: Unit): (res: (Chain, bool))
    requires Inv(c)
    ensures Inv(res.0) && res.0.maxBufferSize == c.maxBufferSize && res.0.sampleRate == c.sampleRate
    ensures res.1 <==> e in c.effects
    ensures !res.1 ==> res.0 == c
    ensures res.1 ==> exists i :: (0 <= i < |c.effects| && c.effects[i] == e
      && (forall j :: 0 <= j < i ==> c.effects[j] != e) && res.0.effects == Remove(c.effects, i))
  {
    var i := FirstIndex(c.effects, e);
    if i < |c.effects| then (c.(effects := Remove(c.effects, i)), true) else (c, false)
  }

  /** The position of the first occurrence of `e`, or `|s|` when absent. */
  function FirstIndex(s: seq<Unit>, e: Unit): (i: int)
    ensures 0 <= i <= |s|
    ensures i < |s| ==> s[i] == e
    ensures forall j :: 0 <= j < i ==> s[j] != e
    ensures i == |s| <==> e !in s
    decreases |s|
  {
    if |s| == 0 then 0
    else if s[0] == e then 0
    else 1 + FirstIndex(s[1..], e)
  }

  /** `removeEffect(index)`: the removed effect, or `None` (Java's null)
      with the chain unchanged when the index is out of range. */
  function RemoveAt(c: Chain, index: int): (res: (Chain, Option<Unit>))
    requires Inv(c)
    ensures Inv(res.0) && res.0.maxBufferSize == c.maxBufferSize && res.0.sampleRate == c.sampleRate
    ensures res.1.Some? <==> 0 <= index < |c.effects|
    ensures res.1.None? ==> res.0 == c
    ensures res.1.Some? ==> res.1.value == c.effects[index] && res.0.effects == Remove(c.effects, index)
  {
    if 0 <= index < |c.effects| then (c.(effects := Remove(c.effects, index)), Some(c.effects[index]))
    else (c, None)
  }

  /** Adding an effect and removing the last one gives back the chain and
      the effect at the chain's rate. */
  lemma {:induction false} AddThenRemoveLast(c: Chain, u: Unit)
    requires Inv(c) && Units.Inv(u)
    ensures var r := RemoveAt(AddEffect(c, Some(u)), |c.effects|);
      r.0 == c && r.1 == Some(Units.SetSampleRate(u, c.sampleRate))
  {
    var a := AddEffect(c, Some(u));
    assert Remove(a.effects, |c.effects|) == c.effects;
  }

  /** `reorderEffect`: with both indices in range, the effect at `from` is
      taken out and inserted at `to`; otherwise nothing changes. */
  function Reorder(c: Chain, from: int, to: int): (res: (Chain, bool))
    requires Inv(c)
    ensures Inv(res.0) && res.0.maxBufferSize == c.maxBufferSize && res.0.sampleRate == c.sampleRate
    ensures res.1 <==> 0 <= from < |c.effects| && 0 <= to < |c.effects|
    ensures !res.1 ==> res.0 == c
    ensures res.1 ==> |res.0.effects| == |c.effects| && res.0.effects[to] == c.effects[from]
    ensures res.1 ==> Remove(res.0.effects, to) == Remove(c.effects, from)
  {
    if 0 <= from < |c.effects| && 0 <= to < |c.effects| then
      var t := Remove(c.effects, from);
      RemoveInsert(t, to, c.effects[from]);
      (c.(effects := Insert(t, to, c.effects[from])), true)
    else (c, false)
  }

  /** Reordering permutes the effects. */
  lemma {:induction false} ReorderPermutes(c: Chain, from: int, to: int)
    requires Inv(c)
    ensures multiset(Reorder(c, from, to).0.effects) == multiset(c.effects)
  {
    if 0 <= from < |c.effects| && 0 <= to < |c.effects| {
      InsertRemovePermutes(c.effects, from, to);
    }
  }

  /** Moving an effect back to where it came from restores the chain. */
  lemma {:induction false} ReorderInverse(c: Chain, from: int, to: int)
    requires Inv(c) && 0 <= from < |c.effects| && 0 <= to < |c.effects|
    ensures Reorder(Reorder(c, from, to).0, to, from).0 == c
  {
    var m := Reorder(c, from, to).0;
    var t := Remove(c.effects, from);
    assert Remove(m.effects, to) == t;
    InsertRemove(c.effects, from);
  }

  /** `getEffect`: `None` (Java's null) for an index out of range. */
  function GetEffect(c: Chain, index: int): (r: Option<Unit>)
    ensures r.Some? <==> 0 <= index < |c.effects|
    ensures r.Some? ==> r.value == c.effects[index]
  {
    if 0 <= index < |c.effects| then Some(c.effects[index]) else None
  }

  /** `setSampleRate`: the chain's rate, and every effect's. */
  function SetSampleRate(c: Chain, sr: real): (r: Chain)
    requires Inv(c) && ValidRate(sr)
    ensures Inv(r) && r.sampleRate == sr && |r.effects| == |c.effects| && r.maxBufferSize == c.maxBufferSize
    ensures forall k :: 0 <= k < |r.effects| ==> Like(r.effects[k], c.effects[k])
    ensures forall k :: 0 <= k < |r.effects| ==> SampleRate(r.effects[k]) == sr
    ensures forall k, n :: 0 <= k < |r.effects| ==> GetParameter(r.effects[k], n) == GetParameter(c.effects[k], n)
  {
    c.(effects := seq(|c.effects|, k requires 0 <= k < |c.effects| => Units.SetSampleRate(c.effects[k], sr)),
       sampleRate := sr)
  }

  /** `reset`: every effect reset in place; order, flags and parameters
      survive. */
  function Reset(c: Chain): (r: Chain)
    requires Inv(c)
    ensures Inv(r) && r.sampleRate == c.sampleRate && |r.effects| == |c.effects| && r.maxBufferSize == c.maxBufferSize
    ensures forall k :: 0 <= k < |r.effects| ==> Like(r.effects[k], c.effects[k])
    ensures forall k :: 0 <= k < |r.effects| ==> SampleRate(r.effects[k]) == SampleRate(c.effects[k])
    ensures forall k, n :: 0 <= k < |r.effects| ==> GetParameter(r.effects[k], n) == GetParameter(c.effects[k], n)
  {
    c.(effects := seq(|c.effects|, k requires 0 <= k < |c.effects| => Units.Reset(c.effects[k])))
  }

  /** `clear`: no effects left. */
  function Clear(c: Chain): (r: Chain)
    requires Inv(c)
    ensures Inv(r) && |r.effects| == 0 && r.sampleRate == c.sampleRate && r.maxBufferSize == c.maxBufferSize
  {
    c.(effects := [])
  }

  /** A unit that hands a block through unchanged: disabled, or at ratio 0
      and neither the wavefolder nor the granular effect. */
  predicate Transparent(u: Unit) {
    !Enabled(u) || (Wet(u) == 0.0 && !u.Wavefolder? && !u.Granular?)
  }

  /** The units that can raise an exception while processing. */
  predicate CanThrow(u: Unit) {
    Enabled(u) && (u.ReverseDelay? || u.Looper?)
  }

  /** Two units of the same kind with the same flag and ratio. */
  predicate Like(a: Unit, b: Unit) {
    Id(a) == Id(b) && Enabled(a) == Enabled(b) && Wet(a) == Wet(b)
  }

  /** Processing kept the list's shape: same length, identities, flags
      and ratios, same rate and limit. */
  predicate SameShape(r: Chain, c: Chain) {
    && |r.effects| == |c.effects| && r.maxBufferSize == c.maxBufferSize && r.sampleRate == c.sampleRate
    && forall k :: 0 <= k < |r.effects| ==> Like(r.effects[k], c.effects[k])
  }

  /** One effect of the loop in `process` as a value: a disabled effect is
      skipped, an enabled one processes the block. */
  function StageOut(u: Unit, block: seq<real>, o: Oracles): (res: Option<(Unit, seq<real>)>)
    requires Units.Inv(u) && ValidOracles(o)
    ensures !Enabled(u) ==> res == Some((u, block))
    ensures Enabled(u) ==> res == Units.Out(u, block, o)
  {
    if !Enabled(u) then Some((u, block)) else Units.Out(u, block, o)
  }

  /** The loop of `process` as a value: the effects in order, each enabled
      one on the previous one's output; the first exception ends the call.
      The flag says whether any effect was enabled, that is, whether the
      output buffer was written. */
  function FoldEnabled(es: seq<Unit>, block: seq<real>, o: Oracles): (res: Option<(seq<Unit>, seq<real>, bool)>)
    requires ValidOracles(o)
    requires forall k :: 0 <= k < |es| ==> Units.Inv(es[k])
    ensures res.Some? ==> |res.value.0| == |es|
    decreases |es|
  {
    if |es| == 0 then Some(([], block, false))
    else
      var p := StageOut(es[0], block, o);
      if p.None? then None
      else
        var rest := FoldEnabled(es[1..], p.value.1, o);
        if rest.None? then None
        else Some(([p.value.0] + rest.value.0, rest.value.1, Enabled(es[0]) || rest.value.2))
  }

  /** The result of `process` as a value, `outBuf` being the output
      buffer's content before the call. */
  function Output(c: Chain, input: seq<real>, outBuf: seq<real>, n: int, o: Oracles): (res: Option<(Chain, seq<real>)>)
    requires Inv(c) && ValidOracles(o)
    requires 0 <= n <= |input| && n <= |outBuf|
    ensures n > c.maxBufferSize ==> res.None?
    ensures n <= c.maxBufferSize && |c.effects| == 0 ==> res == Some((c, input[..n] + outBuf[n..]))
  {
    if n > c.maxBufferSize then None
    else if |c.effects| == 0 then Some((c, input[..n] + outBuf[n..]))
    else
      var r := FoldEnabled(c.effects, input[..n], o);
      if r.None? then None
      else Some((c.(effects := r.value.0), if r.value.2 then r.value.1 + outBuf[n..] else outBuf))
  }

  /** `process`: the first `n` samples of `input` through every enabled
      effect in order; `outBuf` is the output buffer's content before the
      call, and the result is its content after. `None` stands for the
      `IllegalArgumentException` of a block above the maximum size and for
      an exception raised by an effect. An empty chain copies the block; a
      chain whose effects are all disabled leaves the output buffer as it
      was. */
  method Process(c: Chain, input: seq<real>, outBuf: seq<real>, n: int, o: Oracles)
    returns (res: Option<(Chain, seq<real>)>)
    requires Inv(c) && ValidOracles(o)
    requires 0 <= n <= |input| && n <= |outBuf|
    ensures res == Output(c, input, outBuf, n, o)
    ensures n > c.maxBufferSize ==> res.None?
    ensures res.Some? ==> Inv(res.value.0) && SameShape(res.value.0, c)
    ensures res.Some? ==> |res.value.1| == |outBuf| && res.value.1[n..] == outBuf[n..]
    ensures n <= c.maxBufferSize && |c.effects| == 0 ==> res == Some((c, input[..n] + outBuf[n..]))
    ensures n <= c.maxBufferSize && |c.effects| > 0 && (forall k :: 0 <= k < |c.effects| ==> !Enabled(c.effects[k]))
      ==> res == Some((c, outBuf))
    ensures res.None? && n <= c.maxBufferSize ==> exists k :: 0 <= k < |c.effects| && CanThrow(c.effects[k])
    ensures (res.Some? && (exists k :: 0 <= k < |c.effects| && Enabled(c.effects[k]))
      && (forall k :: 0 <= k < |c.effects| ==> Transparent(c.effects[k]))) ==> res.value.1[..n] == input[..n]
  {
    if n > c.maxBufferSize {
      return None;
    }
    if |c.effects| == 0 {
      return Some((c, input[..n] + outBuf[n..]));
    }
    var r := Run(c.effects, input[..n], o);
    FoldShape(c.effects, input[..n], o);
    FoldFlag(c.effects, input[..n], o);
    FoldThrows(c.effects, input[..n], o);
    if forall k :: 0 <= k < |c.effects| ==> Transparent(c.effects[k]) {
      FoldTransparent(c.effects, input[..n], o);
    }
    if r.None? {
      return None;
    }
    var (done, block, ran) := r.value;
    res := Some((c.(effects := done), if ran then block + outBuf[n..] else outBuf));
  }

  /** A unit after processing: still valid, at the same rate, of the same
      kind, flag and ratio. */
  ghost predicate Kept(r: Unit, u: Unit) {
    Units.Inv(r) && SampleRate(r) == SampleRate(u) && Like(r, u)
  }

  /** One effect of the loop in `process`: a disabled effect is skipped. */
  method Stage(u: Unit, block: seq<real>, o: Oracles) returns (res: Option<(Unit, seq<real>)>)
    requires Units.Inv(u) && ValidOracles(o)
    ensures res == StageOut(u, block, o)
    ensures !Enabled(u) ==> res == Some((u, block))
    ensures res.None? ==> CanThrow(u)
    ensures res.Some? ==> Kept(res.value.0, u) && |res.value.1| == |block|
    ensures res.Some? && Transparent(u) ==> res.value.1 == block
  {
    if !Enabled(u) {
      return Some((u, block));
    }
    res := Units.Process(u, block, o);
  }

  /** The loop over `a + b` is the loop over `a` followed by the loop over
      `b` on its output; an exception in `a` ends the whole call. */
  lemma {:induction false} FoldSplit(a: seq<Unit>, b: seq<Unit>, block: seq<real>, o: Oracles)
    requires ValidOracles(o)
    requires forall k :: 0 <= k < |a| ==> Units.Inv(a[k])
    requires forall k :: 0 <= k < |b| ==> Units.Inv(b[k])
    requires forall k :: 0 <= k < |a + b| ==> Units.Inv((a + b)[k])
    ensures var first := FoldEnabled(a, block, o);
      && (first.None? ==> FoldEnabled(a + b, block, o).None?)
      && (first.Some? ==> FoldEnabled(a + b, block, o) == Then(first.value, FoldEnabled(b, first.value.1, o)))
    decreases |a|
  {
    if |a| == 0 {
      assert a + b == b;
      var whole := FoldEnabled(b, block, o);
      if whole.Some? {
        assert [] + whole.value.0 == whole.value.0;
      }
    } else {
      assert (a + b)[0] == a[0] && (a + b)[1..] == a[1..] + b;
      var p := StageOut(a[0], block, o);
      if p.Some? {
        assert forall k :: 0 <= k < |a[1..] + b| ==> (a[1..] + b)[k] == (a + b)[k + 1];
        FoldSplit(a[1..], b, p.value.1, o);
        var rest := FoldEnabled(a[1..], p.value.1, o);
        if rest.Some? {
          var tail := FoldEnabled(b, rest.value.1, o);
          if tail.Some? {
            assert [p.value.0] + (rest.value.0 + tail.value.0) == ([p.value.0] + rest.value.0) + tail.value.0;
          }
        }
      }
    }
  }

  /** Joins the loop's result over a prefix with its result over the rest. */
  function Then(first: (seq<Unit>, seq<real>, bool), rest: Option<(seq<Unit>, seq<real>, bool)>): Option<(seq<Unit>, seq<real>, bool)> {
    if rest.None? then None else Some((first.0 + rest.value.0, rest.value.1, first.2 || rest.value.2))
  }

  /** The loop of `process` hands back one unit per unit, each still
      valid and of the same kind, flag and ratio, and a block as long as
      the input. */
  lemma {:induction false} FoldShape(es: seq<Unit>, block: seq<real>, o: Oracles)
    requires ValidOracles(o)
    requires forall k :: 0 <= k < |es| ==> Units.Inv(es[k])
    ensures var res := FoldEnabled(es, block, o);
      res.Some? ==> && |res.value.0| == |es| && |res.value.1| == |block|
                    && forall k :: 0 <= k < |es| ==> Kept(res.value.0[k], es[k])
    decreases |es|
  {
    if |es| > 0 {
      var p := StageOut(es[0], block, o);
      if p.Some? {
        FoldShape(es[1..], p.value.1, o);
        var rest := FoldEnabled(es[1..], p.value.1, o);
        if rest.Some? {
          var res := FoldEnabled(es, block, o).value;
          forall k | 0 <= k < |es| ensures Kept(res.0[k], es[k]) {
            if k > 0 {
              assert res.0[k] == rest.value.0[k - 1] && es[k] == es[1..][k - 1];
            }
          }
        }
      }
    }
  }

  /** The flag of the loop is set exactly when some effect is enabled, and
      when none is, neither the units nor the block change. */
  lemma {:induction false} FoldFlag(es: seq<Unit>, block: seq<real>, o: Oracles)
    requires ValidOracles(o)
    requires forall k :: 0 <= k < |es| ==> Units.Inv(es[k])
    ensures var res := FoldEnabled(es, block, o);
      && (res.Some? ==> (res.value.2 <==> exists k :: 0 <= k < |es| && Enabled(es[k])))
      && (res.Some? && !res.value.2 ==> res.value.0 == es && res.value.1 == block)
    decreases |es|
  {
    if |es| > 0 {
      var p := StageOut(es[0], block, o);
      if p.Some? {
        FoldFlag(es[1..], p.value.1, o);
        var rest := FoldEnabled(es[1..], p.value.1, o);
        if rest.Some? {
          if !Enabled(es[0]) && rest.value.2 {
            var k :| 0 <= k < |es[1..]| && Enabled(es[1..][k]);
            assert Enabled(es[k + 1]);
          }
          if !Enabled(es[0]) && !rest.value.2 {
            assert [es[0]] + es[1..] == es;
          }
        }
      }
    }
  }

  /** Only an enabled reverse delay or looper makes the loop fail. */
  lemma {:induction false} FoldThrows(es: seq<Unit>, block: seq<real>, o: Oracles)
    requires ValidOracles(o)
    requires forall k :: 0 <= k < |es| ==> Units.Inv(es[k])
    ensures FoldEnabled(es, block, o).None? ==> exists k :: 0 <= k < |es| && CanThrow(es[k])
    decreases |es|
  {
    if |es| > 0 {
      var p := StageOut(es[0], block, o);
      if p.Some? {
        FoldThrows(es[1..], p.value.1, o);
        if FoldEnabled(es[1..], p.value.1, o).None? {
          var k :| 0 <= k < |es[1..]| && CanThrow(es[1..][k]);
          assert CanThrow(es[k + 1]);
        }
      }
    }
  }

  /** Effects that all hand the block through leave it unchanged. */
  lemma {:induction false} FoldTransparent(es: seq<Unit>, block: seq<real>, o: Oracles)
    requires ValidOracles(o)
    requires forall k :: 0 <= k < |es| ==> Units.Inv(es[k]) && Transparent(es[k])
    ensures FoldEnabled(es, block, o).Some? ==> FoldEnabled(es, block, o).value.1 == block
    decreases |es|
  {
    if |es| > 0 {
      var p := StageOut(es[0], block, o);
      if p.Some? {
        FoldTransparent(es[1..], p.value.1, o);
      }
    }
  }

  /** The effects of `process`, in order, on the block; the flag says
      whether any of them was enabled. */
  method Run(es: seq<Unit>, block: seq<real>, o: Oracles) returns (res: Option<(seq<Unit>, seq<real>, bool)>)
    requires ValidOracles(o)
    requires forall k :: 0 <= k < |es| ==> Units.Inv(es[k])
    ensures res == FoldEnabled(es, block, o)
    decreases |es|
  {
    if |es| == 0 {
      return Some(([], block, false));
    }
    var p := Stage(es[0], block, o);
    if p.None? {
      return None;
    }
    var rest := Run(es[1..], p.value.1, o);
    if rest.None? {
      return None;
    }
    res := Some(([p.value.0] + rest.value.0, rest.value.1, Enabled(es[0]) || rest.value.2));
  }
}

=== FILE: common.dfy ===
/** Shared vocabulary of the model: optional values, parameter tables, the
    clamp every effect uses, Java's numeric conversions over the reals, and
    the oracles that stand in for java.lang.Math's transcendental functions. */
module Common {

  /** A reference that may be null. */
  datatype Option<+T> = None | Some(value: T)

  /** A Java `Map<String, Float>` of effect parameters. */
  type Params = map<string, real>

  /** A Java `byte`, held as its unsigned bit pattern. */
  type Byte = x: int | 0 <= x < 256

  /** `Map.getOrDefault(key, d)`. */
  function GetOr(p: Params, key: string, d: real): (r: real)
    ensures key in p ==> r == p[key]
    ensures key !in p ==> r == d
  {
    if key in p then p[key] else d
  }

  /** The product of two samples, gains or coefficients. Products of two
      non-constant reals are kept behind this name so that the solver treats
      them as terms; the lemmas below supply the arithmetic facts needed. */
  function Mul(a: real, b: real): real { a * b }

  /** Multiplying by 0 or by 1. */
  lemma MulUnit(a: real)
    ensures Mul(a, 1.0) == a && Mul(1.0, a) == a
    ensures Mul(a, 0.0) == 0.0 && Mul(0.0, a) == 0.0
  {
  }

  /** A factor of magnitude at most 1 does not increase a bound. */
  lemma MulBounded(a: real, b: real, bound: real)
    requires -1.0 <= a <= 1.0 && -bound <= b <= bound
    ensures -bound <= Mul(a, b) <= bound && -bound <= Mul(b, a) <= bound
  {
    MulComm(a, b);
    if a >= 0.0 {
      MulBoundedNonNeg(a, b, bound);
    } else {
      MulBoundedNonNeg(-a, b, bound);
      MulNeg(a, b);
    }
  }

  lemma MulComm(a: real, b: real)
    ensures Mul(a, b) == Mul(b, a)
  {
  }

  lemma MulNeg(a: real, b: real)
    ensures Mul(-a, b) == -Mul(a, b)
  {
  }

  lemma MulBoundedNonNeg(a: real, b: real, bound: real)
    requires 0.0 <= a <= 1.0 && -bound <= b <= bound
    ensures -bound <= Mul(a, b) <= bound
  {
    MulMono(a, b, bound);
    MulMono(a, -bound, b);
    MulMonoRight(a, 1.0, bound);
    MulNeg(bound, a);
    MulComm(a, bound);
    MulComm(a, -bound);
    MulUnit(bound);
  }

  /** The product of two non-negative values is non-negative. */
  lemma MulNonNeg(a: real, b: real)
    requires 0.0 <= a && 0.0 <= b
    ensures 0.0 <= Mul(a, b)
  {
    MulMono(a, 0.0, b);
    MulUnit(a);
  }

  /** A square is non-negative. */
  lemma MulSquare(a: real)
    ensures 0.0 <= Mul(a, a)
  {
    if a < 0.0 {
      MulNonNeg(-a, -a);
    } else {
      MulNonNeg(a, a);
    }
  }

  /** Multiplying by a non-negative factor keeps an order. */
  lemma MulMono(a: real, b: real, c: real)
    requires 0.0 <= a && b <= c
    ensures Mul(a, b) <= Mul(a, c)
  {
    assert a * b <= a * c;
  }

  /** Multiplying on the right by a non-negative factor keeps an order. */
  lemma MulMonoRight(a: real, c: real, b: real)
    requires 0.0 <= b && a <= c
    ensures Mul(a, b) <= Mul(c, b)
  {
    assert a * b <= c * b;
  }

  function Min(a: real, b: real): real { if a <= b then a else b }
  function Max(a: real, b: real): real { if a >= b then a else b }

  /** `Math.max(lo, Math.min(hi, v))`, the clamp every effect uses. */
  function Clamp(v: real, lo: real, hi: real): (r: real)
    requires lo <= hi
    ensures lo <= r <= hi
    ensures lo <= v <= hi ==> r == v
    ensures v < lo ==> r == lo
    ensures v > hi ==> r == hi
  {
    Max(lo, Min(hi, v))
  }

  /** Clamping twice is clamping once. */
  lemma ClampIdempotent(v: real, lo: real, hi: real)
    requires lo <= hi
    ensures Clamp(Clamp(v, lo, hi), lo, hi) == Clamp(v, lo, hi)
  {
  }

  /** A non-empty sequence is its prefix with the last element put back. */
  lemma SnocLast<T>(s: seq<T>)
    requires |s| > 0
    ensures s[..|s| - 1] + [s[|s| - 1]] == s
  {
  }

  /** Taking i + 1 elements and then i is taking i; taking all is the whole. */
  lemma PrefixStep<T>(s: seq<T>, i: nat)
    requires i < |s|
    ensures s[..i + 1][..i] == s[..i] && s[..|s|] == s
  {
  }

  /** Java's `(int) x` for a finite value inside int range: truncation toward zero. */
  function Trunc(x: real): (n: int)
    ensures 0.0 <= x ==> n as real <= x < n as real + 1.0
    ensures x < 0.0 ==> n as real - 1.0 < x <= n as real
    ensures 0.0 <= x ==> 0 <= n
  {
    if x >= 0.0 then x.Floor else -((-x).Floor)
  }

  /** `Math.round(x)`: the nearest integer, halves rounded up. */
  function Round(x: real): (n: int)
    ensures x - 0.5 < n as real <= x + 0.5
  {
    (x + 0.5).Floor
  }

  /** Java's `%` on doubles (fmod): the remainder of truncated division,
      a - b * trunc(a / b), written here as b * (a / b - trunc(a / b)). */
  function FMod(a: real, b: real): (r: real)
    requires b > 0.0
    ensures 0.0 <= a ==> 0.0 <= r < b
    ensures a < 0.0 ==> -b < r <= 0.0
  {
    var x := a / b;
    var frac := x - Trunc(x) as real;
    assert 0.0 <= a ==> 0.0 <= x;
    assert a < 0.0 ==> x < 0.0;
    ScaleFraction(b, frac);
    b * frac
  }

  /** A positive scale maps a fraction in (-1, 1) to (-b, b), keeping its sign. */
  lemma ScaleFraction(b: real, u: real)
    requires b > 0.0
    ensures 0.0 <= u < 1.0 ==> 0.0 <= b * u < b
    ensures -1.0 < u <= 0.0 ==> -b < b * u <= 0.0
  {
    if 0.0 <= u < 1.0 {
      assert b * u < b * 1.0;
    }
    if -1.0 < u <= 0.0 {
      assert b * -1.0 < b * u;
    }
  }

  /** `r` is the non-negative square root of `x`: what `Math.sqrt` returns. */
  predicate IsSqrt(r: real, x: real) {
    0.0 <= r && Mul(r, r) == x
  }

  /** The only square root of 1 is 1. */
  lemma SqrtOfOne(r: real)
    requires IsSqrt(r, 1.0)
    ensures r == 1.0
  {
    if r < 1.0 {
      MulMono(r, r, 1.0);
    } else if r > 1.0 {
      MulMono(r, 1.0, r);
      MulMono(1.0, 1.0, r);
    }
  }

  /** What the model assumes of `Math.tanh` (and of any other bounded
      waveform oracle, such as `Math.sin`): it never leaves [-1, 1]. */
  ghost predicate Bounded1(f: real -> real) {
    forall x :: -1.0 <= f(x) <= 1.0
  }

  /** What the model assumes of `Math.sqrt`: exact at 0 and 1, and a
      non-negative square root everywhere else on the non-negative reals. */
  ghost predicate SqrtOracle(sqrt: real -> real) {
    && sqrt(0.0) == 0.0
    && sqrt(1.0) == 1.0
    && forall x :: 0.0 <= x ==> IsSqrt(sqrt(x), x)
  }

  /** The equal-power gains of a wet ratio: `sqrt(1 - wet)` for the dry
      signal and `sqrt(wet)` for the wet one. */
  function EqualPower(wet: real, sqrt: real -> real): (g: (real, real))
    requires 0.0 <= wet <= 1.0 && SqrtOracle(sqrt)
    ensures wet == 0.0 ==> g == (1.0, 0.0)
    ensures wet == 1.0 ==> g == (0.0, 1.0)
    ensures IsSqrt(g.0, 1.0 - wet) && IsSqrt(g.1, wet)
  {
    (sqrt(1.0 - wet), sqrt(wet))
  }

  /** Java's `%` on ints: the remainder takes the sign of the dividend. */
  function JRem(a: int, b: int): (r: int)
    requires b > 0
    ensures 0 <= a ==> 0 <= r < b && r == a % b
    ensures a < 0 ==> -b < r <= 0
  {
    if a >= 0 then a % b else -((-a) % b)
  }

  lemma MulAtLeast(k: int, n: int)
    requires k >= 1 && n >= 1
    ensures k * n >= n
  {
  }

  /** Quotient and remainder are determined by `x == q * n + r`, 0 <= r < n. */
  lemma {:induction false} DivModUnique(x: int, n: int, q: int, r: int)
    requires n >= 1 && 0 <= r < n && x == q * n + r
    ensures x % n == r && x / n == q
  {
    var q0 := x / n;
    var r0 := x % n;
    assert x == q0 * n + r0;
    if q0 > q {
      MulAtLeast(q0 - q, n);
    } else if q0 < q {
      MulAtLeast(q - q0, n);
    }
  }

  /** Advancing a reduced index by c is advancing the original by c. */
  lemma {:induction false} ModAdd(x: int, c: int, n: int)
    requires n >= 1
    ensures (x % n + c) % n == (x + c) % n
  {
    var q := x / n;
    var m := x % n;
    DivModUnique(m + c, n, (m + c) / n, (m + c) % n);
    DivModUnique(x + c, n, q + (m + c) / n, (m + c) % n);
  }

  /** A whole lap leaves a remainder unchanged. */
  lemma {:induction false} ModLap(x: int, n: int)
    requires n >= 1
    ensures (x + n) % n == x % n
  {
    DivModUnique(x + n, n, x / n + 1, x % n);
  }

  /** Wrapping an index that is at most one lap outside [0, n). */
  function Wrap(a: int, n: int): (r: int)
    requires n >= 1 && -n <= a < 2 * n
    ensures 0 <= r < n
    ensures r == a % n
  {
    if a < 0 then a + n else if a >= n then a - n else a
  }

  /** Java's `(a % n)` for an index at most one lap past the end. */
  lemma {:induction false} JRemWraps(a: int, n: int)
    requires n >= 1 && 0 <= a < 2 * n
    ensures JRem(a, n) == Wrap(a, n)
  {
  }

  /** Sample rates the effects accept: every buffer they size from the rate
      then holds at least one sample. */
  predicate ValidRate(sampleRate: real) {
    sampleRate >= 1.0
  }

  /** A stand-in for a `java.util.Random`, indexed by how many values were
      already taken from it: every draw lies in [0, 1). */
  ghost predicate RandomSource(rnd: nat -> real) {
    forall k :: 0.0 <= rnd(k) < 1.0
  }

  /** `random.nextInt(bound)` from the draw `u`. */
  function NextInt(u: real, bound: int): (n: int)
    requires 0.0 <= u < 1.0 && bound >= 1
    ensures 0 <= n < bound
  {
    var x := Mul(bound as real, u);
    assert 0.0 <= x < bound as real by { ScaleFraction(bound as real, u); }
    var n := Trunc(x);
    assert n as real < bound as real;
    n
  }

  /** Draws of `Math.random()` or `Random.nextFloat()`: each in [0, 1). */
  predicate Draws(u: seq<real>) {
    forall i :: 0 <= i < |u| ==> 0.0 <= u[i] < 1.0
  }

  /** The equal-power mono fold-down the stereo effects end with:
      `in * dry + (left * wet + right * wet) * 0.5`. */
  function MonoMix(x: real, left: real, right: real, dryGain: real, wetGain: real): real {
    Mul(x, dryGain) + (Mul(left, wetGain) + Mul(right, wetGain)) * 0.5
  }

  /** With the gains of a wet ratio of 0 (dry 1, wet 0) the mix is the dry
      input; with those of a ratio of 1 it is the mean of the two channels. */
  lemma {:induction false} MonoMixEnds(x: real, left: real, right: real)
    ensures MonoMix(x, left, right, 1.0, 0.0) == x
    ensures MonoMix(x, left, right, 0.0, 1.0) == (left + right) * 0.5
  {
    MulUnit(x);
    MulUnit(left);
    MulUnit(right);
  }

  /** The mix is the dry term plus the wet gain times the fully wet mix
      (dry gain 0, wet gain 1): the gains scale the two signals and nothing else. */
  lemma {:induction false} MonoMixSplit(x: real, left: real, right: real, dryGain: real, wetGain: real)
    ensures MonoMix(x, left, right, dryGain, wetGain)
         == Mul(x, dryGain) + Mul(MonoMix(x, left, right, 0.0, 1.0), wetGain)
  {
    MonoMixEnds(x, left, right);
    assert Mul((left + right) * 0.5, wetGain) == (Mul(left, wetGain) + Mul(right, wetGain)) * 0.5;
  }

  /** Each sample of `out` is the dry gain times the input sample plus the
      wet gain times the fully wet sample at the same position. */
  predicate MixedFrom(out: seq<real>, input: seq<real>, wet: seq<real>, dryGain: real, wetGain: real) {
    && |out| == |input| && |wet| == |input|
    && forall k :: 0 <= k < |input| ==> out[k] == Mul(input[k], dryGain) + Mul(wet[k], wetGain)
  }

  /** Appending one mixed sample keeps a block mixed. */
  lemma MixedSnoc(out: seq<real>, input: seq<real>, wet: seq<real>, dryGain: real, wetGain: real, y: real, x: real, w: real)
    requires MixedFrom(out, input, wet, dryGain, wetGain)
    requires y == Mul(x, dryGain) + Mul(w, wetGain)
    ensures MixedFrom(out + [y], input + [x], wet + [w], dryGain, wetGain)
  {
    var o, i, v := out + [y], input + [x], wet + [w];
    forall k | 0 <= k < |i|
      ensures o[k] == Mul(i[k], dryGain) + Mul(v[k], wetGain)
    {
      if k < |input| {
        assert o[k] == out[k] && i[k] == input[k] && v[k] == wet[k];
      }
    }
  }

  /** The first-order low-pass step `state + coeff * (input - state)`
      shared by the tone filters of the distortion-family effects. */
  function OnePole(state: real, input: real, coeff: real): (r: real)
    requires 0.0 <= coeff <= 1.0
    ensures Min(state, input) <= r <= Max(state, input)
  {
    OnePoleBetween(state, input, coeff);
    state + Mul(coeff, input - state)
  }

  lemma OnePoleBetween(state: real, input: real, coeff: real)
    requires 0.0 <= coeff <= 1.0
    ensures Min(state, input) <= state + Mul(coeff, input - state) <= Max(state, input)
  {
    var d := input - state;
    if d >= 0.0 {
      MulMonoRight(0.0, coeff, d);
      MulMonoRight(coeff, 1.0, d);
      MulUnit(d);
    } else {
      MulMonoRight(0.0, coeff, -d);
      MulMonoRight(coeff, 1.0, -d);
      MulUnit(-d);
      assert Mul(coeff, -d) == -Mul(coeff, d);
    }
  }

  /** The one-pole step keeps any symmetric bound of its state and input. */
  lemma OnePoleKeepsBound(state: real, input: real, coeff: real, bound: real)
    requires 0.0 <= coeff <= 1.0
    requires -bound <= state <= bound && -bound <= input <= bound
    ensures -bound <= OnePole(state, input, coeff) <= bound
  {
  }

  /** The tone-filter coefficient: f = cutoff / sampleRate, f / (1 + f),
      clamped to [0, 0.99]. */
  function LowpassCoeff(cutoff: real, sampleRate: real): (c: real)
    requires cutoff >= 0.0 && sampleRate > 0.0
    ensures 0.0 <= c <= 0.99
    ensures c == Min(0.99, (cutoff / sampleRate) / (1.0 + cutoff / sampleRate))
  {
    var f := cutoff / sampleRate;
    Clamp(f / (1.0 + f), 0.0, 0.99)
  }

  /** A brighter cutoff never gives a smaller coefficient. */
  lemma {:induction false} LowpassCoeffMonotone(c1: real, c2: real, sampleRate: real)
    requires 0.0 <= c1 <= c2 && sampleRate > 0.0
    ensures LowpassCoeff(c1, sampleRate) <= LowpassCoeff(c2, sampleRate)
  {
    var f1 := c1 / sampleRate;
    var f2 := c2 / sampleRate;
    assert f1 <= f2 by {
      assert c1 / sampleRate <= c2 / sampleRate;
    }
    // f/(1+f) = 1 - 1/(1+f) grows with f
    assert f1 / (1.0 + f1) == 1.0 - 1.0 / (1.0 + f1);
    assert f2 / (1.0 + f2) == 1.0 - 1.0 / (1.0 + f2);
    assert 1.0 / (1.0 + f2) <= 1.0 / (1.0 + f1);
  }

  /** The output-gain compensation `y / drive` of the drive stages keeps a
      signal in [-1, 1] for every drive of at least 1. */
  lemma {:induction false} Compensated(y: real, drive: real)
    requires drive >= 1.0 && -1.0 <= y <= 1.0
    ensures -1.0 <= y / drive <= 1.0
  {
    var q := y / drive;
    assert Mul(q, drive) == y;
    if q > 1.0 {
      MulMonoRight(1.0, q, drive);
      MulUnit(drive);
      assert false;
    }
    if q < -1.0 {
      MulMonoRight(q, -1.0, drive);
      MulNeg(1.0, drive);
      MulUnit(drive);
      assert false;
    }
  }

  /** Dividing by a positive number keeps a symmetric bound, scaled by it. */
  lemma {:induction false} DivBounds(y: real, m: real, d: real)
    requires d > 0.0 && -m <= y <= m
    ensures -m / d <= y / d <= m / d
  {
    assert m / d - y / d == (m - y) / d;
    assert y / d + m / d == (y + m) / d;
  }

  /** A larger positive divisor gives a smaller quotient of a non-negative number. */
  lemma {:induction false} DivAntitone(m: real, d1: real, d2: real)
    requires 0.0 <= m && 0.0 < d1 <= d2
    ensures m / d2 <= m / d1
  {
    assert m / d1 - m / d2 == m * (d2 - d1) / (d1 * d2);
  }

  /** Dividing by the drive undoes multiplying by it. */
  lemma {:induction false} MulDivCancel(x: real, drive: real)
    requires drive > 0.0
    ensures Mul(x, drive) / drive == x
  {
  }

  /** The disabled path of every effect: `System.arraycopy(in, 0, out, 0, n)`. */
  function Copy(input: seq<real>): (out: seq<real>)
    ensures |out| == |input| && forall i :: 0 <= i < |input| ==> out[i] == input[i]
  {
    input
  }

  /** A block of `n` zero samples, what `new float[n]` holds. */
  function Zeros(n: nat): (z: seq<real>)
    ensures |z| == n && forall i :: 0 <= i < n ==> z[i] == 0.0
  {
    seq(n, _ => 0.0)
  }

  /** Every sample of `s` lies in [-b, b]. */
  predicate AllWithin(s: seq<real>, b: real) {
    forall i :: 0 <= i < |s| ==> -b <= s[i] <= b
  }
}

=== FILE: controller.dfy ===
/** EffectsController: the façade the user interface drives. It creates
    effects through the registry, appends them to the chain with per-id
    default settings, and forwards index-checked setters and getters to the
    effect at that index. The registry is a parameter rather than a static. */
module Controller {
  import opened Common
  import opened Units
  import Chain
  import Registry
  import DelayEffect

  /** The parameters `addEffect` applies, in order, to a new effect created
      under `id`. The table is keyed by the identifier asked for, not by the
      kind of effect the factory builds. */
  function DefaultParams(id: string): (ps: seq<(string, real)>)
    ensures id !in EffectIds || id == "bypass" ==> ps == []
  {
    if id == "delay" then [("time", 320.0), ("feedback", 0.35)]
    else if id == "reverb" then [("room", 0.6), ("damp", 0.4)]
    else if id == "bitcrusher" then [("bitdepth", 10.0), ("rate", 12000.0)]
    else if id == "overdrive" then [("drive", 4.0), ("tone", 0.6)]
    else if id == "distortion" then [("drive", 6.0), ("shape", 0.5), ("tone", 0.55)]
    else if id == "fuzz" then [("drive", 12.0), ("bias", 0.15), ("tone", 0.45)]
    else if id == "wavefolder" then [("fold", 3.0), ("symmetry", 0.0), ("tone", 0.6)]
    else if id == "reverseDelay" then
      [("time", 600.0), ("feedback", 0.35), ("crossfade", 8.0), ("freeze", 0.0)]
    else if id == "granular" then
      [("grainSize", 60.0), ("density", 25.0), ("pitch", 1.0), ("jitter", 0.4), ("reverseProb", 0.2)]
    else if id == "looper" then
      [("loopLen", 2000.0), ("overdub", 0.0), ("feedback", 0.3), ("speed", 1.0), ("reverse", 0.0),
       ("stutterOn", 0.0), ("stutterProb", 0.2), ("sliceLen", 60.0), ("jitter", 0.1)]
    else []
  }

  /** The wet/dry ratio `addEffect` applies last, if any. */
  function DefaultWet(id: string): (w: Option<real>)
    ensures w.Some? <==> id in EffectIds && id != "bypass"
    ensures w.Some? ==> 0.0 <= w.value <= 1.0
  {
    if id == "delay" then Some(0.25)
    else if id == "reverb" then Some(0.30)
    else if id == "bitcrusher" then Some(0.20)
    else if id == "overdrive" then Some(0.35)
    else if id == "distortion" then Some(0.35)
    else if id == "fuzz" then Some(0.30)
    else if id == "wavefolder" then Some(0.30)
    else if id == "reverseDelay" then Some(0.35)
    else if id == "granular" then Some(0.6)
    else if id == "looper" then Some(0.35)
    else None
  }

  /** Two chains that differ at most in the effect at `index`, which keeps
      its identity, flag and rate. */
  predicate OnlyAt(r: Chain.Chain, c: Chain.Chain, index: int)
    requires 0 <= index < |c.effects|
  {
    |r.effects| == |c.effects| && r.maxBufferSize == c.maxBufferSize && r.sampleRate == c.sampleRate
    && (forall k :: 0 <= k < |c.effects| && k != index ==> r.effects[k] == c.effects[k])
    && Id(r.effects[index]) == Id(c.effects[index])
    && SampleRate(r.effects[index]) == SampleRate(c.effects[index])
  }

  /** `setEffectParameter`: false and no change for an index out of range. */
  function SetEffectParameter(c: Chain.Chain, index: int, name: string, v: real): (res: (Chain.Chain, bool))
    requires Chain.Inv(c)
    ensures Chain.Inv(res.0)
    ensures res.1 <==> 0 <= index < |c.effects|
    ensures !res.1 ==> res.0 == c
    ensures res.1 ==> OnlyAt(res.0, c, index) && Enabled(res.0.effects[index]) == Enabled(c.effects[index])
  {
    match Chain.GetEffect(c, index)
    case None => (c, false)
    case Some(u) =>
      var u' := Units.SetParameter(u, name, v);
      Chain.InvReplace(c, index, u');
      (c.(effects := c.effects[index := u']), true)
  }

  /** `getEffectParameter`: 0 for an index out of range. */
  function GetEffectParameter(c: Chain.Chain, index: int, name: string): (v: real)
    ensures !(0 <= index < |c.effects|) ==> v == 0.0
    ensures 0 <= index < |c.effects| ==> v == Units.GetParameter(c.effects[index], name)
  {
    match Chain.GetEffect(c, index)
    case None => 0.0
    case Some(u) => Units.GetParameter(u, name)
  }

  /** `setEffectEnabled`: false and no change for an index out of range. */
  function SetEffectEnabled(c: Chain.Chain, index: int, e: bool): (res: (Chain.Chain, bool))
    requires Chain.Inv(c)
    ensures Chain.Inv(res.0)
    ensures res.1 <==> 0 <= index < |c.effects|
    ensures !res.1 ==> res.0 == c
    ensures res.1 ==> OnlyAt(res.0, c, index) && Enabled(res.0.effects[index]) == e
    ensures res.1 ==> Wet(res.0.effects[index]) == Wet(c.effects[index])
  {
    match Chain.GetEffect(c, index)
    case None => (c, false)
    case Some(u) =>
      var u' := Units.SetEnabled(u, e);
      Chain.InvReplace(c, index, u');
      (c.(effects := c.effects[index := u']), true)
  }

  /** `isEffectEnabled`: false for an index out of range. */
  function IsEffectEnabled(c: Chain.Chain, index: int): (b: bool)
    ensures b <==> 0 <= index < |c.effects| && Enabled(c.effects[index])
  {
    match Chain.GetEffect(c, index)
    case None => false
    case Some(u) => Enabled(u)
  }

  /** `setEffectWetDryRatio`: false and no change for an index out of range. */
  function SetEffectWetDryRatio(c: Chain.Chain, index: int, w: real): (res: (Chain.Chain, bool))
    requires Chain.Inv(c)
    ensures Chain.Inv(res.0)
    ensures res.1 <==> 0 <= index < |c.effects|
    ensures !res.1 ==> res.0 == c
    ensures res.1 ==> OnlyAt(res.0, c, index) && Enabled(res.0.effects[index]) == Enabled(c.effects[index])
    ensures res.1 ==> 0.0 <= Wet(res.0.effects[index]) <= 1.0
  {
    match Chain.GetEffect(c, index)
    case None => (c, false)
    case Some(u) =>
      var u' := Units.SetWetDryRatio(u, w);
      Chain.InvReplace(c, index, u');
      (c.(effects := c.effects[index := u']), true)
  }

  /** `getEffectWetDryRatio`: 0 for an index out of range. */
  function GetEffectWetDryRatio(c: Chain.Chain, index: int): (w: real)
    ensures !(0 <= index < |c.effects|) ==> w == 0.0
    ensures 0 <= index < |c.effects| ==> w == Wet(c.effects[index])
  {
    match Chain.GetEffect(c, index)
    case None => 0.0
    case Some(u) => Wet(u)
  }

  /** Reading the flag back after `setEffectEnabled` gives the flag set,
      or false for an index out of range. */
  lemma EnabledReadBack(c: Chain.Chain, index: int, e: bool)
    requires Chain.Inv(c)
    ensures IsEffectEnabled(SetEffectEnabled(c, index, e).0, index) == (0 <= index < |c.effects| && e)
  {
  }

  /** Reading the ratio back after `setEffectWetDryRatio` gives it clamped
      to [0, 1], or 0 for an index out of range. */
  lemma WetReadBack(c: Chain.Chain, index: int, w: real)
    requires Chain.Inv(c)
    ensures GetEffectWetDryRatio(SetEffectWetDryRatio(c, index, w).0, index)
      == if 0 <= index < |c.effects| then Clamp(w, 0.0, 1.0) else 0.0
  {
  }

  /** The default parameters, one `setParameter` call each, in order. */
  function SetAll(u: Unit, ps: seq<(string, real)>): (r: Unit)
    requires Units.Inv(u)
    ensures Units.Inv(r) && Id(r) == Id(u) && Enabled(r) == Enabled(u) && SampleRate(r) == SampleRate(u)
    decreases |ps|
  {
    if ps == [] then u else SetAll(Units.SetParameter(u, ps[0].0, ps[0].1), ps[1..])
  }

  /** `setEffectParameter` at `index` for each default in turn. */
  function ApplyParams(c: Chain.Chain, index: int, ps: seq<(string, real)>): (r: Chain.Chain)
    requires Chain.Inv(c) && 0 <= index < |c.effects|
    ensures Chain.Inv(r) && OnlyAt(r, c, index)
    ensures Enabled(r.effects[index]) == Enabled(c.effects[index])
    ensures r.effects[index] == SetAll(c.effects[index], ps)
  {
    Chain.InvReplace(c, index, SetAll(c.effects[index], ps));
    c.(effects := c.effects[index := SetAll(c.effects[index], ps)])
  }

  /** The defaults for `id` applied to one effect: its parameters in
      order, then its wet/dry ratio. */
  function Configure(u: Unit, id: string): (r: Unit)
    requires Units.Inv(u)
    ensures Units.Inv(r) && Id(r) == Id(u) && Enabled(r) == Enabled(u) && SampleRate(r) == SampleRate(u)
    ensures DefaultWet(id).Some? ==> Wet(r) == DefaultWet(id).value
  {
    var u2 := SetAll(u, DefaultParams(id));
    if DefaultWet(id).Some? then Units.SetWetDryRatio(u2, DefaultWet(id).value) else u2
  }

  /** `addEffect`: None and no change when the registry has no factory for
      `id`; otherwise the new effect is appended, enabled, with the
      defaults for `id` applied, and is also returned. */
  function AddEffect(reg: Registry.Registry, c: Chain.Chain, id: string): (res: (Chain.Chain, Option<Unit>))
    requires Registry.Inv(reg) && Chain.Inv(c)
    ensures Chain.Inv(res.0)
    ensures res.1.None? <==> !Registry.Has(reg, id)
    ensures res.1.None? ==> res.0 == c
    ensures res.1.Some? ==>
      |res.0.effects| == |c.effects| + 1 && res.0.effects[..|c.effects|] == c.effects
      && res.0.effects[|c.effects|] == res.1.value
      && Id(res.1.value) == reg.factories[id] && Enabled(res.1.value)
      && SampleRate(res.1.value) == c.sampleRate
    ensures res.1.Some? && DefaultWet(id).Some? ==> Wet(res.1.value) == DefaultWet(id).value
  {
    var e := Registry.Create(reg, id);
    if e.None? then (c, None)
    else
      var c1 := Chain.AddEffect(c, e);
      var i := |c1.effects| - 1;
      var u := Configure(c1.effects[i], id);
      Chain.InvReplace(c1, i, u);
      assert c1.effects[i := u][..|c.effects|] == c.effects;
      (c1.(effects := c1.effects[i := u]), Some(u))
  }

  /** Configuring an effect in one go, as `AddEffect` does for the new last
      effect, is the same as the controller's own sequence of index-checked
      setter calls at its index. */
  lemma {:induction false} ConfigureIsSetterSequence(c: Chain.Chain, i: int, id: string)
    requires Chain.Inv(c) && 0 <= i < |c.effects|
    ensures var c2 := ApplyParams(c, i, DefaultParams(id));
      var c3 := if DefaultWet(id).Some? then SetEffectWetDryRatio(c2, i, DefaultWet(id).value).0 else c2;
      c3 == c.(effects := c.effects[i := Configure(c.effects[i], id)])
  {
    var c2 := ApplyParams(c, i, DefaultParams(id));
    var u2 := SetAll(c.effects[i], DefaultParams(id));
    assert c2.effects == c.effects[i := u2];
    if DefaultWet(id).Some? {
      assert Chain.GetEffect(c2, i) == Some(u2);
      assert SetEffectWetDryRatio(c2, i, DefaultWet(id).value).0.effects
        == c.effects[i := Units.SetWetDryRatio(u2, DefaultWet(id).value)];
    }
  }

  /** The ratio read back is the ratio set, clamped to [0, 1]; for an index
      out of range both calls fall back to their defaults. */
  lemma {:induction false} WetRoundTrip(c: Chain.Chain, index: int, w: real)
    requires Chain.Inv(c)
    ensures var r := SetEffectWetDryRatio(c, index, w);
      GetEffectWetDryRatio(r.0, index) == if r.1 then Clamp(w, 0.0, 1.0) else 0.0
  {
  }

  /** The flag read back is the flag set; false for an index out of range. */
  lemma {:induction false} EnabledRoundTrip(c: Chain.Chain, index: int, e: bool)
    requires Chain.Inv(c)
    ensures var r := SetEffectEnabled(c, index, e);
      IsEffectEnabled(r.0, index) == (r.1 && e)
  {
  }

  /** A setter aimed at one index leaves every other effect's parameters,
      flags and ratios as they were. */
  lemma {:induction false} SettersAreLocal(c: Chain.Chain, i: int, j: int, name: string, v: real, q: string)
    requires Chain.Inv(c) && i != j
    ensures GetEffectParameter(SetEffectParameter(c, i, name, v).0, j, q) == GetEffectParameter(c, j, q)
    ensures IsEffectEnabled(SetEffectParameter(c, i, name, v).0, j) == IsEffectEnabled(c, j)
    ensures GetEffectWetDryRatio(SetEffectParameter(c, i, name, v).0, j) == GetEffectWetDryRatio(c, j)
  {
  }

  /** The delay defaults land on a delay: 320 ms, feedback 0.35, wet 0.25. */
  lemma {:induction false} DelayConfigure(u: Unit)
    requires Units.Inv(u) && u.Delay?
    ensures var r := Configure(u, "delay");
      r.Delay? && r.delay.timeMs == 320.0 && r.delay.feedback == 0.35 && r.delay.wet == 0.25
      && GetParameter(r, "time") == 320.0
  {
    var d2 := DelayEffect.SetParameter(u.delay, "time", 320.0);
    var d3 := DelayEffect.SetParameter(d2, "feedback", 0.35);
    assert d3.timeMs == 320.0 && d3.params["time"] == 320.0 && d3.feedback == 0.35;
    assert SetAll(u, DefaultParams("delay")) == Delay(d3) by {
      assert DefaultParams("delay")[1..][1..] == [];
    }
    var d4 := DelayEffect.SetWetDryRatio(d3, 0.25);
    assert d4.params["time"] == 320.0;
  }

  /** With the built-in registry, a delay added through the controller runs
      at 320 ms with feedback 0.35 and wet ratio 0.25. */
  lemma {:induction false} DelayDefaults(c: Chain.Chain)
    requires Chain.Inv(c)
    ensures var r := AddEffect(Registry.Default(), c, "delay");
      r.1.Some? && r.1.value.Delay?
      && GetParameter(r.1.value, "time") == 320.0
      && r.1.value.delay.timeMs == 320.0 && r.1.value.delay.feedback == 0.35
      && Wet(r.1.value) == 0.25
  {
    var reg := Registry.Default();
    Registry.DefaultRegistry();
    var c1 := Chain.AddEffect(c, Registry.Create(reg, "delay"));
    var u1 := c1.effects[|c.effects|];
    assert u1.Delay? by {
      assert Id(u1) == "delay";
    }
    DelayConfigure(u1);
  }
}

=== FILE: delay.dfy ===
/** DelayEffect: a stereo feedback delay over two ring buffers sized for the
    longest delay (1200 ms), mixed to mono with equal-power gains. */
module DelayEffect {
  import opened Common

  const Id: string := "delay"

  const DefaultTime: real := 320.0
  const DefaultFeedback: real := 0.35
  const DefaultWet: real := 0.25
  const MinTime: real := 20.0
  const MaxTime: real := 1200.0
  const MaxFeedback: real := 0.95

  datatype State = State(
    enabled: bool, wet: real, sampleRate: real, params: Params,
    timeMs: real, feedback: real,
    bufL: seq<real>, bufR: seq<real>, writeL: int, writeR: int)

  /** Ring-buffer length for a rate: `(int)(MAX_TIME * sampleRate / 1000)`. */
  function BufferLength(sampleRate: real): (n: int)
    requires ValidRate(sampleRate)
    ensures n >= 1
  {
    Trunc(MaxTime * sampleRate / 1000.0)
  }

  /** The invariant every public operation keeps: the typed fields mirror the
      parameter table, the parameters are in range, and both write indices
      lie inside equally long, non-empty buffers. */
  ghost predicate Inv(s: State) {
    && "time" in s.params && s.params["time"] == s.timeMs
    && "feedback" in s.params && s.params["feedback"] == s.feedback
    && "wet" in s.params && s.params["wet"] == s.wet
    && MinTime <= s.timeMs <= MaxTime
    && 0.0 <= s.feedback <= MaxFeedback
    && 0.0 <= s.wet <= 1.0
    && |s.bufL| >= 1 && |s.bufR| == |s.bufL|
    && 0 <= s.writeL < |s.bufL| && 0 <= s.writeR < |s.bufR|
  }

  /** Time-based state as `reset` leaves it: silent buffers, indices at 0. */
  ghost predicate Cleared(s: State) {
    && (forall j :: 0 <= j < |s.bufL| ==> s.bufL[j] == 0.0)
    && (forall j :: 0 <= j < |s.bufR| ==> s.bufR[j] == 0.0)
    && s.writeL == 0 && s.writeR == 0
  }

  /** `reset`: clears buffers and indices, keeps every parameter. */
  function Reset(s: State): (r: State)
    ensures Cleared(r)
    ensures |r.bufL| == |s.bufL| && |r.bufR| == |s.bufR|
    ensures r.enabled == s.enabled && r.wet == s.wet && r.sampleRate == s.sampleRate
    ensures r.params == s.params && r.timeMs == s.timeMs && r.feedback == s.feedback
    ensures Inv(s) ==> Inv(r)
  {
    s.(bufL := Zeros(|s.bufL|), bufR := Zeros(|s.bufR|), writeL := 0, writeR := 0)
  }

  /** `initializeBuffers`: reallocates both buffers for the current rate, then resets. */
  function InitializeBuffers(s: State): (r: State)
    requires ValidRate(s.sampleRate)
    ensures Cleared(r) && |r.bufL| == BufferLength(s.sampleRate)
    ensures r.params == s.params && r.timeMs == s.timeMs && r.feedback == s.feedback
    ensures r.enabled == s.enabled && r.wet == s.wet && r.sampleRate == s.sampleRate
  {
    var n := BufferLength(s.sampleRate);
    Reset(s.(bufL := Zeros(n), bufR := Zeros(n)))
  }

  /** The constructor: defaults stored in the table and buffers for 44.1 kHz. */
  function Init(): (s: State)
    ensures Inv(s) && Cleared(s) && s.enabled
    ensures s.timeMs == DefaultTime && s.feedback == DefaultFeedback && s.wet == DefaultWet
    ensures |s.bufL| == 52920
  {
    InitializeBuffers(State(true, DefaultWet, 44100.0,
      map["time" := DefaultTime, "feedback" := DefaultFeedback, "wet" := DefaultWet],
      DefaultTime, DefaultFeedback, [], [], 0, 0))
  }

  /** `getParameter`: "delayTime" is read from "time"; an unknown name reads 0. */
  function GetParameter(s: State, name: string): (v: real)
    ensures name == "delayTime" ==> v == if "time" in s.params then s.params["time"] else DefaultTime
    ensures name != "delayTime" ==> v == if name in s.params then s.params[name] else 0.0
  {
    if name == "delayTime" then GetOr(s.params, "time", DefaultTime)
    else GetOr(s.params, name, 0.0)
  }

  /** `setParameter`, with its clamps and alias names. */
  function SetParameter(s: State, name: string, v: real): (r: State)
    requires Inv(s)
    ensures Inv(r)
    ensures name == "time" || name == "delayTime" ==>
      r.timeMs == Clamp(v, MinTime, MaxTime)
      && GetParameter(r, "time") == r.timeMs && GetParameter(r, "delayTime") == r.timeMs
    ensures name == "feedback" ==> r.feedback == Clamp(v, 0.0, MaxFeedback)
    ensures name == "wet" || name == "mix" ==>
      r.wet == Clamp(v, 0.0, 1.0) && GetParameter(r, "wet") == r.wet
    ensures name !in {"time", "delayTime", "feedback", "wet", "mix"} ==>
      GetParameter(r, name) == v && r.timeMs == s.timeMs && r.feedback == s.feedback && r.wet == s.wet
    ensures r.enabled == s.enabled && r.sampleRate == s.sampleRate
    ensures r.bufL == s.bufL && r.bufR == s.bufR && r.writeL == s.writeL && r.writeR == s.writeR
  {
    if name == "time" || name == "delayTime" then
      var t := Clamp(v, MinTime, MaxTime);
      s.(timeMs := t, params := s.params["time" := t]["delayTime" := t])
    else if name == "feedback" then
      var f := Clamp(v, 0.0, MaxFeedback);
      s.(feedback := f, params := s.params["feedback" := f])
    else if name == "wet" || name == "mix" then
      var w := Clamp(v, 0.0, 1.0);
      s.(wet := w, params := s.params["wet" := w])
    else
      s.(params := s.params[name := v])
  }

  /** `setWetDryRatio`: clamps to [0, 1] and mirrors the value under "wet". */
  function SetWetDryRatio(s: State, w: real): (r: State)
    requires Inv(s)
    ensures Inv(r) && r.wet == Clamp(w, 0.0, 1.0) && GetParameter(r, "wet") == r.wet
    ensures r.timeMs == s.timeMs && r.feedback == s.feedback && r.enabled == s.enabled && r.sampleRate == s.sampleRate
  {
    SetParameter(s, "wet", w)
  }

  /** `setSampleRate`: records the rate and reallocates the buffers. */
  function SetSampleRate(s: State, sr: real): (r: State)
    requires Inv(s) && ValidRate(sr)
    ensures Inv(r) && Cleared(r) && r.sampleRate == sr && |r.bufL| == BufferLength(sr)
    ensures r.params == s.params && r.enabled == s.enabled && r.wet == s.wet
  {
    InitializeBuffers(s.(sampleRate := sr))
  }

  /** The delay in samples, `(int)(time * sampleRate / 1000)` limited to [0, N-1]. */
  function DelaySamples(timeMs: real, sampleRate: real, n: int): (d: int)
    requires n >= 1
    ensures 0 <= d <= n - 1
    ensures 0 <= Trunc(timeMs * sampleRate / 1000.0) <= n - 1 ==> d == Trunc(timeMs * sampleRate / 1000.0)
  {
    var d := Trunc(timeMs * sampleRate / 1000.0);
    var d1 := if d <= n - 1 then d else n - 1;
    if d1 >= 0 then d1 else 0
  }

  /** The read index `(w - d + N) % N` with Java's remainder and its
      negative-index correction, for a write index in range. */
  function ReadIndex(w: int, d: int, n: int): (r: int)
    requires n >= 1 && 0 <= w < n && 0 <= d <= n - 1
    ensures r == if w >= d then w - d else w - d + n
  {
    JRemWraps(w - d + n, n);
    var r := JRem(w - d + n, n);
    if r < 0 then r + n else r
  }

  /** One sample of `process` after the parameter snapshot: read both delay
      lines, write input plus feedback, and mix. */
  function Step(s: State, x: real, d: int, dryGain: real, wetGain: real): (res: (State, real))
    requires Inv(s) && 0 <= d <= |s.bufL| - 1
    ensures Inv(res.0)
    ensures |res.0.bufL| == |s.bufL|
    ensures res.0.writeL == Wrap(s.writeL + 1, |s.bufL|) && res.0.writeR == Wrap(s.writeR + 1, |s.bufR|)
    ensures res.0.bufL == s.bufL[s.writeL := x + Mul(s.bufL[ReadIndex(s.writeL, d, |s.bufL|)], s.feedback)]
    ensures res.0.bufR == s.bufR[s.writeR := x + Mul(s.bufR[ReadIndex(s.writeR, d, |s.bufR|)], s.feedback)]
    ensures res.1 == MonoMix(x, s.bufL[ReadIndex(s.writeL, d, |s.bufL|)],
                                s.bufR[ReadIndex(s.writeR, d, |s.bufR|)], dryGain, wetGain)
    ensures res.0.params == s.params && res.0.timeMs == s.timeMs && res.0.feedback == s.feedback
    ensures res.0.wet == s.wet && res.0.enabled == s.enabled && res.0.sampleRate == s.sampleRate
  {
    var n := |s.bufL|;
    var rl := ReadIndex(s.writeL, d, n);
    var rr := ReadIndex(s.writeR, d, n);
    var dl := s.bufL[rl];
    var dr := s.bufR[rr];
    JRemWraps(s.writeL + 1, n);
    JRemWraps(s.writeR + 1, n);
    var out := MonoMix(x, dl, dr, dryGain, wetGain);
    (s.(bufL := s.bufL[s.writeL := x + Mul(dl, s.feedback)],
        bufR := s.bufR[s.writeR := x + Mul(dr, s.feedback)],
        writeL := JRem(s.writeL + 1, n), writeR := JRem(s.writeR + 1, n)),
     out)
  }

  /** What a cleared delay line outputs, fully wet and without feedback:
      the input shifted by d samples, silence before that. A delay of 0
      samples reads the slot about to be overwritten, so it behaves as a
      delay of the whole buffer and, within one buffer length, is silent. */
  ghost predicate DelayedBy(out: seq<real>, input: seq<real>, d: int, upto: int)
    requires upto <= |out| && upto <= |input| && 0 <= d
  {
    forall i :: 0 <= i < upto ==> out[i] == (if 1 <= d <= i then input[i - d] else 0.0)
  }

  /** The shape of a cleared, fully wet, feedback-free delay line after
      `i` samples of `input`: both lines hold the input so far, then silence. */
  ghost predicate CleanAfter(r: State, input: seq<real>, i: int)
    requires |r.bufL| == |r.bufR| && 0 <= i <= |input|
  {
    && r.writeL == i && r.writeR == i && r.bufL == r.bufR
    && (forall j :: 0 <= j < |r.bufL| ==> r.bufL[j] == (if j < i then input[j] else 0.0))
  }

  /** One step of a clean line outputs the input from d samples earlier,
      or silence, and keeps the line clean. */
  lemma {:induction false} CleanStep(r: State, input: seq<real>, i: int, d: int, dryGain: real, wetGain: real)
    requires Inv(r) && 0 <= d <= |r.bufL| - 1 && 0 <= i < |input| && |input| < |r.bufL|
    requires r.feedback == 0.0 && dryGain == 0.0 && wetGain == 1.0
    requires CleanAfter(r, input, i)
    ensures Step(r, input[i], d, dryGain, wetGain).1 == (if 1 <= d <= i then input[i - d] else 0.0)
    ensures CleanAfter(Step(r, input[i], d, dryGain, wetGain).0, input, i + 1)
  {
    var n := |r.bufL|;
    var rl := ReadIndex(r.writeL, d, n);
    var dl := r.bufL[rl];
    assert r.bufL[rl] == (if rl < i then input[rl] else 0.0);
    assert dl == (if 1 <= d <= i then input[i - d] else 0.0);
    assert r.bufR[ReadIndex(r.writeR, d, |r.bufR|)] == dl;
    MonoMixEnds(input[i], dl, dl);
    var res := Step(r, input[i], d, dryGain, wetGain);
    assert res.0.bufL == r.bufL[i := input[i]];
  }

  /** With the gains of a wet ratio of 0 a step outputs its input. */
  lemma {:induction false} DryStep(r: State, x: real, d: int)
    requires Inv(r) && 0 <= d <= |r.bufL| - 1
    ensures Step(r, x, d, 1.0, 0.0).1 == x
  {
    MonoMixEnds(x, r.bufL[ReadIndex(r.writeL, d, |r.bufL|)], r.bufR[ReadIndex(r.writeR, d, |r.bufR|)]);
  }

  /** The mixing gains act after the delay lines: the state a step leaves
      does not depend on them, and the output is the dry term plus the wet
      gain times the fully wet output. */
  lemma {:induction false} StepMix(r: State, x: real, d: int, dryGain: real, wetGain: real)
    requires Inv(r) && 0 <= d <= |r.bufL| - 1
    ensures Step(r, x, d, dryGain, wetGain).0 == Step(r, x, d, 0.0, 1.0).0
    ensures Step(r, x, d, dryGain, wetGain).1 == Mul(x, dryGain) + Mul(Step(r, x, d, 0.0, 1.0).1, wetGain)
  {
    MonoMixSplit(x, r.bufL[ReadIndex(r.writeL, d, |r.bufL|)], r.bufR[ReadIndex(r.writeR, d, |r.bufR|)], dryGain, wetGain);
  }

  /** Processing changes no parameter and keeps the buffer length. */
  predicate Keeps(r: State, s: State) {
    r.(bufL := s.bufL, bufR := s.bufR, writeL := s.writeL, writeR := s.writeR) == s && |r.bufL| == |s.bufL|
  }

  /** The `process` loop as a value, for a delay of d samples and given
      mixing gains. */
  function Block(s: State, input: seq<real>, d: int, dryGain: real, wetGain: real): (res: (State, seq<real>))
    requires Inv(s) && 0 <= d <= |s.bufL| - 1
    ensures Inv(res.0) && Keeps(res.0, s) && |res.1| == |input|
    decreases |input|
  {
    if |input| == 0 then (s, [])
    else
      var p := Block(s, input[..|input| - 1], d, dryGain, wetGain);
      var q := Step(p.0, input[|input| - 1], d, dryGain, wetGain);
      (q.0, p.1 + [q.1])
  }

  /** Dry only: the loop passes the block through unchanged. */
  lemma {:induction false} BlockDry(s: State, input: seq<real>, d: int)
    requires Inv(s) && 0 <= d <= |s.bufL| - 1
    ensures Block(s, input, d, 1.0, 0.0).1 == input
    decreases |input|
  {
    if |input| > 0 {
      var n := |input| - 1;
      BlockDry(s, input[..n], d);
      DryStep(Block(s, input[..n], d, 1.0, 0.0).0, input[n], d);
      SnocLast(input);
    }
  }

  /** Over a block the gains act after the delay lines as well: the final
      state is the fully wet run's, and each output sample is the dry term
      plus the wet gain times the fully wet output at the same position. */
  lemma {:induction false} BlockMix(s: State, input: seq<real>, d: int, dryGain: real, wetGain: real)
    requires Inv(s) && 0 <= d <= |s.bufL| - 1
    ensures Block(s, input, d, dryGain, wetGain).0 == Block(s, input, d, 0.0, 1.0).0
    ensures MixedFrom(Block(s, input, d, dryGain, wetGain).1, input, Block(s, input, d, 0.0, 1.0).1, dryGain, wetGain)
    decreases |input|
  {
    if |input| > 0 {
      var n := |input| - 1;
      BlockMix(s, input[..n], d, dryGain, wetGain);
      var p := Block(s, input[..n], d, dryGain, wetGain);
      var w := Block(s, input[..n], d, 0.0, 1.0);
      StepMix(p.0, input[n], d, dryGain, wetGain);
      var q := Step(p.0, input[n], d, dryGain, wetGain);
      var qw := Step(p.0, input[n], d, 0.0, 1.0);
      MixedSnoc(p.1, input[..n], w.1, dryGain, wetGain, q.1, input[n], qw.1);
      SnocLast(input);
    }
  }

  /** From a cleared line, fully wet and without feedback, the first m
      outputs are the input delayed by d samples while the block is shorter
      than the line. */
  lemma {:induction false} BlockClean(s: State, input: seq<real>, m: nat, d: int)
    requires Inv(s) && 0 <= d <= |s.bufL| - 1 && Cleared(s) && s.feedback == 0.0
    requires m <= |input| < |s.bufL|
    ensures CleanAfter(Block(s, input[..m], d, 0.0, 1.0).0, input, m)
    ensures DelayedBy(Block(s, input[..m], d, 0.0, 1.0).1, input, d, m)
    decreases m
  {
    if m > 0 {
      BlockClean(s, input, m - 1, d);
      PrefixStep(input, m - 1);
      var p := Block(s, input[..m - 1], d, 0.0, 1.0);
      CleanStep(p.0, input, m - 1, d, 0.0, 1.0);
      var q := Step(p.0, input[m - 1], d, 0.0, 1.0);
      assert input[..m][m - 1] == input[m - 1];
      assert Block(s, input[..m], d, 0.0, 1.0) == (q.0, p.1 + [q.1]);
      DelayedSnoc(p.1, input, d, m - 1, q.1);
    }
  }

  /** A delayed block stays delayed when the next delayed sample is appended. */
  lemma DelayedSnoc(out: seq<real>, input: seq<real>, d: int, i: nat, y: real)
    requires i == |out| < |input| && 0 <= d && DelayedBy(out, input, d, i)
    requires y == (if 1 <= d <= i then input[i - d] else 0.0)
    ensures DelayedBy(out + [y], input, d, i + 1)
  {
    var o := out + [y];
    forall k | 0 <= k < i + 1
      ensures o[k] == (if 1 <= d <= k then input[k - d] else 0.0)
    {
      if k < i {
        assert o[k] == out[k];
      }
    }
  }

  /** `process` as a value: a copy when disabled, otherwise the sample loop
      at the delay the time parameter gives and the equal-power gains of the
      wet parameter. */
  function Output(s: State, input: seq<real>, sqrt: real -> real): (res: (State, seq<real>))
    requires Inv(s) && SqrtOracle(sqrt)
    ensures Inv(res.0) && Keeps(res.0, s) && |res.1| == |input|
    ensures !s.enabled ==> res == (s, input)
    ensures s.wet == 0.0 ==> res.1 == input
  {
    if !s.enabled then (s, input)
    else
      var d := DelaySamples(s.timeMs, s.sampleRate, |s.bufL|);
      var g := EqualPower(s.wet, sqrt);
      if s.wet == 0.0 then BlockDry(s, input, d); Block(s, input, d, g.0, g.1)
      else Block(s, input, d, g.0, g.1)
  }

  /** `process`: a copy when disabled; otherwise the loop over both delay
      lines. At ratio 0 the block passes through; at ratio 1 from a cleared
      line without feedback, the output is the input delayed by the delay
      time while the block is shorter than the line; in general it is the
      dry term plus the wet gain times the fully wet output. */
  method Process(s: State, input: seq<real>, sqrt: real -> real) returns (r: State, out: seq<real>)
    requires Inv(s) && ValidRate(s.sampleRate) && SqrtOracle(sqrt)
    ensures (r, out) == Output(s, input, sqrt)
    ensures Inv(r) && |out| == |input| && Keeps(r, s)
    ensures !s.enabled ==> r == s && out == input
    ensures s.wet == 0.0 ==> out == input
    ensures s.enabled && Cleared(s) && s.wet == 1.0 && s.feedback == 0.0 && |input| < |s.bufL| ==>
      DelayedBy(out, input, DelaySamples(s.timeMs, s.sampleRate, |s.bufL|), |input|)
    ensures s.enabled ==> MixedFrom(out, input, Block(s, input, DelaySamples(s.timeMs, s.sampleRate, |s.bufL|), 0.0, 1.0).1,
                                    EqualPower(s.wet, sqrt).0, EqualPower(s.wet, sqrt).1)
  {
    if !s.enabled {
      return s, Copy(input);
    }
    var d := DelaySamples(s.timeMs, s.sampleRate, |s.bufL|);
    var g := EqualPower(s.wet, sqrt);
    r := s;
    out := [];
    var i := 0;
    while i < |input|
      invariant 0 <= i <= |input|
      invariant Inv(r) && (r, out) == Block(s, input[..i], d, g.0, g.1)
    {
      PrefixStep(input, i);
      var q := Step(r, input[i], d, g.0, g.1);
      r, out := q.0, out + [q.1];
      i := i + 1;
    }
    assert input[..|input|] == input by { if |input| > 0 { PrefixStep(input, 0); } }
    BlockMix(s, input, d, g.0, g.1);
    if Cleared(s) && s.wet == 1.0 && s.feedback == 0.0 && |input| < |s.bufL| {
      BlockClean(s, input, |input|, d);
    }
  }
}

=== FILE: distortion.dfy ===
/** DistortionEffect: input gain, a blend of hard and tanh soft clipping,
    gain compensation and a one-pole tone filter per channel, folded to mono
    with equal-power gains. */
module DistortionEffect {
  import opened Common

  const Id: string := "distortion"

  const DefaultDrive: real := 6.0
  const DefaultShape: real := 0.5
  const DefaultTone: real := 0.55
  const DefaultWet: real := 0.35
  const MinDrive: real := 1.0
  const MaxDrive: real := 20.0

  datatype State = State(
    enabled: bool, wet: real, sampleRate: real, params: Params,
    drive: real, shape: real, tone: real, lpL: real, lpR: real, coeff: real)

  /** The tone cutoff: 1.5 kHz at tone 0 up to 13.5 kHz at tone 1. */
  function Cutoff(tone: real): (hz: real)
    requires 0.0 <= tone <= 1.0
    ensures 1500.0 <= hz <= 13500.0
  {
    1500.0 + tone * 12000.0
  }

  /** `updateLowpassCoeff` for a tone and a rate. */
  function ToneCoeff(tone: real, sampleRate: real): (c: real)
    requires 0.0 <= tone <= 1.0 && ValidRate(sampleRate)
    ensures 0.0 <= c <= 0.99
    ensures LowpassCoeff(1500.0, sampleRate) <= c <= LowpassCoeff(13500.0, sampleRate)
  {
    LowpassCoeffMonotone(1500.0, Cutoff(tone), sampleRate);
    LowpassCoeffMonotone(Cutoff(tone), 13500.0, sampleRate);
    LowpassCoeff(Cutoff(tone), sampleRate)
  }

  /** A brighter tone never gives a smaller filter coefficient. */
  lemma {:induction false} ToneBrightens(t1: real, t2: real, sampleRate: real)
    requires 0.0 <= t1 <= t2 <= 1.0 && ValidRate(sampleRate)
    ensures ToneCoeff(t1, sampleRate) <= ToneCoeff(t2, sampleRate)
  {
    LowpassCoeffMonotone(Cutoff(t1), Cutoff(t2), sampleRate);
  }

  /** The invariant every public operation keeps: the typed fields mirror
      the table, values are in range, the coefficient is a valid one-pole
      coefficient, and the filter states lie in [-1, 1]. */
  ghost predicate Inv(s: State) {
    && "drive" in s.params && s.params["drive"] == s.drive
    && "shape" in s.params && s.params["shape"] == s.shape
    && "tone" in s.params && s.params["tone"] == s.tone
    && "wet" in s.params && s.params["wet"] == s.wet
    && MinDrive <= s.drive <= MaxDrive
    && 0.0 <= s.shape <= 1.0
    && 0.0 <= s.tone <= 1.0
    && 0.0 <= s.wet <= 1.0
    && ValidRate(s.sampleRate)
    && 0.0 <= s.coeff <= 0.99
    && -1.0 <= s.lpL <= 1.0 && -1.0 <= s.lpR <= 1.0
  }

  /** The coefficient is the one `updateLowpassCoeff` computes from the
      current tone and rate. */
  ghost predicate Tuned(s: State) {
    0.0 <= s.tone <= 1.0 && ValidRate(s.sampleRate) && s.coeff == ToneCoeff(s.tone, s.sampleRate)
  }

  /** Both channels see the same input, so their filter states never differ. */
  predicate Symmetric(s: State) {
    s.lpL == s.lpR
  }

  /** `reset`: both filter states to 0, nothing else. */
  function Reset(s: State): (r: State)
    ensures r.lpL == 0.0 && r.lpR == 0.0 && Symmetric(r)
    ensures r.(lpL := s.lpL, lpR := s.lpR) == s
    ensures Inv(s) ==> Inv(r)
  {
    s.(lpL := 0.0, lpR := 0.0)
  }

  /** The constructor. */
  function Init(): (s: State)
    ensures Inv(s) && Tuned(s) && Symmetric(s) && s.enabled && s.lpL == 0.0
    ensures s.drive == DefaultDrive && s.shape == DefaultShape
    ensures s.tone == DefaultTone && s.wet == DefaultWet
  {
    State(true, DefaultWet, 44100.0,
      map["drive" := DefaultDrive, "shape" := DefaultShape, "tone" := DefaultTone, "wet" := DefaultWet],
      DefaultDrive, DefaultShape, DefaultTone, 0.0, 0.0, ToneCoeff(DefaultTone, 44100.0))
  }

  /** `getParameter`: the stored value, 0 for a name never set. */
  function GetParameter(s: State, name: string): (v: real)
    ensures name in s.params ==> v == s.params[name]
    ensures name !in s.params ==> v == 0.0
  {
    GetOr(s.params, name, 0.0)
  }

  /** `setParameter`: drive clamped to [1, 20], shape and tone to [0, 1]
      (tone recomputing the coefficient), "wet"/"mix" to [0, 1]; other
      names stored verbatim. */
  function SetParameter(s: State, name: string, v: real): (r: State)
    requires Inv(s)
    ensures Inv(r) && (Tuned(s) ==> Tuned(r))
    ensures name == "drive" ==> r.drive == Clamp(v, MinDrive, MaxDrive) && GetParameter(r, "drive") == r.drive
    ensures name == "shape" ==> r.shape == Clamp(v, 0.0, 1.0) && GetParameter(r, "shape") == r.shape
    ensures name == "tone" ==> r.tone == Clamp(v, 0.0, 1.0) && GetParameter(r, "tone") == r.tone
    ensures name == "wet" || name == "mix" ==> r.wet == Clamp(v, 0.0, 1.0) && GetParameter(r, "wet") == r.wet
    ensures name !in {"drive", "shape", "tone", "wet", "mix"} ==>
      GetParameter(r, name) == v && r.drive == s.drive && r.shape == s.shape && r.tone == s.tone && r.wet == s.wet
    ensures r.enabled == s.enabled && r.sampleRate == s.sampleRate && r.lpL == s.lpL && r.lpR == s.lpR
  {
    if name == "drive" then
      var x := Clamp(v, MinDrive, MaxDrive);
      s.(drive := x, params := s.params["drive" := x])
    else if name == "shape" then
      var x := Clamp(v, 0.0, 1.0);
      s.(shape := x, params := s.params["shape" := x])
    else if name == "tone" then
      var x := Clamp(v, 0.0, 1.0);
      s.(tone := x, params := s.params["tone" := x], coeff := ToneCoeff(x, s.sampleRate))
    else if name == "wet" || name == "mix" then
      var x := Clamp(v, 0.0, 1.0);
      s.(wet := x, params := s.params["wet" := x])
    else
      s.(params := s.params[name := v])
  }

  /** `setWetDryRatio`: clamps to [0, 1] and mirrors the value under "wet". */
  function SetWetDryRatio(s: State, w: real): (r: State)
    requires Inv(s)
    ensures Inv(r) && r.wet == Clamp(w, 0.0, 1.0) && GetParameter(r, "wet") == r.wet
    ensures r.drive == s.drive && r.shape == s.shape && r.tone == s.tone && r.enabled == s.enabled && r.sampleRate == s.sampleRate
  {
    SetParameter(s, "wet", w)
  }

  /** `setSampleRate`: records the rate and recomputes the coefficient; the
      filter states are kept. */
  function SetSampleRate(s: State, sr: real): (r: State)
    requires Inv(s) && ValidRate(sr)
    ensures Inv(r) && r.sampleRate == sr && r.coeff == ToneCoeff(s.tone, sr)
    ensures r.(sampleRate := s.sampleRate, coeff := s.coeff) == s
  {
    s.(sampleRate := sr, coeff := ToneCoeff(s.tone, sr))
  }

  /** A blend `a * (1 - w) + b * w` of two signals in [-1, 1] stays there. */
  lemma {:induction false} BlendBounded(a: real, b: real, w: real)
    requires -1.0 <= a <= 1.0 && -1.0 <= b <= 1.0 && 0.0 <= w <= 1.0
    ensures -1.0 <= Mul(a, 1.0 - w) + Mul(b, w) <= 1.0
  {
    MulMonoRight(a, 1.0, 1.0 - w);
    MulMonoRight(-1.0, a, 1.0 - w);
    MulMonoRight(b, 1.0, w);
    MulMonoRight(-1.0, b, w);
    MulUnit(1.0 - w);
    MulUnit(w);
    MulNeg(1.0, 1.0 - w);
    MulNeg(1.0, w);
  }

  /** `applyDistortion`: the gained input clamped to [-1, 1], then blended
      between hard clipping (shape 0) and tanh (shape 1). */
  function Distort(g: real, shape: real, tanh: real -> real): (d: real)
    requires 0.0 <= shape <= 1.0 && Bounded1(tanh)
    ensures -1.0 <= d <= 1.0
    ensures shape == 0.0 ==> d == Clamp(g, -1.0, 1.0)
    ensures shape == 1.0 ==> d == tanh(Clamp(g, -1.0, 1.0))
  {
    var c := Clamp(g, -1.0, 1.0);
    BlendBounded(c, tanh(c), shape);
    MulUnit(c);
    MulUnit(tanh(c));
    Mul(c, 1.0 - shape) + Mul(tanh(c), shape)
  }

  /** Drive, clipping and compensation: `distort(x * drive) / drive`. */
  function Shape(x: real, drive: real, shape: real, tanh: real -> real): (y: real)
    requires drive >= MinDrive && 0.0 <= shape <= 1.0 && Bounded1(tanh)
    ensures -1.0 <= y <= 1.0
    ensures -1.0 / drive <= y <= 1.0 / drive
  {
    Compensated(Distort(Mul(x, drive), shape, tanh), drive);
    DivBounds(Distort(Mul(x, drive), shape, tanh), 1.0, drive);
    Distort(Mul(x, drive), shape, tanh) / drive
  }

  /** With shape 0 the stage is a hard clipper at ±1/drive: transparent
      while `|x * drive| <= 1`, pinned to ±1/drive beyond. */
  lemma {:induction false} HardClipTransparent(x: real, drive: real, tanh: real -> real)
    requires drive >= MinDrive && Bounded1(tanh)
    ensures -1.0 <= Mul(x, drive) <= 1.0 ==> Shape(x, drive, 0.0, tanh) == x
    ensures Mul(x, drive) > 1.0 ==> Shape(x, drive, 0.0, tanh) == 1.0 / drive
    ensures Mul(x, drive) < -1.0 ==> Shape(x, drive, 0.0, tanh) == -1.0 / drive
  {
    MulDivCancel(x, drive);
  }

  /** One sample of `process` as a value: both channels through shaper and
      tone filter, then the mono mix. With the gains of ratio 0 the sample
      passes; with those of ratio 1 it stays within [-1, 1]. */
  function Sample(s: State, x: real, dryGain: real, wetGain: real, tanh: real -> real): (res: (State, real))
    requires Inv(s) && Bounded1(tanh)
    ensures Inv(res.0) && res.0.(lpL := s.lpL, lpR := s.lpR) == s
    ensures res.0.lpL == OnePole(s.lpL, Shape(x, s.drive, s.shape, tanh), s.coeff)
    ensures res.0.lpR == OnePole(s.lpR, Shape(x, s.drive, s.shape, tanh), s.coeff)
    ensures res.1 == MonoMix(x, res.0.lpL, res.0.lpR, dryGain, wetGain)
    ensures Symmetric(s) ==> Symmetric(res.0)
    ensures dryGain == 1.0 && wetGain == 0.0 ==> res.1 == x
    ensures dryGain == 0.0 && wetGain == 1.0 ==> -1.0 <= res.1 <= 1.0
  {
    var shaped := Shape(x, s.drive, s.shape, tanh);
    OnePoleKeepsBound(s.lpL, shaped, s.coeff, 1.0);
    OnePoleKeepsBound(s.lpR, shaped, s.coeff, 1.0);
    var l := OnePole(s.lpL, shaped, s.coeff);
    var rr := OnePole(s.lpR, shaped, s.coeff);
    MonoMixEnds(x, l, rr);
    (s.(lpL := l, lpR := rr), MonoMix(x, l, rr, dryGain, wetGain))
  }

  /** The sample loop of `process` as a value: the samples of `input`, in
      order, through `Sample`. */
  function Block(s: State, input: seq<real>, dryGain: real, wetGain: real, tanh: real -> real): (res: (State, seq<real>))
    requires Inv(s) && Bounded1(tanh)
    ensures Inv(res.0) && |res.1| == |input| && res.0.(lpL := s.lpL, lpR := s.lpR) == s
    ensures Symmetric(s) ==> Symmetric(res.0)
    ensures dryGain == 1.0 && wetGain == 0.0 ==> res.1 == input
    ensures dryGain == 0.0 && wetGain == 1.0 ==> AllWithin(res.1, 1.0)
    decreases |input|
  {
    if |input| == 0 then (s, [])
    else
      var p := Block(s, input[..|input| - 1], dryGain, wetGain, tanh);
      var q := Sample(p.0, input[|input| - 1], dryGain, wetGain, tanh);
      assert dryGain == 1.0 && wetGain == 0.0 ==> p.1 + [q.1] == input[..|input| - 1] + [input[|input| - 1]] == input;
      (q.0, p.1 + [q.1])
  }

  /** `process` as a value: a disabled effect hands the block back, an
      enabled one runs `Block` with the gains `sqrt(1 - wet)` and `sqrt(wet)`. */
  function Output(s: State, input: seq<real>, sqrt: real -> real, tanh: real -> real): (res: (State, seq<real>))
    requires Inv(s) && SqrtOracle(sqrt) && Bounded1(tanh)
    ensures Inv(res.0) && |res.1| == |input| && res.0.(lpL := s.lpL, lpR := s.lpR) == s
    ensures !s.enabled ==> res == (s, input)
    ensures s.wet == 0.0 ==> res.1 == input
    ensures s.enabled && s.wet == 1.0 ==> AllWithin(res.1, 1.0)
    ensures Symmetric(s) ==> Symmetric(res.0)
  {
    if !s.enabled then (s, input) else Block(s, input, sqrt(1.0 - s.wet), sqrt(s.wet), tanh)
  }

  /** One sample of `process`. */
  method Step(s: State, x: real, dryGain: real, wetGain: real, tanh: real -> real) returns (r: State, y: real)
    requires Inv(s) && Bounded1(tanh)
    ensures (r, y) == Sample(s, x, dryGain, wetGain, tanh)
  {
    var shaped := Shape(x, s.drive, s.shape, tanh);
    var l := OnePole(s.lpL, shaped, s.coeff);
    var rr := OnePole(s.lpR, shaped, s.coeff);
    r := s.(lpL := l, lpR := rr);
    y := MonoMix(x, l, rr, dryGain, wetGain);
  }

  /** `process`: the per-sample loop computes `Output`. */
  method Process(s: State, input: seq<real>, sqrt: real -> real, tanh: real -> real) returns (r: State, out: seq<real>)
    requires Inv(s) && SqrtOracle(sqrt) && Bounded1(tanh)
    ensures (r, out) == Output(s, input, sqrt, tanh)
    ensures Inv(r) && |out| == |input|
    ensures r.(lpL := s.lpL, lpR := s.lpR) == s
    ensures !s.enabled ==> r == s && out == input
    ensures s.wet == 0.0 ==> out == input
    ensures s.enabled && s.wet == 1.0 ==> AllWithin(out, 1.0)
    ensures Symmetric(s) ==> Symmetric(r)
  {
    if !s.enabled {
      return s, Copy(input);
    }
    var dryGain := sqrt(1.0 - s.wet);
    var wetGain := sqrt(s.wet);
    r := s;
    out := [];
    var i := 0;
    while i < |input|
      invariant 0 <= i <= |input|
      invariant Inv(r) && (r, out) == Block(s, input[..i], dryGain, wetGain, tanh)
    {
      var y;
      assert input[..i + 1][..i] == input[..i];
      r, y := Step(r, input[i], dryGain, wetGain, tanh);
      out := out + [y];
      i := i + 1;
    }
    assert input[..|input|] == input;
  }
}

=== FILE: fuzz.dfy ===
/** FuzzEffect: high input gain, a positive or negative bias, a fixed blend
    of hard clipping at ±0.8 and tanh, a little random noise, gain
    compensation and a one-pole tone filter per channel, folded to mono
    with equal-power gains. */
module FuzzEffect {
  import opened Common

  const Id: string := "fuzz"

  const DefaultDrive: real := 12.0
  const DefaultBias: real := 0.15
  const DefaultTone: real := 0.45
  const DefaultWet: real := 0.30
  const MinDrive: real := 3.0
  const MaxDrive: real := 40.0
  const MinBias: real := -0.5
  const MaxBias: real := 0.5
  /** The hard-clipping threshold inside the fuzz stage. */
  const HardLimit: real := 0.8
  /** The peak of the noise `(random - 0.5) * 0.05` added to every sample. */
  const NoisePeak: real := 0.025
  /** The largest magnitude the fuzz stage can produce before its final clamp. */
  const FuzzPeak: real := 0.885

  datatype State = State(
    enabled: bool, wet: real, sampleRate: real, params: Params,
    drive: real, bias: real, tone: real, lpL: real, lpR: real, coeff: real)

  /** The tone cutoff: 800 Hz at tone 0 up to 8.8 kHz at tone 1. */
  function Cutoff(tone: real): (hz: real)
    requires 0.0 <= tone <= 1.0
    ensures 800.0 <= hz <= 8800.0
  {
    800.0 + tone * 8000.0
  }

  /** `updateLowpassCoeff` for a tone and a rate. */
  function ToneCoeff(tone: real, sampleRate: real): (c: real)
    requires 0.0 <= tone <= 1.0 && ValidRate(sampleRate)
    ensures 0.0 <= c <= 0.99
    ensures LowpassCoeff(800.0, sampleRate) <= c <= LowpassCoeff(8800.0, sampleRate)
  {
    LowpassCoeffMonotone(800.0, Cutoff(tone), sampleRate);
    LowpassCoeffMonotone(Cutoff(tone), 8800.0, sampleRate);
    LowpassCoeff(Cutoff(tone), sampleRate)
  }

  /** A brighter tone never gives a smaller filter coefficient. */
  lemma {:induction false} ToneBrightens(t1: real, t2: real, sampleRate: real)
    requires 0.0 <= t1 <= t2 <= 1.0 && ValidRate(sampleRate)
    ensures ToneCoeff(t1, sampleRate) <= ToneCoeff(t2, sampleRate)
  {
    LowpassCoeffMonotone(Cutoff(t1), Cutoff(t2), sampleRate);
  }

  /** The invariant every public operation keeps: the typed fields mirror
      the table, values are in range, the coefficient is a valid one-pole
      coefficient, and the filter states lie in [-1, 1]. */
  ghost predicate Inv(s: State) {
    && "drive" in s.params && s.params["drive"] == s.drive
    && "bias" in s.params && s.params["bias"] == s.bias
    && "tone" in s.params && s.params["tone"] == s.tone
    && "wet" in s.params && s.params["wet"] == s.wet
    && MinDrive <= s.drive <= MaxDrive
    && MinBias <= s.bias <= MaxBias
    && 0.0 <= s.tone <= 1.0
    && 0.0 <= s.wet <= 1.0
    && ValidRate(s.sampleRate)
    && 0.0 <= s.coeff <= 0.99
    && -1.0 <= s.lpL <= 1.0 && -1.0 <= s.lpR <= 1.0
  }

  /** The coefficient is the one `updateLowpassCoeff` computes from the
      current tone and rate. */
  ghost predicate Tuned(s: State) {
    0.0 <= s.tone <= 1.0 && ValidRate(s.sampleRate) && s.coeff == ToneCoeff(s.tone, s.sampleRate)
  }

  /** `reset`: both filter states to 0, nothing else. */
  function Reset(s: State): (r: State)
    ensures r.lpL == 0.0 && r.lpR == 0.0
    ensures r.(lpL := s.lpL, lpR := s.lpR) == s
    ensures Inv(s) ==> Inv(r)
  {
    s.(lpL := 0.0, lpR := 0.0)
  }

  /** The constructor. */
  function Init(): (s: State)
    ensures Inv(s) && Tuned(s) && s.enabled && s.lpL == 0.0 && s.lpR == 0.0
    ensures s.drive == DefaultDrive && s.bias == DefaultBias
    ensures s.tone == DefaultTone && s.wet == DefaultWet
  {
    State(true, DefaultWet, 44100.0,
      map["drive" := DefaultDrive, "bias" := DefaultBias, "tone" := DefaultTone, "wet" := DefaultWet],
      DefaultDrive, DefaultBias, DefaultTone, 0.0, 0.0, ToneCoeff(DefaultTone, 44100.0))
  }

  /** `getParameter`: the stored value, 0 for a name never set. */
  function GetParameter(s: State, name: string): (v: real)
    ensures name in s.params ==> v == s.params[name]
    ensures name !in s.params ==> v == 0.0
  {
    GetOr(s.params, name, 0.0)
  }

  /** `setParameter`: drive clamped to [3, 40], bias to [-0.5, 0.5], tone
      to [0, 1] (recomputing the coefficient), "wet"/"mix" to [0, 1];
      other names stored verbatim. */
  function SetParameter(s: State, name: string, v: real): (r: State)
    requires Inv(s)
    ensures Inv(r) && (Tuned(s) ==> Tuned(r))
    ensures name == "drive" ==> r.drive == Clamp(v, MinDrive, MaxDrive) && GetParameter(r, "drive") == r.drive
    ensures name == "bias" ==> r.bias == Clamp(v, MinBias, MaxBias) && GetParameter(r, "bias") == r.bias
    ensures name == "tone" ==> r.tone == Clamp(v, 0.0, 1.0) && GetParameter(r, "tone") == r.tone
    ensures name == "wet" || name == "mix" ==> r.wet == Clamp(v, 0.0, 1.0) && GetParameter(r, "wet") == r.wet
    ensures name !in {"drive", "bias", "tone", "wet", "mix"} ==>
      GetParameter(r, name) == v && r.drive == s.drive && r.bias == s.bias && r.tone == s.tone && r.wet == s.wet
    ensures r.enabled == s.enabled && r.sampleRate == s.sampleRate && r.lpL == s.lpL && r.lpR == s.lpR
  {
    if name == "drive" then
      var x := Clamp(v, MinDrive, MaxDrive);
      s.(drive := x, params := s.params["drive" := x])
    else if name == "bias" then
      var x := Clamp(v, MinBias, MaxBias);
      s.(bias := x, params := s.params["bias" := x])
    else if name == "tone" then
      var x := Clamp(v, 0.0, 1.0);
      s.(tone := x, params := s.params["tone" := x], coeff := ToneCoeff(x, s.sampleRate))
    else if name == "wet" || name == "mix" then
      var x := Clamp(v, 0.0, 1.0);
      s.(wet := x, params := s.params["wet" := x])
    else
      s.(params := s.params[name := v])
  }

  /** `setWetDryRatio`: clamps to [0, 1] and mirrors the value under "wet". */
  function SetWetDryRatio(s: State, w: real): (r: State)
    requires Inv(s)
    ensures Inv(r) && r.wet == Clamp(w, 0.0, 1.0) && GetParameter(r, "wet") == r.wet
    ensures r.drive == s.drive && r.bias == s.bias && r.tone == s.tone && r.enabled == s.enabled && r.sampleRate == s.sampleRate
  {
    SetParameter(s, "wet", w)
  }

  /** `setSampleRate`: records the rate and recomputes the coefficient; the
      filter states are kept. */
  function SetSampleRate(s: State, sr: real): (r: State)
    requires Inv(s) && ValidRate(sr)
    ensures Inv(r) && r.sampleRate == sr && r.coeff == ToneCoeff(s.tone, sr)
    ensures r.(sampleRate := s.sampleRate, coeff := s.coeff) == s
  {
    s.(sampleRate := sr, coeff := ToneCoeff(s.tone, sr))
  }

  /** The noise sample one `Math.random()` draw `u` contributes. */
  function Noise(u: real): (n: real)
    requires 0.0 <= u < 1.0
    ensures -NoisePeak <= n < NoisePeak
  {
    (u - 0.5) * 0.05
  }

  /** `applyFuzz` before its final clamp:
      `0.7 * clamp(c, ±0.8) + 0.3 * tanh(2c) + noise` for `c = clamp(g, ±1)`. */
  function FuzzRaw(g: real, u: real, tanh: real -> real): (f: real)
    requires 0.0 <= u < 1.0 && Bounded1(tanh)
    ensures -FuzzPeak <= f <= FuzzPeak
  {
    var c := Clamp(g, -1.0, 1.0);
    Clamp(c, -HardLimit, HardLimit) * 0.7 + tanh(c * 2.0) * 0.3 + Noise(u)
  }

  /** `applyFuzz`: the raw fuzz clamped to [-1, 1]. */
  function Fuzz(g: real, u: real, tanh: real -> real): (f: real)
    requires 0.0 <= u < 1.0 && Bounded1(tanh)
    ensures -1.0 <= f <= 1.0
  {
    Clamp(FuzzRaw(g, u, tanh), -1.0, 1.0)
  }

  /** The final clamp of `applyFuzz` never engages: hard clipping at 0.8
      weighted 0.7, tanh weighted 0.3 and noise below 0.025 add up to at
      most 0.885. */
  lemma {:induction false} FinalClampInactive(g: real, u: real, tanh: real -> real)
    requires 0.0 <= u < 1.0 && Bounded1(tanh)
    ensures Fuzz(g, u, tanh) == FuzzRaw(g, u, tanh)
    ensures -FuzzPeak <= Fuzz(g, u, tanh) <= FuzzPeak
  {
    var f := FuzzRaw(g, u, tanh);
    assert -1.0 <= f <= 1.0;
  }

  /** Drive, bias, fuzz and compensation: `fuzz(x * drive + bias) / drive`. */
  function Shape(x: real, drive: real, bias: real, u: real, tanh: real -> real): (y: real)
    requires drive >= MinDrive && 0.0 <= u < 1.0 && Bounded1(tanh)
    ensures -1.0 <= y <= 1.0
    ensures -1.0 / drive <= y <= 1.0 / drive
    ensures -FuzzPeak / MinDrive <= y <= FuzzPeak / MinDrive
  {
    var f := Fuzz(Mul(x, drive) + bias, u, tanh);
    Compensated(f, drive);
    DivBounds(f, 1.0, drive);
    FinalClampInactive(Mul(x, drive) + bias, u, tanh);
    DivBounds(f, FuzzPeak, drive);
    DivAntitone(FuzzPeak, MinDrive, drive);
    Fuzz(Mul(x, drive) + bias, u, tanh) / drive
  }

  /** One sample of `process` as a value: the left channel takes draw
      `uL`, the right channel `uR`, each through fuzz and tone filter; then
      the mono mix. With the gains of ratio 0 the sample passes; with those
      of ratio 1 it stays within [-1, 1]. */
  function Sample(s: State, x: real, uL: real, uR: real, dryGain: real, wetGain: real, tanh: real -> real)
    : (res: (State, real))
    requires Inv(s) && Bounded1(tanh) && 0.0 <= uL < 1.0 && 0.0 <= uR < 1.0
    ensures Inv(res.0) && res.0.(lpL := s.lpL, lpR := s.lpR) == s
    ensures res.0.lpL == OnePole(s.lpL, Shape(x, s.drive, s.bias, uL, tanh), s.coeff)
    ensures res.0.lpR == OnePole(s.lpR, Shape(x, s.drive, s.bias, uR, tanh), s.coeff)
    ensures res.1 == MonoMix(x, res.0.lpL, res.0.lpR, dryGain, wetGain)
    ensures dryGain == 1.0 && wetGain == 0.0 ==> res.1 == x
    ensures dryGain == 0.0 && wetGain == 1.0 ==> -1.0 <= res.1 <= 1.0
  {
    var shapedL := Shape(x, s.drive, s.bias, uL, tanh);
    var shapedR := Shape(x, s.drive, s.bias, uR, tanh);
    OnePoleKeepsBound(s.lpL, shapedL, s.coeff, 1.0);
    OnePoleKeepsBound(s.lpR, shapedR, s.coeff, 1.0);
    var l := OnePole(s.lpL, shapedL, s.coeff);
    var rr := OnePole(s.lpR, shapedR, s.coeff);
    MonoMixEnds(x, l, rr);
    (s.(lpL := l, lpR := rr), MonoMix(x, l, rr, dryGain, wetGain))
  }

  /** The sample loop of `process` as a value: sample `i` of `input` takes
      the draws `u[2i]` (left) and `u[2i + 1]` (right). */
  function Block(s: State, input: seq<real>, u: seq<real>, dryGain: real, wetGain: real, tanh: real -> real)
    : (res: (State, seq<real>))
    requires Inv(s) && Bounded1(tanh) && |u| == 2 * |input| && Draws(u)
    ensures Inv(res.0) && |res.1| == |input| && res.0.(lpL := s.lpL, lpR := s.lpR) == s
    ensures dryGain == 1.0 && wetGain == 0.0 ==> res.1 == input
    ensures dryGain == 0.0 && wetGain == 1.0 ==> AllWithin(res.1, 1.0)
    decreases |input|
  {
    if |input| == 0 then (s, [])
    else
      var n := |input| - 1;
      var p := Block(s, input[..n], u[..2 * n], dryGain, wetGain, tanh);
      var q := Sample(p.0, input[n], u[2 * n], u[2 * n + 1], dryGain, wetGain, tanh);
      assert dryGain == 1.0 && wetGain == 0.0 ==> p.1 + [q.1] == input[..n] + [input[n]] == input;
      (q.0, p.1 + [q.1])
  }

  /** `process` as a value; `u` holds the two `Math.random()` draws of
      every sample, left channel first. */
  function Output(s: State, input: seq<real>, sqrt: real -> real, tanh: real -> real, u: seq<real>)
    : (res: (State, seq<real>))
    requires Inv(s) && SqrtOracle(sqrt) && Bounded1(tanh) && |u| == 2 * |input| && Draws(u)
    ensures Inv(res.0) && |res.1| == |input| && res.0.(lpL := s.lpL, lpR := s.lpR) == s
    ensures !s.enabled ==> res == (s, input)
    ensures s.wet == 0.0 ==> res.1 == input
    ensures s.enabled && s.wet == 1.0 ==> AllWithin(res.1, 1.0)
  {
    if !s.enabled then (s, input) else Block(s, input, u, sqrt(1.0 - s.wet), sqrt(s.wet), tanh)
  }

  /** The block through sample i is the block before it extended by
      sample i, with that sample's two draws. */
  lemma {:induction false} BlockSnoc(s: State, input: seq<real>, u: seq<real>, i: int,
                                     dryGain: real, wetGain: real, tanh: real -> real)
    requires Inv(s) && Bounded1(tanh) && |u| == 2 * |input| && Draws(u) && 0 <= i < |input|
    ensures var p := Block(s, input[..i], u[..2 * i], dryGain, wetGain, tanh);
            var q := Sample(p.0, input[i], u[2 * i], u[2 * i + 1], dryGain, wetGain, tanh);
            Block(s, input[..i + 1], u[..2 * (i + 1)], dryGain, wetGain, tanh) == (q.0, p.1 + [q.1])
  {
    assert input[..i + 1][..i] == input[..i];
    assert u[..2 * (i + 1)][..2 * i] == u[..2 * i];
  }

  /** One sample of `process`. */
  method Step(s: State, x: real, uL: real, uR: real, dryGain: real, wetGain: real, tanh: real -> real)
    returns (r: State, y: real)
    requires Inv(s) && Bounded1(tanh) && 0.0 <= uL < 1.0 && 0.0 <= uR < 1.0
    ensures (r, y) == Sample(s, x, uL, uR, dryGain, wetGain, tanh)
  {
    var l := OnePole(s.lpL, Shape(x, s.drive, s.bias, uL, tanh), s.coeff);
    var rr := OnePole(s.lpR, Shape(x, s.drive, s.bias, uR, tanh), s.coeff);
    r := s.(lpL := l, lpR := rr);
    y := MonoMix(x, l, rr, dryGain, wetGain);
  }

  /** `process`: the per-sample loop computes `Output`. */
  method Process(s: State, input: seq<real>, sqrt: real -> real, tanh: real -> real, u: seq<real>)
    returns (r: State, out: seq<real>)
    requires Inv(s) && SqrtOracle(sqrt) && Bounded1(tanh)
    requires |u| == 2 * |input| && Draws(u)
    ensures (r, out) == Output(s, input, sqrt, tanh, u)
    ensures Inv(r) && |out| == |input|
    ensures r.(lpL := s.lpL, lpR := s.lpR) == s
    ensures !s.enabled ==> r == s && out == input
    ensures s.wet == 0.0 ==> out == input
    ensures s.enabled && s.wet == 1.0 ==> AllWithin(out, 1.0)
  {
    if !s.enabled {
      return s, Copy(input);
    }
    var dryGain := sqrt(1.0 - s.wet);
    var wetGain := sqrt(s.wet);
    r := s;
    out := [];
    var i := 0;
    while i < |input|
      invariant 0 <= i <= |input|
      invariant Inv(r) && (r, out) == Block(s, input[..i], u[..2 * i], dryGain, wetGain, tanh)
    {
      var y;
      BlockSnoc(s, input, u, i, dryGain, wetGain, tanh);
      r, y := Step(r, input[i], u[2 * i], u[2 * i + 1], dryGain, wetGain, tanh);
      out := out + [y];
      i := i + 1;
    }
    assert input[..|input|] == input;
    assert u[..2 * |input|] == u;
  }
}

=== FILE: granular.dfy ===
/** GranularEffect: the input is written into a five-second ring per
    channel; a density accumulator triggers grains into 256 slots; every
    active grain reads the ring with linear interpolation under a clamped
    Hann-like envelope; the grain sum is normalised by the square root of
    the active count and mixed with a power-matching rescale. */
module GranularEffect {
  import opened Common

  const Id: string := "granular"

  const DefaultGrainSize: real := 60.0
  const DefaultDensity: real := 25.0
  const DefaultPitch: real := 1.0
  const DefaultJitter: real := 0.4
  const DefaultReverseProb: real := 0.2
  const DefaultWet: real := 0.6
  const MinGrainSize: real := 20.0
  const MaxGrainSize: real := 200.0
  const MinDensity: real := 1.0
  const MaxDensity: real := 50.0
  const MinPitch: real := 0.5
  const MaxPitch: real := 2.0
  const MaxGrains: nat := 256
  /** Values drawn from the random source per triggered grain: one
      `nextInt` and four `nextFloat`. */
  const DrawsPerGrain: nat := 5
  const MinSpeed: real := 0.1
  const MaxSpeed: real := 4.0

  datatype Grain = Grain(
    active: bool, startIndex: int, position: real, speed: real, reverse: bool,
    envelope: real, envelopeStep: real, amplitude: real, grainLength: int)

  /** A slot as `Grain.reset` leaves it. */
  const Idle: Grain := Grain(false, 0, 0.0, 1.0, false, 0.0, 0.0, 1.0, 0)

  /** `drawn` counts the values taken so far from the random source, which
      the model receives as a function `rnd` from that count to [0, 1). */
  datatype State = State(
    enabled: bool, wet: real, sampleRate: real, params: Params,
    grainSize: real, density: real, pitch: real, jitter: real, reverseProb: real,
    ringL: seq<real>, ringR: seq<real>, ringSize: int, wL: int, wR: int,
    grains: seq<Grain>, activeGrains: int, densityAcc: real, drawn: nat)

  /** The ring length: `(int)(5 * sampleRate)`. */
  function RingSize(sampleRate: real): (n: int)
    requires ValidRate(sampleRate)
    ensures n >= 5
  {
    Trunc(5.0 * sampleRate)
  }

  /** The grain length in samples: `max(1, (int)(grainSize * sampleRate / 1000))`. */
  function GrainLength(grainSize: real, sampleRate: real): (n: int)
    requires MinGrainSize <= grainSize <= MaxGrainSize && ValidRate(sampleRate)
    ensures 1 <= n < RingSize(sampleRate)
  {
    var k := Trunc(Mul(grainSize, sampleRate) / 1000.0);
    MulMonoRight(grainSize, MaxGrainSize, sampleRate);
    MulNonNeg(grainSize, sampleRate);
    if k < 1 then 1 else k
  }

  /** Every active grain starts inside the ring, is at least one sample
      long, has not run more than a sample before its start, and moves
      backwards exactly when it is reversed, at a speed in [0.1, 4]. */
  predicate WellFormed(g: Grain, ringSize: int) {
    g.active ==>
      && 0 <= g.startIndex < ringSize
      && g.grainLength >= 1
      && g.position > -1.0
      && (g.reverse <==> g.speed < 0.0)
      && (if g.reverse then MinSpeed <= -g.speed <= MaxSpeed else MinSpeed <= g.speed <= MaxSpeed)
  }

  /** The state shape every operation keeps, apart from the accumulator. */
  ghost predicate Shaped(s: State) {
    && ValidRate(s.sampleRate)
    && MinGrainSize <= s.grainSize <= MaxGrainSize
    && MinDensity <= s.density <= MaxDensity
    && MinPitch <= s.pitch <= MaxPitch
    && 0.0 <= s.jitter <= 1.0
    && 0.0 <= s.reverseProb <= 1.0
    && s.ringSize == RingSize(s.sampleRate)
    && |s.ringL| == s.ringSize && |s.ringR| == s.ringSize
    && 0 <= s.wL < s.ringSize && 0 <= s.wR < s.ringSize
    && |s.grains| == MaxGrains
    && (forall i :: 0 <= i < |s.grains| ==> WellFormed(s.grains[i], s.ringSize))
  }

  /** The invariant every public operation keeps: the typed fields mirror
      the table, the shape holds and the accumulator lies in [0, 1). */
  ghost predicate Inv(s: State) {
    && "grainSize" in s.params && s.params["grainSize"] == s.grainSize
    && "density" in s.params && s.params["density"] == s.density
    && "pitch" in s.params && s.params["pitch"] == s.pitch
    && "jitter" in s.params && s.params["jitter"] == s.jitter
    && "reverseProb" in s.params && s.params["reverseProb"] == s.reverseProb
    && "wet" in s.params && s.params["wet"] == s.wet
    && 0.0 <= s.wet <= 1.0
    && Shaped(s)
    && 0.0 <= s.densityAcc < 1.0
  }

  /** The number of active slots. */
  function ActiveCount(gs: seq<Grain>): (n: nat)
    ensures n <= |gs|
  {
    if |gs| == 0 then 0
    else ActiveCount(gs[..|gs| - 1]) + (if gs[|gs| - 1].active then 1 else 0)
  }

  /** The state `reset` leaves. */
  ghost predicate Cleared(s: State) {
    && (forall j :: 0 <= j < |s.ringL| ==> s.ringL[j] == 0.0)
    && (forall j :: 0 <= j < |s.ringR| ==> s.ringR[j] == 0.0)
    && (forall i :: 0 <= i < |s.grains| ==> s.grains[i] == Idle)
    && s.activeGrains == 0 && s.densityAcc == 0.0 && s.wL == 0 && s.wR == 0
  }

  /** `reset`: ring zeroed, every slot reset, counters and pointers to 0;
      parameters and the random source untouched. */
  function Reset(s: State): (r: State)
    ensures Cleared(r) && |r.grains| == MaxGrains
    ensures r.(ringL := s.ringL, ringR := s.ringR, grains := s.grains, activeGrains := s.activeGrains,
               densityAcc := s.densityAcc, wL := s.wL, wR := s.wR) == s
    ensures |r.ringL| == |s.ringL| && |r.ringR| == |s.ringR|
    ensures Inv(s) ==> Inv(r)
  {
    s.(ringL := Zeros(|s.ringL|), ringR := Zeros(|s.ringR|), grains := seq(MaxGrains, _ => Idle),
       activeGrains := 0, densityAcc := 0.0, wL := 0, wR := 0)
  }

  /** `initializeBuffers` then `reset`: a fresh ring for the current rate. */
  function InitializeBuffers(s: State): (r: State)
    requires ValidRate(s.sampleRate)
    ensures Cleared(r) && r.ringSize == RingSize(s.sampleRate) && |r.ringL| == r.ringSize
    ensures r.params == s.params && r.enabled == s.enabled && r.wet == s.wet && r.sampleRate == s.sampleRate
    ensures r.grainSize == s.grainSize && r.density == s.density && r.pitch == s.pitch
    ensures r.jitter == s.jitter && r.reverseProb == s.reverseProb && r.drawn == s.drawn
  {
    var n := RingSize(s.sampleRate);
    Reset(s.(ringSize := n, ringL := Zeros(n), ringR := Zeros(n)))
  }

  /** The constructor: 256 idle slots and a ring for 44.1 kHz. */
  function Init(): (s: State)
    ensures Inv(s) && Cleared(s) && s.enabled && s.ringSize == 220500
    ensures s.grainSize == DefaultGrainSize && s.density == DefaultDensity && s.pitch == DefaultPitch
    ensures s.jitter == DefaultJitter && s.reverseProb == DefaultReverseProb && s.wet == DefaultWet
  {
    InitializeBuffers(State(true, DefaultWet, 44100.0,
      map["grainSize" := DefaultGrainSize, "density" := DefaultDensity, "pitch" := DefaultPitch,
          "jitter" := DefaultJitter, "reverseProb" := DefaultReverseProb, "wet" := DefaultWet],
      DefaultGrainSize, DefaultDensity, DefaultPitch, DefaultJitter, DefaultReverseProb,
      [], [], 0, 0, 0, [], 0, 0.0, 0))
  }

  /** `getParameter`: the stored value, 0 for a name never set. */
  function GetParameter(s: State, name: string): (v: real)
    ensures name in s.params ==> v == s.params[name]
    ensures name !in s.params ==> v == 0.0
  {
    GetOr(s.params, name, 0.0)
  }

  /** `setParameter`: grain size clamped to [20, 200], density to [1, 50],
      pitch to [0.5, 2], jitter and reverse probability to [0, 1],
      "wet"/"mix" to [0, 1]; other names stored verbatim. */
  function SetParameter(s: State, name: string, v: real): (r: State)
    requires Inv(s)
    ensures Inv(r)
    ensures name == "grainSize" ==> r.grainSize == Clamp(v, MinGrainSize, MaxGrainSize) && GetParameter(r, name) == r.grainSize
    ensures name == "density" ==> r.density == Clamp(v, MinDensity, MaxDensity) && GetParameter(r, name) == r.density
    ensures name == "pitch" ==> r.pitch == Clamp(v, MinPitch, MaxPitch) && GetParameter(r, name) == r.pitch
    ensures name == "jitter" ==> r.jitter == Clamp(v, 0.0, 1.0) && GetParameter(r, name) == r.jitter
    ensures name == "reverseProb" ==> r.reverseProb == Clamp(v, 0.0, 1.0) && GetParameter(r, name) == r.reverseProb
    ensures name == "wet" || name == "mix" ==> r.wet == Clamp(v, 0.0, 1.0) && GetParameter(r, "wet") == r.wet
    ensures name !in {"grainSize", "density", "pitch", "jitter", "reverseProb", "wet", "mix"} ==>
      GetParameter(r, name) == v && r.(params := s.params) == s
    ensures r.ringL == s.ringL && r.grains == s.grains && r.enabled == s.enabled && r.sampleRate == s.sampleRate
  {
    if name == "grainSize" then
      var x := Clamp(v, MinGrainSize, MaxGrainSize);
      s.(grainSize := x, params := s.params["grainSize" := x])
    else if name == "density" then
      var x := Clamp(v, MinDensity, MaxDensity);
      s.(density := x, params := s.params["density" := x])
    else if name == "pitch" then
      var x := Clamp(v, MinPitch, MaxPitch);
      s.(pitch := x, params := s.params["pitch" := x])
    else if name == "jitter" then
      var x := Clamp(v, 0.0, 1.0);
      s.(jitter := x, params := s.params["jitter" := x])
    else if name == "reverseProb" then
      var x := Clamp(v, 0.0, 1.0);
      s.(reverseProb := x, params := s.params["reverseProb" := x])
    else if name == "wet" || name == "mix" then
      var x := Clamp(v, 0.0, 1.0);
      s.(wet := x, params := s.params["wet" := x])
    else
      s.(params := s.params[name := v])
  }

  /** `setWetDryRatio`: clamps to [0, 1] and mirrors the value under "wet". */
  function SetWetDryRatio(s: State, w: real): (r: State)
    requires Inv(s)
    ensures Inv(r) && r.wet == Clamp(w, 0.0, 1.0) && GetParameter(r, "wet") == r.wet
    ensures r.ringL == s.ringL && r.grains == s.grains && r.enabled == s.enabled && r.sampleRate == s.sampleRate
  {
    SetParameter(s, "wet", w)
  }

  /** `setSampleRate`: a new ring for the rate, then `reset`. */
  function SetSampleRate(s: State, sr: real): (r: State)
    requires Inv(s) && ValidRate(sr)
    ensures Inv(r) && Cleared(r) && r.sampleRate == sr && r.ringSize == RingSize(sr)
    ensures r.params == s.params && r.enabled == s.enabled && r.wet == s.wet
  {
    InitializeBuffers(s.(sampleRate := sr))
  }

  /** The slot `triggerGrain` picks: the first inactive one, or 0 when all
      are active. */
  function FreeSlot(gs: seq<Grain>, from: nat): (i: nat)
    requires from <= |gs| && |gs| >= 1
    ensures i < |gs|
    ensures (exists j :: from <= j < |gs| && !gs[j].active) ==>
      from <= i && !gs[i].active && forall j :: from <= j < i ==> gs[j].active
    ensures (forall j :: from <= j < |gs| ==> gs[j].active) ==> i == 0
    decreases |gs| - from
  {
    if from == |gs| then 0
    else if !gs[from].active then from
    else FreeSlot(gs, from + 1)
  }

  /** The grain `triggerGrain` starts, from the five draws `u0..u4`. */
  function NewGrain(s: State, u0: real, u1: real, u2: real, u3: real, u4: real): (g: Grain)
    requires Shaped(s)
    requires 0.0 <= u0 < 1.0 && 0.0 <= u1 < 1.0 && 0.0 <= u2 < 1.0 && 0.0 <= u3 < 1.0 && 0.0 <= u4 < 1.0
    ensures g.active && WellFormed(g, s.ringSize)
    ensures g.grainLength == GrainLength(s.grainSize, s.sampleRate)
    ensures g.reverse <==> u2 < s.reverseProb
    ensures 0.4 <= g.amplitude < 1.6
  {
    var len := GrainLength(s.grainSize, s.sampleRate);
    var maxStart := s.ringSize - len;
    var base := (s.wL - len + s.ringSize) % s.ringSize;
    var jr := JitterRange(maxStart, s.jitter);
    var start := JRem(base + NextInt(u0, jr * 2) - jr + s.ringSize, s.ringSize);
    var speed := Clamp(s.pitch + Mul(u1 - 0.5, s.jitter * 1.5), MinSpeed, MaxSpeed);
    var reverse := u2 < s.reverseProb;
    var amplitude := 0.4 + u3 * 1.2;
    var phase := Mul(u4 - 0.5, s.jitter) * 0.5;
    MulBounded(u4 - 0.5, s.jitter, 1.0);
    Grain(true, start, if reverse then (len - 1) as real + phase else phase,
          if reverse then -speed else speed, reverse, 0.0, 1.0 / len as real, amplitude, len)
  }

  /** `max(1, (int)(maxStartIndex * jitter))`, never more than the span. */
  function JitterRange(maxStart: int, jitter: real): (jr: int)
    requires maxStart >= 1 && 0.0 <= jitter <= 1.0
    ensures 1 <= jr <= maxStart
  {
    MulMono(maxStart as real, jitter, 1.0);
    MulUnit(maxStart as real);
    MulNonNeg(maxStart as real, jitter);
    var k := Trunc(Mul(maxStart as real, jitter));
    if k < 1 then 1 else k
  }

  /** `triggerGrain`: the first free slot (slot 0 when none is free) gets a
      new grain, and the active counter grows by one either way. */
  function Trigger(s: State, rnd: nat -> real): (r: State)
    requires Shaped(s) && RandomSource(rnd)
    ensures Shaped(r)
    ensures var i := FreeSlot(s.grains, 0);
      && r.grains == s.grains[i := r.grains[i]] && r.grains[i].active
      && r.grains[i] == NewGrain(s, rnd(s.drawn), rnd(s.drawn + 1), rnd(s.drawn + 2), rnd(s.drawn + 3), rnd(s.drawn + 4))
    ensures r.activeGrains == s.activeGrains + 1 && r.drawn == s.drawn + DrawsPerGrain
    ensures r.(grains := s.grains, activeGrains := s.activeGrains, drawn := s.drawn) == s
  {
    var d := s.drawn;
    var g := NewGrain(s, rnd(d), rnd(d + 1), rnd(d + 2), rnd(d + 3), rnd(d + 4));
    s.(grains := s.grains[FreeSlot(s.grains, 0) := g], activeGrains := s.activeGrains + 1,
       drawn := d + DrawsPerGrain)
  }

  /** The `while (densityAcc >= 1)` loop of `updateGrains`. */
  function TriggerLoop(s: State, rnd: nat -> real): (r: State)
    requires Shaped(s) && RandomSource(rnd)
    ensures Shaped(r)
    ensures s.densityAcc >= 0.0 ==>
      && 0.0 <= r.densityAcc < 1.0
      && r.densityAcc == s.densityAcc - s.densityAcc.Floor as real
      && r.activeGrains == s.activeGrains + s.densityAcc.Floor
      && r.drawn == s.drawn + DrawsPerGrain * s.densityAcc.Floor
    ensures s.densityAcc < 1.0 ==> r == s
    ensures r.(grains := s.grains, activeGrains := s.activeGrains, drawn := s.drawn, densityAcc := s.densityAcc) == s
    decreases if s.densityAcc >= 1.0 then s.densityAcc.Floor else 0
  {
    if s.densityAcc >= 1.0 then
      TriggerLoop(Trigger(s, rnd).(densityAcc := s.densityAcc - 1.0), rnd)
    else s
  }

  /** `updateGrains`: the accumulator gains `density / sampleRate`, and one
      grain is triggered per whole unit it holds. */
  function UpdateGrains(s: State, rnd: nat -> real): (r: State)
    requires Shaped(s) && 0.0 <= s.densityAcc < 1.0 && RandomSource(rnd)
    ensures Shaped(r) && 0.0 <= r.densityAcc < 1.0
    ensures var acc := s.densityAcc + s.density / s.sampleRate;
      && r.densityAcc == acc - acc.Floor as real
      && r.activeGrains == s.activeGrains + acc.Floor
      && r.drawn == s.drawn + DrawsPerGrain * acc.Floor
    ensures r.(grains := s.grains, activeGrains := s.activeGrains, drawn := s.drawn, densityAcc := s.densityAcc) == s
  {
    TriggerLoop(s.(densityAcc := s.densityAcc + s.density / s.sampleRate), rnd)
  }

  /** With every slot busy, a trigger overwrites slot 0 yet still counts
      one more active grain, so `activeGrains` overstates the active slots. */
  lemma {:induction false} CounterDrifts(s: State, rnd: nat -> real)
    requires Shaped(s) && RandomSource(rnd)
    requires forall i :: 0 <= i < |s.grains| ==> s.grains[i].active
    requires s.activeGrains == ActiveCount(s.grains)
    ensures ActiveCount(Trigger(s, rnd).grains) == MaxGrains
    ensures Trigger(s, rnd).activeGrains == MaxGrains + 1
  {
    var r := Trigger(s, rnd);
    AllActiveCount(s.grains);
    AllActiveCount(r.grains);
  }

  lemma {:induction false} AllActiveCount(gs: seq<Grain>)
    requires forall i :: 0 <= i < |gs| ==> gs[i].active
    ensures ActiveCount(gs) == |gs|
    decreases |gs|
  {
    if |gs| > 0 {
      AllActiveCount(gs[..|gs| - 1]);
    }
  }

  /** `getEnvelope` with the sine oracle `sinTurns(t) = sin(2 * pi * t)`:
      `sin(pi e)^2 + 0.15 sin(6 pi e) + 0.1 sin(14 pi e)`, clamped. */
  function Envelope(e: real, sinTurns: real -> real): (v: real)
    ensures 0.0 <= v <= 1.0
  {
    var a := sinTurns(e * 0.5);
    Clamp(Mul(a, a) + 0.15 * sinTurns(e * 3.0) + 0.1 * sinTurns(e * 7.0), 0.0, 1.0)
  }

  /** The two ring indices `getGrainSample` interpolates between. */
  function ReadIndices(g: Grain, ringSize: int): (ij: (int, int))
    requires ringSize >= 1 && WellFormed(g, ringSize) && g.active
    ensures 0 <= ij.0 < ringSize && 0 <= ij.1 < ringSize
    ensures ij.1 == (ij.0 + 1) % ringSize
  {
    var readIndex := Trunc(g.startIndex as real + g.position);
    var i := JRem(readIndex + ringSize, ringSize);
    (i, JRem(i + 1, ringSize))
  }

  /** `getGrainSample`: linear interpolation in the ring at
      `startIndex + position`, times the grain amplitude. */
  function GrainSample(ring: seq<real>, g: Grain): real
    requires |ring| >= 1 && WellFormed(g, |ring|) && g.active
  {
    var readPos := g.startIndex as real + g.position;
    var fraction := readPos - Trunc(readPos) as real;
    var ij := ReadIndices(g, |ring|);
    Mul(ring[ij.0] + Mul(ring[ij.1] - ring[ij.0], fraction), g.amplitude)
  }

  /** The end condition `updateGrain` checks after advancing. */
  predicate Ends(g: Grain) {
    || g.envelope + g.envelopeStep >= 1.0
    || (g.reverse && g.position + g.speed < 0.0)
    || (!g.reverse && g.position + g.speed >= g.grainLength as real)
  }

  /** `updateGrain`: advance position and envelope; the grain ends when the
      envelope reaches 1 or the position leaves the grain. */
  function AdvanceGrain(g: Grain): (r: Grain)
    ensures r.(active := g.active, position := g.position, envelope := g.envelope) == g
    ensures r.active ==> g.active
    ensures r.active <==> (g.active && !Ends(g))
  {
    var p := g.position + g.speed;
    var e := g.envelope + g.envelopeStep;
    var done := e >= 1.0 || (g.reverse && p < 0.0) || (!g.reverse && p >= g.grainLength as real);
    g.(position := p, envelope := e, active := g.active && !done)
  }

  lemma AdvanceKeepsWellFormed(g: Grain, ringSize: int)
    requires g.active && WellFormed(g, ringSize)
    ensures WellFormed(AdvanceGrain(g), ringSize)
  {
  }

  /** What one slot adds to a channel's grain sum: its interpolated
      sample (already scaled by the amplitude) times the envelope, times
      the amplitude once more. */
  function Contribution(ring: seq<real>, g: Grain, sinTurns: real -> real): real
    requires |ring| >= 1 && WellFormed(g, |ring|)
  {
    if g.active then Mul(Mul(GrainSample(ring, g), Envelope(g.envelope, sinTurns)), g.amplitude) else 0.0
  }

  /** The grain sum over a run of slots. */
  function GrainSum(ring: seq<real>, gs: seq<Grain>, sinTurns: real -> real): real
    requires |ring| >= 1 && forall i :: 0 <= i < |gs| ==> WellFormed(gs[i], |ring|)
  {
    if |gs| == 0 then 0.0
    else GrainSum(ring, gs[..|gs| - 1], sinTurns) + Contribution(ring, gs[|gs| - 1], sinTurns)
  }

  /** Extending a prefix of the slots by one adds that slot's contribution
      and activity. */
  lemma {:induction false} SumStep(ring: seq<real>, gs: seq<Grain>, k: nat, sinTurns: real -> real)
    requires |ring| >= 1 && k < |gs| && forall i :: 0 <= i < |gs| ==> WellFormed(gs[i], |ring|)
    ensures GrainSum(ring, gs[..k + 1], sinTurns) == GrainSum(ring, gs[..k], sinTurns) + Contribution(ring, gs[k], sinTurns)
    ensures ActiveCount(gs[..k + 1]) == ActiveCount(gs[..k]) + (if gs[k].active then 1 else 0)
  {
    assert gs[..k + 1][..k] == gs[..k];
  }

  /** Replacing one slot changes the active count by the difference in
      that slot's activity. */
  lemma {:induction false} ActiveCountUpdate(gs: seq<Grain>, i: nat, g: Grain)
    requires i < |gs|
    ensures ActiveCount(gs[i := g]) + (if gs[i].active then 1 else 0)
         == ActiveCount(gs) + (if g.active then 1 else 0)
    decreases |gs|
  {
    var n := |gs| - 1;
    if i < n {
      assert gs[i := g][..n] == gs[..n][i := g];
      ActiveCountUpdate(gs[..n], i, g);
    } else {
      assert gs[i := g][..n] == gs[..n];
    }
  }

  /** A trigger that finds a free slot keeps the counter equal to the
      number of active slots. */
  lemma {:induction false} TriggerKeepsCount(s: State, rnd: nat -> real)
    requires Shaped(s) && RandomSource(rnd)
    requires exists j :: 0 <= j < |s.grains| && !s.grains[j].active
    requires s.activeGrains == ActiveCount(s.grains)
    ensures Trigger(s, rnd).activeGrains == ActiveCount(Trigger(s, rnd).grains)
  {
    var r := Trigger(s, rnd);
    var i := FreeSlot(s.grains, 0);
    ActiveCountUpdate(s.grains, i, r.grains[i]);
    assert r.grains == s.grains[i := r.grains[i]];
  }

  /** The per-sample grain loop: sums the contributions of the active slots
      on both channels, counts them, and advances each; `ended` counts the
      grains that finish, by which `updateGrain` lowers the counter. */
  method Render(s: State, sinTurns: real -> real) returns (grains: seq<Grain>, sumL: real, sumR: real, count: nat, ended: nat)
    requires Shaped(s)
    ensures |grains| == MaxGrains
    ensures forall i :: 0 <= i < MaxGrains ==> WellFormed(grains[i], s.ringSize)
    ensures forall i :: 0 <= i < MaxGrains ==> grains[i] == (if s.grains[i].active then AdvanceGrain(s.grains[i]) else s.grains[i])
    ensures sumL == GrainSum(s.ringL, s.grains, sinTurns) && sumR == GrainSum(s.ringR, s.grains, sinTurns)
    ensures count == ActiveCount(s.grains)
    ensures ActiveCount(grains) + ended == count
  {
    sumL, sumR, count := 0.0, 0.0, 0;
    var k := 0;
    while k < MaxGrains
      invariant 0 <= k <= MaxGrains
      invariant sumL == GrainSum(s.ringL, s.grains[..k], sinTurns) && sumR == GrainSum(s.ringR, s.grains[..k], sinTurns)
      invariant count == ActiveCount(s.grains[..k])
    {
      SumStep(s.ringL, s.grains, k, sinTurns);
      SumStep(s.ringR, s.grains, k, sinTurns);
      sumL := sumL + Contribution(s.ringL, s.grains[k], sinTurns);
      sumR := sumR + Contribution(s.ringR, s.grains[k], sinTurns);
      if s.grains[k].active {
        count := count + 1;
      }
      k := k + 1;
    }
    grains, ended := s.grains, 0;
    k := 0;
    while k < MaxGrains
      invariant 0 <= k <= MaxGrains && |grains| == MaxGrains
      invariant forall i :: 0 <= i < MaxGrains ==> WellFormed(grains[i], s.ringSize)
      invariant forall i :: 0 <= i < k ==> grains[i] == (if s.grains[i].active then AdvanceGrain(s.grains[i]) else s.grains[i])
      invariant forall i :: k <= i < MaxGrains ==> grains[i] == s.grains[i]
      invariant ActiveCount(grains) + ended == ActiveCount(s.grains)
    {
      var g := grains[k];
      if g.active {
        AdvanceKeepsWellFormed(g, s.ringSize);
        var next := AdvanceGrain(g);
        ActiveCountUpdate(grains, k, next);
        if !next.active {
          ended := ended + 1;
        }
        grains := grains[k := next];
      }
      k := k + 1;
    }
    assert s.grains[..MaxGrains] == s.grains;
  }

  /** A positive square root is positive. */
  lemma SqrtPositive(r: real, x: real)
    requires IsSqrt(r, x) && x > 0.0
    ensures r > 0.0
  {
    if r == 0.0 {
      MulUnit(0.0);
    }
  }

  /** The output stage of `process` for one sample: the grain sums are
      scaled by `1 / sqrt(count)`, folded to mono with the equal-power
      gains, replaced by `0.1 * input` when the ratio is positive and the
      wet part is below 0.001, and the dry-plus-wet sum is rescaled by
      `sqrt(in^2 / max(dry^2 + wet^2, 0.001))`. */
  function Mix(x: real, sumL: real, sumR: real, count: nat, wet: real,
               dryGain: real, wetGain: real, sqrt: real -> real): real
    requires SqrtOracle(sqrt)
  {
    var norm := if count > 0 then (SqrtPositive(sqrt(count as real), count as real); 1.0 / sqrt(count as real)) else 1.0;
    var l := if count > 0 then Mul(sumL, norm) else sumL;
    var r := if count > 0 then Mul(sumR, norm) else sumR;
    var drySignal := Mul(x, dryGain);
    var wet0 := (Mul(l, wetGain) + Mul(r, wetGain)) * 0.5;
    var wetSignal := if wet > 0.0 && -0.001 < wet0 < 0.001 then x * 0.1 else wet0;
    var total := Mul(drySignal, drySignal) + Mul(wetSignal, wetSignal);
    MulSquare(x);
    Mul(drySignal + wetSignal, sqrt(Mul(x, x) / Max(total, 0.001)))
  }

  /** Scaling by a factor in [0, 1) strictly shrinks any non-zero value. */
  lemma {:induction false} MulShrinks(x: real, r: real)
    requires 0.0 <= r < 1.0 && x != 0.0
    ensures -x < Mul(x, r) < x || x < Mul(x, r) < -x
  {
    if x > 0.0 {
      assert x * (1.0 - r) > 0.0;
    } else {
      assert (-x) * (1.0 - r) > 0.0;
    }
  }

  /** At wet ratio 0 the output is the input only while `in^2 >= 0.001`;
      a quieter non-zero sample comes out strictly quieter, because the
      power-matching rescale divides by 0.001 instead of its power. */
  lemma {:induction false} DryOnlyWhenLoud(x: real, sumL: real, sumR: real, count: nat, sqrt: real -> real)
    requires SqrtOracle(sqrt)
    ensures Mul(x, x) >= 0.001 ==> Mix(x, sumL, sumR, count, 0.0, 1.0, 0.0, sqrt) == x
    ensures 0.0 < Mul(x, x) < 0.001 ==>
      var y := Mix(x, sumL, sumR, count, 0.0, 1.0, 0.0, sqrt);
      -x < y < x || x < y < -x
  {
    MulUnit(x);
    var n := if count > 0 then 1.0 / sqrt(count as real) else 1.0;
    MulUnit(if count > 0 then Mul(sumL, n) else sumL);
    MulUnit(if count > 0 then Mul(sumR, n) else sumR);
    MulUnit(0.0);
    var q := Mul(x, x) / Max(Mul(x, x), 0.001);
    if Mul(x, x) >= 0.001 {
      assert q == 1.0;
      MulUnit(x);
    } else if 0.0 < Mul(x, x) {
      assert 0.0 < q < 1.0;
      var ratio := sqrt(q);
      assert IsSqrt(ratio, q);
      if ratio >= 1.0 {
        MulMono(ratio, 1.0, ratio);
        MulUnit(ratio);
      }
      MulShrinks(x, ratio);
    }
  }

  /** Writing the input sample at both write pointers and advancing them. */
  function Write(s: State, x: real): (r: State)
    requires Shaped(s)
    ensures Shaped(r)
    ensures r.(ringL := s.ringL, ringR := s.ringR, wL := s.wL, wR := s.wR) == s
    ensures r.ringL[s.wL] == x && r.ringR[s.wR] == x
    ensures |r.ringL| == |s.ringL| && forall j :: 0 <= j < |r.ringL| && j != s.wL ==> r.ringL[j] == s.ringL[j]
    ensures r.wL == (s.wL + 1) % s.ringSize && r.wR == (s.wR + 1) % s.ringSize
  {
    s.(ringL := s.ringL[s.wL := x], ringR := s.ringR[s.wR := x],
       wL := (s.wL + 1) % s.ringSize, wR := (s.wR + 1) % s.ringSize)
  }

  /** The newest sample sits one slot behind the write pointer. */
  lemma {:induction false} NewestBehindPointer(s: State, x: real)
    requires Shaped(s)
    ensures Write(s, x).ringL[(Write(s, x).wL + s.ringSize - 1) % s.ringSize] == x
  {
    var n := s.ringSize;
    var a := Wrap(s.wL + 1, n);
    var b := Wrap(a + n - 1, n);
    assert b == s.wL;
  }

  /** At wet ratio 0: a loud sample passes unchanged, a quiet non-zero one
      comes out strictly quieter. */
  ghost predicate DryOutcome(x: real, y: real) {
    && (Mul(x, x) >= 0.001 ==> y == x)
    && (0.0 < Mul(x, x) < 0.001 ==> -x < y < x || x < y < -x)
  }

  /** Every active slot advanced by `updateGrain`; idle slots unchanged. */
  function AdvanceAll(gs: seq<Grain>, ringSize: int): (r: seq<Grain>)
    requires forall i :: 0 <= i < |gs| ==> WellFormed(gs[i], ringSize)
    ensures |r| == |gs| && forall i :: 0 <= i < |r| ==> WellFormed(r[i], ringSize)
  {
    var r := seq(|gs|, i requires 0 <= i < |gs| => if gs[i].active then AdvanceGrain(gs[i]) else gs[i]);
    assert forall i :: 0 <= i < |r| ==> WellFormed(r[i], ringSize) by {
      forall i | 0 <= i < |r| ensures WellFormed(r[i], ringSize) {
        if gs[i].active {
          AdvanceKeepsWellFormed(gs[i], ringSize);
        }
      }
    }
    r
  }

  /** The fields a sample leaves alone: parameters, flags, rate and the
      sizes; only the rings, pointers, slots and counters move. */
  predicate Keeps(r: State, s: State) {
    r.(ringL := s.ringL, ringR := s.ringR, wL := s.wL, wR := s.wR, grains := s.grains,
       activeGrains := s.activeGrains, densityAcc := s.densityAcc, drawn := s.drawn) == s
  }

  /** A state that satisfies the invariant. */
  type Valid = s: State | Inv(s) witness Init()

  /** One sample of `process`: write, update the grains, render, mix. The
      active counter drops by the grains that ended in the render. */
  function Sample(s: Valid, x: real, dryGain: real, wetGain: real,
                  rnd: nat -> real, sinTurns: real -> real, sqrt: real -> real): (res: (Valid, real))
    requires RandomSource(rnd) && SqrtOracle(sqrt)
    ensures Keeps(res.0, s)
  {
    var u := UpdateGrains(Write(s, x), rnd);
    var grains := AdvanceAll(u.grains, u.ringSize);
    var count := ActiveCount(u.grains);
    (u.(grains := grains, activeGrains := u.activeGrains - (count - ActiveCount(grains))),
     Mix(x, GrainSum(u.ringL, u.grains, sinTurns), GrainSum(u.ringR, u.grains, sinTurns), count, s.wet, dryGain, wetGain, sqrt))
  }

  /** While the counter matches the active slots before the render, it
      still does after: it drops by exactly the grains that ended. */
  lemma {:induction false} SampleCounts(s: Valid, x: real, dryGain: real, wetGain: real,
                                        rnd: nat -> real, sinTurns: real -> real, sqrt: real -> real)
    requires RandomSource(rnd) && SqrtOracle(sqrt)
    requires var u := UpdateGrains(Write(s, x), rnd); u.activeGrains == ActiveCount(u.grains)
    ensures var r := Sample(s, x, dryGain, wetGain, rnd, sinTurns, sqrt).0;
      r.activeGrains == ActiveCount(r.grains)
  {
  }

  /** At wet ratio 0 with gains (1, 0): a loud sample passes unchanged and
      a quiet non-zero one comes out strictly quieter. */
  lemma {:induction false} SampleDry(s: Valid, x: real, rnd: nat -> real, sinTurns: real -> real, sqrt: real -> real)
    requires RandomSource(rnd) && SqrtOracle(sqrt) && s.wet == 0.0
    ensures DryOutcome(x, Sample(s, x, 1.0, 0.0, rnd, sinTurns, sqrt).1)
  {
    var u := UpdateGrains(Write(s, x), rnd);
    DryOnlyWhenLoud(x, GrainSum(u.ringL, u.grains, sinTurns), GrainSum(u.ringR, u.grains, sinTurns),
      ActiveCount(u.grains), sqrt);
  }

  /** One sample, with the grain loop run in place. */
  method Step(s: Valid, x: real, dryGain: real, wetGain: real,
              rnd: nat -> real, sinTurns: real -> real, sqrt: real -> real) returns (r: Valid, y: real)
    requires RandomSource(rnd) && SqrtOracle(sqrt)
    ensures (r, y) == Sample(s, x, dryGain, wetGain, rnd, sinTurns, sqrt)
  {
    var u := UpdateGrains(Write(s, x), rnd);
    var grains, sumL, sumR, count, ended := Render(u, sinTurns);
    y := Mix(x, sumL, sumR, count, s.wet, dryGain, wetGain, sqrt);
    assert grains == AdvanceAll(u.grains, u.ringSize);
    ghost var q := Sample(s, x, dryGain, wetGain, rnd, sinTurns, sqrt);
    assert q.1 == y;
    assert q.0 == u.(grains := grains, activeGrains := u.activeGrains - ended);
    r := u.(grains := grains, activeGrains := u.activeGrains - ended);
  }

  /** `process` over a block, one sample after another. */
  function Block(s: Valid, input: seq<real>, dryGain: real, wetGain: real,
                 rnd: nat -> real, sinTurns: real -> real, sqrt: real -> real): (res: (Valid, seq<real>))
    requires RandomSource(rnd) && SqrtOracle(sqrt)
    ensures Keeps(res.0, s) && |res.1| == |input|
    decreases |input|
  {
    if |input| == 0 then (s, [])
    else
      var p := Block(s, input[..|input| - 1], dryGain, wetGain, rnd, sinTurns, sqrt);
      var q := Sample(p.0, input[|input| - 1], dryGain, wetGain, rnd, sinTurns, sqrt);
      (q.0, p.1 + [q.1])
  }

  /** The state a sample leaves does not depend on the gains. */
  lemma {:induction false} SampleStateGainFree(s: Valid, x: real, dryGain: real, wetGain: real,
                                               rnd: nat -> real, sinTurns: real -> real, sqrt: real -> real)
    requires RandomSource(rnd) && SqrtOracle(sqrt)
    ensures Sample(s, x, dryGain, wetGain, rnd, sinTurns, sqrt).0 == Sample(s, x, 0.0, 1.0, rnd, sinTurns, sqrt).0
  {
  }

  /** The grains, the rings and the random draws do not depend on the
      gains: only the output samples do. */
  lemma {:induction false} BlockStateGainFree(s: Valid, input: seq<real>, dryGain: real, wetGain: real,
                                              rnd: nat -> real, sinTurns: real -> real, sqrt: real -> real)
    requires RandomSource(rnd) && SqrtOracle(sqrt)
    ensures Block(s, input, dryGain, wetGain, rnd, sinTurns, sqrt).0
         == Block(s, input, 0.0, 1.0, rnd, sinTurns, sqrt).0
    decreases |input|
  {
    if |input| > 0 {
      var front := input[..|input| - 1];
      BlockStateGainFree(s, front, dryGain, wetGain, rnd, sinTurns, sqrt);
      var p := Block(s, front, dryGain, wetGain, rnd, sinTurns, sqrt);
      SampleStateGainFree(p.0, input[|input| - 1], dryGain, wetGain, rnd, sinTurns, sqrt);
    }
  }

  /** `DryOutcome` for every sample of a block. */
  ghost predicate AllDry(input: seq<real>, out: seq<real>) {
    |out| == |input| && forall k :: 0 <= k < |input| ==> DryOutcome(input[k], out[k])
  }

  lemma DrySnoc(input: seq<real>, out: seq<real>, x: real, y: real)
    requires AllDry(input, out) && DryOutcome(x, y)
    ensures AllDry(input + [x], out + [y])
  {
    forall k | 0 <= k < |input| + 1 ensures DryOutcome((input + [x])[k], (out + [y])[k]) {
      if k < |input| {
        assert (input + [x])[k] == input[k] && (out + [y])[k] == out[k];
      }
    }
  }

  /** At wet ratio 0 with gains (1, 0), every loud sample of a block passes
      unchanged and every quiet non-zero one comes out strictly quieter. */
  lemma {:induction false} BlockDry(s: Valid, input: seq<real>, rnd: nat -> real, sinTurns: real -> real, sqrt: real -> real)
    requires RandomSource(rnd) && SqrtOracle(sqrt) && s.wet == 0.0
    ensures AllDry(input, Block(s, input, 1.0, 0.0, rnd, sinTurns, sqrt).1)
    decreases |input|
  {
    if |input| > 0 {
      var front := input[..|input| - 1];
      BlockDry(s, front, rnd, sinTurns, sqrt);
      var p := Block(s, front, 1.0, 0.0, rnd, sinTurns, sqrt);
      var q := Sample(p.0, input[|input| - 1], 1.0, 0.0, rnd, sinTurns, sqrt);
      SampleDry(p.0, input[|input| - 1], rnd, sinTurns, sqrt);
      DrySnoc(front, p.1, input[|input| - 1], q.1);
      assert Block(s, input, 1.0, 0.0, rnd, sinTurns, sqrt).1 == p.1 + [q.1];
      SnocLast(input);
    }
  }

  /** The result of `process`: a disabled effect passes the block through;
      otherwise the block is mixed with the equal-power gains of the wet
      ratio. */
  function Output(s: State, input: seq<real>, rnd: nat -> real, sinTurns: real -> real, sqrt: real -> real)
    : (res: (State, seq<real>))
    requires Inv(s) && RandomSource(rnd) && SqrtOracle(sqrt)
    ensures Inv(res.0) && Keeps(res.0, s) && |res.1| == |input|
    ensures !s.enabled ==> res == (s, input)
  {
    if !s.enabled then (s, input)
    else
      var g := EqualPower(s.wet, sqrt);
      Block(s, input, g.0, g.1, rnd, sinTurns, sqrt)
  }

  /** `process`: a disabled effect copies; otherwise each sample goes
      through `Step` with the equal-power gains of the wet ratio. At wet
      ratio 0 a sample with `in^2 >= 0.001` passes unchanged and a quieter
      non-zero one comes out strictly quieter. */
  method Process(s: State, input: seq<real>, rnd: nat -> real, sinTurns: real -> real, sqrt: real -> real)
    returns (r: State, out: seq<real>)
    requires Inv(s) && RandomSource(rnd) && SqrtOracle(sqrt)
    ensures (r, out) == Output(s, input, rnd, sinTurns, sqrt)
    ensures Inv(r) && |out| == |input|
    ensures !s.enabled ==> r == s && out == input
    ensures Keeps(r, s)
    ensures s.enabled && s.wet == 0.0 ==> AllDry(input, out)
  {
    if !s.enabled {
      return s, Copy(input);
    }
    var g := EqualPower(s.wet, sqrt);
    r := s;
    out := [];
    var i := 0;
    while i < |input|
      invariant 0 <= i <= |input|
      invariant (r, out) == Block(s, input[..i], g.0, g.1, rnd, sinTurns, sqrt)
    {
      PrefixStep(input, i);
      var y;
      r, y := Step(r, input[i], g.0, g.1, rnd, sinTurns, sqrt);
      out := out + [y];
      i := i + 1;
    }
    assert input[..|input|] == input;
    if s.wet == 0.0 {
      BlockDry(s, input, rnd, sinTurns, sqrt);
    }
  }
}

=== FILE: looper.dfy ===
/** LooperEffect: an IDLE/RECORD/PLAY/OVERDUB machine over an eight-second
    buffer per channel, with speed and direction, feedback decay at each
    wrap of the left read position, overdub at the read position, and a
    random "stutter" that repeats a slice of the loop. */
module LooperEffect {
  import opened Common

  const Id: string := "looper"

  const DefaultLoopLen: real := 2000.0
  const DefaultOverdub: real := 0.0
  const DefaultFeedback: real := 0.3
  const DefaultSpeed: real := 1.0
  const DefaultStutterProb: real := 0.2
  const DefaultSliceLen: real := 60.0
  const DefaultJitter: real := 0.1
  const DefaultWet: real := 0.35
  const MinLoopLen: real := 200.0
  const MaxLoopLen: real := 8000.0
  const MaxFeedback: real := 0.99
  const MinSpeed: real := 0.5
  const MaxSpeed: real := 2.0
  const MinSliceLen: real := 10.0
  const MaxSliceLen: real := 200.0
  const StutterMaxRepeats: int := 16
  /** Above this magnitude a stutter sample is compressed 3:10. */
  const Knee: real := 0.8

  datatype Mode = Idle | Record | Play | Overdub

  /** The typed parameter fields. */
  datatype Settings = Settings(
    loopLen: real, overdub: real, feedback: real, speed: real, reverse: bool,
    stutterOn: bool, stutterProb: real, sliceLen: real, jitter: real)

  datatype State = State(
    enabled: bool, wet: real, sampleRate: real, params: Params, cfg: Settings,
    mode: Mode,
    bufL: seq<real>, bufR: seq<real>, bufferSize: int, loopSamples: int,
    wL: int, wR: int, rL: real, rR: real,
    inStutter: bool, stutterCounter: int, stutterLength: int, stutterStart: int,
    stutterRepeats: int, stutterIntensity: real,
    drawn: nat)

  /** The buffer holds the longest loop: `(int)(8000 * sampleRate / 1000)`. */
  function BufferSize(sampleRate: real): (n: int)
    requires ValidRate(sampleRate)
    ensures n >= 8
  {
    Trunc(MaxLoopLen * sampleRate / 1000.0)
  }

  /** `updateLoopLength`: `max(1, (int)(loopLen * sampleRate / 1000))`. */
  function LoopLength(loopLen: real, sampleRate: real): (n: int)
    requires MinLoopLen <= loopLen <= MaxLoopLen && ValidRate(sampleRate)
    ensures 1 <= n <= BufferSize(sampleRate)
  {
    MulMonoRight(loopLen, MaxLoopLen, sampleRate);
    var k := Trunc(Mul(loopLen, sampleRate) / 1000.0);
    if k < 1 then 1 else k
  }

  /** `updateSliceLength`: `max(1, (int)(sliceLen * sampleRate / 1000))`. */
  function SliceLength(sliceLen: real, sampleRate: real): (n: int)
    requires MinSliceLen <= sliceLen <= MaxSliceLen && ValidRate(sampleRate)
    ensures n >= 1
    ensures forall loopLen :: MinLoopLen <= loopLen <= MaxLoopLen ==> n <= LoopLength(loopLen, sampleRate)
  {
    var k := Trunc(Mul(sliceLen, sampleRate) / 1000.0);
    assert forall loopLen :: MinLoopLen <= loopLen ==> Mul(sliceLen, sampleRate) <= Mul(loopLen, sampleRate) by {
      forall loopLen | MinLoopLen <= loopLen {
        MulMonoRight(sliceLen, loopLen, sampleRate);
      }
    }
    if k < 1 then 1 else k
  }

  /** The parameter table mirrors the typed fields. */
  predicate Mirrors(p: Params, c: Settings, wet: real) {
    && "loopLen" in p && p["loopLen"] == c.loopLen
    && "overdub" in p && p["overdub"] == c.overdub
    && "feedback" in p && p["feedback"] == c.feedback
    && "speed" in p && p["speed"] == c.speed
    && "reverse" in p && p["reverse"] == (if c.reverse then 1.0 else 0.0)
    && "stutterOn" in p && p["stutterOn"] == (if c.stutterOn then 1.0 else 0.0)
    && "stutterProb" in p && p["stutterProb"] == c.stutterProb
    && "sliceLen" in p && p["sliceLen"] == c.sliceLen
    && "jitter" in p && p["jitter"] == c.jitter
    && "wet" in p && p["wet"] == wet
  }

  /** Every parameter lies in the range `setParameter` clamps it to. */
  predicate InRange(c: Settings) {
    && MinLoopLen <= c.loopLen <= MaxLoopLen
    && 0.0 <= c.overdub <= 1.0
    && 0.0 <= c.feedback <= MaxFeedback
    && MinSpeed <= c.speed <= MaxSpeed
    && 0.0 <= c.stutterProb <= 1.0
    && MinSliceLen <= c.sliceLen <= MaxSliceLen
    && 0.0 <= c.jitter <= 1.0
  }

  /** The invariant every public operation keeps: the table mirrors the
      fields, parameters lie in their ranges, both buffers have the size
      the rate gives, the loop fits the buffer, the write pointers are
      inside the buffer, the slice length is unset (0) or agrees with the
      parameters, and a running stutter has fewer than 15 repeats. */
  ghost predicate Inv(s: State) {
    && Mirrors(s.params, s.cfg, s.wet)
    && InRange(s.cfg)
    && 0.0 <= s.wet <= 1.0
    && ValidRate(s.sampleRate)
    && s.bufferSize == BufferSize(s.sampleRate)
    && |s.bufL| == s.bufferSize && |s.bufR| == s.bufferSize
    && s.loopSamples == LoopLength(s.cfg.loopLen, s.sampleRate)
    && 0 <= s.wL < s.bufferSize && 0 <= s.wR < s.bufferSize
    && (s.stutterLength == 0 || s.stutterLength == SliceLength(s.cfg.sliceLen, s.sampleRate))
    && s.stutterCounter >= 0
    && (s.inStutter ==> 0 <= s.stutterRepeats <= 14)
    && 1.0 <= s.stutterIntensity <= 4.5
  }

  /** `reset`: IDLE, both buffers zeroed, pointers at 0, stutter cleared
      (including the slice length); parameters and rate untouched. */
  function Reset(s: State): (r: State)
    requires s.bufferSize >= 0
    ensures r.mode == Idle && |r.bufL| == s.bufferSize && |r.bufR| == s.bufferSize
    ensures Inv(s) ==> Inv(r)
    ensures forall i :: 0 <= i < |r.bufL| ==> r.bufL[i] == 0.0 && r.bufR[i] == 0.0
    ensures r.wL == 0 && r.wR == 0 && r.rL == 0.0 && r.rR == 0.0
    ensures !r.inStutter && r.stutterCounter == 0 && r.stutterLength == 0 && r.stutterStart == 0 && r.stutterRepeats == 0
    ensures r.params == s.params && r.enabled == s.enabled && r.sampleRate == s.sampleRate && r.wet == s.wet
    ensures r.loopSamples == s.loopSamples && r.bufferSize == s.bufferSize
  {
    s.(mode := Idle, bufL := Zeros(s.bufferSize), bufR := Zeros(s.bufferSize),
       wL := 0, wR := 0, rL := 0.0, rR := 0.0,
       inStutter := false, stutterCounter := 0, stutterLength := 0, stutterStart := 0, stutterRepeats := 0)
  }

  /** `initializeBuffers`: fresh zeroed buffers for the rate, and the loop
      and slice lengths recomputed. */
  function InitializeBuffers(s: State): (r: State)
    requires ValidRate(s.sampleRate) && MinLoopLen <= s.cfg.loopLen <= MaxLoopLen && MinSliceLen <= s.cfg.sliceLen <= MaxSliceLen
    ensures r.bufferSize == BufferSize(s.sampleRate) && |r.bufL| == r.bufferSize && |r.bufR| == r.bufferSize
    ensures forall i :: 0 <= i < |r.bufL| ==> r.bufL[i] == 0.0 && r.bufR[i] == 0.0
    ensures r.loopSamples == LoopLength(s.cfg.loopLen, s.sampleRate) && r.stutterLength == SliceLength(s.cfg.sliceLen, s.sampleRate)
    ensures r.(bufL := s.bufL, bufR := s.bufR, bufferSize := s.bufferSize, loopSamples := s.loopSamples,
               stutterLength := s.stutterLength) == s
  {
    var n := BufferSize(s.sampleRate);
    s.(bufferSize := n, bufL := Zeros(n), bufR := Zeros(n),
       loopSamples := LoopLength(s.cfg.loopLen, s.sampleRate), stutterLength := SliceLength(s.cfg.sliceLen, s.sampleRate))
  }

  /** The constructor: IDLE at 44.1 kHz with a 352800-sample buffer, an
      88200-sample loop and a 2646-sample slice. It does not call `reset`. */
  function Init(): (s: State)
    ensures Inv(s) && s.enabled && s.mode == Idle
    ensures s.bufferSize == 352800 && s.loopSamples == 88200 && s.stutterLength == 2646
    ensures forall i :: 0 <= i < |s.bufL| ==> s.bufL[i] == 0.0 && s.bufR[i] == 0.0
  {
    InitializeBuffers(State(true, DefaultWet, 44100.0,
      map["loopLen" := DefaultLoopLen, "overdub" := DefaultOverdub, "feedback" := DefaultFeedback,
          "speed" := DefaultSpeed, "reverse" := 0.0, "stutterOn" := 0.0, "stutterProb" := DefaultStutterProb,
          "sliceLen" := DefaultSliceLen, "jitter" := DefaultJitter, "wet" := DefaultWet],
      Settings(DefaultLoopLen, DefaultOverdub, DefaultFeedback, DefaultSpeed, false,
               false, DefaultStutterProb, DefaultSliceLen, DefaultJitter),
      Idle, [], [], 0, 0, 0, 0, 0.0, 0.0,
      false, 0, 0, 0, 0, 1.0, 0))
  }

  /** `getParameter`: the stored value, 0 for a name never set. */
  function GetParameter(s: State, name: string): (v: real)
    ensures name in s.params ==> v == s.params[name]
    ensures name !in s.params ==> v == 0.0
  {
    GetOr(s.params, name, 0.0)
  }

  /** The names `setParameter` treats specially. */
  const Names: set<string> := {"loopLen", "overdub", "feedback", "speed", "reverse", "stutterOn", "stutterProb",
                               "sliceLen", "jitter", "wet", "mix"}

  /** `setParameter`: each numeric parameter clamped to its range (a new
      loop or slice length recomputes its sample count), "reverse" and
      "stutterOn" true exactly above 0.5 and stored as 1 or 0, "wet"/"mix"
      clamped to [0, 1]; other names stored verbatim. */
  function SetParameter(s: State, name: string, v: real): (r: State)
    requires Inv(s)
    ensures Inv(r)
    ensures name !in Names ==> GetParameter(r, name) == v && r.(params := s.params) == s
    ensures r.(params := s.params, cfg := s.cfg, wet := s.wet, loopSamples := s.loopSamples,
               stutterLength := s.stutterLength) == s
  {
    if name == "loopLen" || name == "sliceLen" then SetLength(s, name, v)
    else if name in CfgNames then SetCfg(s, name, v)
    else if name == "wet" || name == "mix" then
      var x := Clamp(v, 0.0, 1.0);
      s.(wet := x, params := s.params["wet" := x])
    else
      s.(params := s.params[name := v])
  }

  /** The two lengths that also recompute a sample count. */
  function SetLength(s: State, name: string, v: real): (r: State)
    requires Inv(s) && (name == "loopLen" || name == "sliceLen")
    ensures Inv(r)
    ensures r.(params := s.params, cfg := s.cfg, loopSamples := s.loopSamples, stutterLength := s.stutterLength) == s
  {
    if name == "loopLen" then
      var x := Clamp(v, MinLoopLen, MaxLoopLen);
      s.(cfg := s.cfg.(loopLen := x), params := s.params["loopLen" := x], loopSamples := LoopLength(x, s.sampleRate))
    else
      var x := Clamp(v, MinSliceLen, MaxSliceLen);
      s.(cfg := s.cfg.(sliceLen := x), params := s.params["sliceLen" := x], stutterLength := SliceLength(x, s.sampleRate))
  }

  const CfgNames: set<string> := {"overdub", "feedback", "speed", "reverse", "stutterOn", "stutterProb", "jitter"}

  /** The parameters that only change the configuration. */
  function SetCfg(s: State, name: string, v: real): (r: State)
    requires Inv(s) && name in CfgNames
    ensures Inv(r)
    ensures r.(params := s.params, cfg := s.cfg) == s
  {
    if name == "overdub" then
      var x := Clamp(v, 0.0, 1.0);
      s.(cfg := s.cfg.(overdub := x), params := s.params["overdub" := x])
    else if name == "feedback" then
      var x := Clamp(v, 0.0, MaxFeedback);
      s.(cfg := s.cfg.(feedback := x), params := s.params["feedback" := x])
    else if name == "speed" then
      var x := Clamp(v, MinSpeed, MaxSpeed);
      s.(cfg := s.cfg.(speed := x), params := s.params["speed" := x])
    else if name == "reverse" then
      s.(cfg := s.cfg.(reverse := v > 0.5), params := s.params["reverse" := if v > 0.5 then 1.0 else 0.0])
    else if name == "stutterOn" then
      s.(cfg := s.cfg.(stutterOn := v > 0.5), params := s.params["stutterOn" := if v > 0.5 then 1.0 else 0.0])
    else if name == "stutterProb" then
      var x := Clamp(v, 0.0, 1.0);
      s.(cfg := s.cfg.(stutterProb := x), params := s.params["stutterProb" := x])
    else
      var x := Clamp(v, 0.0, 1.0);
      s.(cfg := s.cfg.(jitter := x), params := s.params["jitter" := x])
  }

  /** What `setParameter` stores under each name it treats specially. */
  lemma SetParameterStores(s: State, name: string, v: real)
    requires Inv(s)
    ensures var r := SetParameter(s, name, v);
      && (name == "loopLen" ==> r.cfg.loopLen == Clamp(v, MinLoopLen, MaxLoopLen) && r.loopSamples == LoopLength(r.cfg.loopLen, r.sampleRate))
      && (name == "overdub" ==> r.cfg.overdub == Clamp(v, 0.0, 1.0))
      && (name == "feedback" ==> r.cfg.feedback == Clamp(v, 0.0, MaxFeedback))
      && (name == "speed" ==> r.cfg.speed == Clamp(v, MinSpeed, MaxSpeed))
      && (name == "reverse" ==> (r.cfg.reverse <==> v > 0.5))
      && (name == "stutterOn" ==> (r.cfg.stutterOn <==> v > 0.5))
      && (name == "stutterProb" ==> r.cfg.stutterProb == Clamp(v, 0.0, 1.0))
      && (name == "sliceLen" ==> r.cfg.sliceLen == Clamp(v, MinSliceLen, MaxSliceLen) && r.stutterLength == SliceLength(r.cfg.sliceLen, r.sampleRate))
      && (name == "jitter" ==> r.cfg.jitter == Clamp(v, 0.0, 1.0))
      && (name == "wet" || name == "mix" ==> r.wet == Clamp(v, 0.0, 1.0) && GetParameter(r, "wet") == r.wet)
  {
  }

  /** `setWetDryRatio`: clamps to [0, 1] and mirrors the value under "wet". */
  function SetWetDryRatio(s: State, w: real): (r: State)
    requires Inv(s)
    ensures Inv(r) && r.wet == Clamp(w, 0.0, 1.0) && GetParameter(r, "wet") == r.wet
    ensures r.mode == s.mode && r.bufL == s.bufL && r.enabled == s.enabled && r.sampleRate == s.sampleRate
  {
    SetParameter(s, "wet", w)
  }

  /** `setSampleRate`: new buffers and lengths for the rate, then `reset`,
      which unsets the slice length again. */
  function SetSampleRate(s: State, sr: real): (r: State)
    requires Inv(s) && ValidRate(sr)
    ensures Inv(r) && r.mode == Idle && r.sampleRate == sr && r.bufferSize == BufferSize(sr)
    ensures r.loopSamples == LoopLength(s.cfg.loopLen, sr) && r.stutterLength == 0
    ensures r.params == s.params && r.enabled == s.enabled && r.wet == s.wet
  {
    var t := InitializeBuffers(s.(sampleRate := sr));
    Reset(t)
  }

  /** `startRecord`: from IDLE only, to RECORD with the write pointers at 0. */
  function StartRecord(s: State): (r: State)
    requires Inv(s)
    ensures Inv(r)
    ensures s.mode == Idle ==> r.mode == Record && r.wL == 0 && r.wR == 0 && r.(mode := s.mode, wL := s.wL, wR := s.wR) == s
    ensures s.mode != Idle ==> r == s
  {
    if s.mode == Idle then s.(mode := Record, wL := 0, wR := 0) else s
  }

  /** `startPlay`: from RECORD or IDLE only, to PLAY with the read pointers at 0. */
  function StartPlay(s: State): (r: State)
    requires Inv(s)
    ensures Inv(r)
    ensures s.mode in {Record, Idle} ==> r.mode == Play && r.rL == 0.0 && r.rR == 0.0 && r.(mode := s.mode, rL := s.rL, rR := s.rR) == s
    ensures s.mode !in {Record, Idle} ==> r == s
  {
    if s.mode == Record || s.mode == Idle then s.(mode := Play, rL := 0.0, rR := 0.0) else s
  }

  /** `startOverdub`: from PLAY only, to OVERDUB. */
  function StartOverdub(s: State): (r: State)
    requires Inv(s)
    ensures Inv(r)
    ensures s.mode == Play ==> r == s.(mode := Overdub)
    ensures s.mode != Play ==> r == s
  {
    if s.mode == Play then s.(mode := Overdub) else s
  }

  /** `clear`: back to IDLE through `reset`. */
  function Clear(s: State): (r: State)
    requires Inv(s)
    ensures Inv(r) && r.mode == Idle && r.wL == 0 && r.rL == 0.0 && r.stutterLength == 0 && !r.inStutter
    ensures forall i :: 0 <= i < |r.bufL| ==> r.bufL[i] == 0.0 && r.bufR[i] == 0.0
  {
    Reset(s.(mode := Idle))
  }

  /** `getState`. */
  function GetState(s: State): Mode {
    s.mode
  }

  /** The transport as `getState` reports it: record only from IDLE, play
      from RECORD or IDLE, overdub only from PLAY, and `clear` always back
      to IDLE; any other request leaves the state as it was. */
  lemma ModeTransitions(s: State)
    requires Inv(s)
    ensures GetState(StartRecord(s)) == if GetState(s) == Idle then Record else GetState(s)
    ensures GetState(StartPlay(s)) == if GetState(s) in {Record, Idle} then Play else GetState(s)
    ensures GetState(StartOverdub(s)) == if GetState(s) == Play then Overdub else GetState(s)
    ensures GetState(Clear(s)) == Idle
  {
  }

  /** `applyFeedback`: below 0.99 the first `n` samples are scaled by the
      feedback; at 0.99 nothing changes. */
  function ApplyFeedback(b: seq<real>, n: int, feedback: real): (r: seq<real>)
    requires 0 <= n <= |b|
    ensures |r| == |b|
    ensures forall i :: n <= i < |b| ==> r[i] == b[i]
    ensures feedback >= MaxFeedback ==> r == b
  {
    if feedback < MaxFeedback then seq(|b|, i requires 0 <= i < |b| => if i < n then Mul(b[i], feedback) else b[i])
    else b
  }

  /** Each wrap decays the loop: no sample grows, and at feedback 0 the
      whole loop is silenced while the rest of the buffer is kept. */
  lemma {:induction false} FeedbackDecays(b: seq<real>, n: int, feedback: real)
    requires 0 <= n <= |b| && 0.0 <= feedback <= MaxFeedback
    ensures forall i :: 0 <= i < |b| ==> -b[i] <= ApplyFeedback(b, n, feedback)[i] <= b[i] || b[i] <= ApplyFeedback(b, n, feedback)[i] <= -b[i]
    ensures feedback == 0.0 ==> forall i :: 0 <= i < n ==> ApplyFeedback(b, n, feedback)[i] == 0.0
  {
    var r := ApplyFeedback(b, n, feedback);
    forall i | 0 <= i < |b|
      ensures -b[i] <= r[i] <= b[i] || b[i] <= r[i] <= -b[i]
    {
      if feedback < MaxFeedback && i < n {
        if b[i] >= 0.0 {
          MulNonNeg(b[i], feedback);
          MulMono(b[i], feedback, 1.0);
          MulUnit(b[i]);
        } else {
          MulNeg(b[i], feedback);
          MulNonNeg(-b[i], feedback);
          MulMono(-b[i], feedback, 1.0);
          MulUnit(-b[i]);
          MulNeg(b[i], 1.0);
        }
      }
    }
    if feedback == 0.0 {
      forall i | 0 <= i < n
        ensures r[i] == 0.0
      {
        MulComm(b[i], 0.0);
        MulUnit(0.0);
      }
    }
  }

  /** The two boundary tests of `processNormalPlayback` on one position:
      the wrapped position and how many of the tests fired. */
  function WrapPosition(p: real, n: int): (w: (real, nat))
    requires n >= 1
    ensures w.1 <= 1
    ensures w.1 == 1 <==> p >= n as real || p < 0.0
    ensures w.0 == p || w.0 == p - n as real || w.0 == p + n as real
    ensures -(n as real) <= p < 2.0 * n as real ==> 0.0 <= w.0 < n as real
  {
    var p1 := if p >= n as real then p - n as real else p;
    var p2 := if p1 < 0.0 then p1 + n as real else p1;
    (p2, (if p >= n as real then 1 else 0) + (if p1 < 0.0 then 1 else 0))
  }

  /** `getInterpolatedSample`: linear interpolation between `(int)pos` and
      the next index modulo the loop length; `None` where Java's array
      access would throw. */
  function Interpolate(b: seq<real>, pos: real, n: int): (r: Option<real>)
    requires 1 <= n <= |b|
    ensures r.Some? <==> 0 <= Trunc(pos) < |b|
    ensures forall k :: 0 <= k < |b| && pos == k as real ==> r == Some(b[k])
    ensures r.Some? && pos >= 0.0 ==>
      var i := Trunc(pos);
      Min(b[i], b[JRem(i + 1, n)]) <= r.value <= Max(b[i], b[JRem(i + 1, n)])
  {
    var i1 := Trunc(pos);
    if !(0 <= i1 < |b|) then None
    else
      var i2 := JRem(i1 + 1, n);
      var fraction := pos - i1 as real;
      MulUnit(b[i2] - b[i1]);
      MulComm(b[i2] - b[i1], 0.0);
      MulUnit(0.0);
      if pos >= 0.0 then
        OnePoleBetween(b[i1], b[i2], fraction);
        Some(OnePole(b[i1], b[i2], fraction))
      else
        Some(b[i1] + Mul(b[i2] - b[i1], fraction))
  }

  /** `processNormalPlayback`: both read positions move by the signed
      speed and wrap; a wrap of the left position applies the feedback to
      both buffers; the output is the mean of the two interpolated reads;
      in OVERDUB with a positive amount the input is blended into both
      buffers at `(int)` of the left position. */
  function NormalPlayback(s: State, x: real): (res: Option<(State, real)>)
    requires Inv(s)
    ensures res.Some? ==> Inv(res.value.0) && res.value.0.mode == s.mode
    ensures res.Some? ==> res.value.0.(rL := s.rL, rR := s.rR, bufL := s.bufL, bufR := s.bufR) == s
    ensures res.Some? ==> res.value.0.rL == WrapPosition(s.rL + (if s.cfg.reverse then -s.cfg.speed else s.cfg.speed), s.loopSamples).0
  {
    var n := s.loopSamples;
    var step := if s.cfg.reverse then -s.cfg.speed else s.cfg.speed;
    var wl := WrapPosition(s.rL + step, n);
    var wr := WrapPosition(s.rR + step, n);
    var bl := if wl.1 == 1 then ApplyFeedback(s.bufL, n, s.cfg.feedback) else s.bufL;
    var br := if wl.1 == 1 then ApplyFeedback(s.bufR, n, s.cfg.feedback) else s.bufR;
    var sl := Interpolate(bl, wl.0, n);
    var sr := Interpolate(br, wr.0, n);
    if sl.None? || sr.None? then None
    else
      var y := (sl.value + sr.value) * 0.5;
      Some((Overdubbed(s.(rL := wl.0, rR := wr.0, bufL := bl, bufR := br), wl.0, x), y))
  }

  /** In OVERDUB with a positive amount, the input is blended into both
      buffers at `(int)` of the left read position; otherwise nothing changes. */
  function Overdubbed(t: State, pos: real, x: real): (r: State)
    requires Inv(t) && 0 <= Trunc(pos) < t.bufferSize
    ensures Inv(r) && r.(bufL := t.bufL, bufR := t.bufR) == t
    ensures |r.bufL| == |t.bufL| && |r.bufR| == |t.bufR|
  {
    if t.mode == Overdub && t.cfg.overdub > 0.0 then
      var wp := Trunc(pos);
      t.(bufL := t.bufL[wp := Mul(t.bufL[wp], 1.0 - t.cfg.overdub) + Mul(x, t.cfg.overdub)],
         bufR := t.bufR[wp := Mul(t.bufR[wp], 1.0 - t.cfg.overdub) + Mul(x, t.cfg.overdub)])
    else
      t
  }

  /** Normal playback throws exactly when a wrapped read position still
      falls outside the buffers. */
  lemma {:induction false} PlaybackFails(s: State, x: real)
    requires Inv(s)
    ensures NormalPlayback(s, x).Some? <==>
      && 0 <= Trunc(WrapPosition(s.rL + (if s.cfg.reverse then -s.cfg.speed else s.cfg.speed), s.loopSamples).0) < s.bufferSize
      && 0 <= Trunc(WrapPosition(s.rR + (if s.cfg.reverse then -s.cfg.speed else s.cfg.speed), s.loopSamples).0) < s.bufferSize
  {
    var n := s.loopSamples;
    var bl := ApplyFeedback(s.bufL, n, s.cfg.feedback);
    var br := ApplyFeedback(s.bufR, n, s.cfg.feedback);
  }

  /** Read positions inside the loop, with the loop longer than one step. */
  ghost predicate Playable(s: State) {
    && s.cfg.speed < s.loopSamples as real
    && 0.0 <= s.rL < s.loopSamples as real
    && 0.0 <= s.rR < s.loopSamples as real
  }

  /** In normal playback with the speed below the loop length, the read
      positions stay inside the loop and no access leaves the buffers. */
  lemma {:induction false} PlaybackStaysInLoop(s: State, x: real)
    requires Inv(s) && Playable(s)
    ensures NormalPlayback(s, x).Some?
    ensures Playable(NormalPlayback(s, x).value.0)
  {
    var n := s.loopSamples;
    var step := if s.cfg.reverse then -s.cfg.speed else s.cfg.speed;
    var wl := WrapPosition(s.rL + step, n);
    var wr := WrapPosition(s.rR + step, n);
    assert 0 <= Trunc(wl.0) < n;
    assert 0 <= Trunc(wr.0) < n;
    PlaybackFails(s, x);
  }

  /** The 3:10 compression `processStutter` applies above 0.8. */
  function SoftKnee(v: real): (r: real)
    ensures -Knee <= v <= Knee ==> r == v
    ensures v > Knee ==> Knee < r < v
    ensures v < -Knee ==> v < r < -Knee
  {
    if v > Knee then Knee + (v - Knee) * 0.3
    else if v < -Knee then -(Knee + (-v - Knee) * 0.3)
    else v
  }

  /** The knee keeps the order of its inputs. */
  lemma {:induction false} SoftKneeMonotone(a: real, b: real)
    requires a <= b
    ensures SoftKnee(a) <= SoftKnee(b)
  {
  }

  /** `(int)(16 * (0.5 + nextFloat() * 0.5))`: between 8 and 15 repeats. */
  function MaxRepeats(u: real): (n: int)
    requires 0.0 <= u < 1.0
    ensures 8 <= n <= 15
  {
    Trunc(StutterMaxRepeats as real * (0.5 + u * 0.5))
  }

  /** `startStutter`: counters to 0, a start near `(int)readIndexL` moved
      by up to `max(1, (int)(stutterLength * jitter))` either way and
      wrapped with Java's `%`, and the intensity `1.5 + 3 * jitter`. */
  function StartStutter(s: State, u: real): (r: State)
    requires Inv(s) && 0.0 <= u < 1.0
    ensures Inv(r) && r.inStutter && r.stutterCounter == 0 && r.stutterRepeats == 0
    ensures r.stutterIntensity == 1.5 + s.cfg.jitter * 3.0
    ensures s.rL >= 0.0 ==> 0 <= r.stutterStart < s.loopSamples
    ensures r.(inStutter := s.inStutter, stutterCounter := s.stutterCounter, stutterRepeats := s.stutterRepeats,
               stutterStart := s.stutterStart, stutterIntensity := s.stutterIntensity) == s
  {
    var base := Trunc(s.rL);
    MulNonNeg(s.stutterLength as real, s.cfg.jitter);
    MulMono(s.stutterLength as real, s.cfg.jitter, 1.0);
    MulUnit(s.stutterLength as real);
    var k := Trunc(Mul(s.stutterLength as real, s.cfg.jitter));
    var jr := if k < 1 then 1 else k;
    var start := base + NextInt(u, jr * 2) - jr;
    s.(inStutter := true, stutterCounter := 0, stutterRepeats := 0,
       stutterStart := JRem(start + s.loopSamples, s.loopSamples), stutterIntensity := 1.5 + s.cfg.jitter * 3.0)
  }

  /** What processing never touches: the flag, the rate, the parameters and
      the settings derived from them. */
  predicate Keeps(r: State, s: State) {
    r.enabled == s.enabled && r.sampleRate == s.sampleRate && r.params == s.params
    && r.wet == s.wet && r.cfg == s.cfg
  }

  /** `processStutter` with the sine oracle `sinTurns(t) = sin(2 pi t)`:
      reads the slice at `(start + counter % stutterLength) % loopLength`,
      scales by the intensity, adds two sine modulations, multiplies by a
      third, applies the knee, and advances the counter; at the end of a
      slice it counts a repeat and ends the stutter after 8 to 15 of them.
      `None` where Java throws: a slice length of 0 (division by zero) or
      an index outside the buffer. */
  function ProcessStutter(s: State, rnd: nat -> real, sinTurns: real -> real): (res: Option<(State, real)>)
    requires Inv(s) && s.inStutter && RandomSource(rnd)
    ensures res.Some? ==> Keeps(res.value.0, s)
    ensures s.stutterLength == 0 ==> res.None?
    ensures s.stutterLength > 0 && 0 <= s.stutterStart ==> res.Some?
    ensures res.Some? ==> Inv(res.value.0) && res.value.0.mode == s.mode
    ensures res.Some? ==> res.value.0.bufL == s.bufL && res.value.0.rL == s.rL
    ensures res.Some? && !res.value.0.inStutter ==> res.value.0.stutterRepeats >= 8
    ensures res.Some? && res.value.0.inStutter ==> res.value.0.stutterRepeats >= s.stutterRepeats
  {
    if s.stutterLength == 0 then None
    else
      var pos := JRem(s.stutterStart + JRem(s.stutterCounter, s.stutterLength), s.loopSamples);
      if !(0 <= pos < s.bufferSize) then None
      else
        var c := s.stutterCounter as real;
        var base := Mul((s.bufL[pos] + s.bufR[pos]) * 0.5, s.stutterIntensity);
        var modulation := sinTurns(c * 0.1) * 0.5 + sinTurns(c * 0.3) * 0.3;
        var amplitude := 1.0 + sinTurns(c * 0.05) * 0.4;
        var y := SoftKnee(Mul(base + modulation, amplitude));
        var counter := s.stutterCounter + 1;
        if counter >= s.stutterLength then
          var repeats := s.stutterRepeats + 1;
          var t := s.(stutterCounter := 0, stutterRepeats := repeats, drawn := s.drawn + 1);
          if repeats >= MaxRepeats(rnd(s.drawn)) then Some((t.(inStutter := false, stutterIntensity := 1.0), y))
          else Some((t, y))
        else Some((s.(stutterCounter := counter), y))
  }

  /** `processPlayback`: with stutter on and none running, one draw below
      the probability starts a stutter (one more draw for its start); a
      running stutter plays the slice, otherwise normal playback runs. */
  function ProcessPlayback(s: State, x: real, rnd: nat -> real, sinTurns: real -> real): (res: Option<(State, real)>)
    requires Inv(s) && RandomSource(rnd)
    ensures res.Some? ==> Inv(res.value.0) && res.value.0.mode == s.mode && Keeps(res.value.0, s)
    ensures !s.cfg.stutterOn && !s.inStutter ==> res == NormalPlayback(s, x)
  {
    var t :=
      if s.cfg.stutterOn && !s.inStutter then
        var t0 := s.(drawn := s.drawn + 1);
        if rnd(s.drawn) < s.cfg.stutterProb then StartStutter(t0, rnd(t0.drawn)).(drawn := t0.drawn + 1) else t0
      else s;
    if t.inStutter then ProcessStutter(t, rnd, sinTurns) else NormalPlayback(t, x)
  }

  /** After `reset`, `clear` or `setSampleRate` the slice length is 0, so the
      first stutter that starts throws before producing a sample. */
  lemma {:induction false} StutterAfterResetThrows(s: State, x: real, rnd: nat -> real, sinTurns: real -> real)
    requires Inv(s) && RandomSource(rnd)
    requires s.stutterLength == 0 && s.cfg.stutterOn && !s.inStutter && rnd(s.drawn) < s.cfg.stutterProb
    ensures ProcessPlayback(s, x, rnd, sinTurns).None?
  {
  }

  /** The equal-power output of one sample. */
  function Out(x: real, loop: real, dryGain: real, wetGain: real): (y: real)
    ensures wetGain == 0.0 ==> y == Mul(x, dryGain)
    ensures dryGain == 0.0 ==> y == Mul(loop, wetGain)
  {
    MulUnit(x);
    MulUnit(loop);
    Mul(x, dryGain) + Mul(loop, wetGain)
  }

  /** With both signals in [-1, 1] and non-negative gains the output stays
      within the sum of the gains. */
  lemma OutBounded(x: real, loop: real, dryGain: real, wetGain: real)
    requires -1.0 <= x <= 1.0 && -1.0 <= loop <= 1.0 && 0.0 <= dryGain && 0.0 <= wetGain
    ensures -(dryGain + wetGain) <= Out(x, loop, dryGain, wetGain) <= dryGain + wetGain
  {
    MulBounded(x, dryGain, dryGain);
    MulBounded(loop, wetGain, wetGain);
  }

  /** The RECORD case of `process`: the input is written at both write
      pointers, which advance modulo the loop length; then the left pointer
      is tested against the loop length to switch to PLAY. The pointer was
      just reduced below the loop length, so the test never fires and
      RECORD never turns into PLAY on its own. */
  function RecordSample(s: State, x: real): (r: State)
    requires Inv(s) && s.mode == Record
    ensures r.(bufL := s.bufL, bufR := s.bufR, wL := s.wL, wR := s.wR) == s
    ensures |r.bufL| == |s.bufL| && |r.bufR| == |s.bufR|
    ensures Inv(r) && r.mode == Record
    ensures r.bufL[s.wL] == x && r.bufR[s.wR] == x
    ensures forall i :: 0 <= i < |r.bufL| && i != s.wL ==> r.bufL[i] == s.bufL[i]
    ensures r.wL == (s.wL + 1) % s.loopSamples && r.wR == (s.wR + 1) % s.loopSamples
  {
    var n := s.loopSamples;
    var t := s.(bufL := s.bufL[s.wL := x], bufR := s.bufR[s.wR := x],
                wL := JRem(s.wL + 1, n), wR := JRem(s.wR + 1, n));
    if t.wL >= n then t.(mode := Play, rL := if s.cfg.reverse then (n - 1) as real else 0.0,
                                       rR := if s.cfg.reverse then (n - 1) as real else 0.0)
    else t
  }

  /** With the gains of wet ratio 0 the output is the input. */
  lemma DryOut(x: real, loop: real)
    ensures Out(x, loop, 1.0, 0.0) == x
  {
    MulUnit(x);
    MulComm(loop, 0.0);
    MulUnit(0.0);
  }

  /** One sample of `process`. IDLE at the first sample of a block switches
      to RECORD with the write pointers at 0; IDLE and RECORD pass the input
      through as the loop signal; PLAY and OVERDUB play back. The output is
      `in * dryGain + loop * wetGain`. `None` when the sample throws. */
  function Sample(s: State, x: real, first: bool, dryGain: real, wetGain: real,
                  rnd: nat -> real, sinTurns: real -> real): (res: Option<(State, real)>)
    requires Inv(s) && RandomSource(rnd)
    ensures res.Some? ==> Inv(res.value.0) && Keeps(res.value.0, s)
    ensures res.Some? && dryGain == 1.0 && wetGain == 0.0 ==> res.value.1 == x
    ensures s.mode in {Idle, Record} ==> res.Some?
  {
    match s.mode
    case Idle =>
      DryOut(x, x);
      Some((if first then s.(mode := Record, wL := 0, wR := 0) else s, Out(x, x, dryGain, wetGain)))
    case Record =>
      DryOut(x, x);
      Some((RecordSample(s, x), Out(x, x, dryGain, wetGain)))
    case _ =>
      match ProcessPlayback(s, x, rnd, sinTurns)
      case None => None
      case Some(p) =>
        DryOut(x, p.1);
        Some((p.0, Out(x, p.1, dryGain, wetGain)))
  }

  /** The mode a sample leaves: IDLE becomes RECORD at the first sample of
      a block and stays IDLE otherwise; RECORD stays RECORD (it never turns
      into PLAY on its own); PLAY and OVERDUB keep their mode. */
  lemma {:induction false} SampleModes(s: State, x: real, first: bool, dryGain: real, wetGain: real,
                                       rnd: nat -> real, sinTurns: real -> real)
    requires Inv(s) && RandomSource(rnd)
    ensures var r := Sample(s, x, first, dryGain, wetGain, rnd, sinTurns);
      && (s.mode == Idle ==> r.value.0.mode == (if first then Record else Idle))
      && (s.mode == Record ==> r.value.0.mode == Record)
      && (r.Some? && s.mode in {Play, Overdub} ==> r.value.0.mode == s.mode)
  {
  }

  /** The gains only scale the mix: whether a sample throws and the state
      it leaves do not depend on them, and the output is the dry input
      times the dry gain plus the fully wet output times the wet gain. */
  lemma {:induction false} SampleMix(s: State, x: real, first: bool, dryGain: real, wetGain: real,
                                     rnd: nat -> real, sinTurns: real -> real)
    requires Inv(s) && RandomSource(rnd)
    ensures var r := Sample(s, x, first, dryGain, wetGain, rnd, sinTurns);
      var w := Sample(s, x, first, 0.0, 1.0, rnd, sinTurns);
      && r.Some? == w.Some?
      && (r.Some? ==> r.value.0 == w.value.0 && r.value.1 == Mul(x, dryGain) + Mul(w.value.1, wetGain))
  {
    MulUnit(x);
    if s.mode !in {Idle, Record} {
      var p := ProcessPlayback(s, x, rnd, sinTurns);
      if p.Some? {
        MulUnit(p.value.1);
      }
    }
  }

  /** `process` over a block, one sample after another, the first sample
      flagged; the first throwing sample fails the whole call. */
  function Block(s: State, input: seq<real>, dryGain: real, wetGain: real,
                 rnd: nat -> real, sinTurns: real -> real): (res: Option<(State, seq<real>)>)
    requires Inv(s) && RandomSource(rnd)
    ensures res.Some? ==> Inv(res.value.0) && Keeps(res.value.0, s) && |res.value.1| == |input|
    decreases |input|
  {
    if |input| == 0 then Some((s, []))
    else
      match Block(s, input[..|input| - 1], dryGain, wetGain, rnd, sinTurns)
      case None => None
      case Some(p) =>
        match Sample(p.0, input[|input| - 1], |input| == 1, dryGain, wetGain, rnd, sinTurns)
        case None => None
        case Some(q) => Some((q.0, p.1 + [q.1]))
  }

  /** Once a prefix of the block throws, so does the block. */
  lemma {:induction false} BlockFailsLater(s: State, input: seq<real>, i: nat, dryGain: real, wetGain: real,
                                           rnd: nat -> real, sinTurns: real -> real)
    requires Inv(s) && RandomSource(rnd) && i <= |input|
    requires Block(s, input[..i], dryGain, wetGain, rnd, sinTurns).None?
    ensures Block(s, input, dryGain, wetGain, rnd, sinTurns).None?
    decreases |input|
  {
    if i < |input| {
      var front := input[..|input| - 1];
      assert front[..i] == input[..i];
      BlockFailsLater(s, front, i, dryGain, wetGain, rnd, sinTurns);
    } else {
      assert input[..i] == input;
    }
  }

  /** The modes over a block: IDLE and RECORD never throw; IDLE with input
      ends in RECORD, RECORD stays RECORD, PLAY and OVERDUB keep their mode. */
  lemma {:induction false} BlockModes(s: State, input: seq<real>, dryGain: real, wetGain: real,
                                      rnd: nat -> real, sinTurns: real -> real)
    requires Inv(s) && RandomSource(rnd)
    ensures var r := Block(s, input, dryGain, wetGain, rnd, sinTurns);
      && (s.mode in {Idle, Record} ==> r.Some?)
      && (s.mode == Idle ==> r.value.0.mode == (if |input| > 0 then Record else Idle))
      && (s.mode == Record ==> r.value.0.mode == Record)
      && (r.Some? && s.mode in {Play, Overdub} ==> r.value.0.mode == s.mode)
    decreases |input|
  {
    if |input| > 0 {
      var front := input[..|input| - 1];
      BlockModes(s, front, dryGain, wetGain, rnd, sinTurns);
      var p := Block(s, front, dryGain, wetGain, rnd, sinTurns);
      if p.Some? {
        SampleModes(p.value.0, input[|input| - 1], |input| == 1, dryGain, wetGain, rnd, sinTurns);
      }
    }
  }

  /** With the gains of a wet ratio of 0 a block that does not throw
      outputs its input. */
  lemma {:induction false} BlockDry(s: State, input: seq<real>, rnd: nat -> real, sinTurns: real -> real)
    requires Inv(s) && RandomSource(rnd)
    ensures Block(s, input, 1.0, 0.0, rnd, sinTurns).Some? ==> Block(s, input, 1.0, 0.0, rnd, sinTurns).value.1 == input
    decreases |input|
  {
    if |input| > 0 && Block(s, input, 1.0, 0.0, rnd, sinTurns).Some? {
      BlockDry(s, input[..|input| - 1], rnd, sinTurns);
      SnocLast(input);
    }
  }

  /** The gains only scale the mix over a whole block: it throws exactly
      when the fully wet block throws, leaves the same state, and each
      output sample is the dry input times the dry gain plus the fully wet
      output times the wet gain. */
  lemma {:induction false} BlockMix(s: State, input: seq<real>, dryGain: real, wetGain: real,
                                    rnd: nat -> real, sinTurns: real -> real)
    requires Inv(s) && RandomSource(rnd)
    ensures var r := Block(s, input, dryGain, wetGain, rnd, sinTurns);
      var w := Block(s, input, 0.0, 1.0, rnd, sinTurns);
      && r.Some? == w.Some?
      && (r.Some? ==> r.value.0 == w.value.0 && MixedFrom(r.value.1, input, w.value.1, dryGain, wetGain))
    decreases |input|
  {
    if |input| > 0 {
      var front := input[..|input| - 1];
      BlockMix(s, front, dryGain, wetGain, rnd, sinTurns);
      var p := Block(s, front, dryGain, wetGain, rnd, sinTurns);
      if p.Some? {
        var pw := Block(s, front, 0.0, 1.0, rnd, sinTurns).value;
        var x := input[|input| - 1];
        SampleMix(p.value.0, x, |input| == 1, dryGain, wetGain, rnd, sinTurns);
        var q := Sample(p.value.0, x, |input| == 1, dryGain, wetGain, rnd, sinTurns);
        if q.Some? {
          var qw := Sample(pw.0, x, |input| == 1, 0.0, 1.0, rnd, sinTurns).value;
          MixedSnoc(p.value.1, front, pw.1, dryGain, wetGain, q.value.1, x, qw.1);
          SnocLast(input);
        }
      }
    }
  }

  /** The result of `process`: a disabled looper passes the block through;
      otherwise the samples run with the equal-power gains of the wet
      ratio. */
  function Output(s: State, input: seq<real>, rnd: nat -> real, sinTurns: real -> real, sqrt: real -> real)
    : (res: Option<(State, seq<real>)>)
    requires Inv(s) && RandomSource(rnd) && SqrtOracle(sqrt)
    ensures !s.enabled ==> res == Some((s, input))
    ensures res.Some? ==> Inv(res.value.0) && Keeps(res.value.0, s) && |res.value.1| == |input|
    ensures res.Some? && s.wet == 0.0 ==> res.value.1 == input
  {
    if !s.enabled then Some((s, input))
    else
      var g := EqualPower(s.wet, sqrt);
      BlockDry(s, input, rnd, sinTurns);
      Block(s, input, g.0, g.1, rnd, sinTurns)
  }

  /** One sample of the loop: extends the result for a prefix of the
      block by the next sample, failing when that sample throws. */
  method Step(s: State, input: seq<real>, i: nat, r: State, out: seq<real>, dryGain: real, wetGain: real,
              rnd: nat -> real, sinTurns: real -> real) returns (res: Option<(State, seq<real>)>)
    requires Inv(s) && RandomSource(rnd) && i < |input|
    requires Block(s, input[..i], dryGain, wetGain, rnd, sinTurns) == Some((r, out))
    ensures res == Block(s, input[..i + 1], dryGain, wetGain, rnd, sinTurns)
  {
    PrefixStep(input, i);
    var q := Sample(r, input[i], i == 0, dryGain, wetGain, rnd, sinTurns);
    if q.None? {
      return None;
    }
    res := Some((q.value.0, out + [q.value.1]));
  }

  /** The sample loop of `process`: IDLE switches to RECORD at the first
      sample; `None` as soon as a sample throws. */
  method Run(s: State, input: seq<real>, dryGain: real, wetGain: real, rnd: nat -> real, sinTurns: real -> real)
    returns (res: Option<(State, seq<real>)>)
    requires Inv(s) && RandomSource(rnd)
    ensures res == Block(s, input, dryGain, wetGain, rnd, sinTurns)
  {
    var r := s;
    var out := [];
    var i := 0;
    while i < |input|
      invariant 0 <= i <= |input|
      invariant Block(s, input[..i], dryGain, wetGain, rnd, sinTurns) == Some((r, out))
    {
      var next := Step(s, input, i, r, out, dryGain, wetGain, rnd, sinTurns);
      if next.None? {
        BlockFailsLater(s, input, i + 1, dryGain, wetGain, rnd, sinTurns);
        return None;
      }
      r, out := next.value.0, next.value.1;
      i := i + 1;
    }
    assert input[..|input|] == input;
    res := Some((r, out));
  }

  /** `process`: a disabled looper copies; otherwise the samples run with
      the equal-power gains `sqrt(1 - wet)` and `sqrt(wet)`, and the first
      throwing sample fails the call. */
  method Process(s: State, input: seq<real>, rnd: nat -> real, sinTurns: real -> real, sqrt: real -> real)
    returns (res: Option<(State, seq<real>)>)
    requires Inv(s) && RandomSource(rnd) && SqrtOracle(sqrt)
    ensures res == Output(s, input, rnd, sinTurns, sqrt)
    ensures !s.enabled ==> res == Some((s, input))
    ensures res.Some? ==> Inv(res.value.0) && |res.value.1| == |input|
    ensures res.Some? ==> Keeps(res.value.0, s)
    ensures s.enabled && s.wet == 0.0 && res.Some? ==> res.value.1 == input
    ensures s.mode in {Idle, Record} ==> res.Some?
    ensures s.enabled && s.mode == Idle && |input| > 0 ==> res.value.0.mode == Record
    ensures s.mode == Record ==> res.value.0.mode == Record
    ensures res.Some? && s.mode in {Play, Overdub} ==> res.value.0.mode == s.mode
    ensures res.Some? && s.enabled ==>
      && Block(s, input, 0.0, 1.0, rnd, sinTurns).Some?
      && MixedFrom(res.value.1, input, Block(s, input, 0.0, 1.0, rnd, sinTurns).value.1,
           EqualPower(s.wet, sqrt).0, EqualPower(s.wet, sqrt).1)
  {
    if !s.enabled {
      return Some((s, Copy(input)));
    }
    var g := EqualPower(s.wet, sqrt);
    res := Run(s, input, g.0, g.1, rnd, sinTurns);
    BlockModes(s, input, g.0, g.1, rnd, sinTurns);
    BlockMix(s, input, g.0, g.1, rnd, sinTurns);
  }
}

=== FILE: noise_generator.dfy ===
/** NoiseGenerator: an xorshift32 random stream and the eight noise colours
    built on it, the mixer that sums them by level, and the two post
    processors (soft-clip distortion and a one-pole low-pass). Floats are
    modelled as reals; `Math.tanh` and the sine table are oracles. */
module NoiseGenerator {
  import opened Common

  /** The state seeded by the default constructor and restored by `reset`. */
  const InitialRng: bv32 := 0x1234_5678

  /** Entries of the sine table and of the granular buffer. */
  const SinN := 1024
  const GranularLength := 1024

  datatype Gen = Gen(
    rng: bv32,
    lfoPhase: real, lfoInc: real,
    lastWhite: real, prevWhite: real,
    pinkDcPrev: real, pinkDcOut: real, brownDcPrev: real, brownDcOut: real,
    grainPhase: real, grainInc: real,
    pink: seq<real>, brown: seq<real>,
    granular: seq<real>, granularIndex: int,
    lastSample: real)

  /** The external functions the generator calls: `Math.tanh` and
      `sinTurns(t) = sin(2 * pi * t)`, from which the table is filled. */
  datatype Math = Math(tanh: real -> real, sinTurns: real -> real)

  ghost predicate ValidMath(m: Math) {
    Bounded1(m.tanh) && Bounded1(m.sinTurns)
  }

  /** Buffer sizes, the granular cursor, and both phases inside the sine
      table's domain [0, 1). */
  predicate Inv(g: Gen) {
    && |g.pink| == 7 && |g.brown| == 3 && |g.granular| == GranularLength
    && 0 <= g.granularIndex < GranularLength
    && 0.0 <= g.grainPhase < 1.0
    && 0.0 <= g.lfoPhase < 1.0 && 0.0 <= g.lfoInc < 1.0
  }

  // ---------------------------------------------------------------- random

  /** One xorshift32 step: `x ^= x << 13; x ^= x >>> 17; x ^= x << 5`. */
  function Xorshift(x: bv32): (y: bv32)
    // the step loses nothing: the state it came from can be recovered
    ensures Unxorshift(y) == x
  {
    var a := x ^ (x << 13);
    var b := a ^ (a >> 17);
    UndoShifts(x, a, b);
    b ^ (b << 5)
  }

  /** The three shifts undone in reverse order. */
  function Unxorshift(y: bv32): bv32 {
    UnLeft13(UnRight17(UnLeft5(y)))
  }

  function UnLeft5(y: bv32): bv32 {
    y ^ (y << 5) ^ (y << 10) ^ (y << 15) ^ (y << 20) ^ (y << 25) ^ (y << 30)
  }

  function UnRight17(b: bv32): bv32 {
    b ^ (b >> 17)
  }

  function UnLeft13(a: bv32): bv32 {
    a ^ (a << 13) ^ (a << 26)
  }

  lemma UndoShifts(x: bv32, a: bv32, b: bv32)
    requires a == x ^ (x << 13) && b == a ^ (a >> 17)
    ensures UnLeft13(a) == x && UnRight17(b) == a && UnLeft5(b ^ (b << 5)) == b
  {
  }

  /** `(rng & 0x7FFFFFFF) / 2^30 - 1`, over the reals; the mask keeps the
      low 31 bits, that is the value modulo 2^31. */
  function ToUnit(x: bv32): (v: real)
    ensures -1.0 <= v < 1.0
  {
    ((x as int) % 0x8000_0000) as real / 1073741824.0 - 1.0
  }

  /** `frand`: advance the state, then scale its low 31 bits. */
  function Frand(rng: bv32): (r: (bv32, real))
    ensures r.0 == Xorshift(rng) && r.1 == ToUnit(r.0)
    ensures -1.0 <= r.1 < 1.0
  {
    var x := Xorshift(rng);
    (x, ToUnit(x))
  }

  /** Zero is the one fixed point of the step: a zero state never leaves
      zero, and a non-zero state never reaches it. */
  lemma XorshiftZero(x: bv32)
    ensures Xorshift(x) == 0 <==> x == 0
  {
  }

  /** The next `k` values of `frand` from state `rng`. */
  function Stream(rng: bv32, k: nat): (vs: seq<real>)
    ensures |vs| == k
    ensures forall i :: 0 <= i < k ==> -1.0 <= vs[i] < 1.0
    decreases k
  {
    if k == 0 then [] else
      var (x, v) := Frand(rng);
      [v] + Stream(x, k - 1)
  }

  /** The seeded constructor's state: `(int) (seed ^ (seed >>> 32))`, the
      low half of the folded seed. */
  function SeedRng(seed: bv64): (r: bv32)
    // the low word of the seed mixed with its high word
    ensures r == ((seed & 0xFFFF_FFFF) as bv32) ^ ((seed >> 32) as bv32)
  {
    ((seed ^ (seed >> 32)) & 0xFFFF_FFFF) as bv32
  }

  /** A seed whose halves agree (0 among them) folds to state 0. */
  lemma {:induction false} EqualHalvesFoldToZero(seed: bv64)
    requires seed >> 32 == seed & 0xFFFF_FFFF
    ensures SeedRng(seed) == 0
  {
  }

  /** From state 0, `frand` returns -1 for ever. */
  lemma {:induction false} ZeroStateIsStuck(k: nat)
    ensures forall i :: 0 <= i < k ==> Stream(0, k)[i] == -1.0
    decreases k
  {
    if k > 0 {
      XorshiftZero(0);
      ZeroStateIsStuck(k - 1);
      assert Stream(0, k) == [-1.0] + Stream(0, k - 1);
    }
  }

  /** So `new NoiseGenerator(0)` draws only -1. */
  lemma {:induction false} SeedZeroIsStuck(k: nat)
    ensures forall i :: 0 <= i < k ==> Stream(SeedRng(0), k)[i] == -1.0
  {
    EqualHalvesFoldToZero(0);
    ZeroStateIsStuck(k);
  }

  // ----------------------------------------------------------- construction

  /** The granular buffer the constructor and `reset` fill from
      `java.util.Random`: `(nextDouble() * 2 - 1) * 0.5` per entry. */
  function GrainTable(draws: seq<real>): (t: seq<real>)
    requires |draws| == GranularLength && Draws(draws)
    ensures |t| == GranularLength && AllWithin(t, 0.5)
  {
    seq(GranularLength, i requires 0 <= i < GranularLength => (draws[i] * 2.0 - 1.0) * 0.5)
  }

  /** The default constructor. */
  function New(draws: seq<real>): (g: Gen)
    requires |draws| == GranularLength && Draws(draws)
    ensures Inv(g) && g.rng == InitialRng && AllWithin(g.granular, 0.5)
  {
    Gen(InitialRng, 0.0, 0.0, 0.0, 0.0, 0.0, 0.0, 0.0, 0.0, 0.0, 1.0,
      Zeros(7), Zeros(3), GrainTable(draws), 0, 0.0)
  }

  /** The seeded constructor: the default one, then the folded seed. */
  function NewSeeded(seed: bv64, draws: seq<real>): (g: Gen)
    requires |draws| == GranularLength && Draws(draws)
    ensures Inv(g) && g.rng == SeedRng(seed)
    ensures g.(rng := InitialRng) == New(draws)
  {
    New(draws).(rng := SeedRng(seed))
  }

  /** `reset`: the random state, LFO, difference history, DC blockers,
      grain phase and cursor, filter taps and low-pass memory go back to
      their initial values; the granular buffer is refilled. */
  function Reset(g: Gen, draws: seq<real>): (r: Gen)
    requires |draws| == GranularLength && Draws(draws)
    ensures Inv(r) && r.rng == InitialRng && r.granularIndex == 0 && r.lastSample == 0.0
    ensures r.lfoPhase == 0.0 && r.lfoInc == 0.0 && r.lastWhite == 0.0 && r.prevWhite == 0.0
    ensures r.pinkDcPrev == 0.0 && r.pinkDcOut == 0.0 && r.brownDcPrev == 0.0 && r.brownDcOut == 0.0
    ensures r.grainPhase == 0.0 && r.grainInc == 1.0
    ensures forall i :: 0 <= i < |r.pink| ==> r.pink[i] == 0.0
    ensures forall i :: 0 <= i < |r.brown| ==> r.brown[i] == 0.0
  {
    g.(rng := InitialRng, lfoPhase := 0.0, lfoInc := 0.0, lastWhite := 0.0, prevWhite := 0.0,
      pinkDcPrev := 0.0, pinkDcOut := 0.0, brownDcPrev := 0.0, brownDcOut := 0.0,
      grainPhase := 0.0, grainInc := 1.0,
      pink := Zeros(7), brown := Zeros(3),
      granularIndex := 0, granular := GrainTable(draws), lastSample := 0.0)
  }

  /** Whatever happened before, `reset` gives the freshly constructed
      generator with the same buffer draws. */
  lemma {:induction false} ResetIsFresh(g: Gen, draws: seq<real>)
    requires Inv(g) && |draws| == GranularLength && Draws(draws)
    ensures Reset(g, draws) == New(draws)
  {
  }

  // --------------------------------------------------------------- helpers

  /** `undenorm`: magnitudes below 1e-20 become 0. */
  function Undenorm(v: real): (r: real)
    ensures r == 0.0 || r == v
    ensures -1.0 <= v <= 1.0 ==> -1.0 <= r <= 1.0
  {
    if -0.00000000000000000001 < v < 0.00000000000000000001 then 0.0 else v
  }

  /** `softClip(x) = tanh(1.2 x)`. */
  function SoftClip(x: real, m: Math): (r: real)
    requires ValidMath(m)
    ensures -1.0 <= r <= 1.0
  {
    m.tanh(x * 1.2)
  }

  /** `SIN[i] = sin(2 pi i / 1024)`. */
  function SinEntry(i: int, m: Math): (r: real)
    requires ValidMath(m)
    ensures -1.0 <= r <= 1.0
  {
    m.sinTurns(i as real / SinN as real)
  }

  /** `fastSin`: linear interpolation between neighbouring table entries,
      wrapping from the last entry to the first. */
  function FastSin(phase: real, m: Math): (r: real)
    requires ValidMath(m) && 0.0 <= phase < 1.0
    ensures -1.0 <= r <= 1.0
  {
    var index := phase * SinN as real;
    var i := Trunc(index);
    var frac := index - i as real;
    var i1 := (i + 1) % SinN;
    var a := SinEntry(i, m);
    var b := SinEntry(i1, m);
    OnePoleBetween(a, b, frac);
    a + Mul(frac, b - a)
  }

  // ---------------------------------------------------------------- colours

  /** `generateWhiteNoise`: one draw, scaled and soft-clipped. */
  function White(g: Gen, m: Math): (r: (Gen, real))
    requires ValidMath(m)
    ensures r.0 == g.(rng := Xorshift(g.rng))
    ensures -1.0 <= r.1 <= 1.0
  {
    var (x, v) := Frand(g.rng);
    (g.(rng := x), SoftClip(v * 0.8, m))
  }

  /** `generatePinkNoise`: six leaky integrators of a white sample (the
      seventh tap is never written), summed and passed through a DC
      blocker `y = x - x' + 0.995 y'`. */
  function Pink(g: Gen, m: Math): (r: (Gen, real))
    requires ValidMath(m) && Inv(g)
    ensures Inv(r.0) && -1.0 <= r.1 <= 1.0
    ensures r.0.pink[6] == g.pink[6]
    ensures r.0.pinkDcPrev == r.0.pink[0] + r.0.pink[1] + r.0.pink[2] + r.0.pink[3] + r.0.pink[4] + r.0.pink[5]
    ensures r.0.pinkDcOut == r.0.pinkDcPrev - g.pinkDcPrev + 0.995 * g.pinkDcOut
    ensures r.0.(rng := g.rng, pink := g.pink, pinkDcPrev := g.pinkDcPrev, pinkDcOut := g.pinkDcOut) == g
  {
    var (g1, w) := White(g, m);
    var p := g.pink;
    var p' := [0.99886 * p[0] + w * 0.0555179, 0.99332 * p[1] + w * 0.0750759,
               0.96900 * p[2] + w * 0.1538520, 0.86650 * p[3] + w * 0.3104856,
               0.55000 * p[4] + w * 0.5329522, 0.7616 * p[5] - w * 0.0168980, p[6]];
    var result := p'[0] + p'[1] + p'[2] + p'[3] + p'[4] + p'[5];
    var dcOut := result - g.pinkDcPrev + 0.995 * g.pinkDcOut;
    (g1.(pink := p', pinkDcPrev := result, pinkDcOut := dcOut), Undenorm(SoftClip(dcOut * 0.8, m)))
  }

  /** `generateBrownNoise`: three slower integrators and the same DC
      blocker. */
  function Brown(g: Gen, m: Math): (r: (Gen, real))
    requires ValidMath(m) && Inv(g)
    ensures Inv(r.0) && -1.0 <= r.1 <= 1.0
    ensures r.0.brownDcPrev == r.0.brown[0] + r.0.brown[1] + r.0.brown[2]
    ensures r.0.brownDcOut == r.0.brownDcPrev - g.brownDcPrev + 0.995 * g.brownDcOut
    ensures r.0.(rng := g.rng, brown := g.brown, brownDcPrev := g.brownDcPrev, brownDcOut := g.brownDcOut) == g
  {
    var (g1, w) := White(g, m);
    var b := g.brown;
    var b' := [0.9995 * b[0] + w * 0.0224, 0.9990 * b[1] + w * 0.0316, 0.9980 * b[2] + w * 0.0447];
    var result := b'[0] + b'[1] + b'[2];
    var dcOut := result - g.brownDcPrev + 0.995 * g.brownDcOut;
    (g1.(brown := b', brownDcPrev := result, brownDcOut := dcOut), Undenorm(SoftClip(dcOut * 0.9, m)))
  }

  /** The grain size `generateGranularNoise` works with: at least 1. */
  function GrainSize(grainSize: int): (n: int)
    ensures n >= 1
    ensures grainSize >= 1 ==> n == grainSize
  {
    if grainSize <= 0 then 1 else grainSize
  }

  /** `generateGranularNoise`: the next buffer entry, sometimes kicked by a
      random grain and a rhythmic swell, frequency-modulated for grains
      under 16, soft-clipped. The phase advances by 1 / size modulo 1 and
      the cursor by one modulo the buffer length. */
  function Granular(g: Gen, grainSize: int, m: Math): (r: (Gen, real))
    requires ValidMath(m) && Inv(g)
    ensures Inv(r.0) && -1.0 <= r.1 <= 1.0
    ensures r.0.grainInc == 1.0 / GrainSize(grainSize) as real
    ensures r.0.grainPhase == FMod(g.grainPhase + r.0.grainInc, 1.0)
    ensures r.0.granularIndex == (g.granularIndex + 1) % GranularLength
    ensures r.0.(rng := g.rng, grainInc := g.grainInc, grainPhase := g.grainPhase,
                 granularIndex := g.granularIndex) == g
  {
    var gs := GrainSize(grainSize);
    var inc := 1.0 / gs as real;
    var phase := FMod(g.grainPhase + inc, 1.0);
    var sample := g.granular[g.granularIndex];
    var index := (g.granularIndex + 1) % GranularLength;
    var rhythm := FastSin(phase, m) * 0.5;
    var density := Max(0.1, 1.0 - gs as real / 128.0);
    var (x1, trigger) := Frand(g.rng);
    var (x2, kicked) :=
      if trigger < density * 0.1 then
        var intensity := Max(0.3, 1.0 - gs as real / 128.0);
        var (x2, v) := Frand(x1);
        (x2, Mul(sample + Mul(v, intensity), 1.0 + rhythm * 0.4))
      else (x1, sample);
    var shaped := if gs < 16 then kicked + Mul(FastSin(phase * 0.5, m) * 0.3, kicked) else kicked;
    (g.(rng := x2, grainInc := inc, grainPhase := phase, granularIndex := index),
     Undenorm(SoftClip(shaped * 0.8, m)))
  }

  /** `generateBlueNoise`: the first difference of successive white draws. */
  function Blue(g: Gen, m: Math): (r: (Gen, real))
    requires ValidMath(m)
    ensures -1.0 <= r.1 <= 1.0
    ensures r.0.lastWhite == ToUnit(r.0.rng)
    ensures r.0.(rng := g.rng, lastWhite := g.lastWhite) == g
  {
    var (x, white) := Frand(g.rng);
    (g.(rng := x, lastWhite := white), Undenorm(SoftClip((white - g.lastWhite) * 0.8, m)))
  }

  /** `generateVioletNoise`: the second difference of successive white
      draws; the history shifts by one. */
  function Violet(g: Gen, m: Math): (r: (Gen, real))
    requires ValidMath(m)
    ensures -1.0 <= r.1 <= 1.0
    ensures r.0.lastWhite == ToUnit(r.0.rng) && r.0.prevWhite == g.lastWhite
    ensures r.0.(rng := g.rng, lastWhite := g.lastWhite, prevWhite := g.prevWhite) == g
  {
    var (x, white) := Frand(g.rng);
    var d1 := white - g.lastWhite;
    var d2 := g.lastWhite - g.prevWhite;
    (g.(rng := x, prevWhite := g.lastWhite, lastWhite := white), Undenorm(SoftClip((d1 - d2) * 0.6, m)))
  }

  /** Blue noise is the differenced white stream: two blue draws in a row
      clip `0.8 * (w2 - w1)`, where w1, w2 are the two draws. */
  lemma {:induction false} BlueDifferences(g: Gen, m: Math)
    requires ValidMath(m)
    ensures var (g1, _) := Blue(g, m);
      var (g2, v2) := Blue(g1, m);
      var w := Stream(g.rng, 2);
      g1.lastWhite == w[0] && g2.lastWhite == w[1]
      && v2 == Undenorm(SoftClip((w[1] - w[0]) * 0.8, m))
  {
    var x1 := Xorshift(g.rng);
    assert Stream(g.rng, 2) == [ToUnit(x1)] + Stream(x1, 1);
  }

  /** Violet noise is the twice-differenced white stream:
      `w3 - 2 w2 + w1` over three successive draws. */
  lemma {:induction false} VioletDifferences(g: Gen, m: Math)
    requires ValidMath(m)
    ensures var (g1, _) := Violet(g, m);
      var (g2, _) := Violet(g1, m);
      var (g3, v3) := Violet(g2, m);
      var w := Stream(g.rng, 3);
      g3.lastWhite == w[2] && g3.prevWhite == w[1]
      && v3 == Undenorm(SoftClip((w[2] - 2.0 * w[1] + w[0]) * 0.6, m))
  {
    var x1 := Xorshift(g.rng);
    var x2 := Xorshift(x1);
    assert Stream(g.rng, 3) == [ToUnit(x1)] + Stream(x1, 2);
    assert Stream(x1, 2) == [ToUnit(x2)] + Stream(x2, 1);
  }

  /** `generateImpulseNoise`: with a first draw below 0.05, a spike of
      random sign and magnitude 0.7 + 0.3 |d| (the sign drawn before the
      magnitude); otherwise a tenth of a draw. */
  function Impulse(g: Gen): (r: (Gen, real))
    ensures Frand(g.rng).1 < 0.05 ==> 0.7 <= Abs(r.1) <= 1.0
    ensures Frand(g.rng).1 >= 0.05 ==> -0.1 <= r.1 < 0.1
    ensures r.0.(rng := g.rng) == g
  {
    var (x1, d) := Frand(g.rng);
    if d < 0.05 then
      var (x2, s) := Frand(x1);
      var (x3, a) := Frand(x2);
      var magnitude := 0.7 + Abs(a) * 0.3;
      (g.(rng := x3), (if s > 0.0 then 1.0 else -1.0) * magnitude)
    else
      var (x2, v) := Frand(x1);
      (g.(rng := x2), v * 0.1)
  }

  function Abs(x: real): real { if x < 0.0 then -x else x }

  /** The LFO phase step: add the increment, subtract 1 once on reaching 1. */
  function LfoStep(phase: real, inc: real): (p: real)
    requires 0.0 <= phase < 1.0 && 0.0 <= inc < 1.0
    ensures 0.0 <= p < 1.0
    ensures p == phase + inc || p == phase + inc - 1.0
  {
    var p := phase + inc;
    if p >= 1.0 then p - 1.0 else p
  }

  /** `generateModulatedNoise`: a white draw times an LFO in [0, 1]. */
  function Modulated(g: Gen, m: Math): (r: (Gen, real))
    requires ValidMath(m) && Inv(g)
    ensures Inv(r.0) && -1.0 <= r.1 <= 1.0
    ensures r.0.lfoPhase == LfoStep(g.lfoPhase, g.lfoInc)
    ensures r.0.(rng := g.rng, lfoPhase := g.lfoPhase) == g
  {
    var (x, white) := Frand(g.rng);
    var phase := LfoStep(g.lfoPhase, g.lfoInc);
    var lfo := 0.5 * (FastSin(phase, m) + 1.0);
    (g.(rng := x, lfoPhase := phase), Undenorm(SoftClip(Mul(white, lfo), m)))
  }

  // ------------------------------------------------------------------ mixer

  datatype Levels = Levels(
    white: real, pink: real, granular: real, brown: real,
    blue: real, violet: real, impulse: real, modulated: real)

  function Total(l: Levels): real {
    l.white + l.pink + l.granular + l.brown + l.blue + l.violet + l.impulse + l.modulated
  }

  /** No colour is asked for. */
  predicate Silent(l: Levels) {
    l.white <= 0.0 && l.pink <= 0.0 && l.granular <= 0.0 && l.brown <= 0.0
    && l.blue <= 0.0 && l.violet <= 0.0 && l.impulse <= 0.0 && l.modulated <= 0.0
  }

  /** The grain-size colouring of a sample: `x * (1 + fastSin(grainPhase) * depth)`
      for grain sizes under 64. */
  function Grainy(x: real, g: Gen, grainSize: int, depth: real, m: Math): real
    requires ValidMath(m) && Inv(g)
  {
    if grainSize < 64 then Mul(x, 1.0 + FastSin(g.grainPhase, m) * depth) else x
  }

  /** One colour of the mixer: nothing generated, nothing added, for a
      level of 0 or below; otherwise the colour's sample times the level
      is added to the running sum. */
  datatype Colour = WhiteC | PinkC | GranularC | BrownC | BlueC | VioletC | ImpulseC | ModulatedC

  /** The level the mixer gives colour `c`. */
  function LevelOf(l: Levels, c: Colour): real {
    match c
    case WhiteC => l.white
    case PinkC => l.pink
    case GranularC => l.granular
    case BrownC => l.brown
    case BlueC => l.blue
    case VioletC => l.violet
    case ImpulseC => l.impulse
    case ModulatedC => l.modulated
  }

  /** What generating colour `c` may change: the random state always, and
      only that colour's own filter, phase or history. */
  predicate Touches(c: Colour, h: Gen, g: Gen) {
    && h.lfoInc == g.lfoInc && h.granular == g.granular && h.lastSample == g.lastSample
    && (c != PinkC ==> h.pink == g.pink && h.pinkDcPrev == g.pinkDcPrev && h.pinkDcOut == g.pinkDcOut)
    && (c != BrownC ==> h.brown == g.brown && h.brownDcPrev == g.brownDcPrev && h.brownDcOut == g.brownDcOut)
    && (c != GranularC ==>
         h.grainPhase == g.grainPhase && h.grainInc == g.grainInc && h.granularIndex == g.granularIndex)
    && (c != BlueC && c != VioletC ==> h.lastWhite == g.lastWhite)
    && (c != VioletC ==> h.prevWhite == g.prevWhite)
    && (c != ModulatedC ==> h.lfoPhase == g.lfoPhase)
  }

  function Generate(c: Colour, g: Gen, grainSize: int, m: Math): (r: (Gen, real))
    requires ValidMath(m) && Inv(g)
    ensures Inv(r.0) && Touches(c, r.0, g)
  {
    match c
    case WhiteC => var (h, v) := White(g, m); (h, Grainy(v, h, grainSize, 0.2, m))
    case PinkC => var (h, v) := Pink(g, m); (h, Grainy(v, h, grainSize, 0.15, m))
    case GranularC => Granular(g, grainSize, m)
    case BrownC => var (h, v) := Brown(g, m); (h, Grainy(v, h, grainSize, 0.1, m))
    case BlueC => var (h, v) := Blue(g, m); (h, Grainy(v, h, grainSize, 0.25, m))
    case VioletC => var (h, v) := Violet(g, m); (h, Grainy(v, h, grainSize, 0.3, m))
    case ImpulseC => Impulse(g)
    case ModulatedC => Modulated(g, m)
  }

  /** `if (level > 0) mixed += sample(colour) * level`, as a value: the
      generator after the colour and the running sum with its contribution. */
  function Contribute(c: Colour, level: real, g: Gen, sum: real, grainSize: int, m: Math): (r: (Gen, real))
    requires ValidMath(m) && Inv(g)
    ensures Inv(r.0) && Touches(c, r.0, g)
    ensures level <= 0.0 ==> r == (g, sum)
    ensures level > 0.0 ==> r.0 == Generate(c, g, grainSize, m).0
  {
    if level > 0.0 then
      var h := Generate(c, g, grainSize, m);
      (h.0, sum + Mul(h.1, level))
    else (g, sum)
  }

  /** The same step, run in place. */
  method Add(c: Colour, level: real, g: Gen, sum: real, grainSize: int, m: Math) returns (r: (Gen, real))
    requires ValidMath(m) && Inv(g)
    ensures r == Contribute(c, level, g, sum, grainSize, m)
    ensures Inv(r.0) && Touches(c, r.0, g)
    ensures level <= 0.0 ==> r == (g, sum)
    ensures level > 0.0 ==> r == (Generate(c, g, grainSize, m).0, sum + Mul(Generate(c, g, grainSize, m).1, level))
  {
    if level > 0.0 {
      var h := Generate(c, g, grainSize, m);
      r := (h.0, sum + Mul(h.1, level));
    } else {
      r := (g, sum);
    }
  }

  /** The order in which `generateMixedNoise` visits the colours. */
  const Colours: seq<Colour> := [WhiteC, PinkC, GranularC, BrownC, BlueC, VioletC, ImpulseC, ModulatedC]

  /** What the mixer keeps of the generator: the state of every colour it
      does not ask for, and what no colour touches. */
  predicate Kept(l: Levels, h: Gen, g: Gen) {
    && h.lfoInc == g.lfoInc && h.granular == g.granular && h.lastSample == g.lastSample
    && (l.pink <= 0.0 ==> h.pink == g.pink && h.pinkDcPrev == g.pinkDcPrev && h.pinkDcOut == g.pinkDcOut)
    && (l.brown <= 0.0 ==> h.brown == g.brown && h.brownDcPrev == g.brownDcPrev && h.brownDcOut == g.brownDcOut)
    && (l.granular <= 0.0 ==>
         h.grainPhase == g.grainPhase && h.grainInc == g.grainInc && h.granularIndex == g.granularIndex)
    && (l.blue <= 0.0 && l.violet <= 0.0 ==> h.lastWhite == g.lastWhite)
    && (l.violet <= 0.0 ==> h.prevWhite == g.prevWhite)
    && (l.modulated <= 0.0 ==> h.lfoPhase == g.lfoPhase)
  }

  /** The running sum over the colours `cs`, from generator `g` and sum
      `sum`: each colour adds its sample times its level when the level is
      positive. */
  function SumFrom(cs: seq<Colour>, l: Levels, g: Gen, sum: real, grainSize: int, m: Math): (r: (Gen, real))
    requires ValidMath(m) && Inv(g)
    ensures Inv(r.0)
    decreases |cs|
  {
    if |cs| == 0 then (g, sum)
    else
      var h := Contribute(cs[0], LevelOf(l, cs[0]), g, sum, grainSize, m);
      SumFrom(cs[1..], l, h.0, h.1, grainSize, m)
  }

  /** Colours whose level is not positive are not generated, so the
      generator keeps their state; a list of such colours adds nothing. */
  lemma {:induction false} SumFromKept(cs: seq<Colour>, l: Levels, g: Gen, sum: real, grainSize: int, m: Math)
    requires ValidMath(m) && Inv(g)
    ensures Kept(l, SumFrom(cs, l, g, sum, grainSize, m).0, g)
    ensures (forall i :: 0 <= i < |cs| ==> LevelOf(l, cs[i]) <= 0.0) ==> SumFrom(cs, l, g, sum, grainSize, m) == (g, sum)
    decreases |cs|
  {
    if |cs| > 0 {
      var h := Contribute(cs[0], LevelOf(l, cs[0]), g, sum, grainSize, m);
      SumFromKept(cs[1..], l, h.0, h.1, grainSize, m);
      if forall i :: 0 <= i < |cs| ==> LevelOf(l, cs[i]) <= 0.0 {
        assert forall i :: 0 <= i < |cs| - 1 ==> LevelOf(l, cs[1..][i]) <= 0.0 by {
          forall i | 0 <= i < |cs| - 1 ensures LevelOf(l, cs[1..][i]) <= 0.0 {
            assert cs[1..][i] == cs[i + 1];
          }
        }
      }
    }
  }

  /** The running sum of `generateMixedNoise` before normalisation. */
  function SumOf(g: Gen, l: Levels, grainSize: int, m: Math): (r: (Gen, real))
    requires ValidMath(m) && Inv(g)
    ensures Inv(r.0)
  {
    SumFrom(Colours, l, g, 0.0, grainSize, m)
  }

  /** The colours `cs` added one after another, in place. */
  method AddEach(cs: seq<Colour>, l: Levels, g: Gen, sum: real, grainSize: int, m: Math) returns (r: (Gen, real))
    requires ValidMath(m) && Inv(g)
    ensures r == SumFrom(cs, l, g, sum, grainSize, m)
  {
    r := (g, sum);
    for i := 0 to |cs|
      invariant Inv(r.0)
      invariant SumFrom(cs[i..], l, r.0, r.1, grainSize, m) == SumFrom(cs, l, g, sum, grainSize, m)
    {
      assert cs[i..][1..] == cs[i + 1..];
      r := Add(cs[i], LevelOf(l, cs[i]), r.0, r.1, grainSize, m);
    }
  }

  /** The running sum of `generateMixedNoise` before normalisation, in the
      order white, pink, granular, brown, blue, violet, impulse, modulated;
      a colour whose level is not positive is not generated at all. */
  method MixSum(g: Gen, l: Levels, grainSize: int, m: Math) returns (r: (Gen, real))
    requires ValidMath(m) && Inv(g)
    ensures r == SumOf(g, l, grainSize, m)
    ensures Inv(r.0)
    ensures Silent(l) ==> r == (g, 0.0)
    ensures l.pink <= 0.0 ==> r.0.pink == g.pink && r.0.pinkDcPrev == g.pinkDcPrev && r.0.pinkDcOut == g.pinkDcOut
    ensures l.brown <= 0.0 ==> r.0.brown == g.brown && r.0.brownDcPrev == g.brownDcPrev && r.0.brownDcOut == g.brownDcOut
    ensures l.granular <= 0.0 ==>
      r.0.grainPhase == g.grainPhase && r.0.grainInc == g.grainInc && r.0.granularIndex == g.granularIndex
    ensures l.blue <= 0.0 && l.violet <= 0.0 ==> r.0.lastWhite == g.lastWhite
    ensures l.violet <= 0.0 ==> r.0.prevWhite == g.prevWhite
    ensures l.modulated <= 0.0 ==> r.0.lfoPhase == g.lfoPhase
    ensures r.0.lfoInc == g.lfoInc && r.0.granular == g.granular && r.0.lastSample == g.lastSample
  {
    r := AddEach(Colours, l, g, 0.0, grainSize, m);
    SumFromKept(Colours, l, g, 0.0, grainSize, m);
    if Silent(l) {
      assert forall i :: 0 <= i < |Colours| ==> LevelOf(l, Colours[i]) <= 0.0;
    }
  }

  /** Division by the total level, only when it exceeds 1. */
  function Normalize(sum: real, total: real): (r: real)
    ensures total <= 1.0 ==> r == sum
    ensures total > 1.0 ==> r * total == sum
  {
    if total > 1.0 then sum / total else sum
  }

  /** Only colour `c` asked for, at level `v`. */
  function Only(c: Colour, v: real): (l: Levels)
    ensures LevelOf(l, c) == v && Total(l) == v
    ensures forall other :: other != c ==> LevelOf(l, other) == 0.0
  {
    var z := Levels(0.0, 0.0, 0.0, 0.0, 0.0, 0.0, 0.0, 0.0);
    match c
    case WhiteC => z.(white := v)
    case PinkC => z.(pink := v)
    case GranularC => z.(granular := v)
    case BrownC => z.(brown := v)
    case BlueC => z.(blue := v)
    case VioletC => z.(violet := v)
    case ImpulseC => z.(impulse := v)
    case ModulatedC => z.(modulated := v)
  }

  /** Over a list without `c`, colour `c` alone adds nothing. */
  lemma {:induction false} SumFromAbsent(cs: seq<Colour>, c: Colour, v: real, g: Gen, sum: real, grainSize: int, m: Math)
    requires ValidMath(m) && Inv(g) && c !in cs
    ensures SumFrom(cs, Only(c, v), g, sum, grainSize, m) == (g, sum)
  {
    assert forall i :: 0 <= i < |cs| ==> LevelOf(Only(c, v), cs[i]) <= 0.0 by {
      forall i | 0 <= i < |cs| ensures LevelOf(Only(c, v), cs[i]) <= 0.0 {
        assert cs[i] in cs;
      }
    }
    SumFromKept(cs, Only(c, v), g, sum, grainSize, m);
  }

  /** Over a list holding `c` once, colour `c` alone adds exactly its own
      contribution. */
  lemma {:induction false} SumFromSolo(cs: seq<Colour>, c: Colour, v: real, g: Gen, sum: real, grainSize: int, m: Math)
    requires ValidMath(m) && Inv(g) && c in cs
    requires forall i, j :: 0 <= i < j < |cs| ==> cs[i] != cs[j]
    ensures SumFrom(cs, Only(c, v), g, sum, grainSize, m) == Contribute(c, v, g, sum, grainSize, m)
    decreases |cs|
  {
    if cs[0] == c {
      var h := Contribute(c, v, g, sum, grainSize, m);
      assert c !in cs[1..] by {
        forall j | 0 <= j < |cs| - 1 ensures cs[1..][j] != c { assert cs[1..][j] == cs[j + 1]; }
      }
      SumFromAbsent(cs[1..], c, v, h.0, h.1, grainSize, m);
    } else {
      assert c in cs[1..] by {
        var j :| 0 <= j < |cs| && cs[j] == c;
        assert cs[1..][j - 1] == c;
      }
      SumFromSolo(cs[1..], c, v, g, sum, grainSize, m);
    }
  }

  /** The arithmetic of a lone colour's normalisation. */
  lemma SoloStep(x: real, v: real)
    requires v > 0.0
    ensures Normalize(0.0 + Mul(x, v), v) == if v > 1.0 then x else Mul(x, v)
  {
    if v > 1.0 {
      assert (x * v) / v == x;
    }
  }

  /** A colour on its own is summed at its level and not normalised up to
      full level; above full level the normalisation gives back the
      colour's own sample, so a lone colour never exceeds its raw loudness. */
  lemma {:induction false} SoloMix(c: Colour, v: real, g: Gen, grainSize: int, m: Math)
    requires ValidMath(m) && Inv(g)
    ensures SumOf(g, Only(c, v), grainSize, m) == Contribute(c, v, g, 0.0, grainSize, m)
    ensures v > 0.0 ==>
      Normalize(SumOf(g, Only(c, v), grainSize, m).1, Total(Only(c, v)))
        == (if v > 1.0 then Generate(c, g, grainSize, m).1 else Mul(Generate(c, g, grainSize, m).1, v))
  {
    assert c in Colours;
    SumFromSolo(Colours, c, v, g, 0.0, grainSize, m);
    if v > 0.0 {
      SoloStep(Generate(c, g, grainSize, m).1, v);
    }
  }

  /** The tail of `generateMixedNoise`: normalise the running sum by the
      total level, add the tiny dither and soft-clip once. */
  function Finish(sum: real, l: Levels, m: Math): (y: real)
    requires ValidMath(m)
    ensures -1.0 <= y <= 1.0
    ensures Total(l) <= 1.0 ==> y == Undenorm(SoftClip(sum + 0.000000000001, m))
    ensures Total(l) > 1.0 ==> y == Undenorm(SoftClip(sum / Total(l) + 0.000000000001, m))
  {
    Undenorm(SoftClip(Normalize(sum, Total(l)) + 0.000000000001, m))
  }

  /** `generateMixedNoise`: the running sum, then its normalised, dithered
      and clipped value. The generator changes exactly as the running
      sum's does. */
  method Mixed(g: Gen, l: Levels, grainSize: int, m: Math) returns (r: (Gen, real))
    requires ValidMath(m) && Inv(g)
    ensures r == (SumOf(g, l, grainSize, m).0, Finish(SumOf(g, l, grainSize, m).1, l, m))
    ensures Inv(r.0) && -1.0 <= r.1 <= 1.0
    ensures Silent(l) ==> r == (g, Undenorm(SoftClip(0.000000000001, m)))
    // every colour not asked for keeps its state
    ensures Kept(l, r.0, g)
  {
    var s := MixSum(g, l, grainSize, m);
    if Silent(l) {
      assert Total(l) <= 0.0;
    }
    r := (s.0, Finish(s.1, l, m));
  }

  // ---------------------------------------------------------- post-process

  /** `applyDistortion`: identity for a level of 0 or below; otherwise the
      driven sample soft-clipped and attenuated by `1 - level / 2`. */
  function ApplyDistortion(sample: real, level: real, m: Math): (r: real)
    requires ValidMath(m)
    ensures level <= 0.0 ==> r == sample
    ensures 0.0 < level <= 1.0 ==> -1.0 <= r <= 1.0
  {
    if level <= 0.0 then sample
    else
      var c := SoftClip(Mul(sample, 1.0 + level), m);
      assert level <= 1.0 ==> -1.0 <= Mul(c, 1.0 - level * 0.5) <= 1.0 by {
        if level <= 1.0 {
          MulBounded(1.0 - level * 0.5, c, 1.0);
        }
      }
      Mul(c, 1.0 - level * 0.5)
  }

  /** `applyLowPassFilter`: identity, with the memory untouched, for a level
      of 0 or below; otherwise `last + (x - last) * (1 - level)`, which lies
      between the memory and the input for a level in [0, 1]. */
  function ApplyLowPass(g: Gen, sample: real, level: real): (r: (Gen, real))
    ensures level <= 0.0 ==> r == (g, sample)
    ensures r.0.(lastSample := g.lastSample) == g
    ensures 0.0 < level <= 1.0 ==>
      Min(g.lastSample, sample) <= r.0.lastSample <= Max(g.lastSample, sample)
      && (r.1 == 0.0 || r.1 == r.0.lastSample)
  {
    if level <= 0.0 then (g, sample)
    else
      var filtered := g.lastSample + Mul(sample - g.lastSample, 1.0 - level);
      assert level <= 1.0 ==> Min(g.lastSample, sample) <= filtered <= Max(g.lastSample, sample) by {
        if level <= 1.0 {
          MulComm(sample - g.lastSample, 1.0 - level);
          OnePoleBetween(g.lastSample, sample, 1.0 - level);
        }
      }
      (g.(lastSample := filtered), Undenorm(filtered))
  }
}

=== FILE: overdrive.dfy ===
/** OverdriveEffect: input gain, tanh soft clipping, gain compensation and a
    one-pole tone filter per channel, folded to mono with equal-power gains. */
module OverdriveEffect {
  import opened Common

  const Id: string := "overdrive"

  const DefaultDrive: real := 4.0
  const DefaultTone: real := 0.6
  const DefaultWet: real := 0.35
  const MinDrive: real := 1.0
  const MaxDrive: real := 20.0

  datatype State = State(
    enabled: bool, wet: real, sampleRate: real, params: Params,
    drive: real, tone: real, lpL: real, lpR: real, coeff: real)

  /** The tone cutoff: 2 kHz at tone 0 up to 10 kHz at tone 1. */
  function Cutoff(tone: real): (hz: real)
    requires 0.0 <= tone <= 1.0
    ensures 2000.0 <= hz <= 10000.0
  {
    2000.0 + tone * 8000.0
  }

  /** `updateLowpassCoeff` for a tone and a rate. */
  function ToneCoeff(tone: real, sampleRate: real): (c: real)
    requires 0.0 <= tone <= 1.0 && ValidRate(sampleRate)
    ensures 0.0 <= c <= 0.99
    ensures LowpassCoeff(2000.0, sampleRate) <= c <= LowpassCoeff(10000.0, sampleRate)
  {
    LowpassCoeffMonotone(2000.0, Cutoff(tone), sampleRate);
    LowpassCoeffMonotone(Cutoff(tone), 10000.0, sampleRate);
    LowpassCoeff(Cutoff(tone), sampleRate)
  }

  /** A brighter tone never gives a smaller filter coefficient. */
  lemma {:induction false} ToneBrightens(t1: real, t2: real, sampleRate: real)
    requires 0.0 <= t1 <= t2 <= 1.0 && ValidRate(sampleRate)
    ensures ToneCoeff(t1, sampleRate) <= ToneCoeff(t2, sampleRate)
  {
    LowpassCoeffMonotone(Cutoff(t1), Cutoff(t2), sampleRate);
  }

  /** The invariant every public operation keeps: the typed fields mirror
      the table, values are in range, the coefficient is a valid one-pole
      coefficient, and the filter states lie in [-1, 1]. */
  ghost predicate Inv(s: State) {
    && "drive" in s.params && s.params["drive"] == s.drive
    && "tone" in s.params && s.params["tone"] == s.tone
    && "wet" in s.params && s.params["wet"] == s.wet
    && MinDrive <= s.drive <= MaxDrive
    && 0.0 <= s.tone <= 1.0
    && 0.0 <= s.wet <= 1.0
    && ValidRate(s.sampleRate)
    && 0.0 <= s.coeff <= 0.99
    && -1.0 <= s.lpL <= 1.0 && -1.0 <= s.lpR <= 1.0
  }

  /** The coefficient is the one `updateLowpassCoeff` computes from the
      current tone and rate. */
  ghost predicate Tuned(s: State) {
    0.0 <= s.tone <= 1.0 && ValidRate(s.sampleRate) && s.coeff == ToneCoeff(s.tone, s.sampleRate)
  }

  /** Both channels see the same input, so their filter states never differ. */
  predicate Symmetric(s: State) {
    s.lpL == s.lpR
  }

  /** `reset`: both filter states to 0, nothing else. */
  function Reset(s: State): (r: State)
    ensures r.lpL == 0.0 && r.lpR == 0.0 && Symmetric(r)
    ensures r.(lpL := s.lpL, lpR := s.lpR) == s
    ensures Inv(s) ==> Inv(r)
  {
    s.(lpL := 0.0, lpR := 0.0)
  }

  /** The constructor. */
  function Init(): (s: State)
    ensures Inv(s) && Tuned(s) && Symmetric(s) && s.enabled && s.lpL == 0.0
    ensures s.drive == DefaultDrive && s.tone == DefaultTone && s.wet == DefaultWet
  {
    State(true, DefaultWet, 44100.0,
      map["drive" := DefaultDrive, "tone" := DefaultTone, "wet" := DefaultWet],
      DefaultDrive, DefaultTone, 0.0, 0.0, ToneCoeff(DefaultTone, 44100.0))
  }

  /** `getParameter`: the stored value, 0 for a name never set. */
  function GetParameter(s: State, name: string): (v: real)
    ensures name in s.params ==> v == s.params[name]
    ensures name !in s.params ==> v == 0.0
  {
    GetOr(s.params, name, 0.0)
  }

  /** `setParameter`: drive clamped to [1, 20], tone to [0, 1] with the
      coefficient recomputed, "wet"/"mix" to [0, 1]; other names stored verbatim. */
  function SetParameter(s: State, name: string, v: real): (r: State)
    requires Inv(s)
    ensures Inv(r) && (Tuned(s) ==> Tuned(r))
    ensures name == "drive" ==> r.drive == Clamp(v, MinDrive, MaxDrive) && GetParameter(r, "drive") == r.drive
    ensures name == "tone" ==> r.tone == Clamp(v, 0.0, 1.0) && GetParameter(r, "tone") == r.tone
    ensures name == "wet" || name == "mix" ==> r.wet == Clamp(v, 0.0, 1.0) && GetParameter(r, "wet") == r.wet
    ensures name !in {"drive", "tone", "wet", "mix"} ==>
      GetParameter(r, name) == v && r.drive == s.drive && r.tone == s.tone && r.wet == s.wet
    ensures r.enabled == s.enabled && r.sampleRate == s.sampleRate && r.lpL == s.lpL && r.lpR == s.lpR
  {
    if name == "drive" then
      var x := Clamp(v, MinDrive, MaxDrive);
      s.(drive := x, params := s.params["drive" := x])
    else if name == "tone" then
      var x := Clamp(v, 0.0, 1.0);
      s.(tone := x, params := s.params["tone" := x], coeff := ToneCoeff(x, s.sampleRate))
    else if name == "wet" || name == "mix" then
      var x := Clamp(v, 0.0, 1.0);
      s.(wet := x, params := s.params["wet" := x])
    else
      s.(params := s.params[name := v])
  }

  /** `setWetDryRatio`: clamps to [0, 1] and mirrors the value under "wet". */
  function SetWetDryRatio(s: State, w: real): (r: State)
    requires Inv(s)
    ensures Inv(r) && r.wet == Clamp(w, 0.0, 1.0) && GetParameter(r, "wet") == r.wet
    ensures r.drive == s.drive && r.tone == s.tone && r.enabled == s.enabled && r.sampleRate == s.sampleRate
  {
    SetParameter(s, "wet", w)
  }

  /** `setSampleRate`: records the rate and recomputes the coefficient; the
      filter states are kept. */
  function SetSampleRate(s: State, sr: real): (r: State)
    requires Inv(s) && ValidRate(sr)
    ensures Inv(r) && r.sampleRate == sr && r.coeff == ToneCoeff(s.tone, sr)
    ensures r.(sampleRate := s.sampleRate, coeff := s.coeff) == s
  {
    s.(sampleRate := sr, coeff := ToneCoeff(s.tone, sr))
  }

  /** Drive, soft clip and compensation: `tanh(x * drive) / drive`. */
  function Shape(x: real, drive: real, tanh: real -> real): (y: real)
    requires drive >= MinDrive && Bounded1(tanh)
    ensures -1.0 <= y <= 1.0
    ensures -1.0 / drive <= y <= 1.0 / drive
  {
    Compensated(tanh(Mul(x, drive)), drive);
    DivBounds(tanh(Mul(x, drive)), 1.0, drive);
    tanh(Mul(x, drive)) / drive
  }

  /** One sample of `process` as a value: both channels through shaper and
      tone filter, then the mono mix. With the gains of ratio 0 the sample
      passes; with those of ratio 1 it stays within [-1, 1]. */
  function Sample(s: State, x: real, dryGain: real, wetGain: real, tanh: real -> real): (res: (State, real))
    requires Inv(s) && Bounded1(tanh)
    ensures Inv(res.0) && res.0.(lpL := s.lpL, lpR := s.lpR) == s
    ensures res.0.lpL == OnePole(s.lpL, Shape(x, s.drive, tanh), s.coeff)
    ensures res.0.lpR == OnePole(s.lpR, Shape(x, s.drive, tanh), s.coeff)
    ensures res.1 == MonoMix(x, res.0.lpL, res.0.lpR, dryGain, wetGain)
    ensures Symmetric(s) ==> Symmetric(res.0)
    ensures dryGain == 1.0 && wetGain == 0.0 ==> res.1 == x
    ensures dryGain == 0.0 && wetGain == 1.0 ==> -1.0 <= res.1 <= 1.0
  {
    var shaped := Shape(x, s.drive, tanh);
    OnePoleKeepsBound(s.lpL, shaped, s.coeff, 1.0);
    OnePoleKeepsBound(s.lpR, shaped, s.coeff, 1.0);
    var l := OnePole(s.lpL, shaped, s.coeff);
    var rr := OnePole(s.lpR, shaped, s.coeff);
    MonoMixEnds(x, l, rr);
    (s.(lpL := l, lpR := rr), MonoMix(x, l, rr, dryGain, wetGain))
  }

  /** The sample loop of `process` as a value: the samples of `input`, in
      order, through `Sample`. */
  function Block(s: State, input: seq<real>, dryGain: real, wetGain: real, tanh: real -> real): (res: (State, seq<real>))
    requires Inv(s) && Bounded1(tanh)
    ensures Inv(res.0) && |res.1| == |input| && res.0.(lpL := s.lpL, lpR := s.lpR) == s
    ensures Symmetric(s) ==> Symmetric(res.0)
    ensures dryGain == 1.0 && wetGain == 0.0 ==> res.1 == input
    ensures dryGain == 0.0 && wetGain == 1.0 ==> AllWithin(res.1, 1.0)
    decreases |input|
  {
    if |input| == 0 then (s, [])
    else
      var p := Block(s, input[..|input| - 1], dryGain, wetGain, tanh);
      var q := Sample(p.0, input[|input| - 1], dryGain, wetGain, tanh);
      assert dryGain == 1.0 && wetGain == 0.0 ==> p.1 + [q.1] == input[..|input| - 1] + [input[|input| - 1]] == input;
      (q.0, p.1 + [q.1])
  }

  /** `process` as a value: a disabled effect hands the block back, an
      enabled one runs `Block` with the gains `sqrt(1 - wet)` and `sqrt(wet)`. */
  function Output(s: State, input: seq<real>, sqrt: real -> real, tanh: real -> real): (res: (State, seq<real>))
    requires Inv(s) && SqrtOracle(sqrt) && Bounded1(tanh)
    ensures Inv(res.0) && |res.1| == |input| && res.0.(lpL := s.lpL, lpR := s.lpR) == s
    ensures !s.enabled ==> res == (s, input)
    ensures s.wet == 0.0 ==> res.1 == input
    ensures s.enabled && s.wet == 1.0 ==> AllWithin(res.1, 1.0)
    ensures Symmetric(s) ==> Symmetric(res.0)
  {
    if !s.enabled then (s, input) else Block(s, input, sqrt(1.0 - s.wet), sqrt(s.wet), tanh)
  }

  /** One sample of `process`. */
  method Step(s: State, x: real, dryGain: real, wetGain: real, tanh: real -> real) returns (r: State, y: real)
    requires Inv(s) && Bounded1(tanh)
    ensures (r, y) == Sample(s, x, dryGain, wetGain, tanh)
  {
    var shaped := Shape(x, s.drive, tanh);
    var l := OnePole(s.lpL, shaped, s.coeff);
    var rr := OnePole(s.lpR, shaped, s.coeff);
    r := s.(lpL := l, lpR := rr);
    y := MonoMix(x, l, rr, dryGain, wetGain);
  }

  /** `process`: the per-sample loop computes `Output`. */
  method Process(s: State, input: seq<real>, sqrt: real -> real, tanh: real -> real) returns (r: State, out: seq<real>)
    requires Inv(s) && SqrtOracle(sqrt) && Bounded1(tanh)
    ensures (r, out) == Output(s, input, sqrt, tanh)
    ensures Inv(r) && |out| == |input|
    ensures r.(lpL := s.lpL, lpR := s.lpR) == s
    ensures !s.enabled ==> r == s && out == input
    ensures s.wet == 0.0 ==> out == input
    ensures s.enabled && s.wet == 1.0 ==> AllWithin(out, 1.0)
    ensures Symmetric(s) ==> Symmetric(r)
  {
    if !s.enabled {
      return s, Copy(input);
    }
    var dryGain := sqrt(1.0 - s.wet);
    var wetGain := sqrt(s.wet);
    r := s;
    out := [];
    var i := 0;
    while i < |input|
      invariant 0 <= i <= |input|
      invariant Inv(r) && (r, out) == Block(s, input[..i], dryGain, wetGain, tanh)
    {
      var y;
      assert input[..i + 1][..i] == input[..i];
      r, y := Step(r, input[i], dryGain, wetGain, tanh);
      out := out + [y];
      i := i + 1;
    }
    assert input[..|input|] == input;
  }

  /** Silence in, silence out: with `tanh(0) = 0` a silent filter state
      stays silent and the sample it yields is 0, at every wet ratio. */
  lemma {:induction false} SilenceStaysSilent(s: State, dryGain: real, wetGain: real, tanh: real -> real)
    requires Inv(s) && Bounded1(tanh) && tanh(0.0) == 0.0
    requires s.lpL == 0.0 && s.lpR == 0.0
    ensures Shape(0.0, s.drive, tanh) == 0.0
    ensures OnePole(0.0, Shape(0.0, s.drive, tanh), s.coeff) == 0.0
    ensures MonoMix(0.0, 0.0, 0.0, dryGain, wetGain) == 0.0
  {
    MulUnit(s.drive);
    MulUnit(s.coeff);
    MulUnit(dryGain);
    MulUnit(wetGain);
  }
}

=== FILE: perlin_config.dfy ===
/** PerlinParameterConfig: the range, timing, fractal and edge settings of
    one modulated parameter, the edge behaviours that bring a value back
    into the range, and the preset table. */
module PerlinConfig {
  import opened Common

  datatype EdgeBehavior = ClampEdge | ReflectEdge | WrapEdge

  datatype Config = Config(
    minValue: real, maxValue: real, offset: real,
    speed: real, timeOffset: real,
    octaves: int, persistence: real, lacunarity: real,
    edge: EdgeBehavior, slewRate: real, jitter: real,
    warpSpeed: real, warpAmplitude: real)

  /** The no-argument constructor. */
  function Default(): (c: Config)
    ensures Range(c) == 1.0 && c.edge == ClampEdge && c.octaves == 3
  {
    Config(0.0, 1.0, 0.0, 1.0, 0.0, 3, 0.55, 2.0, ClampEdge, 0.1, 0.02, 0.5, 0.1)
  }

  /** `getEffectiveTime`: the scaled and shifted time plus the warp noise
      weighted by the warp amplitude. */
  function EffectiveTime(c: Config, baseTime: real, warpNoise: real): (t: real)
    ensures c.speed == 1.0 && c.timeOffset == 0.0 && c.warpAmplitude == 0.0 ==> t == baseTime
  {
    MulUnit(baseTime);
    MulComm(warpNoise, 0.0);
    MulUnit(0.0);
    Mul(baseTime, c.speed) + c.timeOffset + Mul(warpNoise, c.warpAmplitude)
  }

  /** The warp noise shifts the effective time by itself times the warp
      amplitude, whatever the base time. */
  lemma {:induction false} WarpShifts(c: Config, baseTime: real, warpNoise: real)
    ensures EffectiveTime(c, baseTime, warpNoise) - EffectiveTime(c, baseTime, 0.0)
      == Mul(warpNoise, c.warpAmplitude)
  {
    MulComm(0.0, c.warpAmplitude);
    MulUnit(0.0);
  }

  /** `getRange`. */
  function Range(c: Config): (r: real)
    ensures r >= 0.0 <==> c.minValue <= c.maxValue
    ensures c.minValue + r == c.maxValue
  {
    c.maxValue - c.minValue
  }

  /** `getCenter`: the midpoint, equally far from both ends. */
  function Center(c: Config): (m: real)
    ensures m - c.minValue == c.maxValue - m
    ensures c.minValue <= c.maxValue ==> c.minValue <= m <= c.maxValue
  {
    (c.minValue + c.maxValue) / 2.0
  }

  predicate InRange(c: Config, v: real) {
    c.minValue <= v <= c.maxValue
  }

  /** `applyEdgeBehavior`. None stands for the NaN that WRAP produces with
      an empty range (`% 0.0`). */
  function ApplyEdge(c: Config, value: real): (r: Option<real>)
    // a value already in range passes every behaviour unchanged
    ensures InRange(c, value) ==> r == Some(value)
    // CLAMP always lands in a well-formed range
    ensures c.edge == ClampEdge ==> r.Some? && (c.minValue <= c.maxValue ==> InRange(c, r.value))
    // REFLECT mirrors once about the crossed bound ...
    ensures c.edge == ReflectEdge && value < c.minValue ==> r == Some(c.minValue + (c.minValue - value))
    ensures c.edge == ReflectEdge && value > c.maxValue && value >= c.minValue ==>
      r == Some(c.maxValue - (value - c.maxValue))
    // ... which lands in range exactly when the overshoot is at most the range
    ensures c.edge == ReflectEdge && value < c.minValue ==>
      (InRange(c, r.value) <==> c.minValue - value <= Range(c))
    ensures c.edge == ReflectEdge && value > c.maxValue && c.minValue <= c.maxValue ==>
      (InRange(c, r.value) <==> value - c.maxValue <= Range(c))
    // WRAP lands in a non-empty range, and is NaN outside an empty one
    ensures c.edge == WrapEdge && Range(c) > 0.0 ==> r.Some? && InRange(c, r.value)
    ensures c.edge == WrapEdge && Range(c) == 0.0 ==> (r.None? <==> !InRange(c, value))
  {
    var range := Range(c);
    match c.edge
    case ClampEdge => Some(Max(c.minValue, Min(c.maxValue, value)))
    case ReflectEdge =>
      if value < c.minValue then Some(c.minValue + (c.minValue - value))
      else if value > c.maxValue then Some(c.maxValue - (value - c.maxValue))
      else Some(value)
    case WrapEdge =>
      if value < c.minValue then
        (if range == 0.0 then None else Some(c.maxValue - FMod(c.minValue - value, Abs(range))))
      else if value > c.maxValue then
        (if range == 0.0 then None else Some(c.minValue + FMod(value - c.maxValue, Abs(range))))
      else Some(value)
  }

  /** Java's `%` takes the sign of the dividend only, so a negative range
      divides like its magnitude. */
  function Abs(x: real): (r: real)
    ensures r >= 0.0 && (r == x || r == -x)
  {
    if x < 0.0 then -x else x
  }

  /** Every behaviour is settled once its result is in range: applying it
      again changes nothing. CLAMP and WRAP (on a non-empty range) always get
      there; REFLECT does when the overshoot is at most the range. */
  lemma {:induction false} EdgeSettles(c: Config, value: real)
    requires c.minValue < c.maxValue
    requires c.edge == ReflectEdge ==> c.minValue - Range(c) <= value <= c.maxValue + Range(c)
    ensures ApplyEdge(c, value).Some?
    ensures ApplyEdge(c, ApplyEdge(c, value).value) == ApplyEdge(c, value)
  {
    var r := ApplyEdge(c, value);
    assert InRange(c, r.value);
  }

  /** REFLECT on an overshoot beyond the range leaves the range. */
  lemma {:induction false} ReflectFarOvershootEscapes(c: Config)
    requires c.edge == ReflectEdge && c.minValue == 0.0 && c.maxValue == 1.0
    ensures ApplyEdge(c, -1.5) == Some(1.5) && !InRange(c, 1.5)
    ensures ApplyEdge(c, 2.5) == Some(-0.5) && !InRange(c, -0.5)
  {
  }

  datatype Preset =
    | Volume | Tone | Distortion | Filter | GrainSize
    | Volume2 | Distortion2 | Filter2 | GrainSize2
    | VolumeWild | DistortionWild | FilterWild | GrainSizeWild

  /** The static `create...Preset` factories. */
  function PresetConfig(p: Preset): (c: Config)
    ensures c.minValue < c.maxValue
    ensures c.octaves >= 3 && c.persistence == 0.55 && c.lacunarity == 2.0
    ensures c.edge != WrapEdge
    ensures c.edge == ReflectEdge <==> p in {Filter, Filter2, FilterWild}
  {
    match p
    case Volume => Config(0.1, 1.0, 0.0, 0.8, 1000.0, 3, 0.55, 2.0, ClampEdge, 0.15, 0.02, 0.3, 0.2)
    case Tone => Config(0.0, 1.0, 0.0, 0.15, 5000.0, 3, 0.55, 2.0, ClampEdge, 0.1, 0.02, 0.2, 0.1)
    case Distortion => Config(0.0, 1.0, 0.0, 1.2, 2000.0, 3, 0.55, 2.0, ClampEdge, 0.2, 0.03, 0.4, 0.15)
    case Filter => Config(0.0, 1.0, 0.0, 0.6, 3000.0, 4, 0.55, 2.0, ReflectEdge, 0.1, 0.01, 0.2, 0.25)
    case GrainSize => Config(1.0, 128.0, 0.0, 0.4, 4000.0, 3, 0.55, 2.0, ClampEdge, 0.3, 0.02, 0.1, 0.1)
    case Volume2 => Config(0.05, 0.95, 0.1, 1.1, 1500.0, 4, 0.55, 2.0, ClampEdge, 0.12, 0.025, 0.35, 0.18)
    case Distortion2 => Config(0.1, 0.9, -0.05, 0.9, 2500.0, 3, 0.55, 2.0, ClampEdge, 0.18, 0.035, 0.45, 0.12)
    case Filter2 => Config(0.05, 0.85, 0.15, 0.7, 3500.0, 5, 0.55, 2.0, ReflectEdge, 0.08, 0.015, 0.25, 0.22)
    case GrainSize2 => Config(2.0, 96.0, 0.0, 0.5, 4500.0, 3, 0.55, 2.0, ClampEdge, 0.25, 0.025, 0.12, 0.08)
    case VolumeWild => Config(0.01, 1.0, 0.0, 1.5, 500.0, 5, 0.55, 2.0, ClampEdge, 0.25, 0.04, 0.6, 0.4)
    case DistortionWild => Config(0.0, 1.0, 0.0, 2.0, 1000.0, 4, 0.55, 2.0, ClampEdge, 0.3, 0.05, 0.7, 0.3)
    case FilterWild => Config(0.0, 1.0, 0.0, 0.3, 4000.0, 6, 0.55, 2.0, ReflectEdge, 0.06, 0.02, 0.15, 0.35)
    case GrainSizeWild => Config(1.0, 128.0, 0.0, 0.8, 2000.0, 4, 0.55, 2.0, ClampEdge, 0.4, 0.03, 0.2, 0.15)
  }

  /** `randomizeOffset`: `nextDouble() * 2 - 1` from the draw `u`; nothing
      else changes. */
  function RandomizeOffset(c: Config, u: real): (r: Config)
    requires 0.0 <= u < 1.0
    ensures -1.0 <= r.offset < 1.0
    ensures r.(offset := c.offset) == c
  {
    c.(offset := u * 2.0 - 1.0)
  }
}

=== FILE: perlin_modulator.dfy ===
/** PerlinModulator: each tick turns fractal noise into a new value for
    five parameters (volume, tone, distortion, filter, grain size) through
    time warp, shaping, range mapping, jitter, drift, the edge behaviour and
    a slew limiter, and publishes it. The background scheduler and the clock
    are left to the caller: a tick receives the current time. */
module PerlinModulator {
  import opened Common
  import opened PerlinConfig
  import PerlinNoise

  datatype Channel = VolumeCh | ToneCh | DistortionCh | FilterCh | GrainSizeCh

  /** One value per channel: the configurations, the previous values kept
      for slew limiting, and the published (atomic) values. */
  datatype PerChannel<T> = PerChannel(volume: T, tone: T, distortion: T, filter: T, grainSize: T)

  function Get<T>(s: PerChannel<T>, ch: Channel): T {
    match ch
    case VolumeCh => s.volume
    case ToneCh => s.tone
    case DistortionCh => s.distortion
    case FilterCh => s.filter
    case GrainSizeCh => s.grainSize
  }

  /** Replaces one channel's entry and keeps the other four. */
  function Set<T>(s: PerChannel<T>, ch: Channel, v: T): (r: PerChannel<T>)
    ensures Get(r, ch) == v
    ensures forall other :: other != ch ==> Get(r, other) == Get(s, other)
  {
    match ch
    case VolumeCh => s.(volume := v)
    case ToneCh => s.(tone := v)
    case DistortionCh => s.(distortion := v)
    case FilterCh => s.(filter := v)
    case GrainSizeCh => s.(grainSize := v)
  }

  /** The parameter names the modulator answers to. */
  function ChannelOf(name: string): (ch: Option<Channel>)
    ensures ch.Some? <==> name in {"volume", "tone", "distortion", "filter", "grainSize"}
  {
    if name == "volume" then Some(VolumeCh)
    else if name == "tone" then Some(ToneCh)
    else if name == "distortion" then Some(DistortionCh)
    else if name == "filter" then Some(FilterCh)
    else if name == "grainSize" then Some(GrainSizeCh)
    else None
  }

  /** `Math.sin` and `Math.pow`: only the facts the pipeline needs. */
  datatype Math = Math(sin: real -> real, pow: (real, real) -> real)

  ghost predicate ValidMath(m: Math) {
    && Bounded1(m.sin)
    && (forall x, g :: 0.0 <= x <= 1.0 && g > 0.0 ==> 0.0 <= m.pow(x, g) <= 1.0)
    && (forall x :: 0.0 <= x ==> m.pow(x, 1.0) == x)
  }

  /** A configuration the pipeline can evaluate without producing NaN: at
      least one octave, positive persistence, and no WRAP on an empty range. */
  predicate ValidConfig(c: Config) {
    c.octaves >= 1 && c.persistence > 0.0 && (c.edge == WrapEdge ==> Range(c) != 0.0)
  }

  datatype Modulator = Modulator(
    active: bool,
    configs: PerChannel<Config>,
    previous: PerChannel<real>,
    current: PerChannel<real>)

  ghost predicate Inv(mod: Modulator) {
    forall ch :: ValidConfig(Get(mod.configs, ch))
  }

  /** The constructor: the five presets with offsets randomised from
      `draws`, published values 0.7, 0.5, 0, 0, 64 and slew memories
      0.7, 0, 0, 0, 1; inactive. */
  function New(draws: seq<real>): (mod: Modulator)
    requires |draws| == 5 && Draws(draws)
    ensures Inv(mod) && !mod.active
    ensures forall ch :: -1.0 <= Get(mod.configs, ch).offset < 1.0
    ensures Get(mod.configs, FilterCh).edge == ReflectEdge
  {
    var configs := PerChannel(
      RandomizeOffset(PresetConfig(Volume), draws[0]),
      RandomizeOffset(PresetConfig(Tone), draws[1]),
      RandomizeOffset(PresetConfig(Distortion), draws[2]),
      RandomizeOffset(PresetConfig(Filter), draws[3]),
      RandomizeOffset(PresetConfig(GrainSize), draws[4]));
    Modulator(false, configs, PerChannel(0.7, 0.0, 0.0, 0.0, 1.0), PerChannel(0.7, 0.5, 0.0, 0.0, 64.0))
  }

  // ------------------------------------------------------------ start / stop

  /** `start`: does nothing when already running. */
  function Start(mod: Modulator): (r: Modulator)
    ensures r.active && r.(active := mod.active) == mod
  {
    mod.(active := true)
  }

  /** `stop`: does nothing when already stopped. */
  function Stop(mod: Modulator): (r: Modulator)
    ensures !r.active && r.(active := mod.active) == mod
  {
    mod.(active := false)
  }

  /** `toggle`. */
  function Toggle(mod: Modulator): (r: Modulator)
    ensures r.active != mod.active && r.(active := mod.active) == mod
  {
    if mod.active then Stop(mod) else Start(mod)
  }

  // ------------------------------------------------------------ the pipeline

  /** Steps 1-2: fractal noise at the warped time; tone and filter blend in
      re-centred turbulence. */
  function RawNoise(p: PerlinNoise.Perlin, ch: Channel, c: Config, warpedTime: real): (raw: real)
    requires PerlinNoise.Inv(p) && ValidConfig(c)
    ensures -1.0 <= raw <= 1.0
    ensures ch !in {ToneCh, FilterCh} ==> raw == PerlinNoise.Fbm(p, warpedTime, c.octaves, c.persistence, c.lacunarity).value
  {
    var fbm := PerlinNoise.Fbm(p, warpedTime, c.octaves, c.persistence, c.lacunarity).value;
    if ch == ToneCh || ch == FilterCh then
      var octaves := if c.octaves - 1 > 2 then c.octaves - 1 else 2;
      var edge := PerlinNoise.Turbulence(p, warpedTime * 0.8, octaves, Min(0.7, c.persistence + 0.1), c.lacunarity).value;
      0.7 * fbm + 0.3 * (edge * 2.0 - 1.0)
    else fbm
  }

  /** The depth and gamma of step 3.5; volume keeps the defaults 1 and 1. */
  function Depth(ch: Channel): real {
    match ch
    case VolumeCh => 1.0
    case ToneCh => 0.85
    case DistortionCh => 0.90
    case FilterCh => 0.85
    case GrainSizeCh => 0.85
  }

  function Gamma(ch: Channel): real {
    match ch
    case VolumeCh => 1.0
    case ToneCh => 1.6
    case DistortionCh => 1.8
    case FilterCh => 1.6
    case GrainSizeCh => 1.4
  }

  /** Step 3.5 up to the clamp: the centred value, its sign-preserving power
      curve mixed in by depth, tripled and clamped to [-1, 1]. */
  function Expanded(m: Math, ch: Channel, raw: real): (e: real)
    requires ValidMath(m) && -1.0 <= raw <= 1.0
    ensures -1.0 <= e <= 1.0
    // volume's depth and gamma of 1 make the curve the identity
    ensures ch == VolumeCh ==> e == Clamp(raw * 3.0, -1.0, 1.0)
  {
    var normalized := (raw + 1.0) / 2.0;
    var centered := (normalized - 0.5) * 2.0;
    var magnitude := m.pow(if centered < 0.0 then -centered else centered, Gamma(ch));
    var shaped := if centered < 0.0 then -magnitude else magnitude;
    var mixed := (1.0 - Depth(ch)) * centered + Depth(ch) * shaped;
    Clamp(mixed * 3.0, -1.0, 1.0)
  }

  /** Step 3.5 after the clamp: mapped back to [0, 1], bent by the 0.7 power,
      stretched and clamped; the filter is then held to [0, 0.8]. */
  function Normalized(m: Math, ch: Channel, raw: real): (n: real)
    requires ValidMath(m) && -1.0 <= raw <= 1.0
    ensures 0.0 <= n <= 1.0
    ensures ch == FilterCh ==> n <= 0.8
  {
    var expanded := Expanded(m, ch, raw);
    var stretched := m.pow((expanded + 1.0) / 2.0, 0.7) * 1.2 - 0.1;
    var n := Clamp(stretched, 0.0, 1.0);
    if ch == FilterCh then n * 0.8 else n
  }

  /** Steps 4-6: mapped into [min, max], jitter and (except grain size) the
      slow sine drift added, then the edge behaviour applied. */
  function Target(p: PerlinNoise.Perlin, m: Math, ch: Channel, c: Config, baseTime: real, warpNoise: real): (v: real)
    requires PerlinNoise.Inv(p) && ValidMath(m) && ValidConfig(c)
    ensures c.edge == ClampEdge && c.minValue <= c.maxValue ==> InRange(c, v)
    ensures c.edge == WrapEdge && c.minValue < c.maxValue ==> InRange(c, v)
  {
    var raw := RawNoise(p, ch, c, EffectiveTime(c, baseTime, warpNoise));
    var mapped := c.minValue + Mul(Normalized(m, ch, raw), Range(c));
    var jitter := Mul(PerlinNoise.Noise(p, baseTime * 25.0), Max(0.08, c.jitter));
    var drift := if ch == GrainSizeCh then 0.0 else 0.15 * m.sin(baseTime * 0.15 + c.offset);
    ApplyEdge(c, mapped + jitter + drift).value
  }

  /** Step 7's bound: the slew rate spread over 150 ticks a second, five
      times wider for tone, distortion and filter. */
  function MaxChange(ch: Channel, c: Config): (d: real)
    ensures c.slewRate >= 0.0 ==> d >= 0.0
    ensures ch in {ToneCh, DistortionCh, FilterCh} ==> d == c.slewRate / 150.0 * 5.0
    ensures ch !in {ToneCh, DistortionCh, FilterCh} ==> d == c.slewRate / 150.0
  {
    var d := c.slewRate / 150.0;
    if ch == ToneCh || ch == DistortionCh || ch == FilterCh then d * 5.0 else d
  }

  /** `applySlewLimiting`: at most `maxChange` away from `previous`. */
  function Slew(newValue: real, previous: real, maxChange: real): (r: real)
    ensures maxChange >= 0.0 ==> previous - maxChange <= r <= previous + maxChange
    ensures -maxChange <= newValue - previous <= maxChange ==> r == newValue
    // when it limits, it moves toward the new value and stops short of it
    ensures maxChange >= 0.0 ==> Min(previous, newValue) <= r <= Max(previous, newValue)
  {
    var difference := newValue - previous;
    if difference > maxChange || -difference > maxChange then
      if difference > 0.0 then previous + maxChange else previous - maxChange
    else newValue
  }

  /** The value a tick publishes for `ch` under configuration `c`: its
      target, slew-limited against the channel's previous value `prev`. */
  function Next(c: Config, prev: real, p: PerlinNoise.Perlin, m: Math, ch: Channel, baseTime: real, warpNoise: real): real
    requires ValidConfig(c) && PerlinNoise.Inv(p) && ValidMath(m)
  {
    Slew(Target(p, m, ch, c, baseTime, warpNoise), prev, MaxChange(ch, c))
  }

  /** A published value moves at most the channel's step from `prev`, and
      stays in range when both `prev` and the target are. */
  lemma NextBounds(c: Config, prev: real, p: PerlinNoise.Perlin, m: Math, ch: Channel, baseTime: real, warpNoise: real)
    requires ValidConfig(c) && PerlinNoise.Inv(p) && ValidMath(m)
    ensures var v := Next(c, prev, p, m, ch, baseTime, warpNoise);
      c.slewRate >= 0.0 ==>
        && prev - MaxChange(ch, c) <= v <= prev + MaxChange(ch, c)
        && (InRange(c, prev) && InRange(c, Target(p, m, ch, c, baseTime, warpNoise)) ==> InRange(c, v))
  {
  }

  /** `computeParameter` followed by the store of step 8 and
      `updateAtomicValue`: the slew-limited target becomes both the slew
      memory and the published value of `ch`, and of no other channel. */
  method ComputeParameter(mod: Modulator, p: PerlinNoise.Perlin, m: Math, ch: Channel,
                          baseTime: real, warpNoise: real) returns (r: Modulator)
    requires Inv(mod) && PerlinNoise.Inv(p) && ValidMath(m)
    ensures Inv(r) && r.active == mod.active && r.configs == mod.configs
    ensures r == Stepped(mod, p, m, ch, baseTime, warpNoise)
    ensures Get(r.current, ch) == Get(r.previous, ch)
    // the published value is the target, slew-limited against the channel's previous value
    ensures Get(r.current, ch) == Next(Get(mod.configs, ch), Get(mod.previous, ch), p, m, ch, baseTime, warpNoise)
    ensures forall other :: other != ch ==>
      Get(r.current, other) == Get(mod.current, other) && Get(r.previous, other) == Get(mod.previous, other)
    ensures var c := Get(mod.configs, ch); var prev := Get(mod.previous, ch); var v := Get(r.current, ch);
      c.slewRate >= 0.0 ==>
        && prev - MaxChange(ch, c) <= v <= prev + MaxChange(ch, c)
        && (InRange(c, prev) && InRange(c, Target(p, m, ch, c, baseTime, warpNoise)) ==> InRange(c, v))
  {
    var c := Get(mod.configs, ch);
    var v := Slew(Target(p, m, ch, c, baseTime, warpNoise), Get(mod.previous, ch), MaxChange(ch, c));
    r := mod.(previous := Set(mod.previous, ch, v), current := Set(mod.current, ch, v));
  }

  /** The tick's time-warp value: the second noise's default fractal sum at
      half the time, doubled. */
  function WarpAt(warp: PerlinNoise.Perlin, currentTime: real): (w: real)
    requires PerlinNoise.Inv(warp)
    ensures -1.0 <= w <= 1.0
  {
    PerlinNoise.FbmDefault(warp, currentTime * 0.5) * 2.0
  }

  /** `computeNewValues`: nothing while inactive; otherwise one warp value
      from the second noise at half the time, then the five parameters. */
  method ComputeNewValues(mod: Modulator, p: PerlinNoise.Perlin, warp: PerlinNoise.Perlin, m: Math, currentTime: real)
    returns (r: Modulator)
    requires Inv(mod) && PerlinNoise.Inv(p) && PerlinNoise.Inv(warp) && ValidMath(m)
    ensures Inv(r) && r.active == mod.active && r.configs == mod.configs
    ensures !mod.active ==> r == mod
    ensures mod.active ==> r.current == r.previous
    // every channel publishes its own slew-limited target, all computed with one warp value
    ensures mod.active ==> r.current == Tick(mod, p, m, currentTime, WarpAt(warp, currentTime))
    ensures mod.active ==> forall ch ::
      Get(r.current, ch) == Next(Get(mod.configs, ch), Get(mod.previous, ch), p, m, ch, currentTime, WarpAt(warp, currentTime))
    ensures mod.active ==> forall ch :: Get(mod.configs, ch).slewRate >= 0.0 ==>
      Get(mod.previous, ch) - MaxChange(ch, Get(mod.configs, ch)) <= Get(r.current, ch)
        <= Get(mod.previous, ch) + MaxChange(ch, Get(mod.configs, ch))
  {
    if !mod.active {
      return mod;
    }
    var warpNoise := WarpAt(warp, currentTime);
    r := ComputeAll(mod, p, m, currentTime, warpNoise);
    assert forall ch :: Get(r.current, ch) == Get(Tick(mod, p, m, currentTime, warpNoise), ch);
    TickBounds(mod, r.current, p, m, currentTime, warpNoise);
  }

  /** When every channel holds its published value, every channel moved at
      most its step. */
  lemma TickBounds(mod: Modulator, cur: PerChannel<real>, p: PerlinNoise.Perlin, m: Math, baseTime: real, warpNoise: real)
    requires Inv(mod) && PerlinNoise.Inv(p) && ValidMath(m)
    requires forall ch :: Get(cur, ch) == Next(Get(mod.configs, ch), Get(mod.previous, ch), p, m, ch, baseTime, warpNoise)
    ensures forall ch :: Get(mod.configs, ch).slewRate >= 0.0 ==>
      Get(mod.previous, ch) - MaxChange(ch, Get(mod.configs, ch)) <= Get(cur, ch)
        <= Get(mod.previous, ch) + MaxChange(ch, Get(mod.configs, ch))
  {
    forall ch | Get(mod.configs, ch).slewRate >= 0.0
      ensures Get(mod.previous, ch) - MaxChange(ch, Get(mod.configs, ch)) <= Get(cur, ch)
        <= Get(mod.previous, ch) + MaxChange(ch, Get(mod.configs, ch))
    {
      NextBounds(Get(mod.configs, ch), Get(mod.previous, ch), p, m, ch, baseTime, warpNoise);
    }
  }

  /** The five `computeParameter` calls of one tick, in the order volume,
      tone, distortion, filter, grain size. Each channel reads only its own
      previous value, so the order does not matter. */
  method ComputeAll(mod: Modulator, p: PerlinNoise.Perlin, m: Math, baseTime: real, warpNoise: real)
    returns (r: Modulator)
    requires Inv(mod) && PerlinNoise.Inv(p) && ValidMath(m)
    ensures Inv(r) && r.active == mod.active && r.configs == mod.configs
    ensures r.current == r.previous == Tick(mod, p, m, baseTime, warpNoise)
  {
    var r1 := ComputeParameter(mod, p, m, VolumeCh, baseTime, warpNoise);
    var r2 := ComputeParameter(r1, p, m, ToneCh, baseTime, warpNoise);
    var r3 := ComputeParameter(r2, p, m, DistortionCh, baseTime, warpNoise);
    var r4 := ComputeParameter(r3, p, m, FilterCh, baseTime, warpNoise);
    r := ComputeParameter(r4, p, m, GrainSizeCh, baseTime, warpNoise);
    TickSteps(mod, p, m, baseTime, warpNoise);
  }

  /** The five steps of a tick, in order, publish `Tick` on every channel. */
  lemma TickSteps(mod: Modulator, p: PerlinNoise.Perlin, m: Math, baseTime: real, warpNoise: real)
    requires Inv(mod) && PerlinNoise.Inv(p) && ValidMath(m)
    ensures var r1 := Stepped(mod, p, m, VolumeCh, baseTime, warpNoise);
      var r2 := Stepped(r1, p, m, ToneCh, baseTime, warpNoise);
      var r3 := Stepped(r2, p, m, DistortionCh, baseTime, warpNoise);
      var r4 := Stepped(r3, p, m, FilterCh, baseTime, warpNoise);
      var r := Stepped(r4, p, m, GrainSizeCh, baseTime, warpNoise);
      r.current == r.previous == Tick(mod, p, m, baseTime, warpNoise)
  {
  }

  /** `ComputeParameter` as a value. */
  function Stepped(mod: Modulator, p: PerlinNoise.Perlin, m: Math, ch: Channel, baseTime: real, warpNoise: real): (r: Modulator)
    requires Inv(mod) && PerlinNoise.Inv(p) && ValidMath(m)
    ensures Inv(r) && r.active == mod.active && r.configs == mod.configs
  {
    var v := Next(Get(mod.configs, ch), Get(mod.previous, ch), p, m, ch, baseTime, warpNoise);
    mod.(previous := Set(mod.previous, ch, v), current := Set(mod.current, ch, v))
  }

  /** The values one tick publishes, channel by channel. */
  function Tick(mod: Modulator, p: PerlinNoise.Perlin, m: Math, baseTime: real, warpNoise: real): (t: PerChannel<real>)
    requires Inv(mod) && PerlinNoise.Inv(p) && ValidMath(m)
    ensures forall ch :: Get(t, ch) == Next(Get(mod.configs, ch), Get(mod.previous, ch), p, m, ch, baseTime, warpNoise)
  {
    var f := (ch: Channel) requires ValidConfig(Get(mod.configs, ch)) =>
      Next(Get(mod.configs, ch), Get(mod.previous, ch), p, m, ch, baseTime, warpNoise);
    PerChannel(f(VolumeCh), f(ToneCh), f(DistortionCh), f(FilterCh), f(GrainSizeCh))
  }

  /** `getCurrentValue`: the published value, or 0.0 for any other name. */
  function CurrentValue(mod: Modulator, name: string): (v: real)
    ensures ChannelOf(name).None? ==> v == 0.0
    ensures ChannelOf(name).Some? ==> v == Get(mod.current, ChannelOf(name).value)
  {
    match ChannelOf(name)
    case None => 0.0
    case Some(ch) => Get(mod.current, ch)
  }

  /** `updateParameterConfig` for one of the five channels. */
  function UpdateConfig(mod: Modulator, ch: Channel, c: Config): (r: Modulator)
    requires Inv(mod) && ValidConfig(c)
    ensures Inv(r) && Get(r.configs, ch) == c
    ensures forall other :: other != ch ==> Get(r.configs, other) == Get(mod.configs, other)
    ensures r.(configs := mod.configs) == mod
  {
    mod.(configs := Set(mod.configs, ch, c))
  }
}

=== FILE: perlin_noise.dfy ===
/** PerlinNoise: a shuffled permutation table and a table of +/-1
    gradients, both duplicated to 512 entries; one-dimensional gradient
    noise with a quintic fade, and the fractal sums built on it. The seeded
    `java.util.Random` is a stream of draws in [0, 1), indexed by call. */
module PerlinNoise {
  import opened Common

  const Size := 256
  const Mask := 255

  datatype Perlin = Perlin(perm: seq<int>, grad: seq<real>)

  /** 0, 1, ..., n - 1. */
  function Identity(n: nat): (s: seq<int>)
    ensures |s| == n && forall i :: 0 <= i < n ==> s[i] == i
  {
    seq(n, i => i)
  }

  /** The tables after construction or `reseed`: the first half of the
      permutation holds each of 0..255 once, every gradient is +1 or -1,
      and each upper half repeats its lower half. */
  ghost predicate Inv(p: Perlin) {
    && |p.perm| == 2 * Size && |p.grad| == 2 * Size
    && multiset(p.perm[..Size]) == multiset(Identity(Size))
    && (forall i :: 0 <= i < 2 * Size ==> 0 <= p.perm[i] < Size)
    && (forall i :: 0 <= i < Size ==> p.perm[Size + i] == p.perm[i])
    && (forall i :: 0 <= i < 2 * Size ==> p.grad[i] == 1.0 || p.grad[i] == -1.0)
    && (forall i :: 0 <= i < Size ==> p.grad[Size + i] == p.grad[i])
  }

  // ------------------------------------------------------------ the tables

  function Swap(s: seq<int>, i: int, j: int): (r: seq<int>)
    requires 0 <= i < |s| && 0 <= j < |s|
    ensures |r| == |s| && r[i] == s[j] && r[j] == s[i]
    ensures forall k :: 0 <= k < |s| && k != i && k != j ==> r[k] == s[k]
  {
    s[i := s[j]][j := s[i]]
  }

  /** Exchanging two entries keeps the same elements. */
  lemma SwapPermutes(s: seq<int>, i: int, j: int)
    requires 0 <= i < |s| && 0 <= j < |s|
    ensures multiset(Swap(s, i, j)) == multiset(s)
  {
  }

  /** The Fisher-Yates pass from index `i` down to 1: draw number
      `Size - 1 - i` picks `j = nextInt(i + 1)`, and entries i and j swap. */
  function Shuffle(s: seq<int>, i: int, rnd: nat -> real): (r: seq<int>)
    requires RandomSource(rnd) && |s| == Size && 0 <= i < Size
    ensures |r| == Size && multiset(r) == multiset(s)
    decreases i
  {
    if i == 0 then s
    else
      var j := NextInt(rnd(Size - 1 - i), i + 1);
      SwapPermutes(s, i, j);
      Shuffle(Swap(s, i, j), i - 1, rnd)
  }

  /** Every entry of a rearrangement of 0..n-1 lies in [0, n). */
  lemma {:induction false} PermutationRange(s: seq<int>, n: nat)
    requires multiset(s) == multiset(Identity(n))
    ensures forall i :: 0 <= i < |s| ==> 0 <= s[i] < n
  {
    forall i | 0 <= i < |s| ensures 0 <= s[i] < n {
      assert s[i] in multiset(s);
      assert s[i] in Identity(n);
    }
  }

  /** Gradient `i`: `nextBoolean()` after the 255 shuffle draws. */
  function Gradient(rnd: nat -> real, i: nat): real {
    if rnd(Size - 1 + i) < 0.5 then 1.0 else -1.0
  }

  /** The constructor `PerlinNoise(seed)`, given the draws of `new Random(seed)`. */
  function New(rnd: nat -> real): (p: Perlin)
    requires RandomSource(rnd)
    ensures Inv(p)
  {
    var half := Shuffle(Identity(Size), Size - 1, rnd);
    PermutationRange(half, Size);
    var grads := seq(Size, i requires 0 <= i => Gradient(rnd, i));
    assert (half + half)[..Size] == half;
    Perlin(half + half, grads + grads)
  }

  /** `reseed(seed)`: the constructor's steps replayed on the existing
      arrays; nothing of the old tables survives. */
  function Reseed(p: Perlin, rnd: nat -> real): (r: Perlin)
    requires Inv(p) && RandomSource(rnd)
    ensures Inv(r) && r == New(rnd)
  {
    var t := New(rnd);
    p.(perm := t.perm, grad := t.grad)
  }

  // ------------------------------------------------------------ hashing

  /** `hash(x) = permutation[x & 255]`; on a two's-complement int the mask
      is the non-negative remainder modulo 256, negatives included. */
  function Hash(p: Perlin, x: int): (h: int)
    requires Inv(p)
    ensures 0 <= h < Size
  {
    p.perm[x % Size]
  }

  /** `hash(x, y) = permutation[(permutation[x & 255] + y) & 255]`. */
  function Hash2(p: Perlin, x: int, y: int): (h: int)
    requires Inv(p)
    ensures 0 <= h < Size
  {
    p.perm[(p.perm[x % Size] + y) % Size]
  }

  /** The hash only sees x modulo 256. */
  lemma {:induction false} HashPeriodic(p: Perlin, x: int)
    requires Inv(p)
    ensures Hash(p, x + Size) == Hash(p, x)
    ensures Hash2(p, x + Size, 0) == Hash2(p, x, 0)
  {
    ModLap(x, Size);
  }

  // ------------------------------------------------------------ noise

  /** The quintic `6t^5 - 15t^4 + 10t^3`. */
  function Fade(t: real): real {
    t * t * t * (t * (t * 6.0 - 15.0) + 10.0)
  }

  /** The fade is symmetric about (1/2, 1/2). */
  lemma FadeSymmetric(t: real)
    ensures Fade(t) + Fade(1.0 - t) == 1.0
  {
  }

  /** On [0, 1] the fade stays in [0, 1] and meets both ends. */
  lemma {:induction false} FadeRange(t: real)
    requires 0.0 <= t <= 1.0
    ensures 0.0 <= Fade(t) <= 1.0
    ensures Fade(0.0) == 0.0 && Fade(1.0) == 1.0
  {
    FadeNonNeg(t);
    FadeNonNeg(1.0 - t);
    FadeSymmetric(t);
  }

  lemma FadeNonNeg(t: real)
    requires 0.0 <= t <= 1.0
    ensures 0.0 <= Fade(t)
  {
    var c := t * t * t;
    assert 0.0 <= t * t;
    assert 0.0 <= c;
    var q := t * (t * 6.0 - 15.0) + 10.0;
    assert q >= 1.0 by {
      assert t * (t * 6.0 - 15.0) >= -9.0;
    }
    assert Fade(t) == c * q;
  }

  /** A gradient of +/-1 times a displacement keeps the displacement's size. */
  lemma GradientTimes(g: real, d: real)
    requires g == 1.0 || g == -1.0
    ensures Mul(g, d) == d || Mul(g, d) == -d
  {
    MulUnit(d);
    MulNeg(1.0, d);
  }

  /** `noise(x)`: gradient contributions from the two surrounding lattice
      points, blended by the fade of the displacement, halved. */
  function Noise(p: Perlin, x: real): (r: real)
    requires Inv(p)
    ensures -0.5 <= r <= 0.5
  {
    var x0 := x.Floor;
    var dx := x - x0 as real;
    var g0 := p.grad[Hash(p, x0)];
    var g1 := p.grad[Hash(p, x0 + 1)];
    var n0 := Mul(g0, dx);
    var n1 := Mul(g1, dx - 1.0);
    var t := Fade(dx);
    GradientTimes(g0, dx);
    GradientTimes(g1, dx - 1.0);
    FadeRange(dx);
    OnePoleBetween(n0, n1, t);
    (n0 + Mul(t, n1 - n0)) * 0.5
  }

  /** Gradient noise vanishes on the lattice. */
  lemma {:induction false} NoiseAtLattice(p: Perlin, n: int)
    requires Inv(p)
    ensures Noise(p, n as real) == 0.0
  {
    var g0 := p.grad[Hash(p, n)];
    var g1 := p.grad[Hash(p, n + 1)];
    MulUnit(g0);
    FadeRange(0.0);
    MulUnit(Mul(g1, -1.0) - Mul(g0, 0.0));
  }

  // ------------------------------------------------------------ fractal sums

  /** `amplitude *= persistence` (or `frequency *= lacunarity`) i times from 1. */
  function Pow(b: real, i: nat): real
    decreases i
  {
    if i == 0 then 1.0 else Mul(Pow(b, i - 1), b)
  }

  lemma {:induction false} PowPositive(b: real, i: nat)
    requires b > 0.0
    ensures Pow(b, i) > 0.0
    decreases i
  {
    if i > 0 {
      PowPositive(b, i - 1);
      assert Pow(b, i - 1) * b > 0.0;
    }
  }

  /** The loop of `fbm` after n octaves: the running total and the running
      sum of amplitudes. */
  function Octaves(p: Perlin, x: real, n: nat, persistence: real, lacunarity: real): (r: (real, real))
    requires Inv(p)
    decreases n
  {
    if n == 0 then (0.0, 0.0)
    else
      var prev := Octaves(p, x, n - 1, persistence, lacunarity);
      var amplitude := Pow(persistence, n - 1);
      (prev.0 + Mul(Noise(p, Mul(x, Pow(lacunarity, n - 1))), amplitude), prev.1 + amplitude)
  }

  /** With a positive persistence each octave weighs in with a positive
      amplitude, so the total is bounded by half the amplitude sum. */
  lemma {:induction false} OctavesBound(p: Perlin, x: real, n: nat, persistence: real, lacunarity: real)
    requires Inv(p) && persistence > 0.0
    ensures var r := Octaves(p, x, n, persistence, lacunarity);
      -0.5 * r.1 <= r.0 <= 0.5 * r.1 && (n >= 1 ==> r.1 > 0.0)
    decreases n
  {
    if n > 0 {
      OctavesBound(p, x, n - 1, persistence, lacunarity);
      var a := Pow(persistence, n - 1);
      PowPositive(persistence, n - 1);
      var v := Noise(p, Mul(x, Pow(lacunarity, n - 1)));
      MulMonoRight(v, 0.5, a);
      MulMonoRight(-0.5, v, a);
    }
  }

  /** `fbm(x, octaves, persistence, lacunarity)`: the total over the
      amplitude sum. None where Java divides by zero: no octaves at all
      (0/0), or amplitudes that cancel. */
  function Fbm(p: Perlin, x: real, octaves: int, persistence: real, lacunarity: real): (r: Option<real>)
    requires Inv(p)
    ensures octaves <= 0 ==> r.None?
    ensures octaves >= 1 && persistence > 0.0 ==> r.Some? && -0.5 <= r.value <= 0.5
  {
    if octaves <= 0 then None
    else
      var o := Octaves(p, x, octaves, persistence, lacunarity);
      assert persistence > 0.0 ==> o.1 > 0.0 && -0.5 <= o.0 / o.1 <= 0.5 by {
        if persistence > 0.0 {
          RatioBound(p, x, octaves, persistence, lacunarity);
        }
      }
      if o.1 == 0.0 then None else Some(o.0 / o.1)
  }

  lemma RatioBound(p: Perlin, x: real, n: nat, persistence: real, lacunarity: real)
    requires Inv(p) && persistence > 0.0 && n >= 1
    ensures var o := Octaves(p, x, n, persistence, lacunarity);
      o.1 > 0.0 && -0.5 <= o.0 / o.1 <= 0.5
  {
    OctavesBound(p, x, n, persistence, lacunarity);
    var o := Octaves(p, x, n, persistence, lacunarity);
    DivBound(o.0, o.1);
  }

  lemma DivBound(t: real, m: real)
    requires m > 0.0 && -0.5 * m <= t <= 0.5 * m
    ensures -0.5 <= t / m <= 0.5
  {
  }

  /** One octave is plain noise. */
  lemma {:induction false} FbmOneOctave(p: Perlin, x: real, persistence: real, lacunarity: real)
    requires Inv(p)
    ensures Fbm(p, x, 1, persistence, lacunarity) == Some(Noise(p, x))
  {
    MulUnit(x);
    MulUnit(Noise(p, x));
  }

  /** `fbm(x)`: three octaves, persistence 0.55, lacunarity 2. */
  function FbmDefault(p: Perlin, x: real): (r: real)
    requires Inv(p)
    ensures -0.5 <= r <= 0.5
  {
    Fbm(p, x, 3, 0.55, 2.0).value
  }

  /** `warpedFbm`: fbm at a coordinate shifted by noise at the warp
      coordinate times the warp amplitude. */
  function WarpedFbm(p: Perlin, x: real, warpX: real, octaves: int, persistence: real,
                     lacunarity: real, warpAmplitude: real): (r: Option<real>)
    requires Inv(p)
    ensures r.None? <==> Fbm(p, x + Mul(Noise(p, warpX), warpAmplitude), octaves, persistence, lacunarity).None?
    ensures octaves >= 1 && persistence > 0.0 ==> r.Some? && -0.5 <= r.value <= 0.5
    ensures warpAmplitude == 0.0 ==> r == Fbm(p, x, octaves, persistence, lacunarity)
  {
    MulUnit(Noise(p, warpX));
    Fbm(p, x + Mul(Noise(p, warpX), warpAmplitude), octaves, persistence, lacunarity)
  }

  /** `turbulence`: the magnitude of fbm. */
  function Turbulence(p: Perlin, x: real, octaves: int, persistence: real, lacunarity: real): (r: Option<real>)
    requires Inv(p)
    ensures r.Some? <==> Fbm(p, x, octaves, persistence, lacunarity).Some?
    ensures r.Some? ==> r.value >= 0.0
    ensures r.Some? && persistence > 0.0 ==> r.value <= 0.5
  {
    match Fbm(p, x, octaves, persistence, lacunarity)
    case None => None
    case Some(v) => Some(if v < 0.0 then -v else v)
  }

  /** `ridgedNoise`: one minus the turbulence, so never above 1. */
  function Ridged(p: Perlin, x: real, octaves: int, persistence: real, lacunarity: real): (r: Option<real>)
    requires Inv(p)
    ensures r.Some? <==> Fbm(p, x, octaves, persistence, lacunarity).Some?
    ensures r.Some? ==> r.value <= 1.0
    ensures r.Some? && persistence > 0.0 ==> 0.5 <= r.value
  {
    match Turbulence(p, x, octaves, persistence, lacunarity)
    case None => None
    case Some(v) => Some(1.0 - v)
  }
}

=== FILE: recorder.dfy ===
/** Recorder: the checks `exportToWav` makes before touching the disk, the
    little-endian writers, the 44-byte RIFF/WAVE header for 16-bit mono PCM
    at 44.1 kHz, the file it writes (header then data), and the file-name
    normalisation. The directory lookup, clock-based default name, the
    temporary file and the atomic move are left to the caller. */
module Recorder {
  import opened Common

  const SampleRate := 44100
  const BitsPerSample := 16
  const Channels := 1
  const HeaderSize := 44
  const MaxRiff := 0xFFFF_FFFF
  const Two16 := 0x1_0000
  const Two32 := 0x1_0000_0000

  datatype Error = NullOrEmpty | OddLength | TooLarge

  datatype Result<T> = Ok(value: T) | Fail(error: Error)

  // ------------------------------------------------------------ little endian

  /** `writeLE16`: `v & 0xFF`, `(v >> 8) & 0xFF`; the arithmetic shift is
      floor division and the mask the non-negative remainder. */
  function LE16(v: int): (b: seq<Byte>)
    ensures |b| == 2
  {
    [v % 256, (v / 256) % 256]
  }

  /** `writeLE32`: the four bytes from the lowest up. */
  function LE32(v: int): (b: seq<Byte>)
    ensures |b| == 4
  {
    [v % 256, (v / 256) % 256, (v / 65536) % 256, (v / 16777216) % 256]
  }

  function ReadLE16(b: seq<Byte>): (v: int)
    requires |b| == 2
    ensures 0 <= v < Two16
  {
    b[0] as int + 256 * b[1] as int
  }

  function ReadLE32(b: seq<Byte>): (v: int)
    requires |b| == 4
    ensures 0 <= v < Two32
  {
    b[0] as int + 256 * b[1] as int + 65536 * b[2] as int + 16777216 * b[3] as int
  }

  /** Peeling the low byte off a remainder and off a quotient. */
  lemma {:induction false} ByteSplit(v: int, m: int)
    requires m >= 1
    ensures v % (256 * m) == v % 256 + 256 * ((v / 256) % m)
    ensures v / (256 * m) == (v / 256) / m
  {
    var w := v / 256;
    var q := w / m;
    var r1 := w % m;
    var r0 := v % 256;
    assert v == 256 * w + r0;
    assert w == m * q + r1;
    assert v == q * (256 * m) + (256 * r1 + r0);
    DivModUnique(v, 256 * m, q, 256 * r1 + r0);
  }

  /** The 16-bit writer keeps exactly v modulo 2^16. */
  lemma {:induction false} LE16RoundTrip(v: int)
    ensures ReadLE16(LE16(v)) == v % Two16
  {
    ByteSplit(v, 256);
  }

  /** The 32-bit writer keeps exactly v modulo 2^32, so an int that
      overflowed on the way still yields the intended unsigned bytes. */
  lemma {:induction false} LE32RoundTrip(v: int)
    ensures ReadLE32(LE32(v)) == v % Two32
  {
    var w := v / 256;
    var x := w / 256;
    ByteSplit(v, 16777216);
    ByteSplit(w, 65536);
    ByteSplit(x, 256);
    ByteSplit(v, 256);
    ByteSplit(v, 65536);
    assert v / 65536 == x;
    assert v / 16777216 == x / 256;
  }

  // ------------------------------------------------------------ header

  /** The ASCII chunk tags, one byte per character as `writeBytes` emits them. */
  const RiffTag: seq<Byte> := [82, 73, 70, 70]    // "RIFF"
  const WaveTag: seq<Byte> := [87, 65, 86, 69]    // "WAVE"
  const FmtTag: seq<Byte> := [102, 109, 116, 32]  // "fmt "
  const DataTag: seq<Byte> := [100, 97, 116, 97]  // "data"

  /** `writeWavHeader(dataLength)`. */
  function Header(dataLength: int): (h: seq<Byte>)
    ensures |h| == HeaderSize
    ensures h[0..4] == RiffTag && h[4..8] == LE32(36 + dataLength) && h[8..12] == WaveTag
    ensures h[12..16] == FmtTag && h[16..20] == LE32(16)
    ensures h[20..22] == LE16(1) && h[22..24] == LE16(Channels)
    ensures h[24..28] == LE32(SampleRate) && h[28..32] == LE32(SampleRate * Channels * BitsPerSample / 8)
    ensures h[32..34] == LE16(Channels * BitsPerSample / 8) && h[34..36] == LE16(BitsPerSample)
    ensures h[36..40] == DataTag && h[40..44] == LE32(dataLength)
  {
    RiffTag + LE32(36 + dataLength) + WaveTag
      + FmtTag + LE32(16) + LE16(1) + LE16(Channels) + LE32(SampleRate)
      + LE32(SampleRate * Channels * BitsPerSample / 8) + LE16(Channels * BitsPerSample / 8) + LE16(BitsPerSample)
      + DataTag + LE32(dataLength)
  }

  /** The format a header declares, read back field by field. */
  datatype Format = Format(audioFormat: int, channels: int, sampleRate: int, byteRate: int,
                           blockAlign: int, bitsPerSample: int)

  /** A reader of the canonical 44-byte PCM layout: the tags, the chunk
      sizes that must agree with the file's length, and the data after the
      header. */
  function ParseWav(file: seq<Byte>): (r: Option<(Format, seq<Byte>)>)
    ensures r.Some? ==> |file| >= HeaderSize && r.value.1 == file[HeaderSize..]
  {
    if |file| < HeaderSize then None
    else if file[0..4] != RiffTag || file[8..12] != WaveTag then None
    else if file[12..16] != FmtTag || ReadLE32(file[16..20]) != 16 then None
    else if file[36..40] != DataTag then None
    else if ReadLE32(file[4..8]) != |file| - 8 || ReadLE32(file[40..44]) != |file| - HeaderSize then None
    else
      var f := Format(ReadLE16(file[20..22]), ReadLE16(file[22..24]), ReadLE32(file[24..28]),
                      ReadLE32(file[28..32]), ReadLE16(file[32..34]), ReadLE16(file[34..36]));
      Some((f, file[HeaderSize..]))
  }

  /** A header is self-consistent when its byte rate and block align follow
      from its rate, channel count and sample width. */
  predicate Consistent(f: Format) {
    && f.byteRate == f.sampleRate * f.channels * f.bitsPerSample / 8
    && f.blockAlign == f.channels * f.bitsPerSample / 8
  }

  // ------------------------------------------------------------ export

  /** The bytes `exportToWav` leaves in the file: the header, then the data. */
  function WavFile(data: seq<Byte>): (file: seq<Byte>)
    ensures |file| == HeaderSize + |data| && file[HeaderSize..] == data
  {
    Header(|data|) + data
  }

  /** What a reader sees in each numeric field of the header. */
  lemma {:induction false} HeaderReads(n: int)
    ensures ReadLE32(Header(n)[4..8]) == (36 + n) % Two32
    ensures ReadLE32(Header(n)[16..20]) == 16
    ensures ReadLE16(Header(n)[20..22]) == 1 && ReadLE16(Header(n)[22..24]) == Channels
    ensures ReadLE32(Header(n)[24..28]) == SampleRate && ReadLE32(Header(n)[28..32]) == 88200
    ensures ReadLE16(Header(n)[32..34]) == 2 && ReadLE16(Header(n)[34..36]) == BitsPerSample
    ensures ReadLE32(Header(n)[40..44]) == n % Two32
  {
    LE32RoundTrip(36 + n);
    LE32RoundTrip(n);
    LE32RoundTrip(16);
    LE32RoundTrip(SampleRate);
    LE32RoundTrip(88200);
    LE16RoundTrip(1);
    LE16RoundTrip(2);
    LE16RoundTrip(BitsPerSample);
  }

  /** Reading the exported file back gives the data and a consistent
      16-bit mono 44.1 kHz PCM format. */
  lemma {:induction false} WavRoundTrip(data: seq<Byte>)
    requires |data| + 36 <= MaxRiff
    ensures ParseWav(WavFile(data)).Some?
    ensures ParseWav(WavFile(data)).value.1 == data
    ensures var f := ParseWav(WavFile(data)).value.0;
      f == Format(1, Channels, SampleRate, 88200, 2, BitsPerSample) && Consistent(f)
  {
    var file := WavFile(data);
    var h := Header(|data|);
    assert file[..HeaderSize] == h;
    assert file[0..4] == h[0..4] && file[4..8] == h[4..8] && file[8..12] == h[8..12];
    assert file[12..16] == h[12..16] && file[16..20] == h[16..20] && file[20..22] == h[20..22];
    assert file[22..24] == h[22..24] && file[24..28] == h[24..28] && file[28..32] == h[28..32];
    assert file[32..34] == h[32..34] && file[34..36] == h[34..36] && file[36..40] == h[36..40];
    assert file[40..44] == h[40..44];
    HeaderReads(|data|);
    DivModUnique(36 + |data|, Two32, 0, 36 + |data|);
    DivModUnique(|data|, Two32, 0, |data|);
    assert ReadLE32(file[4..8]) == |file| - 8;
    assert ReadLE32(file[40..44]) == |file| - HeaderSize;
    assert file[0..4] == RiffTag && file[8..12] == WaveTag && file[12..16] == FmtTag;
    assert ReadLE32(file[16..20]) == 16 && file[36..40] == DataTag;
  }

  /** The argument checks, in the order the code makes them. */
  function Validate(audioData: Option<seq<Byte>>): (r: Option<Error>)
    ensures r.None? <==> (audioData.Some? && |audioData.value| > 0
      && |audioData.value| % 2 == 0 && 36 + |audioData.value| <= MaxRiff)
    ensures (audioData.None? || |audioData.value| == 0) ==> r == Some(NullOrEmpty)
    ensures audioData.Some? && |audioData.value| % 2 == 1 ==> r == Some(OddLength)
  {
    if audioData.None? || |audioData.value| == 0 then Some(NullOrEmpty)
    else if |audioData.value| % 2 != 0 then Some(OddLength)
    else if 36 + |audioData.value| > MaxRiff then Some(TooLarge)
    else None
  }

  /** `exportToWav`: rejects bad data before any file work; otherwise the
      target path (the default one when none or a blank one is given) with
      the extension ensured, and the file's bytes. */
  function ExportToWav(audioData: Option<seq<Byte>>, outputPath: Option<string>, defaultPath: string)
    : (r: Result<(string, seq<Byte>)>)
    ensures r.Fail? <==> Validate(audioData).Some?
    ensures r.Fail? ==> r.error == Validate(audioData).value
    ensures r.Ok? ==> |r.value.1| == HeaderSize + |audioData.value| && r.value.1[HeaderSize..] == audioData.value
    ensures r.Ok? ==> EndsWithWav(r.value.0)
    ensures r.Ok? ==> ParseWav(r.value.1) == Some((Format(1, Channels, SampleRate, 88200, 2, BitsPerSample), audioData.value))
  {
    match Validate(audioData)
    case Some(e) => Fail(e)
    case None =>
      var path := if outputPath.None? || |Trim(outputPath.value)| == 0 then defaultPath else outputPath.value;
      WavRoundTrip(audioData.value);
      Ok((EnsureWavExtension(Some(path)), WavFile(audioData.value)))
  }

  // ------------------------------------------------------------ file names

  /** Every character before `i` and from `j` on is at most U+0020. */
  predicate TrimmedAround(s: string, i: int, j: int)
    requires 0 <= i <= j <= |s|
  {
    (forall k :: 0 <= k < i ==> s[k] <= ' ') && (forall k :: j <= k < |s| ==> s[k] <= ' ')
  }

  /** `String.trim`: drops leading and trailing characters up to U+0020. */
  function Trim(s: string): (t: string)
    ensures |t| <= |s|
    ensures |t| > 0 ==> t[0] > ' ' && t[|t| - 1] > ' '
    decreases |s|
  {
    if |s| == 0 then s
    else if s[0] <= ' ' then Trim(s[1..])
    else if s[|s| - 1] <= ' ' then Trim(s[..|s| - 1])
    else s
  }

  /** The trim is one contiguous slice of the string, and everything cut
      off on either side is at most U+0020. */
  lemma {:induction false} TrimIsSlice(s: string)
    ensures exists i, j :: 0 <= i <= j <= |s| && Trim(s) == s[i..j] && TrimmedAround(s, i, j)
    decreases |s|
  {
    if |s| == 0 {
      assert Trim(s) == s[0..0] && TrimmedAround(s, 0, 0);
    } else if s[0] <= ' ' {
      TrimIsSlice(s[1..]);
      var i, j :| 0 <= i <= j <= |s[1..]| && Trim(s[1..]) == s[1..][i..j] && TrimmedAround(s[1..], i, j);
      AroundFront(s, i, j);
    } else if s[|s| - 1] <= ' ' {
      TrimIsSlice(s[..|s| - 1]);
      var i, j :| 0 <= i <= j <= |s| - 1 && Trim(s[..|s| - 1]) == s[..|s| - 1][i..j] && TrimmedAround(s[..|s| - 1], i, j);
      AroundBack(s, i, j);
    } else {
      assert Trim(s) == s[0..|s|] && TrimmedAround(s, 0, |s|);
    }
  }

  lemma AroundFront(s: string, i: int, j: int)
    requires |s| > 0 && s[0] <= ' ' && 0 <= i <= j <= |s| - 1 && TrimmedAround(s[1..], i, j)
    ensures TrimmedAround(s, i + 1, j + 1) && s[1..][i..j] == s[i + 1..j + 1]
  {
    forall k | 0 <= k < i + 1 ensures s[k] <= ' ' {
      if k > 0 {
        assert s[k] == s[1..][k - 1];
      }
    }
    forall k | j + 1 <= k < |s| ensures s[k] <= ' ' {
      assert s[k] == s[1..][k - 1];
    }
  }

  lemma AroundBack(s: string, i: int, j: int)
    requires |s| > 0 && s[|s| - 1] <= ' ' && 0 <= i <= j <= |s| - 1 && TrimmedAround(s[..|s| - 1], i, j)
    ensures TrimmedAround(s, i, j) && s[..|s| - 1][i..j] == s[i..j]
  {
  }

  /** A string that starts and ends with a visible character is its own trim. */
  lemma {:induction false} TrimFixed(s: string)
    requires |s| == 0 || (s[0] > ' ' && s[|s| - 1] > ' ')
    ensures Trim(s) == s
  {
  }

  function Lower(c: char): char {
    if 'A' <= c <= 'Z' then (c as int + 32) as char else c
  }

  /** `toLowerCase().endsWith(".wav")`. */
  predicate EndsWithWav(s: string) {
    |s| >= 4 && Lower(s[|s| - 4]) == '.' && Lower(s[|s| - 3]) == 'w'
      && Lower(s[|s| - 2]) == 'a' && Lower(s[|s| - 1]) == 'v'
  }

  /** `ensureWavExtension`: "audio.wav" for null or blank, else the trimmed
      name with ".wav" appended unless it already ends so, in any case. */
  function EnsureWavExtension(name: Option<string>): (r: string)
    ensures EndsWithWav(r) && |r| > 0 && r[0] > ' ' && r[|r| - 1] > ' '
    ensures name.None? || |Trim(name.value)| == 0 ==> r == "audio.wav"
    ensures name.Some? && EndsWithWav(Trim(name.value)) ==> r == Trim(name.value)
    ensures name.Some? && |Trim(name.value)| > 0 && !EndsWithWav(Trim(name.value)) ==>
      r == Trim(name.value) + ".wav"
  {
    if name.None? || |Trim(name.value)| == 0 then "audio.wav"
    else
      var trimmed := Trim(name.value);
      if !EndsWithWav(trimmed) then trimmed + ".wav" else trimmed
  }

  /** Ensuring the extension twice is ensuring it once. */
  lemma {:induction false} EnsureWavIdempotent(name: Option<string>)
    ensures EnsureWavExtension(Some(EnsureWavExtension(name))) == EnsureWavExtension(name)
  {
    var r := EnsureWavExtension(name);
    TrimFixed(r);
  }
}

=== FILE: registry.dfy ===
/** EffectRegistry: the table from effect identifiers to the constructors
    that build them. A factory is represented by the identifier of the
    built-in effect whose constructor it calls. */
module Registry {
  import opened Common
  import opened Units

  datatype Registry = Registry(factories: map<string, string>)

  /** Every registered factory builds one of the built-in effects. */
  predicate Inv(r: Registry) {
    forall id :: id in r.factories ==> r.factories[id] in EffectIds
  }

  /** The static initialiser: each built-in effect under its own identifier. */
  function Default(): (r: Registry)
    ensures Inv(r)
    ensures forall id :: id in r.factories <==> id in EffectIds
    ensures forall id :: id in r.factories ==> r.factories[id] == id
  {
    Registry(map id | id in EffectIds :: id)
  }

  /** `registerEffect`: a `put`, replacing any factory already under `id`. */
  function Register(r: Registry, id: string, kind: string): (r': Registry)
    requires Inv(r) && kind in EffectIds
    ensures Inv(r') && Has(r', id) && r'.factories[id] == kind
    ensures forall other :: other != id ==> (Has(r', other) <==> Has(r, other))
    ensures forall other :: other != id && other in r.factories ==>
      other in r'.factories && r'.factories[other] == r.factories[other]
    ensures Count(r') == if Has(r, id) then Count(r) else Count(r) + 1
  {
    var r' := Registry(r.factories[id := kind]);
    assert r'.factories.Keys == r.factories.Keys + {id};
    r'
  }

  /** `createEffect`: a fresh effect from the factory under `id`, or
      `None` (Java's null) when there is none. */
  function Create(r: Registry, id: string): (e: Option<Unit>)
    requires Inv(r)
    ensures e.Some? <==> Has(r, id)
    ensures e.Some? ==> Id(e.value) == r.factories[id] && Units.Inv(e.value) && Enabled(e.value)
  {
    if id in r.factories then Units.Create(r.factories[id]) else None
  }

  /** `hasEffect`. */
  predicate Has(r: Registry, id: string) {
    id in r.factories
  }

  /** `getAvailableEffectIds`: the key set. */
  function AvailableIds(r: Registry): (ids: set<string>)
    ensures forall id :: id in ids <==> Has(r, id)
  {
    r.factories.Keys
  }

  /** `getEffectCount`: the number of identifiers. */
  function Count(r: Registry): (n: nat)
    ensures n == |AvailableIds(r)|
  {
    |r.factories.Keys|
  }

  /** The built-in registry knows eleven effects, and each one it creates
      reports the identifier it was created under. */
  lemma {:induction false} DefaultRegistry()
    ensures AvailableIds(Default()) == EffectIds
    ensures forall id :: Has(Default(), id) ==> Create(Default(), id).Some? && Id(Create(Default(), id).value) == id
    ensures forall id :: id !in EffectIds ==> Create(Default(), id).None?
  {
  }

  /** `getEffectCount` on the built-in registry. */
  lemma {:induction false} DefaultCount()
    ensures Count(Default()) == 11
  {
    DefaultRegistry();
    EffectIdsCount();
  }

  /** Registering an identifier twice keeps only the second factory. */
  lemma {:induction false} RegisterOverwrites(r: Registry, id: string, k1: string, k2: string)
    requires Inv(r) && k1 in EffectIds && k2 in EffectIds
    ensures Register(Register(r, id, k1), id, k2) == Register(r, id, k2)
  {
  }
}

=== FILE: reverb.dfy ===
/** ReverbEffect: a Schroeder reverb (optional predelay, four parallel
    feedback combs with damping, two series allpasses) run once per channel
    and folded to mono with equal-power gains. The comb and allpass write
    indices are one per filter, shared by the left and right channels. */
module ReverbEffect {
  import opened Common

  const Id: string := "reverb"

  const DefaultRoom: real := 0.6
  const DefaultDamp: real := 0.4
  const DefaultWet: real := 0.35
  const DefaultPredelay: real := 0.0
  const MaxPredelay: real := 20.0
  /** The allpass coefficient. */
  const AllpassGain: real := 0.7

  /** Comb and allpass lengths in samples, independent of the sample rate. */
  const CombDelays: seq<nat> := [1116, 1188, 1277, 1356]
  const AllpassDelays: seq<nat> := [556, 441]

  /** A bank of ring buffers: one per filter and channel, and one write
      index per filter that both channels use. */
  datatype Bank = Bank(left: seq<seq<real>>, right: seq<seq<real>>, idx: seq<int>)

  datatype State = State(
    enabled: bool, wet: real, sampleRate: real, params: Params,
    room: real, damp: real, predelay: real,
    combs: Bank, lpL: seq<real>, lpR: seq<real>, allpasses: Bank,
    preL: seq<real>, preR: seq<real>, preWL: int, preWR: int, preSamples: int)

  /** Every buffer of the bank has its filter's length and every index
      lies inside it. */
  ghost predicate Shaped(b: Bank, lens: seq<nat>) {
    && |b.left| == |lens| && |b.right| == |lens| && |b.idx| == |lens|
    && forall j :: 0 <= j < |lens| ==>
         |b.left[j]| == lens[j] && |b.right[j]| == lens[j] && 0 <= b.idx[j] < lens[j]
  }

  ghost predicate BankCleared(b: Bank) {
    && (forall j, k :: 0 <= j < |b.left| && 0 <= k < |b.left[j]| ==> b.left[j][k] == 0.0)
    && (forall j, k :: 0 <= j < |b.right| && 0 <= k < |b.right[j]| ==> b.right[j][k] == 0.0)
    && (forall j :: 0 <= j < |b.idx| ==> b.idx[j] == 0)
  }

  /** Every buffer of filter j and the filters after it holds only zeros. */
  ghost predicate SilentFrom(b: Bank, j: nat) {
    && (forall k, i :: j <= k < |b.left| && 0 <= i < |b.left[k]| ==> b.left[k][i] == 0.0)
    && (forall k, i :: j <= k < |b.right| && 0 <= i < |b.right[k]| ==> b.right[k][i] == 0.0)
  }

  /** The bank with every buffer zeroed in place and every index at 0. */
  function ClearBank(b: Bank): (r: Bank)
    ensures BankCleared(r)
    ensures forall lens :: Shaped(b, lens) ==> Shaped(r, lens)
  {
    Bank(seq(|b.left|, j requires 0 <= j < |b.left| => Zeros(|b.left[j]|)),
         seq(|b.right|, j requires 0 <= j < |b.right| => Zeros(|b.right[j]|)),
         seq(|b.idx|, _ => 0))
  }

  /** Freshly allocated buffers of the given lengths. */
  function SilentBank(lens: seq<nat>): (b: Bank)
    requires forall j :: 0 <= j < |lens| ==> lens[j] >= 1
    ensures Shaped(b, lens) && BankCleared(b)
  {
    Bank(seq(|lens|, j requires 0 <= j < |lens| => Zeros(lens[j])),
         seq(|lens|, j requires 0 <= j < |lens| => Zeros(lens[j])),
         seq(|lens|, _ => 0))
  }

  /** `(int)(predelay * sampleRate / 1000)`. */
  function PredelaySamples(predelay: real, sampleRate: real): (n: int)
    requires 0.0 <= predelay && ValidRate(sampleRate)
    ensures n >= 0
    ensures n as real <= Mul(predelay, sampleRate) / 1000.0 < n as real + 1.0
  {
    MulNonNeg(predelay, sampleRate);
    Trunc(Mul(predelay, sampleRate) / 1000.0)
  }

  /** The predelay buffers hold `max(predelaySamples, 1)` samples. */
  function PredelayLength(n: int): (len: int)
    ensures len >= 1 && (n >= 1 ==> len == n)
  {
    if n >= 1 then n else 1
  }

  /** The invariant every public operation keeps: the typed fields mirror
      the table, values are in range, the predelay length follows the
      predelay time, and every buffer and index has its shape. */
  ghost predicate Inv(s: State) {
    Settings(s) && Buffers(s)
  }

  /** The parameter half of `Inv`: the typed fields mirror the table and
      lie in range, and the predelay length follows the predelay time. */
  ghost predicate Settings(s: State) {
    && "room" in s.params && s.params["room"] == s.room
    && "damp" in s.params && s.params["damp"] == s.damp
    && "wet" in s.params && s.params["wet"] == s.wet
    && "predelay" in s.params && s.params["predelay"] == s.predelay
    && 0.0 <= s.room <= 1.0 && 0.0 <= s.damp <= 1.0 && 0.0 <= s.wet <= 1.0
    && 0.0 <= s.predelay <= MaxPredelay
    && ValidRate(s.sampleRate)
    && s.preSamples == PredelaySamples(s.predelay, s.sampleRate)
  }

  /** The buffer half of `Inv`: every buffer and index has its shape. */
  ghost predicate Buffers(s: State) {
    && Shaped(s.combs, CombDelays) && |s.lpL| == |CombDelays| && |s.lpR| == |CombDelays|
    && Shaped(s.allpasses, AllpassDelays)
    && |s.preL| == PredelayLength(s.preSamples) && |s.preR| == |s.preL|
    && 0 <= s.preWL < |s.preL| && 0 <= s.preWR < |s.preR|
  }

  /** Time-based state as `reset` leaves it. */
  ghost predicate Cleared(s: State) {
    && BankCleared(s.combs) && BankCleared(s.allpasses)
    && (forall j :: 0 <= j < |s.lpL| ==> s.lpL[j] == 0.0)
    && (forall j :: 0 <= j < |s.lpR| ==> s.lpR[j] == 0.0)
    && (forall j :: 0 <= j < |s.preL| ==> s.preL[j] == 0.0)
    && (forall j :: 0 <= j < |s.preR| ==> s.preR[j] == 0.0)
    && s.preWL == 0 && s.preWR == 0
  }

  /** `reset`: zeroes every buffer, damping state and index; parameters and
      buffer sizes are kept. */
  function Reset(s: State): (r: State)
    ensures Cleared(r)
    ensures r.params == s.params && r.room == s.room && r.damp == s.damp && r.predelay == s.predelay
    ensures r.enabled == s.enabled && r.wet == s.wet && r.sampleRate == s.sampleRate
    ensures r.preSamples == s.preSamples && |r.preL| == |s.preL| && |r.preR| == |s.preR|
    ensures Inv(s) ==> Inv(r)
  {
    s.(combs := ClearBank(s.combs), allpasses := ClearBank(s.allpasses),
       lpL := Zeros(|s.lpL|), lpR := Zeros(|s.lpR|),
       preL := Zeros(|s.preL|), preR := Zeros(|s.preR|), preWL := 0, preWR := 0)
  }

  /** `updatePredelaySamples`: recomputes the length and allocates silent
      predelay buffers. */
  function UpdatePredelay(s: State): (r: State)
    requires 0.0 <= s.predelay && ValidRate(s.sampleRate)
    ensures r.preSamples == PredelaySamples(s.predelay, s.sampleRate)
    ensures |r.preL| == PredelayLength(r.preSamples) && |r.preR| == |r.preL|
    ensures r.preWL == 0 && r.preWR == 0
    ensures forall j :: 0 <= j < |r.preL| ==> r.preL[j] == 0.0 && r.preR[j] == 0.0
    ensures r.(preL := s.preL, preR := s.preR, preWL := s.preWL, preWR := s.preWR, preSamples := s.preSamples) == s
  {
    var n := PredelaySamples(s.predelay, s.sampleRate);
    s.(preSamples := n, preL := Zeros(PredelayLength(n)), preR := Zeros(PredelayLength(n)),
       preWL := 0, preWR := 0)
  }

  /** `initializeBuffers`: allocates all buffers for the current rate and
      clears every state. */
  function InitializeBuffers(s: State): (r: State)
    requires 0.0 <= s.predelay && ValidRate(s.sampleRate)
    ensures Cleared(r) && Shaped(r.combs, CombDelays) && Shaped(r.allpasses, AllpassDelays)
    ensures |r.lpL| == |CombDelays| && |r.lpR| == |CombDelays|
    ensures r.preSamples == PredelaySamples(s.predelay, s.sampleRate)
    ensures |r.preL| == PredelayLength(r.preSamples) && |r.preR| == |r.preL|
    ensures r.params == s.params && r.room == s.room && r.damp == s.damp && r.predelay == s.predelay
    ensures r.enabled == s.enabled && r.wet == s.wet && r.sampleRate == s.sampleRate
  {
    var t := s.(combs := SilentBank(CombDelays), allpasses := SilentBank(AllpassDelays),
                lpL := Zeros(|CombDelays|), lpR := Zeros(|CombDelays|));
    Reset(UpdatePredelay(t))
  }

  /** The constructor: default parameters at 44.1 kHz, all state silent. */
  function Init(): (s: State)
    ensures Inv(s) && Cleared(s) && s.enabled
    ensures s.room == DefaultRoom && s.damp == DefaultDamp && s.wet == DefaultWet
    ensures s.predelay == DefaultPredelay && s.preSamples == 0
  {
    MulUnit(44100.0);
    InitializeBuffers(State(true, DefaultWet, 44100.0,
      map["room" := DefaultRoom, "damp" := DefaultDamp, "wet" := DefaultWet, "predelay" := DefaultPredelay],
      DefaultRoom, DefaultDamp, DefaultPredelay,
      Bank([], [], []), [], [], Bank([], [], []), [], [], 0, 0, 0))
  }

  /** `getParameter`: the alias names read their canonical key. */
  function GetParameter(s: State, name: string): (v: real)
    ensures name == "roomSize" ==> v == if "room" in s.params then s.params["room"] else DefaultRoom
    ensures name == "damping" ==> v == if "damp" in s.params then s.params["damp"] else DefaultDamp
    ensures name !in {"roomSize", "damping"} ==> v == if name in s.params then s.params[name] else 0.0
  {
    if name == "roomSize" then GetOr(s.params, "room", DefaultRoom)
    else if name == "damping" then GetOr(s.params, "damp", DefaultDamp)
    else GetOr(s.params, name, 0.0)
  }

  /** `setParameter`, with clamps, alias names stored under both keys, and
      a new predelay line for a new predelay time. */
  function SetParameter(s: State, name: string, v: real): (r: State)
    requires Inv(s)
    ensures Inv(r)
    ensures name == "room" || name == "roomSize" ==>
      r.room == Clamp(v, 0.0, 1.0) && GetParameter(r, "room") == r.room
      && GetParameter(r, "roomSize") == r.room
    ensures name == "damp" || name == "damping" ==>
      r.damp == Clamp(v, 0.0, 1.0) && GetParameter(r, "damp") == r.damp
      && GetParameter(r, "damping") == r.damp
    ensures name == "wet" || name == "mix" ==> r.wet == Clamp(v, 0.0, 1.0) && GetParameter(r, "wet") == r.wet
    ensures name == "predelay" ==>
      r.predelay == Clamp(v, 0.0, MaxPredelay) && GetParameter(r, "predelay") == r.predelay
      && r.preWL == 0 && r.preWR == 0
      && forall j :: 0 <= j < |r.preL| ==> r.preL[j] == 0.0 && r.preR[j] == 0.0
    ensures name !in {"room", "roomSize", "damp", "damping", "wet", "mix", "predelay"} ==>
      GetOr(r.params, name, 0.0) == v && r.room == s.room && r.damp == s.damp
      && r.wet == s.wet && r.predelay == s.predelay
    ensures r.enabled == s.enabled && r.sampleRate == s.sampleRate
    ensures r.combs == s.combs && r.allpasses == s.allpasses && r.lpL == s.lpL && r.lpR == s.lpR
  {
    if name == "room" || name == "roomSize" then
      var x := Clamp(v, 0.0, 1.0);
      s.(room := x, params := s.params["room" := x]["roomSize" := x])
    else if name == "damp" || name == "damping" then
      var x := Clamp(v, 0.0, 1.0);
      s.(damp := x, params := s.params["damp" := x]["damping" := x])
    else if name == "wet" || name == "mix" then
      var x := Clamp(v, 0.0, 1.0);
      s.(wet := x, params := s.params["wet" := x])
    else if name == "predelay" then
      var x := Clamp(v, 0.0, MaxPredelay);
      UpdatePredelay(s.(predelay := x, params := s.params["predelay" := x]))
    else
      s.(params := s.params[name := v])
  }

  /** `setWetDryRatio`: clamps to [0, 1] and mirrors the value under "wet". */
  function SetWetDryRatio(s: State, w: real): (r: State)
    requires Inv(s)
    ensures Inv(r) && r.wet == Clamp(w, 0.0, 1.0) && GetParameter(r, "wet") == r.wet
    ensures r.room == s.room && r.damp == s.damp && r.predelay == s.predelay && r.enabled == s.enabled && r.sampleRate == s.sampleRate
  {
    SetParameter(s, "wet", w)
  }

  /** `setSampleRate`: records the rate and reallocates every buffer. */
  function SetSampleRate(s: State, sr: real): (r: State)
    requires Inv(s) && ValidRate(sr)
    ensures Inv(r) && Cleared(r) && r.sampleRate == sr
    ensures r.preSamples == PredelaySamples(s.predelay, sr)
    ensures r.params == s.params && r.enabled == s.enabled && r.wet == s.wet
  {
    InitializeBuffers(s.(sampleRate := sr))
  }

  /** The comb feedback gain `0.7 + 0.28 * room`. */
  function CombGain(room: real): (g: real)
    requires 0.0 <= room <= 1.0
    ensures 0.7 <= g <= 0.98
    ensures room == 0.0 ==> g == 0.7
    ensures room == 1.0 ==> g == 0.98
  {
    0.7 + 0.28 * room
  }

  /** A larger room never gives a smaller feedback gain. */
  lemma CombGainMonotone(r1: real, r2: real)
    requires 0.0 <= r1 <= r2 <= 1.0
    ensures CombGain(r1) <= CombGain(r2)
  {
  }

  /** `processCombFilter` on one channel's buffer at write index w. The read
      index `(w - len + len) % len` is w itself, so the filter returns what
      was stored there one lap ago, then stores the input plus the damped
      feedback in its place. */
  function Comb(buf: seq<real>, w: int, lp: real, x: real, g: real, damp: real): (res: (seq<real>, real, real))
    requires 0 <= w < |buf|
    ensures res.2 == buf[w]
    ensures 0.0 <= damp <= 1.0 ==> res.1 == OnePole(lp, buf[w], 1.0 - damp)
    ensures 0.0 <= damp <= 1.0 ==> Min(lp, buf[w]) <= res.1 <= Max(lp, buf[w])
    ensures res.0 == buf[w := x + Mul(res.1, g)]
  {
    ReadIsWrite(w, |buf|);
    var delayed := buf[w];
    var lp' := Mul(delayed, 1.0 - damp) + Mul(lp, damp);
    DampingBetween(delayed, lp, damp);
    (buf[w := x + Mul(lp', g)], lp', delayed)
  }

  /** The damping update `delayed * (1 - damp) + lp * damp` moves the
      low-pass state the fraction `1 - damp` of the way to the delayed
      sample, so it lies between the two. */
  lemma DampingBetween(delayed: real, lp: real, damp: real)
    ensures 0.0 <= damp <= 1.0 ==> Mul(delayed, 1.0 - damp) + Mul(lp, damp) == OnePole(lp, delayed, 1.0 - damp)
    ensures 0.0 <= damp <= 1.0 ==>
      Min(lp, delayed) <= Mul(delayed, 1.0 - damp) + Mul(lp, damp) <= Max(lp, delayed)
  {
    if 0.0 <= damp <= 1.0 {
      assert Mul(delayed, 1.0 - damp) + Mul(lp, damp) == OnePole(lp, delayed, 1.0 - damp);
    }
  }

  /** The read index `(w - len + len) % len`, with a negative remainder
      moved up by `len`, of the comb and allpass filters is the write index:
      each filter reads the slot it is about to overwrite, one lap old. */
  lemma {:induction false} ReadIsWrite(w: int, len: int)
    requires 0 <= w < len
    ensures var ri := JRem(w - len + len, len); (if ri < 0 then ri + len else ri) == w
  {
    JRemWraps(w - len + len, len);
  }

  /** The write index after one more write, `(w + 1) % len`: the next slot,
      or 0 after the last one. */
  function Advance(w: int, len: int): (r: int)
    requires 0 <= w < len
    ensures 0 <= r < len && r == (w + 1) % len
  {
    if w + 1 == len then 0 else w + 1
  }

  /** Comb j on both channels: the left call uses the shared index and
      advances it, so the right call reads and writes one slot further on
      and the index ends two places ahead. */
  function CombPair(b: Bank, lpL: seq<real>, lpR: seq<real>, j: int, xl: real, xr: real, g: real, damp: real)
    : (res: (Bank, seq<real>, seq<real>, real, real))
    requires Shaped(b, CombDelays) && |lpL| == |CombDelays| && |lpR| == |CombDelays| && 0 <= j < |CombDelays|
    ensures Shaped(res.0, CombDelays) && |res.1| == |lpL| && |res.2| == |lpR|
    ensures res.0.idx == b.idx[j := Around(b.idx[j], 2, CombDelays[j])]
    ensures res.3 == b.left[j][b.idx[j]]
    ensures res.4 == b.right[j][(b.idx[j] + 1) % CombDelays[j]]
    ensures SilentFrom(b, j) ==> SilentFrom(res.0, j + 1) && res.3 == 0.0 && res.4 == 0.0
  {
    var len := CombDelays[j];
    var w := b.idx[j];
    var l := Comb(b.left[j], w, lpL[j], xl, g, damp);
    var w1 := Advance(w, len);
    var r := Comb(b.right[j], w1, lpR[j], xr, g, damp);
    var w2 := Advance(w1, len);
    assert Around(w, 2, len) == w2 by {
      assert Around(w, 1, len) == w1;
    }
    (Bank(b.left[j := l.0], b.right[j := r.0], b.idx[j := w2]), lpL[j := l.1], lpR[j := r.1], l.2, r.2)
  }

  /** The comb loop from filter j on: the summed outputs of both channels. */
  function CombsFrom(b: Bank, lpL: seq<real>, lpR: seq<real>, j: nat, xl: real, xr: real, g: real, damp: real)
    : (res: (Bank, seq<real>, seq<real>, real, real))
    requires Shaped(b, CombDelays) && |lpL| == |CombDelays| && |lpR| == |CombDelays| && j <= |CombDelays|
    ensures Shaped(res.0, CombDelays) && |res.1| == |lpL| && |res.2| == |lpR|
    ensures forall k :: 0 <= k < j ==> res.0.idx[k] == b.idx[k]
    ensures forall k :: j <= k < |CombDelays| ==> res.0.idx[k] == Around(b.idx[k], 2, CombDelays[k])
    ensures SilentFrom(b, j) ==> res.3 == 0.0 && res.4 == 0.0
    decreases |CombDelays| - j
  {
    if j == |CombDelays| then (b, lpL, lpR, 0.0, 0.0)
    else
      var p := CombPair(b, lpL, lpR, j, xl, xr, g, damp);
      var rest := CombsFrom(p.0, p.1, p.2, j + 1, xl, xr, g, damp);
      (rest.0, rest.1, rest.2, p.3 + rest.3, p.4 + rest.4)
  }

  /** `processAllpassFilter` on one channel's buffer at write index w:
      `out = -0.7 * in + delayed`, then `in + 0.7 * out` is stored. */
  function Allpass(buf: seq<real>, w: int, x: real): (res: (seq<real>, real))
    requires 0 <= w < |buf|
    ensures res.1 == buf[w] - AllpassGain * x
    ensures res.0 == buf[w := x + AllpassGain * res.1]
  {
    ReadIsWrite(w, |buf|);
    var y := -AllpassGain * x + buf[w];
    (buf[w := x + AllpassGain * y], y)
  }

  /** Allpass j on both channels, with the same shared-index stepping as the combs. */
  function AllpassPair(b: Bank, j: int, xl: real, xr: real): (res: (Bank, real, real))
    requires Shaped(b, AllpassDelays) && 0 <= j < |AllpassDelays|
    ensures Shaped(res.0, AllpassDelays)
    ensures res.0.idx == b.idx[j := Around(b.idx[j], 2, AllpassDelays[j])]
    ensures res.1 == b.left[j][b.idx[j]] - AllpassGain * xl
    ensures res.2 == b.right[j][(b.idx[j] + 1) % AllpassDelays[j]] - AllpassGain * xr
    ensures SilentFrom(b, j) && xl == 0.0 && xr == 0.0 ==> SilentFrom(res.0, j + 1) && res.1 == 0.0 && res.2 == 0.0
  {
    var len := AllpassDelays[j];
    var w := b.idx[j];
    var l := Allpass(b.left[j], w, xl);
    var w1 := Advance(w, len);
    var r := Allpass(b.right[j], w1, xr);
    var w2 := Advance(w1, len);
    assert Around(w, 2, len) == w2 by {
      assert Around(w, 1, len) == w1;
    }
    (Bank(b.left[j := l.0], b.right[j := r.0], b.idx[j := w2]), l.1, r.1)
  }

  /** The allpass loop from filter j on: each filter's output feeds the next. */
  function AllpassesFrom(b: Bank, j: nat, xl: real, xr: real): (res: (Bank, real, real))
    requires Shaped(b, AllpassDelays) && j <= |AllpassDelays|
    ensures Shaped(res.0, AllpassDelays)
    ensures forall k :: 0 <= k < j ==> res.0.idx[k] == b.idx[k]
    ensures forall k :: j <= k < |AllpassDelays| ==> res.0.idx[k] == Around(b.idx[k], 2, AllpassDelays[k])
    ensures SilentFrom(b, j) && xl == 0.0 && xr == 0.0 ==> res.1 == 0.0 && res.2 == 0.0
    decreases |AllpassDelays| - j
  {
    if j == |AllpassDelays| then (b, xl, xr)
    else
      var p := AllpassPair(b, j, xl, xr);
      AllpassesFrom(p.0, j + 1, p.1, p.2)
  }

  /** `applyPredelay` on one channel: the identity when the predelay is 0
      samples, otherwise a ring of exactly n samples. */
  function Predelay(buf: seq<real>, w: int, n: int, x: real): (res: (seq<real>, int, real))
    requires 0 <= w < |buf| && (n >= 1 ==> |buf| == n)
    ensures n <= 0 ==> res == (buf, w, x)
    ensures n >= 1 ==> res.2 == buf[w] && res.0 == buf[w := x] && res.1 == (w + 1) % n
    ensures |res.0| == |buf| && 0 <= res.1 < |buf|
  {
    if n == 0 then (buf, w, x)
    else if n < 0 then (buf, w, x)
    else (buf[w := x], Advance(w, n), buf[w])
  }

  /** The slot `t` writes after slot w on a ring of n slots, advancing
      one `(w + 1) % n` at a time. */
  function Around(w: int, t: nat, n: int): (r: int)
    requires 0 <= w < n
    ensures 0 <= r < n
  {
    if t == 0 then w else Advance(Around(w, t - 1, n), n)
  }

  /** t single advances make up one advance by t places. */
  lemma {:induction false} AroundIsRemainder(w: int, t: nat, n: int)
    requires 0 <= w < n
    ensures Around(w, t, n) == (w + t) % n
  {
    if t == 0 {
      DivModUnique(w, n, 0, w);
    } else {
      AroundIsRemainder(w, t - 1, n);
      ModAdd(w + t - 1, 1, n);
    }
  }

  /** Advancing t places and then u more is advancing t + u places. */
  lemma {:induction false} AroundAdd(w: int, t: nat, u: nat, n: int)
    requires 0 <= w < n
    ensures Around(Around(w, t, n), u, n) == Around(w, t + u, n)
  {
    if u > 0 {
      AroundAdd(w, t, u - 1, n);
    }
  }

  /** Each index of `after` lies `steps` slots around its ring from the same
      index of `before`. */
  ghost predicate Moved(after: seq<int>, before: seq<int>, lens: seq<nat>, steps: nat)
    requires |after| == |lens| && |before| == |lens|
  {
    forall k :: 0 <= k < |lens| ==> 0 <= before[k] < lens[k] && after[k] == Around(before[k], steps, lens[k])
  }

  /** Two more slots after `t` slots is `u = t + 2` slots. */
  lemma {:induction false} MovedAgain(mid: seq<int>, after: seq<int>, before: seq<int>, lens: seq<nat>, t: nat, u: nat)
    requires |after| == |lens| && |mid| == |lens| && |before| == |lens| && u == t + 2
    requires Moved(mid, before, lens, t) && Moved(after, mid, lens, 2)
    ensures Moved(after, before, lens, u)
  {
    forall k | 0 <= k < |lens|
      ensures after[k] == Around(before[k], u, lens[k])
    {
      AroundAdd(before[k], t, 2, lens[k]);
    }
  }

  /** Every index in range is zero slots from itself. */
  lemma MovedNone(b: Bank, lens: seq<nat>)
    requires Shaped(b, lens)
    ensures Moved(b.idx, b.idx, lens, 0)
  {
  }

  /** Processing changes no parameter: the table, the typed parameter
      fields, the enabled flag, the rate and the predelay length. */
  predicate Keeps(r: State, s: State) {
    r.(combs := s.combs, lpL := s.lpL, lpR := s.lpR, allpasses := s.allpasses,
       preL := s.preL, preR := s.preR, preWL := s.preWL, preWR := s.preWR) == s
  }

  /** Both predelay lines: the delayed left and right inputs. */
  function PredelayStage(s: State, x: real): (res: (State, real, real))
    requires Inv(s)
    ensures Inv(res.0)
    ensures Keeps(res.0, s) && res.0.combs == s.combs && res.0.allpasses == s.allpasses
    ensures s.preSamples == 0 ==> res.0 == s && res.1 == x && res.2 == x
  {
    var pl := Predelay(s.preL, s.preWL, s.preSamples, x);
    var pr := Predelay(s.preR, s.preWR, s.preSamples, x);
    (s.(preL := pl.0, preWL := pl.1, preR := pr.0, preWR := pr.1), pl.2, pr.2)
  }

  /** The four combs on both channels: the two summed outputs. */
  function CombStage(s: State, xl: real, xr: real): (res: (State, real, real))
    requires Inv(s)
    ensures Inv(res.0)
    ensures Keeps(res.0, s) && res.0.allpasses == s.allpasses
    ensures Moved(res.0.combs.idx, s.combs.idx, CombDelays, 2)
    ensures SilentFrom(s.combs, 0) ==> res.1 == 0.0 && res.2 == 0.0
  {
    var c := CombsFrom(s.combs, s.lpL, s.lpR, 0, xl, xr, CombGain(s.room), s.damp);
    (s.(combs := c.0, lpL := c.1, lpR := c.2), c.3, c.4)
  }

  /** The two allpasses in series on both channels. */
  function AllpassStage(s: State, xl: real, xr: real): (res: (State, real, real))
    requires Inv(s)
    ensures Inv(res.0)
    ensures Keeps(res.0, s) && res.0.combs == s.combs
    ensures Moved(res.0.allpasses.idx, s.allpasses.idx, AllpassDelays, 2)
    ensures SilentFrom(s.allpasses, 0) && xl == 0.0 && xr == 0.0 ==> res.1 == 0.0 && res.2 == 0.0
  {
    var a := AllpassesFrom(s.allpasses, 0, xl, xr);
    (s.(allpasses := a.0), a.1, a.2)
  }

  /** Both banks' indices lie `steps` slots from where they were in `s`. */
  ghost predicate Advanced(r: Tank, s: Tank, steps: nat)
  {
    && Moved(r.combs.idx, s.combs.idx, CombDelays, steps)
    && Moved(r.allpasses.idx, s.allpasses.idx, AllpassDelays, steps)
  }

  /** No comb or allpass buffer holds anything but zeros. */
  ghost predicate Silent(s: State) {
    SilentFrom(s.combs, 0) && SilentFrom(s.allpasses, 0)
  }

  /** A state the invariant holds of, as the sample loop carries it. */
  type Tank = s: State | Inv(s) witness Init()

  /** One sample of `process` as a value: the predelay, the parallel combs
      on the predelayed input, the allpasses in series on the comb sums, and
      the mono mix of their two outputs with the input. */
  function Sample(s: Tank, x: real, dryGain: real, wetGain: real): (res: (Tank, real))
    ensures Keeps(res.0, s)
    ensures dryGain == 1.0 && wetGain == 0.0 ==> res.1 == x
  {
    var p := PredelayStage(s, x);
    var c := CombStage(p.0, p.1, p.2);
    var a := AllpassStage(c.0, c.1, c.2);
    MonoMixEnds(x, a.1, a.2);
    (a.0, MonoMix(x, a.1, a.2, dryGain, wetGain))
  }

  /** While the tank is silent the sample's output is the dry part alone:
      every comb reads a zero one lap back, so the allpasses see silence too. */
  lemma {:induction false} SampleSilent(s: Tank, x: real, dryGain: real, wetGain: real)
    requires Silent(s)
    ensures Sample(s, x, dryGain, wetGain).1 == Mul(x, dryGain)
  {
    var p := PredelayStage(s, x);
    var c := CombStage(p.0, p.1, p.2);
    assert c.1 == 0.0 && c.2 == 0.0;
    var a := AllpassStage(c.0, c.1, c.2);
    assert a.1 == 0.0 && a.2 == 0.0;
    MulUnit(wetGain);
  }

  /** The mixing gains act after the tank: the state a sample leaves does
      not depend on them, and the output is the dry term plus the wet gain
      times the fully wet output. */
  lemma {:induction false} SampleMix(s: Tank, x: real, dryGain: real, wetGain: real)
    ensures Sample(s, x, dryGain, wetGain).0 == Sample(s, x, 0.0, 1.0).0
    ensures Sample(s, x, dryGain, wetGain).1 == Mul(x, dryGain) + Mul(Sample(s, x, 0.0, 1.0).1, wetGain)
  {
    var p := PredelayStage(s, x);
    var c := CombStage(p.0, p.1, p.2);
    var a := AllpassStage(c.0, c.1, c.2);
    MonoMixSplit(x, a.1, a.2, dryGain, wetGain);
  }

  /** One sample moves every comb and allpass index two slots. */
  lemma {:induction false} SampleAdvances(s: Tank, x: real, dryGain: real, wetGain: real)
    ensures Advanced(Sample(s, x, dryGain, wetGain).0, s, 2)
  {
    var p := PredelayStage(s, x);
    var c := CombStage(p.0, p.1, p.2);
    var a := AllpassStage(c.0, c.1, c.2);
    assert c.0.allpasses == s.allpasses && p.0.combs == s.combs;
  }

  /** A state `reset` leaves is silent. */
  lemma ClearedIsSilent(s: State)
    ensures Cleared(s) ==> Silent(s)
  {
  }

  /** The sample loop of `process` as a value. */
  function Block(s: Tank, input: seq<real>, dryGain: real, wetGain: real): (res: (Tank, seq<real>))
    ensures |res.1| == |input|
    decreases |input|
  {
    if |input| == 0 then (s, [])
    else
      var p := Block(s, input[..|input| - 1], dryGain, wetGain);
      var q := Sample(p.0, input[|input| - 1], dryGain, wetGain);
      var out := p.1 + [q.1];
      assert |out| == |p.1| + 1;
      (q.0, out)
  }

  /** Over a block every comb and allpass index moves two slots per sample. */
  lemma {:induction false} BlockAdvances(s: Tank, input: seq<real>, dryGain: real, wetGain: real)
    ensures Advanced(Block(s, input, dryGain, wetGain).0, s, 2 * |input|)
    decreases |input|
  {
    if |input| == 0 {
      MovedNone(s.combs, CombDelays);
      MovedNone(s.allpasses, AllpassDelays);
    } else {
      var n := |input| - 1;
      BlockAdvances(s, input[..n], dryGain, wetGain);
      var p := Block(s, input[..n], dryGain, wetGain);
      var q := Sample(p.0, input[n], dryGain, wetGain);
      assert Block(s, input, dryGain, wetGain).0 == q.0;
      SampleAdvances(p.0, input[n], dryGain, wetGain);
      MovedAgain(p.0.combs.idx, q.0.combs.idx, s.combs.idx, CombDelays, 2 * n, 2 * |input|);
      MovedAgain(p.0.allpasses.idx, q.0.allpasses.idx, s.allpasses.idx, AllpassDelays, 2 * n, 2 * |input|);
    }
  }

  /** The loop changes no parameter and yields one sample per input sample. */
  lemma {:induction false} BlockKeeps(s: Tank, input: seq<real>, dryGain: real, wetGain: real)
    ensures Keeps(Block(s, input, dryGain, wetGain).0, s)
    ensures |Block(s, input, dryGain, wetGain).1| == |input|
    decreases |input|
  {
    if |input| > 0 {
      BlockKeeps(s, input[..|input| - 1], dryGain, wetGain);
    }
  }

  /** Over a block the gains act after the tank as well: the final state is
      the fully wet run's, and each output sample is the dry term plus the
      wet gain times the fully wet output at the same position. */
  lemma {:induction false} BlockMix(s: Tank, input: seq<real>, dryGain: real, wetGain: real)
    ensures Block(s, input, dryGain, wetGain).0 == Block(s, input, 0.0, 1.0).0
    ensures MixedFrom(Block(s, input, dryGain, wetGain).1, input, Block(s, input, 0.0, 1.0).1, dryGain, wetGain)
    decreases |input|
  {
    if |input| > 0 {
      var n := |input| - 1;
      BlockMix(s, input[..n], dryGain, wetGain);
      var p := Block(s, input[..n], dryGain, wetGain);
      var w := Block(s, input[..n], 0.0, 1.0);
      SampleMix(p.0, input[n], dryGain, wetGain);
      var q := Sample(p.0, input[n], dryGain, wetGain);
      var qw := Sample(p.0, input[n], 0.0, 1.0);
      MixedSnoc(p.1, input[..n], w.1, dryGain, wetGain, q.1, input[n], qw.1);
      SnocLast(input);
    }
  }

  /** Dry only: the loop passes the block through unchanged. */
  lemma {:induction false} BlockDry(s: Tank, input: seq<real>, dryGain: real, wetGain: real)
    ensures dryGain == 1.0 && wetGain == 0.0 ==> Block(s, input, dryGain, wetGain).1 == input
    decreases |input|
  {
    if |input| > 0 {
      BlockDry(s, input[..|input| - 1], dryGain, wetGain);
      SnocLast(input);
    }
  }

  /** From a silent state the first output sample carries no reverberation. */
  lemma {:induction false} BlockFirst(s: Tank, input: seq<real>, dryGain: real, wetGain: real)
    ensures |Block(s, input, dryGain, wetGain).1| == |input|
    ensures Silent(s) && |input| > 0 ==> Block(s, input, dryGain, wetGain).1[0] == Mul(input[0], dryGain)
    decreases |input|
  {
    BlockKeeps(s, input, dryGain, wetGain);
    var n := |input| - 1;
    if !Silent(s) || n < 0 {
    } else if n == 0 {
      assert input[..n] == [];
      SampleSilent(s, input[0], dryGain, wetGain);
    } else {
      BlockFirst(s, input[..n], dryGain, wetGain);
      assert input[..n][0] == input[0];
    }
  }

  /** `process` as a value: a copy when disabled, otherwise the sample loop
      with the equal-power gains of the wet parameter. No parameter changes,
      and with the wet parameter at zero the block passes through. */
  function Output(s: Tank, input: seq<real>, sqrt: real -> real): (res: (Tank, seq<real>))
    requires SqrtOracle(sqrt)
    ensures Keeps(res.0, s) && |res.1| == |input|
    ensures !s.enabled ==> res == (s, input)
    ensures s.wet == 0.0 ==> res.1 == input
  {
    if !s.enabled then (s, input)
    else
      var g := EqualPower(s.wet, sqrt);
      BlockKeeps(s, input, g.0, g.1);
      BlockDry(s, input, g.0, g.1);
      Block(s, input, g.0, g.1)
  }

  /** One sample of `process` after the parameter snapshot: predelay,
      combs, allpasses, then the equal-power mono mix. */
  method Step(s: Tank, x: real, dryGain: real, wetGain: real) returns (r: Tank, y: real)
    ensures (r, y) == Sample(s, x, dryGain, wetGain)
  {
    var p := PredelayStage(s, x);
    var c := CombStage(p.0, p.1, p.2);
    var a := AllpassStage(c.0, c.1, c.2);
    r := a.0;
    y := MonoMix(x, a.1, a.2, dryGain, wetGain);
  }

  /** The loop of `process` over a block, for given mixing gains. */
  method Run(s: Tank, input: seq<real>, dryGain: real, wetGain: real) returns (r: Tank, out: seq<real>)
    ensures (r, out) == Block(s, input, dryGain, wetGain)
  {
    r := s;
    out := [];
    var i := 0;
    while i < |input|
      invariant 0 <= i <= |input|
      invariant (r, out) == Block(s, input[..i], dryGain, wetGain)
    {
      PrefixStep(input, i);
      var y;
      r, y := Step(r, input[i], dryGain, wetGain);
      out := out + [y];
      i := i + 1;
    }
    assert input[..|input|] == input by { if |input| > 0 { PrefixStep(input, 0); } }
  }

  /** `process`: a copy when disabled; otherwise every comb and allpass
      index has moved two slots per sample, because the left and right
      channels share it (`AroundIsRemainder` turns this into a remainder).
      From the reset state the first output is the dry part alone. */
  method Process(s: State, input: seq<real>, sqrt: real -> real) returns (r: State, out: seq<real>)
    requires Inv(s) && SqrtOracle(sqrt)
    ensures (r, out) == Output(s, input, sqrt)
    ensures Inv(r) && |out| == |input|
    ensures !s.enabled ==> r == s && out == input
    ensures s.wet == 0.0 ==> out == input
    ensures s.enabled ==> Advanced(r, s, 2 * |input|)
    ensures s.enabled && Cleared(s) && |input| > 0 ==> out[0] == Mul(input[0], EqualPower(s.wet, sqrt).0)
    ensures s.enabled ==> MixedFrom(out, input, Block(s, input, 0.0, 1.0).1, EqualPower(s.wet, sqrt).0, EqualPower(s.wet, sqrt).1)
    ensures Keeps(r, s)
  {
    if !s.enabled {
      return s, Copy(input);
    }
    var g := EqualPower(s.wet, sqrt);
    r, out := Run(s, input, g.0, g.1);
    ClearedIsSilent(s);
    BlockFirst(s, input, g.0, g.1);
    BlockAdvances(s, input, g.0, g.1);
    BlockMix(s, input, g.0, g.1);
  }

  /** The consequence of the shared index for the even-length combs (the
      first, second and fourth): every slot a channel writes is revisited
      after half the comb's length in samples, so that channel's comb
      delay is half its nominal length. The odd comb keeps its full length. */
  lemma {:induction false} EvenCombsHalveTheirDelay(j: int, w: int, i: nat)
    requires 0 <= j < |CombDelays| && j != 2 && 0 <= w < CombDelays[j]
    ensures Around(w, 2 * (i + CombDelays[j] / 2), CombDelays[j]) == Around(w, 2 * i, CombDelays[j])
  {
    var len := CombDelays[j];
    AroundIsRemainder(w, 2 * (i + len / 2), len);
    AroundIsRemainder(w, 2 * i, len);
    assert w + 2 * (i + len / 2) == w + 2 * i + len;
    ModLap(w + 2 * i, len);
  }
}

=== FILE: reverse_delay.dfy ===
/** ReverseDelayEffect: per channel, a block of `blockSize` samples is
    recorded (input plus feedback), copied reversed into a playback buffer
    and played back, after which the next block is recorded. The record and
    play flags are shared by both channels. */
module ReverseDelayEffect {
  import opened Common

  const Id: string := "reverseDelay"

  const DefaultTime: real := 600.0
  const DefaultFeedback: real := 0.35
  const DefaultWet: real := 0.35
  const DefaultCrossfade: real := 8.0
  const MinTime: real := 200.0
  const MaxTime: real := 2000.0
  const MaxFeedback: real := 0.95
  const MaxCrossfade: real := 20.0
  /** The rate the constructor allocates the buffers for; `setSampleRate`
      never reallocates them. */
  const ConstructionRate: real := 44100.0

  /** One channel: the block being recorded, the reversed copy being played,
      and the write and read pointers. */
  datatype Channel = Channel(blk: seq<real>, out: seq<real>, w: int, r: int)

  datatype State = State(
    enabled: bool, wet: real, sampleRate: real, params: Params,
    time: real, feedback: real, crossfade: real, freeze: bool,
    left: Channel, right: Channel,
    blockSize: int, crossfadeSamples: int,
    recording: bool, playing: bool, currentBlock: int, blockCount: int,
    crossfadeGain: real, crossfadeCounter: int)

  /** The length of all four buffers: `(int)(MAX_TIME * rate / 1000)`. */
  function BufferLength(sampleRate: real): int {
    Trunc(MaxTime * sampleRate / 1000.0)
  }

  /** `updateBlockSize`: `max(1, (int)(time * rate / 1000))`. */
  function BlockSize(time: real, sampleRate: real): (n: int)
    ensures n >= 1
    ensures 0.0 <= time * sampleRate / 1000.0 ==> n as real <= Max(1.0, time * sampleRate / 1000.0)
  {
    var k := Trunc(time * sampleRate / 1000.0);
    if k < 1 then 1 else k
  }

  /** `updateCrossfadeSamples`: `max(0, (int)(crossfade * rate / 1000))`. */
  function CrossfadeSamples(crossfade: real, sampleRate: real): (n: int)
    ensures n >= 0
  {
    var k := Trunc(crossfade * sampleRate / 1000.0);
    if k < 0 then 0 else k
  }

  /** At any rate up to the one the buffers were allocated for, every block
      fits in them. */
  lemma {:induction false} BlockFits(time: real, sampleRate: real)
    requires MinTime <= time <= MaxTime && 0.0 < sampleRate <= ConstructionRate
    ensures BlockSize(time, sampleRate) <= BufferLength(ConstructionRate)
  {
    MulMono(sampleRate, time, MaxTime);
    MulMonoRight(MaxTime, MaxTime, sampleRate);
    MulMono(MaxTime, sampleRate, ConstructionRate);
    assert time * sampleRate <= MaxTime * ConstructionRate;
  }

  /** Above that rate the longest block outgrows the buffers, and recording
      it runs off their end. */
  lemma {:induction false} BlockOverflows()
    ensures BlockSize(MaxTime, 96000.0) == 192000
    ensures BufferLength(ConstructionRate) == 88200
  {
  }

  /** The invariant the setters keep: the typed fields mirror the table,
      values are in range, the derived sizes follow the time, crossfade and
      rate, and the four buffers are equally long. */
  ghost predicate Inv(s: State) {
    && "time" in s.params && s.params["time"] == s.time
    && "feedback" in s.params && s.params["feedback"] == s.feedback
    && "wet" in s.params && s.params["wet"] == s.wet
    && "crossfade" in s.params && s.params["crossfade"] == s.crossfade
    && "freeze" in s.params && s.params["freeze"] == (if s.freeze then 1.0 else 0.0)
    && MinTime <= s.time <= MaxTime
    && 0.0 <= s.feedback <= MaxFeedback
    && 0.0 <= s.crossfade <= MaxCrossfade
    && 0.0 <= s.wet <= 1.0
    && s.blockSize == BlockSize(s.time, s.sampleRate)
    && s.crossfadeSamples == CrossfadeSamples(s.crossfade, s.sampleRate)
    && |s.left.out| == |s.left.blk| && |s.right.blk| == |s.left.blk| && |s.right.out| == |s.left.blk|
  }

  /** Every index the next sample can touch lies inside the buffers. */
  predicate Fits(s: State) {
    && 1 <= s.blockSize <= |s.left.blk|
    && |s.left.out| == |s.left.blk| && |s.right.blk| == |s.left.blk| && |s.right.out| == |s.left.blk|
    && 0 <= s.left.w < |s.left.blk| && 0 <= s.left.r < |s.left.blk|
    && 0 <= s.right.w < |s.left.blk| && 0 <= s.right.r < |s.left.blk|
  }

  /** The state `reset` leaves. */
  ghost predicate Cleared(s: State) {
    && (forall j :: 0 <= j < |s.left.blk| ==> s.left.blk[j] == 0.0)
    && (forall j :: 0 <= j < |s.left.out| ==> s.left.out[j] == 0.0)
    && (forall j :: 0 <= j < |s.right.blk| ==> s.right.blk[j] == 0.0)
    && (forall j :: 0 <= j < |s.right.out| ==> s.right.out[j] == 0.0)
    && s.left.w == 0 && s.left.r == 0 && s.right.w == 0 && s.right.r == 0
    && s.recording && !s.playing && s.currentBlock == 0 && s.blockCount == 0
    && s.crossfadeGain == 1.0 && s.crossfadeCounter == 0
  }

  function ClearChannel(c: Channel): (r: Channel)
    ensures |r.blk| == |c.blk| && |r.out| == |c.out| && r.w == 0 && r.r == 0
  {
    Channel(Zeros(|c.blk|), Zeros(|c.out|), 0, 0)
  }

  /** `reset`: all four buffers zeroed, pointers and counters to 0, back to
      recording; parameters untouched. */
  function Reset(s: State): (r: State)
    ensures Cleared(r)
    ensures r.params == s.params && r.time == s.time && r.feedback == s.feedback
    ensures r.crossfade == s.crossfade && r.freeze == s.freeze && r.wet == s.wet
    ensures r.enabled == s.enabled && r.sampleRate == s.sampleRate
    ensures r.blockSize == s.blockSize && r.crossfadeSamples == s.crossfadeSamples
    ensures |r.left.blk| == |s.left.blk|
    ensures Inv(s) ==> Inv(r)
    ensures Fits(s) ==> Fits(r)
  {
    s.(left := ClearChannel(s.left), right := ClearChannel(s.right),
       recording := true, playing := false, currentBlock := 0, blockCount := 0,
       crossfadeGain := 1.0, crossfadeCounter := 0)
  }

  /** The constructor: buffers for 2 s at 44.1 kHz, 600 ms blocks. */
  function Init(): (s: State)
    ensures Inv(s) && Fits(s) && Cleared(s) && s.enabled
    ensures |s.left.blk| == 88200 && s.blockSize == 26460
    ensures s.time == DefaultTime && s.feedback == DefaultFeedback && s.wet == DefaultWet
    ensures s.crossfade == DefaultCrossfade && !s.freeze
  {
    var n := BufferLength(ConstructionRate);
    var c := Channel(Zeros(n), Zeros(n), 0, 0);
    State(true, DefaultWet, ConstructionRate,
      map["time" := DefaultTime, "feedback" := DefaultFeedback, "wet" := DefaultWet,
          "crossfade" := DefaultCrossfade, "freeze" := 0.0],
      DefaultTime, DefaultFeedback, DefaultCrossfade, false, c, c,
      BlockSize(DefaultTime, ConstructionRate), CrossfadeSamples(DefaultCrossfade, ConstructionRate),
      true, false, 0, 0, 1.0, 0)
  }

  /** `getParameter`: the stored value, 0 for a name never set. */
  function GetParameter(s: State, name: string): (v: real)
    ensures name in s.params ==> v == s.params[name]
    ensures name !in s.params ==> v == 0.0
  {
    GetOr(s.params, name, 0.0)
  }

  /** `setParameter`: time clamped to [200, 2000] (recomputing the block
      size), feedback to [0, 0.95], crossfade to [0, 20] (recomputing its
      length), freeze set when the value exceeds 0.5 and stored as 1 or 0,
      "wet"/"mix" clamped to [0, 1]; other names stored verbatim. No buffer
      or pointer changes. */
  function SetParameter(s: State, name: string, v: real): (r: State)
    requires Inv(s)
    ensures Inv(r)
    ensures name == "time" ==> r.time == Clamp(v, MinTime, MaxTime) && GetParameter(r, "time") == r.time
    ensures name == "feedback" ==> r.feedback == Clamp(v, 0.0, MaxFeedback) && GetParameter(r, "feedback") == r.feedback
    ensures name == "crossfade" ==> r.crossfade == Clamp(v, 0.0, MaxCrossfade) && GetParameter(r, "crossfade") == r.crossfade
    ensures name == "freeze" ==> (r.freeze <==> v > 0.5) && GetParameter(r, "freeze") == (if v > 0.5 then 1.0 else 0.0)
    ensures name == "wet" || name == "mix" ==> r.wet == Clamp(v, 0.0, 1.0) && GetParameter(r, "wet") == r.wet
    ensures name !in {"time", "feedback", "crossfade", "freeze", "wet", "mix"} ==>
      GetParameter(r, name) == v && r.time == s.time && r.feedback == s.feedback && r.crossfade == s.crossfade
      && r.freeze == s.freeze && r.wet == s.wet
    ensures r.left == s.left && r.right == s.right && r.recording == s.recording && r.playing == s.playing
    ensures r.blockCount == s.blockCount && r.enabled == s.enabled && r.sampleRate == s.sampleRate
    ensures name != "time" ==> r.blockSize == s.blockSize
  {
    if name == "time" then
      var x := Clamp(v, MinTime, MaxTime);
      s.(time := x, params := s.params["time" := x], blockSize := BlockSize(x, s.sampleRate))
    else if name == "feedback" then
      var x := Clamp(v, 0.0, MaxFeedback);
      s.(feedback := x, params := s.params["feedback" := x])
    else if name == "crossfade" then
      var x := Clamp(v, 0.0, MaxCrossfade);
      s.(crossfade := x, params := s.params["crossfade" := x], crossfadeSamples := CrossfadeSamples(x, s.sampleRate))
    else if name == "freeze" then
      s.(freeze := v > 0.5, params := s.params["freeze" := if v > 0.5 then 1.0 else 0.0])
    else if name == "wet" || name == "mix" then
      var x := Clamp(v, 0.0, 1.0);
      s.(wet := x, params := s.params["wet" := x])
    else
      s.(params := s.params[name := v])
  }

  /** `setWetDryRatio`: clamps to [0, 1] and mirrors the value under "wet". */
  function SetWetDryRatio(s: State, w: real): (r: State)
    requires Inv(s)
    ensures Inv(r) && r.wet == Clamp(w, 0.0, 1.0) && GetParameter(r, "wet") == r.wet
    ensures r.time == s.time && r.left == s.left && r.right == s.right && r.blockSize == s.blockSize
    ensures r.enabled == s.enabled && r.sampleRate == s.sampleRate
  {
    SetParameter(s, "wet", w)
  }

  /** `setSampleRate`: recomputes the block and crossfade lengths and
      resets, but keeps the buffers allocated by the constructor. */
  function SetSampleRate(s: State, sr: real): (r: State)
    requires Inv(s)
    ensures Inv(r) && Cleared(r) && r.sampleRate == sr
    ensures r.blockSize == BlockSize(s.time, sr) && |r.left.blk| == |s.left.blk|
    ensures r.params == s.params && r.enabled == s.enabled && r.wet == s.wet
    ensures r.blockSize <= |r.left.blk| ==> Fits(r)
  {
    Reset(s.(sampleRate := sr, blockSize := BlockSize(s.time, sr),
             crossfadeSamples := CrossfadeSamples(s.crossfade, sr)))
  }

  /** `prepareReversePlayback`'s copy: the first `n` slots of the playback
      buffer receive the recorded block reversed; the rest keep their value. */
  function ReverseInto(blk: seq<real>, out: seq<real>, n: int): (o: seq<real>)
    requires 0 <= n <= |blk| && n <= |out|
    ensures |o| == |out|
    ensures forall i :: 0 <= i < n ==> o[i] == blk[n - 1 - i]
    ensures forall i :: n <= i < |out| ==> o[i] == out[i]
  {
    seq(|out|, i requires 0 <= i < |out| => if i < n then blk[n - 1 - i] else out[i])
  }

  /** `prepareRecording`'s clear of the first `n` slots of the block buffer. */
  function ClearPrefix(blk: seq<real>, n: int): (b: seq<real>)
    requires 0 <= n <= |blk|
    ensures |b| == |blk|
    ensures forall i :: 0 <= i < n ==> b[i] == 0.0
    ensures forall i :: n <= i < |blk| ==> b[i] == blk[i]
  {
    seq(|blk|, i requires 0 <= i < |blk| => if i < n then 0.0 else blk[i])
  }

  /** The four buffer lengths. */
  function Sizes(s: State): (int, int, int, int) {
    (|s.left.blk|, |s.left.out|, |s.right.blk|, |s.right.out|)
  }

  function Chan(s: State, isLeft: bool): Channel {
    if isLeft then s.left else s.right
  }

  function WithChan(s: State, isLeft: bool, c: Channel): (r: State)
    ensures Chan(r, isLeft) == c && Chan(r, !isLeft) == Chan(s, !isLeft)
    ensures r.(left := s.left, right := s.right) == s
  {
    if isLeft then s.(left := c) else s.(right := c)
  }

  /** The sample the record branch writes: input plus feedback from the
      playback buffer while a block is playing. */
  function Recorded(s: State, c: Channel, x: real, feedback: real): real
    requires 0 <= c.r < |c.out|
  {
    x + (if s.playing && s.blockCount > 0 then Mul(c.out[c.r], feedback) else 0.0)
  }

  /** `processSample` for one channel, with the shared flags and counters.
      `None` stands for the `ArrayIndexOutOfBoundsException` an index past
      the end of a buffer raises. The pointer write-back at the end of the
      Java method stores the pointers the call started from, so the read
      pointer `prepareReversePlayback` moves to the end of the block and the
      write pointer `prepareRecording` moves to 0 are both overwritten. */
  function ProcessSample(s: State, x: real, isLeft: bool, feedback: real, freeze: bool): (res: Option<(State, real)>)
    requires s.blockSize >= 1
    ensures res.Some? ==> res.value.0.(left := s.left, right := s.right, recording := s.recording, playing := s.playing,
      currentBlock := s.currentBlock, blockCount := s.blockCount, crossfadeGain := s.crossfadeGain,
      crossfadeCounter := s.crossfadeCounter) == s
    ensures res.Some? ==> Chan(res.value.0, !isLeft) == Chan(s, !isLeft)
    ensures res.Some? ==> Sizes(res.value.0) == Sizes(s)
  {
    var c := Chan(s, isLeft);
    if s.recording then
      if !freeze && !(0 <= c.w < |c.blk| && 0 <= c.r < |c.out|) then None
      else
        var blk := if freeze then c.blk else c.blk[c.w := Recorded(s, c, x, feedback)];
        var w := c.w + 1;
        if w >= s.blockSize then
          if s.blockSize > |blk| || s.blockSize > |c.out| then None
          else
            Some((WithChan(s, isLeft, Channel(blk, ReverseInto(blk, c.out, s.blockSize), 0, c.r)).(
              recording := false, playing := true, currentBlock := (s.currentBlock + 1) % 2,
              blockCount := s.blockCount + 1, crossfadeGain := 1.0, crossfadeCounter := 0), 0.0))
        else
          Some((WithChan(s, isLeft, c.(blk := blk, w := w)), 0.0))
    else if s.playing then
      if !(0 <= c.r < |c.out|) then None
      else if c.r - 1 < 0 then
        if s.blockSize > |c.blk| then None
        else Some((WithChan(s, isLeft, c.(blk := ClearPrefix(c.blk, s.blockSize), r := 0)).(
                     recording := true, playing := false), c.out[c.r]))
      else
        Some((WithChan(s, isLeft, c.(r := c.r - 1)), c.out[c.r]))
    else
      Some((s, 0.0))
  }

  /** While the indices fit, a sample never fails and the indices keep fitting. */
  lemma {:induction false} SampleKeepsFit(s: State, x: real, isLeft: bool, feedback: real, freeze: bool)
    requires Fits(s)
    ensures ProcessSample(s, x, isLeft, feedback, freeze).Some?
    ensures Fits(ProcessSample(s, x, isLeft, feedback, freeze).value.0)
    ensures |ProcessSample(s, x, isLeft, feedback, freeze).value.0.left.blk| == |s.left.blk|
  {
  }

  /** The record branch runs off the block buffer once the write pointer
      reaches its end, as it does when the block outgrows the buffers. */
  lemma {:induction false} RecordPastEndFails(s: State, x: real, isLeft: bool, feedback: real)
    requires s.blockSize >= 1 && s.recording && Chan(s, isLeft).w >= |Chan(s, isLeft).blk|
    ensures ProcessSample(s, x, isLeft, feedback, false).None?
  {
  }

  /** Completing a block: the flags switch to playback, the playback buffer
      holds the block reversed, the write pointer returns to 0 and the read
      pointer keeps the value the call started from instead of the last
      index of the block. */
  lemma {:induction false} BlockCompletes(s: State, x: real, isLeft: bool, feedback: real, freeze: bool)
    requires Fits(s) && s.recording && Chan(s, isLeft).w + 1 >= s.blockSize
    ensures var r := ProcessSample(s, x, isLeft, feedback, freeze).value.0;
      && !r.recording && r.playing && r.blockCount == s.blockCount + 1
      && Chan(r, isLeft).w == 0
      && Chan(r, isLeft).r == Chan(s, isLeft).r
      && forall i :: 0 <= i < s.blockSize ==> Chan(r, isLeft).out[i] == Chan(r, isLeft).blk[s.blockSize - 1 - i]
  {
  }

  /** Playback reads the reversed copy downwards from the read pointer, so
      consecutive samples come from consecutive, increasing positions of
      the recorded block: the block is played forwards. */
  lemma {:induction false} PlaybackIsForward(blk: seq<real>, out: seq<real>, n: int, r: int)
    requires 0 <= n <= |blk| && n <= |out| && 1 <= r < n
    ensures ReverseInto(blk, out, n)[r] == blk[n - 1 - r]
    ensures ReverseInto(blk, out, n)[r - 1] == blk[n - 1 - r + 1]
  {
  }

  /** A playback that starts from read pointer 0, as it does after the
      first block, lasts one sample: it emits the last recorded sample and
      returns to recording. */
  lemma {:induction false} PlaybackFromZeroIsOneSample(s: State, x: real, isLeft: bool, feedback: real, freeze: bool)
    requires Fits(s) && !s.recording && s.playing && Chan(s, isLeft).r == 0
    ensures var res := ProcessSample(s, x, isLeft, feedback, freeze).value;
      && res.1 == Chan(s, isLeft).out[0]
      && res.0.recording && !res.0.playing
  {
  }

  /** The flags are shared: when the left channel completes its block, the
      right channel's call in the same sample takes the playback branch and,
      from read pointer 0, wipes the right channel's partly recorded block. */
  lemma {:induction false} LeftCompletionWipesRight(s: State, x: real, feedback: real, freeze: bool)
    requires Fits(s) && s.recording && s.left.w + 1 >= s.blockSize && s.right.r == 0
    ensures var l := ProcessSample(s, x, true, feedback, freeze).value.0;
      var r := ProcessSample(l, x, false, feedback, freeze).value.0;
      && r.recording && !r.playing
      && r.right.w == s.right.w
      && forall i :: 0 <= i < s.blockSize ==> r.right.blk[i] == 0.0
  {
    SampleKeepsFit(s, x, true, feedback, freeze);
  }

  /** The fields a sample leaves alone: everything but the two channels,
      the flags and the crossfade counters, and the buffer lengths. */
  predicate Keeps(r: State, s: State) {
    && r.(left := s.left, right := s.right, recording := s.recording, playing := s.playing,
      currentBlock := s.currentBlock, blockCount := s.blockCount, crossfadeGain := s.crossfadeGain,
      crossfadeCounter := s.crossfadeCounter) == s
    && Sizes(r) == Sizes(s)
  }

  /** One sample of `process`: left channel, right channel, mono mix.
      `None` when either channel's call fails. */
  function Sample(s: State, x: real, dryGain: real, wetGain: real): (res: Option<(State, real)>)
    requires s.blockSize >= 1
    ensures res.Some? ==> Keeps(res.value.0, s)
    ensures res.Some? && dryGain == 1.0 && wetGain == 0.0 ==> res.value.1 == x
  {
    match ProcessSample(s, x, true, s.feedback, s.freeze)
    case None => None
    case Some(l) =>
      match ProcessSample(l.0, x, false, s.feedback, s.freeze)
      case None => None
      case Some(rr) =>
        MonoMixEnds(x, l.1, rr.1);
        Some((rr.0, MonoMix(x, l.1, rr.1, dryGain, wetGain)))
  }

  /** While the indices fit, a sample never fails and the indices keep fitting. */
  lemma {:induction false} SampleNeverFails(s: State, x: real, dryGain: real, wetGain: real)
    requires Fits(s)
    ensures Sample(s, x, dryGain, wetGain).Some? && Fits(Sample(s, x, dryGain, wetGain).value.0)
  {
    SampleKeepsFit(s, x, true, s.feedback, s.freeze);
    SampleKeepsFit(ProcessSample(s, x, true, s.feedback, s.freeze).value.0, x, false, s.feedback, s.freeze);
  }

  /** The gains only scale the mix: whether a sample fails and the state it
      leaves do not depend on them, and the output is the dry input times
      the dry gain plus the fully wet output times the wet gain. */
  lemma {:induction false} SampleMix(s: State, x: real, dryGain: real, wetGain: real)
    requires s.blockSize >= 1
    ensures Sample(s, x, dryGain, wetGain).Some? == Sample(s, x, 0.0, 1.0).Some?
    ensures Sample(s, x, dryGain, wetGain).Some? ==>
      && Sample(s, x, dryGain, wetGain).value.0 == Sample(s, x, 0.0, 1.0).value.0
      && Sample(s, x, dryGain, wetGain).value.1
         == Mul(x, dryGain) + Mul(Sample(s, x, 0.0, 1.0).value.1, wetGain)
  {
    var lo := ProcessSample(s, x, true, s.feedback, s.freeze);
    if lo.Some? {
      var ro := ProcessSample(lo.value.0, x, false, s.feedback, s.freeze);
      if ro.Some? {
        MonoMixSplit(x, lo.value.1, ro.value.1, dryGain, wetGain);
      }
    }
  }

  /** `process` over a block, one sample after another; the first failing
      sample fails the whole call. */
  function Block(s: State, input: seq<real>, dryGain: real, wetGain: real): (res: Option<(State, seq<real>)>)
    requires s.blockSize >= 1
    ensures res.Some? ==> Keeps(res.value.0, s) && |res.value.1| == |input|
    decreases |input|
  {
    if |input| == 0 then Some((s, []))
    else
      match Block(s, input[..|input| - 1], dryGain, wetGain)
      case None => None
      case Some(p) =>
        match Sample(p.0, input[|input| - 1], dryGain, wetGain)
        case None => None
        case Some(q) => Some((q.0, p.1 + [q.1]))
  }

  /** Once a prefix of the block fails, so does the block. */
  lemma {:induction false} BlockFailsLater(s: State, input: seq<real>, i: nat, dryGain: real, wetGain: real)
    requires s.blockSize >= 1 && i <= |input|
    requires Block(s, input[..i], dryGain, wetGain).None?
    ensures Block(s, input, dryGain, wetGain).None?
    decreases |input|
  {
    if i < |input| {
      var front := input[..|input| - 1];
      assert front[..i] == input[..i];
      BlockFailsLater(s, front, i, dryGain, wetGain);
    } else {
      assert input[..i] == input;
    }
  }

  /** From a state whose indices fit, a block never fails and leaves the
      indices fitting. */
  lemma {:induction false} BlockNeverFails(s: State, input: seq<real>, dryGain: real, wetGain: real)
    requires Fits(s)
    ensures Block(s, input, dryGain, wetGain).Some? && Fits(Block(s, input, dryGain, wetGain).value.0)
    decreases |input|
  {
    if |input| > 0 {
      BlockNeverFails(s, input[..|input| - 1], dryGain, wetGain);
      var p := Block(s, input[..|input| - 1], dryGain, wetGain).value;
      SampleNeverFails(p.0, input[|input| - 1], dryGain, wetGain);
    }
  }

  /** With the gains of a wet ratio of 0 a successful block is the input. */
  lemma {:induction false} BlockDry(s: State, input: seq<real>)
    requires s.blockSize >= 1
    ensures Block(s, input, 1.0, 0.0).Some? ==> Block(s, input, 1.0, 0.0).value.1 == input
    decreases |input|
  {
    if |input| > 0 && Block(s, input, 1.0, 0.0).Some? {
      BlockDry(s, input[..|input| - 1]);
      SnocLast(input);
    }
  }

  /** The gains only scale the mix over a whole block: it fails exactly
      when the fully wet block fails, leaves the same state, and each
      output sample is the dry input times the dry gain plus the fully wet
      output times the wet gain. */
  lemma {:induction false} BlockMix(s: State, input: seq<real>, dryGain: real, wetGain: real)
    requires s.blockSize >= 1
    ensures Block(s, input, dryGain, wetGain).Some? == Block(s, input, 0.0, 1.0).Some?
    ensures Block(s, input, dryGain, wetGain).Some? ==>
      && Block(s, input, dryGain, wetGain).value.0 == Block(s, input, 0.0, 1.0).value.0
      && MixedFrom(Block(s, input, dryGain, wetGain).value.1, input, Block(s, input, 0.0, 1.0).value.1, dryGain, wetGain)
    decreases |input|
  {
    if |input| > 0 {
      var front := input[..|input| - 1];
      BlockMix(s, front, dryGain, wetGain);
      var p := Block(s, front, dryGain, wetGain);
      if p.Some? {
        var pw := Block(s, front, 0.0, 1.0).value;
        SampleMix(p.value.0, input[|input| - 1], dryGain, wetGain);
        var q := Sample(p.value.0, input[|input| - 1], dryGain, wetGain);
        if q.Some? {
          var qw := Sample(pw.0, input[|input| - 1], 0.0, 1.0).value;
          MixedSnoc(p.value.1, front, pw.1, dryGain, wetGain, q.value.1, input[|input| - 1], qw.1);
          SnocLast(input);
        }
      }
    }
  }

  /** The result of `process`: a disabled effect passes the block through;
      otherwise the block is mixed with the equal-power gains of the wet
      ratio. */
  function Output(s: State, input: seq<real>, sqrt: real -> real): (res: Option<(State, seq<real>)>)
    requires s.blockSize >= 1 && 0.0 <= s.wet <= 1.0 && SqrtOracle(sqrt)
    ensures !s.enabled ==> res == Some((s, input))
    ensures res.Some? ==> Keeps(res.value.0, s) && |res.value.1| == |input|
    ensures res.Some? && s.wet == 0.0 ==> res.value.1 == input
  {
    if !s.enabled then Some((s, input))
    else
      var g := EqualPower(s.wet, sqrt);
      BlockDry(s, input);
      Block(s, input, g.0, g.1)
  }

  /** `process`: `None` stands for the exception an index past the end of a
      buffer raises; from a state whose indices fit it cannot fail. */
  method Process(s: State, input: seq<real>, sqrt: real -> real) returns (res: Option<(State, seq<real>)>)
    requires s.blockSize >= 1 && 0.0 <= s.wet <= 1.0 && SqrtOracle(sqrt)
    ensures res == Output(s, input, sqrt)
    ensures !s.enabled ==> res == Some((s, input))
    ensures Fits(s) ==> res.Some? && Fits(res.value.0)
    ensures res.Some? ==> |res.value.1| == |input| && Keeps(res.value.0, s)
    ensures res.Some? && Inv(s) ==> Inv(res.value.0)
    ensures res.Some? && s.wet == 0.0 ==> res.value.1 == input
    ensures res.Some? && s.enabled ==>
      && Block(s, input, 0.0, 1.0).Some?
      && MixedFrom(res.value.1, input, Block(s, input, 0.0, 1.0).value.1,
           EqualPower(s.wet, sqrt).0, EqualPower(s.wet, sqrt).1)
  {
    if !s.enabled {
      return Some((s, Copy(input)));
    }
    var g := EqualPower(s.wet, sqrt);
    if Fits(s) {
      BlockNeverFails(s, input, g.0, g.1);
    }
    var r := s;
    var out := [];
    var i := 0;
    while i < |input|
      invariant 0 <= i <= |input|
      invariant Block(s, input[..i], g.0, g.1) == Some((r, out))
    {
      PrefixStep(input, i);
      var q := Sample(r, input[i], g.0, g.1);
      if q.None? {
        BlockFailsLater(s, input, i + 1, g.0, g.1);
        return None;
      }
      r, out := q.value.0, out + [q.value.1];
      i := i + 1;
    }
    assert input[..|input|] == input;
    res := Some((r, out));
    BlockMix(s, input, g.0, g.1);
  }
}

=== FILE: units.dfy ===
/** The `AudioEffect` interface: one sum type over the eleven effect states,
    with every interface call dispatched to the effect's own model. */
module Units {
  import opened Common
  import BypassEffect
  import DelayEffect
  import ReverbEffect
  import BitcrusherEffect
  import OverdriveEffect
  import DistortionEffect
  import FuzzEffect
  import WavefolderEffect
  import ReverseDelayEffect
  import GranularEffect
  import LooperEffect

  datatype Unit =
    | Bypass(bypass: BypassEffect.State)
    | Delay(delay: DelayEffect.State)
    | Reverb(reverb: ReverbEffect.State)
    | Bitcrusher(bitcrusher: BitcrusherEffect.State)
    | Overdrive(overdrive: OverdriveEffect.State)
    | Distortion(distortion: DistortionEffect.State)
    | Fuzz(fuzz: FuzzEffect.State)
    | Wavefolder(wavefolder: WavefolderEffect.State)
    | ReverseDelay(reverseDelay: ReverseDelayEffect.State)
    | Granular(granular: GranularEffect.State)
    | Looper(looper: LooperEffect.State)

  /** The external functions and random streams `process` draws on:
      `sqrt`, `tanh`, `sinTurns(t) = sin(2 * pi * t)`, and one stream of
      uniform draws in [0, 1). */
  datatype Oracles = Oracles(sqrt: real -> real, tanh: real -> real, sinTurns: real -> real, rnd: nat -> real)

  ghost predicate ValidOracles(o: Oracles) {
    SqrtOracle(o.sqrt) && Bounded1(o.tanh) && RandomSource(o.rnd)
  }

  /** The identifiers the effects report through `getId`. */
  const EffectIds: set<string> := {"bypass", "delay", "reverb", "bitcrusher", "overdrive",
    "distortion", "fuzz", "wavefolder", "reverseDelay", "granular", "looper"}

  /** There are eleven distinct identifiers. */
  lemma {:induction false} EffectIdsCount()
    ensures |EffectIds| == 11
  {
    var a := {"bypass", "delay", "reverb", "bitcrusher", "overdrive"};
    var b := {"distortion", "fuzz", "wavefolder", "reverseDelay", "granular", "looper"};
    FirstIdsCount();
    LastIdsCount();
    assert a * b == {};
    assert EffectIds == a + b;
  }

  lemma {:induction false} FirstIdsCount()
    ensures |{"bypass", "delay", "reverb", "bitcrusher", "overdrive"}| == 5
  {
    var s := {"bypass"} + {"delay"};
    assert |s| == 2;
    s := s + {"reverb"};
    assert |s| == 3;
    s := s + {"bitcrusher"};
    assert |s| == 4;
    s := s + {"overdrive"};
    assert |s| == 5;
    assert s == {"bypass", "delay", "reverb", "bitcrusher", "overdrive"};
  }

  lemma {:induction false} LastIdsCount()
    ensures |{"distortion", "fuzz", "wavefolder", "reverseDelay", "granular", "looper"}| == 6
  {
    var s := {"distortion"} + {"fuzz"};
    assert |s| == 2;
    s := s + {"wavefolder"};
    assert |s| == 3;
    s := s + {"reverseDelay"};
    assert |s| == 4;
    s := s + {"granular"};
    assert |s| == 5;
    s := s + {"looper"};
    assert |s| == 6;
    assert s == {"distortion", "fuzz", "wavefolder", "reverseDelay", "granular", "looper"};
  }

  /** `getId`: each effect's constant identifier. */
  function Id(u: Unit): (id: string)
    ensures id in EffectIds
  {
    match u
    case Bypass(_) => "bypass"
    case Delay(_) => "delay"
    case Reverb(_) => "reverb"
    case Bitcrusher(_) => "bitcrusher"
    case Overdrive(_) => "overdrive"
    case Distortion(_) => "distortion"
    case Fuzz(_) => "fuzz"
    case Wavefolder(_) => "wavefolder"
    case ReverseDelay(_) => "reverseDelay"
    case Granular(_) => "granular"
    case Looper(_) => "looper"
  }

  /** Distinct effects report distinct identifiers. */
  lemma {:induction false} IdDeterminesKind(a: Unit, b: Unit)
    requires Id(a) == Id(b)
    ensures a.Bypass? == b.Bypass? && a.Delay? == b.Delay? && a.Reverb? == b.Reverb?
    ensures a.Bitcrusher? == b.Bitcrusher? && a.Overdrive? == b.Overdrive? && a.Distortion? == b.Distortion?
    ensures a.Fuzz? == b.Fuzz? && a.Wavefolder? == b.Wavefolder? && a.ReverseDelay? == b.ReverseDelay?
    ensures a.Granular? == b.Granular? && a.Looper? == b.Looper?
  {
  }

  /** `isEnabled`. */
  function Enabled(u: Unit): bool {
    match u
    case Bypass(s) => s.enabled
    case Delay(s) => s.enabled
    case Reverb(s) => s.enabled
    case Bitcrusher(s) => s.enabled
    case Overdrive(s) => s.enabled
    case Distortion(s) => s.enabled
    case Fuzz(s) => s.enabled
    case Wavefolder(s) => s.enabled
    case ReverseDelay(s) => s.enabled
    case Granular(s) => s.enabled
    case Looper(s) => s.enabled
  }

  /** `getWetDryRatio`. */
  function Wet(u: Unit): real {
    match u
    case Bypass(s) => s.wet
    case Delay(s) => s.wet
    case Reverb(s) => s.wet
    case Bitcrusher(s) => s.wet
    case Overdrive(s) => s.wet
    case Distortion(s) => s.wet
    case Fuzz(s) => s.wet
    case Wavefolder(s) => s.wet
    case ReverseDelay(s) => s.wet
    case Granular(s) => s.wet
    case Looper(s) => s.wet
  }

  /** `getSampleRate`. */
  function SampleRate(u: Unit): real {
    match u
    case Bypass(s) => s.sampleRate
    case Delay(s) => s.sampleRate
    case Reverb(s) => s.sampleRate
    case Bitcrusher(s) => s.sampleRate
    case Overdrive(s) => s.sampleRate
    case Distortion(s) => s.sampleRate
    case Fuzz(s) => s.sampleRate
    case Wavefolder(s) => s.sampleRate
    case ReverseDelay(s) => s.sampleRate
    case Granular(s) => s.sampleRate
    case Looper(s) => s.sampleRate
  }

  /** Each effect's own invariant, plus a usable sample rate. */
  ghost predicate Inv(u: Unit) {
    match u
    case Bypass(s) => 0.0 <= s.wet <= 1.0 && ValidRate(s.sampleRate)
    case Delay(s) => DelayEffect.Inv(s) && ValidRate(s.sampleRate)
    case Reverb(s) => ReverbEffect.Inv(s)
    case Bitcrusher(s) => BitcrusherEffect.Inv(s) && ValidRate(s.sampleRate)
    case Overdrive(s) => OverdriveEffect.Inv(s)
    case Distortion(s) => DistortionEffect.Inv(s)
    case Fuzz(s) => FuzzEffect.Inv(s)
    case Wavefolder(s) => WavefolderEffect.Inv(s)
    case ReverseDelay(s) => ReverseDelayEffect.Inv(s) && ValidRate(s.sampleRate)
    case Granular(s) => GranularEffect.Inv(s)
    case Looper(s) => LooperEffect.Inv(s)
  }

  /** Every effect keeps its wet ratio in [0, 1]. */
  lemma {:induction false} InvWet(u: Unit)
    requires Inv(u)
    ensures 0.0 <= Wet(u) <= 1.0 && ValidRate(SampleRate(u))
  {
  }

  const FilterIds: set<string> := {"bypass", "delay", "reverb", "bitcrusher"}
  const ShaperIds: set<string> := {"overdrive", "distortion", "fuzz", "wavefolder"}
  const BufferIds: set<string> := {"reverseDelay", "granular", "looper"}

  /** The freshly constructed unit for each identifier. */
  function Create(id: string): (r: Option<Unit>)
    ensures r.Some? <==> id in EffectIds
    ensures r.Some? ==> Id(r.value) == id && Inv(r.value) && Enabled(r.value)
  {
    assert EffectIds == FilterIds + ShaperIds + BufferIds;
    if id in FilterIds then CreateFilter(id)
    else if id in ShaperIds then CreateShaper(id)
    else CreateBuffer(id)
  }

  function CreateFilter(id: string): (r: Option<Unit>)
    ensures r.Some? <==> id in FilterIds
    ensures r.Some? ==> Id(r.value) == id && Inv(r.value) && Enabled(r.value)
  {
    if id == "bypass" then Some(Bypass(BypassEffect.Init()))
    else if id == "delay" then Some(Delay(DelayEffect.Init()))
    else if id == "reverb" then Some(Reverb(ReverbEffect.Init()))
    else if id == "bitcrusher" then Some(Bitcrusher(BitcrusherEffect.Init()))
    else None
  }

  function CreateShaper(id: string): (r: Option<Unit>)
    ensures r.Some? <==> id in ShaperIds
    ensures r.Some? ==> Id(r.value) == id && Inv(r.value) && Enabled(r.value)
  {
    if id == "overdrive" then Some(Overdrive(OverdriveEffect.Init()))
    else if id == "distortion" then Some(Distortion(DistortionEffect.Init()))
    else if id == "fuzz" then Some(Fuzz(FuzzEffect.Init()))
    else if id == "wavefolder" then Some(Wavefolder(WavefolderEffect.Init()))
    else None
  }

  function CreateBuffer(id: string): (r: Option<Unit>)
    ensures r.Some? <==> id in BufferIds
    ensures r.Some? ==> Id(r.value) == id && Inv(r.value) && Enabled(r.value)
  {
    if id == "reverseDelay" then Some(ReverseDelay(ReverseDelayEffect.Init()))
    else if id == "granular" then Some(Granular(GranularEffect.Init()))
    else if id == "looper" then Some(Looper(LooperEffect.Init()))
    else None
  }

  /** `setEnabled`: only the flag changes. */
  function SetEnabled(u: Unit, e: bool): (r: Unit)
    ensures Enabled(r) == e && Id(r) == Id(u) && Wet(r) == Wet(u) && SampleRate(r) == SampleRate(u)
    ensures forall n :: GetParameter(r, n) == GetParameter(u, n)
    ensures Inv(u) ==> Inv(r)
  {
    match u
    case Bypass(s) => Bypass(s.(enabled := e))
    case Delay(s) => Delay(s.(enabled := e))
    case Reverb(s) => Reverb(s.(enabled := e))
    case Bitcrusher(s) => Bitcrusher(s.(enabled := e))
    case Overdrive(s) => Overdrive(s.(enabled := e))
    case Distortion(s) => Distortion(s.(enabled := e))
    case Fuzz(s) => Fuzz(s.(enabled := e))
    case Wavefolder(s) => Wavefolder(s.(enabled := e))
    case ReverseDelay(s) => ReverseDelay(s.(enabled := e))
    case Granular(s) => Granular(s.(enabled := e))
    case Looper(s) => Looper(s.(enabled := e))
  }

  /** Toggling the flag back restores the unit exactly. */
  lemma {:induction false} EnableRoundTrip(u: Unit, e: bool)
    ensures SetEnabled(SetEnabled(u, e), Enabled(u)) == u
  {
  }

  /** The parameter map each effect keeps. */
  function Stored(u: Unit): Params {
    match u
    case Bypass(s) => s.params
    case Delay(s) => s.params
    case Reverb(s) => s.params
    case Bitcrusher(s) => s.params
    case Overdrive(s) => s.params
    case Distortion(s) => s.params
    case Fuzz(s) => s.params
    case Wavefolder(s) => s.params
    case ReverseDelay(s) => s.params
    case Granular(s) => s.params
    case Looper(s) => s.params
  }

  /** The alias names some effects answer with a default of their own. */
  const AliasNames: set<string> := {"bitDepth", "sampleRate", "delayTime", "roomSize", "damping"}

  /** `getParameter`: each effect answers 0 for a name it never stored. */
  function GetParameter(u: Unit, name: string): (v: real)
    ensures name !in AliasNames ==> v == if name in Stored(u) then Stored(u)[name] else 0.0
    ensures u.Bitcrusher? && name == "bitDepth" && "bitdepth" !in Stored(u) ==> v == BitcrusherEffect.DefaultBitDepth as real
    ensures u.Delay? && name == "delayTime" && "time" !in Stored(u) ==> v == DelayEffect.DefaultTime
    ensures u.Reverb? && name == "roomSize" && "room" !in Stored(u) ==> v == ReverbEffect.DefaultRoom
  {
    match u
    case Bypass(s) => BypassEffect.GetParameter(s, name)
    case Delay(s) => DelayEffect.GetParameter(s, name)
    case Reverb(s) => ReverbEffect.GetParameter(s, name)
    case Bitcrusher(s) => BitcrusherEffect.GetParameter(s, name)
    case Overdrive(s) => OverdriveEffect.GetParameter(s, name)
    case Distortion(s) => DistortionEffect.GetParameter(s, name)
    case Fuzz(s) => FuzzEffect.GetParameter(s, name)
    case Wavefolder(s) => WavefolderEffect.GetParameter(s, name)
    case ReverseDelay(s) => ReverseDelayEffect.GetParameter(s, name)
    case Granular(s) => GranularEffect.GetParameter(s, name)
    case Looper(s) => LooperEffect.GetParameter(s, name)
  }

  /** `setParameter`: the effect's own clamping and side effects; the
      identity, the enabled flag and the rate never change. */
  function SetParameter(u: Unit, name: string, v: real): (r: Unit)
    requires Inv(u)
    ensures Inv(r) && Id(r) == Id(u) && Enabled(r) == Enabled(u) && SampleRate(r) == SampleRate(u)
  {
    match u
    case Bypass(s) => Bypass(BypassEffect.SetParameter(s, name, v))
    case Delay(s) => Delay(DelayEffect.SetParameter(s, name, v))
    case Reverb(s) => Reverb(ReverbEffect.SetParameter(s, name, v))
    case Bitcrusher(s) => Bitcrusher(BitcrusherEffect.SetParameter(s, name, v))
    case Overdrive(s) => Overdrive(OverdriveEffect.SetParameter(s, name, v))
    case Distortion(s) => Distortion(DistortionEffect.SetParameter(s, name, v))
    case Fuzz(s) => Fuzz(FuzzEffect.SetParameter(s, name, v))
    case Wavefolder(s) => Wavefolder(WavefolderEffect.SetParameter(s, name, v))
    case ReverseDelay(s) => ReverseDelay(ReverseDelayEffect.SetParameter(s, name, v))
    case Granular(s) => Granular(GranularEffect.SetParameter(s, name, v))
    case Looper(s) => Looper(LooperEffect.SetParameter(s, name, v))
  }

  /** `setWetDryRatio`: clamped to [0, 1]; every effect but the bypass also
      mirrors it under "wet". */
  function SetWetDryRatio(u: Unit, w: real): (r: Unit)
    requires Inv(u)
    ensures Inv(r) && Wet(r) == Clamp(w, 0.0, 1.0)
    ensures Id(r) == Id(u) && Enabled(r) == Enabled(u) && SampleRate(r) == SampleRate(u)
    ensures !u.Bypass? ==> GetParameter(r, "wet") == Wet(r)
  {
    match u
    case Bypass(s) => Bypass(BypassEffect.SetWetDryRatio(s, w))
    case Delay(s) => Delay(DelayEffect.SetWetDryRatio(s, w))
    case Reverb(s) => Reverb(ReverbEffect.SetWetDryRatio(s, w))
    case Bitcrusher(s) => Bitcrusher(BitcrusherEffect.SetWetDryRatio(s, w))
    case Overdrive(s) => Overdrive(OverdriveEffect.SetWetDryRatio(s, w))
    case Distortion(s) => Distortion(DistortionEffect.SetWetDryRatio(s, w))
    case Fuzz(s) => Fuzz(FuzzEffect.SetWetDryRatio(s, w))
    case Wavefolder(s) => Wavefolder(WavefolderEffect.SetWetDryRatio(s, w))
    case ReverseDelay(s) => ReverseDelay(ReverseDelayEffect.SetWetDryRatio(s, w))
    case Granular(s) => Granular(GranularEffect.SetWetDryRatio(s, w))
    case Looper(s) => Looper(LooperEffect.SetWetDryRatio(s, w))
  }

  /** `setSampleRate`: the new rate, with whatever each effect re-derives
      and clears; the parameters, the ratio and the flag survive. */
  function SetSampleRate(u: Unit, sr: real): (r: Unit)
    requires Inv(u) && ValidRate(sr)
    ensures Inv(r) && SampleRate(r) == sr
    ensures Id(r) == Id(u) && Enabled(r) == Enabled(u) && Wet(r) == Wet(u)
    ensures forall n :: GetParameter(r, n) == GetParameter(u, n)
  {
    if u.Bypass? || u.Delay? || u.Reverb? || u.Bitcrusher? then SetSampleRateFilter(u, sr)
    else if u.Overdrive? || u.Distortion? || u.Fuzz? || u.Wavefolder? then SetSampleRateShaper(u, sr)
    else SetSampleRateBuffer(u, sr)
  }

  function SetSampleRateFilter(u: Unit, sr: real): (r: Unit)
    requires u.Bypass? || u.Delay? || u.Reverb? || u.Bitcrusher?
    requires Inv(u) && ValidRate(sr)
    ensures Inv(r) && SampleRate(r) == sr
    ensures Id(r) == Id(u) && Enabled(r) == Enabled(u) && Wet(r) == Wet(u)
    ensures forall n :: GetParameter(r, n) == GetParameter(u, n)
  {
    match u
    case Bypass(s) => Bypass(BypassEffect.SetSampleRate(s, sr))
    case Delay(s) => Delay(DelayEffect.SetSampleRate(s, sr))
    case Reverb(s) => Reverb(ReverbEffect.SetSampleRate(s, sr))
    case Bitcrusher(s) => Bitcrusher(BitcrusherEffect.SetSampleRate(s, sr))
  }

  function SetSampleRateShaper(u: Unit, sr: real): (r: Unit)
    requires u.Overdrive? || u.Distortion? || u.Fuzz? || u.Wavefolder?
    requires Inv(u) && ValidRate(sr)
    ensures Inv(r) && SampleRate(r) == sr
    ensures Id(r) == Id(u) && Enabled(r) == Enabled(u) && Wet(r) == Wet(u)
    ensures forall n :: GetParameter(r, n) == GetParameter(u, n)
  {
    match u
    case Overdrive(s) => Overdrive(OverdriveEffect.SetSampleRate(s, sr))
    case Distortion(s) => Distortion(DistortionEffect.SetSampleRate(s, sr))
    case Fuzz(s) => Fuzz(FuzzEffect.SetSampleRate(s, sr))
    case Wavefolder(s) => Wavefolder(WavefolderEffect.SetSampleRate(s, sr))
  }

  function SetSampleRateBuffer(u: Unit, sr: real): (r: Unit)
    requires u.ReverseDelay? || u.Granular? || u.Looper?
    requires Inv(u) && ValidRate(sr)
    ensures Inv(r) && SampleRate(r) == sr
    ensures Id(r) == Id(u) && Enabled(r) == Enabled(u) && Wet(r) == Wet(u)
    ensures forall n :: GetParameter(r, n) == GetParameter(u, n)
  {
    match u
    case ReverseDelay(s) => ReverseDelay(ReverseDelayEffect.SetSampleRate(s, sr))
    case Granular(s) => Granular(GranularEffect.SetSampleRate(s, sr))
    case Looper(s) => Looper(LooperEffect.SetSampleRate(s, sr))
  }

  /** `reset`: time-based state cleared; parameters, ratio, rate and flag
      survive. */
  function Reset(u: Unit): (r: Unit)
    requires Inv(u)
    ensures Inv(r) && Id(r) == Id(u) && Enabled(r) == Enabled(u)
    ensures Wet(r) == Wet(u) && SampleRate(r) == SampleRate(u)
    ensures forall n :: GetParameter(r, n) == GetParameter(u, n)
  {
    match u
    case Bypass(s) => Bypass(BypassEffect.Reset(s))
    case Delay(s) => Delay(DelayEffect.Reset(s))
    case Reverb(s) => Reverb(ReverbEffect.Reset(s))
    case Bitcrusher(s) => Bitcrusher(BitcrusherEffect.Reset(s))
    case Overdrive(s) => Overdrive(OverdriveEffect.Reset(s))
    case Distortion(s) => Distortion(DistortionEffect.Reset(s))
    case Fuzz(s) => Fuzz(FuzzEffect.Reset(s))
    case Wavefolder(s) => Wavefolder(WavefolderEffect.Reset(s))
    case ReverseDelay(s) => ReverseDelay(ReverseDelayEffect.Reset(s))
    case Granular(s) => Granular(GranularEffect.Reset(s))
    case Looper(s) => Looper(LooperEffect.Reset(s))
  }

  /** The fuzz noise draws: two per sample, one per channel. */
  function FuzzDraws(n: nat, rnd: nat -> real): (u: seq<real>)
    requires RandomSource(rnd)
    ensures |u| == 2 * n && Draws(u)
  {
    seq(2 * n, k requires 0 <= k => rnd(k))
  }

  /** The wavefolder draws: for each of the `2 * n` channel samples, one per
      reflection pass and one for the noise, taken consecutively. */
  function FoldDraws(n: nat, fold: real, rnd: nat -> real): (u: seq<seq<real>>)
    requires 0.0 <= fold <= WavefolderEffect.MaxFold && RandomSource(rnd)
    ensures |u| == 2 * n
    ensures WavefolderEffect.DrawRows(u, fold)
  {
    var p := WavefolderEffect.Passes(fold) + 1;
    seq(2 * n, k requires 0 <= k => Row(k * p, p, rnd))
  }

  /** The `p` draws from position `start` on. */
  function Row(start: nat, p: nat, rnd: nat -> real): (v: seq<real>)
    requires RandomSource(rnd)
    ensures |v| == p && Draws(v)
  {
    seq(p, j requires 0 <= j => rnd(start + j))
  }

  /** The result of `process` for each effect, with the oracles wired in.
      `None` stands for the exceptions only the reverse delay and the
      looper can raise. A disabled unit passes the block through unchanged;
      at ratio 0 the output is the input, except for the wavefolder, whose
      dry path is attenuated, and the granular effect, whose soft samples
      are. */
  function Out(u: Unit, input: seq<real>, o: Oracles): (res: Option<(Unit, seq<real>)>)
    requires Inv(u) && ValidOracles(o)
    ensures res.None? ==> u.ReverseDelay? || u.Looper?
    ensures res.Some? ==> Inv(res.value.0) && |res.value.1| == |input|
    ensures res.Some? ==> Id(res.value.0) == Id(u) && Enabled(res.value.0) == Enabled(u)
    ensures res.Some? ==> Wet(res.value.0) == Wet(u) && SampleRate(res.value.0) == SampleRate(u)
    ensures !Enabled(u) ==> res == Some((u, input))
    ensures Wet(u) == 0.0 && res.Some? && !u.Wavefolder? && !u.Granular? ==> res.value.1 == input
  {
    if u.Bypass? || u.Delay? || u.Reverb? || u.Bitcrusher? then OutFilter(u, input, o)
    else if u.Overdrive? || u.Distortion? || u.Fuzz? || u.Wavefolder? then OutShaper(u, input, o)
    else OutBuffer(u, input, o)
  }

  function OutFilter(u: Unit, input: seq<real>, o: Oracles): (res: Option<(Unit, seq<real>)>)
    requires u.Bypass? || u.Delay? || u.Reverb? || u.Bitcrusher?
    requires Inv(u) && ValidOracles(o)
    ensures res.None? ==> u.ReverseDelay? || u.Looper?
    ensures res.Some? ==> Inv(res.value.0) && |res.value.1| == |input|
    ensures res.Some? ==> Id(res.value.0) == Id(u) && Enabled(res.value.0) == Enabled(u)
    ensures res.Some? ==> Wet(res.value.0) == Wet(u) && SampleRate(res.value.0) == SampleRate(u)
    ensures !Enabled(u) ==> res == Some((u, input))
    ensures Wet(u) == 0.0 && res.Some? && !u.Wavefolder? && !u.Granular? ==> res.value.1 == input
  {
    match u
    case Bypass(s) =>
      if s.enabled && s.wet == 0.0 then BypassEffect.DryIsIdentity(s, input); Some((u, BypassEffect.Process(s, input)))
      else Some((u, BypassEffect.Process(s, input)))
    case Delay(s) =>
      var p := DelayEffect.Output(s, input, o.sqrt);
      Some((Delay(p.0), p.1))
    case Reverb(s) =>
      var p := ReverbEffect.Output(s, input, o.sqrt);
      Some((Reverb(p.0), p.1))
    case Bitcrusher(s) =>
      var p := BitcrusherEffect.Output(s, input, o.sqrt);
      Some((Bitcrusher(p.0), p.1))
  }

  function OutShaper(u: Unit, input: seq<real>, o: Oracles): (res: Option<(Unit, seq<real>)>)
    requires u.Overdrive? || u.Distortion? || u.Fuzz? || u.Wavefolder?
    requires Inv(u) && ValidOracles(o)
    ensures res.None? ==> u.ReverseDelay? || u.Looper?
    ensures res.Some? ==> Inv(res.value.0) && |res.value.1| == |input|
    ensures res.Some? ==> Id(res.value.0) == Id(u) && Enabled(res.value.0) == Enabled(u)
    ensures res.Some? ==> Wet(res.value.0) == Wet(u) && SampleRate(res.value.0) == SampleRate(u)
    ensures !Enabled(u) ==> res == Some((u, input))
    ensures Wet(u) == 0.0 && res.Some? && !u.Wavefolder? && !u.Granular? ==> res.value.1 == input
  {
    match u
    case Overdrive(s) =>
      var p := OverdriveEffect.Output(s, input, o.sqrt, o.tanh);
      Some((Overdrive(p.0), p.1))
    case Distortion(s) =>
      var p := DistortionEffect.Output(s, input, o.sqrt, o.tanh);
      Some((Distortion(p.0), p.1))
    case Fuzz(s) =>
      var p := FuzzEffect.Output(s, input, o.sqrt, o.tanh, FuzzDraws(|input|, o.rnd));
      Some((Fuzz(p.0), p.1))
    case Wavefolder(s) =>
      var p := WavefolderEffect.Process(s, input, o.sqrt, o.sinTurns, FoldDraws(|input|, s.fold, o.rnd));
      Some((Wavefolder(p.0), p.1))
  }

  function OutBuffer(u: Unit, input: seq<real>, o: Oracles): (res: Option<(Unit, seq<real>)>)
    requires u.ReverseDelay? || u.Granular? || u.Looper?
    requires Inv(u) && ValidOracles(o)
    ensures res.None? ==> u.ReverseDelay? || u.Looper?
    ensures res.Some? ==> Inv(res.value.0) && |res.value.1| == |input|
    ensures res.Some? ==> Id(res.value.0) == Id(u) && Enabled(res.value.0) == Enabled(u)
    ensures res.Some? ==> Wet(res.value.0) == Wet(u) && SampleRate(res.value.0) == SampleRate(u)
    ensures !Enabled(u) ==> res == Some((u, input))
    ensures Wet(u) == 0.0 && res.Some? && !u.Wavefolder? && !u.Granular? ==> res.value.1 == input
  {
    match u
    case ReverseDelay(s) =>
      var p := ReverseDelayEffect.Output(s, input, o.sqrt);
      if p.None? then None else Some((ReverseDelay(p.value.0), p.value.1))
    case Granular(s) =>
      var p := GranularEffect.Output(s, input, o.rnd, o.sinTurns, o.sqrt);
      Some((Granular(p.0), p.1))
    case Looper(s) =>
      var p := LooperEffect.Output(s, input, o.rnd, o.sinTurns, o.sqrt);
      if p.None? then None else Some((Looper(p.value.0), p.value.1))
  }

  /** `process`: each effect's block processing, run sample by sample. */
  method Process(u: Unit, input: seq<real>, o: Oracles) returns (res: Option<(Unit, seq<real>)>)
    requires Inv(u) && ValidOracles(o)
    ensures res == Out(u, input, o)
    ensures res.None? ==> u.ReverseDelay? || u.Looper?
    ensures res.Some? ==> Inv(res.value.0) && |res.value.1| == |input|
    ensures res.Some? ==> Id(res.value.0) == Id(u) && Enabled(res.value.0) == Enabled(u)
    ensures res.Some? ==> Wet(res.value.0) == Wet(u) && SampleRate(res.value.0) == SampleRate(u)
    ensures !Enabled(u) ==> res == Some((u, input))
    ensures Wet(u) == 0.0 && res.Some? && !u.Wavefolder? && !u.Granular? ==> res.value.1 == input
  {
    if u.Bypass? || u.Delay? || u.Reverb? || u.Bitcrusher? {
      res := ProcessFilter(u, input, o);
    } else if u.Overdrive? || u.Distortion? || u.Fuzz? || u.Wavefolder? {
      res := ProcessShaper(u, input, o);
    } else {
      res := ProcessBuffer(u, input, o);
    }
  }

  method ProcessFilter(u: Unit, input: seq<real>, o: Oracles) returns (res: Option<(Unit, seq<real>)>)
    requires u.Bypass? || u.Delay? || u.Reverb? || u.Bitcrusher?
    requires Inv(u) && ValidOracles(o)
    ensures res == OutFilter(u, input, o)
  {
    match u
    case Bypass(s) =>
      res := Some((u, BypassEffect.Process(s, input)));
    case Delay(s) =>
      var r, out := DelayEffect.Process(s, input, o.sqrt);
      res := Some((Delay(r), out));
    case Reverb(s) =>
      var r, out := ReverbEffect.Process(s, input, o.sqrt);
      res := Some((Reverb(r), out));
    case Bitcrusher(s) =>
      var r, out := BitcrusherEffect.Process(s, input, o.sqrt);
      res := Some((Bitcrusher(r), out));
  }

  method ProcessShaper(u: Unit, input: seq<real>, o: Oracles) returns (res: Option<(Unit, seq<real>)>)
    requires u.Overdrive? || u.Distortion? || u.Fuzz? || u.Wavefolder?
    requires Inv(u) && ValidOracles(o)
    ensures res == OutShaper(u, input, o)
  {
    match u
    case Overdrive(s) =>
      var r, out := OverdriveEffect.Process(s, input, o.sqrt, o.tanh);
      res := Some((Overdrive(r), out));
    case Distortion(s) =>
      var r, out := DistortionEffect.Process(s, input, o.sqrt, o.tanh);
      res := Some((Distortion(r), out));
    case Fuzz(s) =>
      var r, out := FuzzEffect.Process(s, input, o.sqrt, o.tanh, FuzzDraws(|input|, o.rnd));
      res := Some((Fuzz(r), out));
    case Wavefolder(s) =>
      var p := WavefolderEffect.Process(s, input, o.sqrt, o.sinTurns, FoldDraws(|input|, s.fold, o.rnd));
      res := Some((Wavefolder(p.0), p.1));
  }

  method ProcessBuffer(u: Unit, input: seq<real>, o: Oracles) returns (res: Option<(Unit, seq<real>)>)
    requires u.ReverseDelay? || u.Granular? || u.Looper?
    requires Inv(u) && ValidOracles(o)
    ensures res == OutBuffer(u, input, o)
  {
    match u
    case ReverseDelay(s) =>
      var p := ReverseDelayEffect.Process(s, input, o.sqrt);
      if p.None? {
        return None;
      }
      res := Some((ReverseDelay(p.value.0), p.value.1));
    case Granular(s) =>
      var r, out := GranularEffect.Process(s, input, o.rnd, o.sinTurns, o.sqrt);
      res := Some((Granular(r), out));
    case Looper(s) =>
      var p := LooperEffect.Process(s, input, o.rnd, o.sinTurns, o.sqrt);
      if p.None? {
        return None;
      }
      res := Some((Looper(p.value.0), p.value.1));
  }
}

=== FILE: wavefolder.dfy ===
/** WavefolderEffect: pre-gain and a symmetry offset, repeated reflection
    about a threshold with random reflection factors, two sine harmonics
    and random noise, gain compensation and a one-pole tone filter per
    channel; the mono mix uses equal-power gains scaled by 0.9 (dry) and
    1.1 (wet). */
module WavefolderEffect {
  import opened Common

  const Id: string := "wavefolder"

  const DefaultFold: real := 3.0
  const DefaultSymmetry: real := 0.0
  const DefaultTone: real := 0.6
  const DefaultWet: real := 0.30
  const MaxFold: real := 10.0
  /** The base reflection threshold before the symmetry widening. */
  const BaseThreshold: real := 0.4
  /** The crossfade that scales the dry gain by 0.9 and the wet gain by 1.1. */
  const Crossfade: real := 0.1

  datatype State = State(
    enabled: bool, wet: real, sampleRate: real, params: Params,
    fold: real, symmetry: real, tone: real, lpL: real, lpR: real, coeff: real)

  /** The tone cutoff: 800 Hz at tone 0 up to 12.8 kHz at tone 1. */
  function Cutoff(tone: real): (hz: real)
    requires 0.0 <= tone <= 1.0
    ensures 800.0 <= hz <= 12800.0
  {
    800.0 + tone * 12000.0
  }

  /** `updateLowpassCoeff` for a tone and a rate. */
  function ToneCoeff(tone: real, sampleRate: real): (c: real)
    requires 0.0 <= tone <= 1.0 && ValidRate(sampleRate)
    ensures 0.0 <= c <= 0.99
    ensures LowpassCoeff(800.0, sampleRate) <= c <= LowpassCoeff(12800.0, sampleRate)
  {
    LowpassCoeffMonotone(800.0, Cutoff(tone), sampleRate);
    LowpassCoeffMonotone(Cutoff(tone), 12800.0, sampleRate);
    LowpassCoeff(Cutoff(tone), sampleRate)
  }

  /** A brighter tone never gives a smaller filter coefficient. */
  lemma {:induction false} ToneBrightens(t1: real, t2: real, sampleRate: real)
    requires 0.0 <= t1 <= t2 <= 1.0 && ValidRate(sampleRate)
    ensures ToneCoeff(t1, sampleRate) <= ToneCoeff(t2, sampleRate)
  {
    LowpassCoeffMonotone(Cutoff(t1), Cutoff(t2), sampleRate);
  }

  /** The invariant every public operation keeps: the typed fields mirror
      the table, values are in range, the coefficient is a valid one-pole
      coefficient, and the filter states lie in [-1, 1]. */
  ghost predicate Inv(s: State) {
    && "fold" in s.params && s.params["fold"] == s.fold
    && "symmetry" in s.params && s.params["symmetry"] == s.symmetry
    && "tone" in s.params && s.params["tone"] == s.tone
    && "wet" in s.params && s.params["wet"] == s.wet
    && 0.0 <= s.fold <= MaxFold
    && -1.0 <= s.symmetry <= 1.0
    && 0.0 <= s.tone <= 1.0
    && 0.0 <= s.wet <= 1.0
    && ValidRate(s.sampleRate)
    && 0.0 <= s.coeff <= 0.99
    && -1.0 <= s.lpL <= 1.0 && -1.0 <= s.lpR <= 1.0
  }

  /** The coefficient is the one `updateLowpassCoeff` computes from the
      current tone and rate. */
  ghost predicate Tuned(s: State) {
    0.0 <= s.tone <= 1.0 && ValidRate(s.sampleRate) && s.coeff == ToneCoeff(s.tone, s.sampleRate)
  }

  /** `reset`: both filter states to 0, nothing else. */
  function Reset(s: State): (r: State)
    ensures r.lpL == 0.0 && r.lpR == 0.0
    ensures r.(lpL := s.lpL, lpR := s.lpR) == s
    ensures Inv(s) ==> Inv(r)
  {
    s.(lpL := 0.0, lpR := 0.0)
  }

  /** The constructor. */
  function Init(): (s: State)
    ensures Inv(s) && Tuned(s) && s.enabled && s.lpL == 0.0 && s.lpR == 0.0
    ensures s.fold == DefaultFold && s.symmetry == DefaultSymmetry
    ensures s.tone == DefaultTone && s.wet == DefaultWet
  {
    State(true, DefaultWet, 44100.0,
      map["fold" := DefaultFold, "symmetry" := DefaultSymmetry, "tone" := DefaultTone, "wet" := DefaultWet],
      DefaultFold, DefaultSymmetry, DefaultTone, 0.0, 0.0, ToneCoeff(DefaultTone, 44100.0))
  }

  /** `getParameter`: the stored value, 0 for a name never set. */
  function GetParameter(s: State, name: string): (v: real)
    ensures name in s.params ==> v == s.params[name]
    ensures name !in s.params ==> v == 0.0
  {
    GetOr(s.params, name, 0.0)
  }

  /** `setParameter`: fold clamped to [0, 10], symmetry to [-1, 1], tone to
      [0, 1] (recomputing the coefficient), "wet"/"mix" to [0, 1]; other
      names stored verbatim. */
  function SetParameter(s: State, name: string, v: real): (r: State)
    requires Inv(s)
    ensures Inv(r) && (Tuned(s) ==> Tuned(r))
    ensures name == "fold" ==> r.fold == Clamp(v, 0.0, MaxFold) && GetParameter(r, "fold") == r.fold
    ensures name == "symmetry" ==> r.symmetry == Clamp(v, -1.0, 1.0) && GetParameter(r, "symmetry") == r.symmetry
    ensures name == "tone" ==> r.tone == Clamp(v, 0.0, 1.0) && GetParameter(r, "tone") == r.tone
    ensures name == "wet" || name == "mix" ==> r.wet == Clamp(v, 0.0, 1.0) && GetParameter(r, "wet") == r.wet
    ensures name !in {"fold", "symmetry", "tone", "wet", "mix"} ==>
      GetParameter(r, name) == v && r.fold == s.fold && r.symmetry == s.symmetry && r.tone == s.tone && r.wet == s.wet
    ensures r.enabled == s.enabled && r.sampleRate == s.sampleRate && r.lpL == s.lpL && r.lpR == s.lpR
  {
    if name == "fold" then
      var x := Clamp(v, 0.0, MaxFold);
      s.(fold := x, params := s.params["fold" := x])
    else if name == "symmetry" then
      var x := Clamp(v, -1.0, 1.0);
      s.(symmetry := x, params := s.params["symmetry" := x])
    else if name == "tone" then
      var x := Clamp(v, 0.0, 1.0);
      s.(tone := x, params := s.params["tone" := x], coeff := ToneCoeff(x, s.sampleRate))
    else if name == "wet" || name == "mix" then
      var x := Clamp(v, 0.0, 1.0);
      s.(wet := x, params := s.params["wet" := x])
    else
      s.(params := s.params[name := v])
  }

  /** `setWetDryRatio`: clamps to [0, 1] and mirrors the value under "wet". */
  function SetWetDryRatio(s: State, w: real): (r: State)
    requires Inv(s)
    ensures Inv(r) && r.wet == Clamp(w, 0.0, 1.0) && GetParameter(r, "wet") == r.wet
    ensures r.fold == s.fold && r.symmetry == s.symmetry && r.tone == s.tone && r.enabled == s.enabled && r.sampleRate == s.sampleRate
  {
    SetParameter(s, "wet", w)
  }

  /** `setSampleRate`: records the rate and recomputes the coefficient; the
      filter states are kept. */
  function SetSampleRate(s: State, sr: real): (r: State)
    requires Inv(s) && ValidRate(sr)
    ensures Inv(r) && r.sampleRate == sr && r.coeff == ToneCoeff(s.tone, sr)
    ensures r.(sampleRate := s.sampleRate, coeff := s.coeff) == s
  {
    s.(sampleRate := sr, coeff := ToneCoeff(s.tone, sr))
  }

  /** The reflection threshold `0.4 * (1 + 0.5 * |symmetry|)`. */
  function Threshold(symmetry: real): (th: real)
    requires -1.0 <= symmetry <= 1.0
    ensures 0.4 <= th <= 0.6
    ensures symmetry == 0.0 ==> th == BaseThreshold
  {
    var a := if symmetry < 0.0 then -symmetry else symmetry;
    BaseThreshold * (1.0 + a * 0.5)
  }

  /** The number of reflection passes, `max(3, (int)(fold * 2))`. */
  function Passes(fold: real): (n: nat)
    requires 0.0 <= fold <= MaxFold
    ensures 3 <= n <= 20
    ensures fold < 2.0 ==> n == 3
  {
    var k := Trunc(fold * 2.0);
    if k < 3 then 3 else k
  }

  /** The random reflection factor `1 + (u - 0.5) * 0.2` of one draw. */
  function ReflectionFactor(u: real): (f: real)
    requires 0.0 <= u < 1.0
    ensures 0.9 <= f < 1.1
    ensures u == 0.5 ==> f == 1.0
  {
    1.0 + (u - 0.5) * 0.2
  }

  /** One reflection pass: a value beyond the threshold is reflected back
      inside by its excess times the factor, then clamped to [-1, 1]; a
      value within the threshold is left alone. */
  function Reflect(x: real, th: real, u: real): (r: real)
    requires th > 0.0 && 0.0 <= u < 1.0
    ensures -th <= x <= th ==> r == x
    ensures -1.0 <= x <= 1.0 ==> -1.0 <= r <= 1.0
    ensures x > th && u == 0.5 ==> r == Clamp(2.0 * th - x, -1.0, 1.0)
    ensures x < -th && u == 0.5 ==> r == Clamp(-2.0 * th - x, -1.0, 1.0)
  {
    var a := if x < 0.0 then -x else x;
    if a > th then
      var excess := a - th;
      var f := ReflectionFactor(u);
      MulUnit(excess);
      if x > 0.0 then Clamp(th - Mul(excess, f), -1.0, 1.0)
      else Clamp(-th + Mul(excess, f), -1.0, 1.0)
    else x
  }

  /** The reflection loop: one pass per draw of `u`. */
  function Fold(x: real, th: real, u: seq<real>): (r: real)
    requires th > 0.0 && Draws(u)
    ensures -1.0 <= x <= 1.0 ==> -1.0 <= r <= 1.0
    ensures -th <= x <= th ==> r == x
    decreases |u|
  {
    if |u| == 0 then x else Fold(Reflect(x, th, u[0]), th, u[1..])
  }

  /** The draws one channel consumes per sample: one per reflection pass,
      then one for the noise. */
  predicate ChannelDraws(v: seq<real>, fold: real)
    requires 0.0 <= fold <= MaxFold
  {
    |v| == Passes(fold) + 1 && Draws(v)
  }

  /** Every row of `u` is a valid draw row for one channel-sample. */
  predicate DrawRows(u: seq<seq<real>>, fold: real)
    requires 0.0 <= fold <= MaxFold
  {
    forall k :: 0 <= k < |u| ==> ChannelDraws(u[k], fold)
  }

  /** `applyWavefolding` on the pre-gained input `g`, with the sine oracle
      `sinTurns(t) = sin(2 * pi * t)`: input clamp, reflection passes, a
      first harmonic, noise scaled by the fold, a second harmonic and a
      final clamp. */
  function Wavefold(g: real, fold: real, symmetry: real, v: seq<real>, sinTurns: real -> real): (y: real)
    requires 0.0 <= fold <= MaxFold && -1.0 <= symmetry <= 1.0
    requires ChannelDraws(v, fold)
    ensures -1.0 <= y <= 1.0
  {
    var n := Passes(fold);
    var folded := Fold(Clamp(g, -1.0, 1.0), Threshold(symmetry), v[..n]);
    var harmonic := folded + sinTurns(folded) * 0.3;
    var noisy := harmonic + Mul((v[n] - 0.5) * 0.1, fold);
    var second := noisy + sinTurns(noisy * 2.0) * 0.15;
    Clamp(second, -1.0, 1.0)
  }

  /** Pre-gain `1 + 2 * fold`, symmetry offset `1.5 * symmetry`, folding
      and the compensation `/ (1 + 1.5 * fold)`. */
  function Shape(x: real, fold: real, symmetry: real, v: seq<real>, sinTurns: real -> real): (y: real)
    requires 0.0 <= fold <= MaxFold && -1.0 <= symmetry <= 1.0
    requires ChannelDraws(v, fold)
    ensures -1.0 <= y <= 1.0
  {
    var w := Wavefold(Mul(x, 1.0 + fold * 2.0) + symmetry * 1.5, fold, symmetry, v, sinTurns);
    Compensated(w, 1.0 + fold * 1.5);
    w / (1.0 + fold * 1.5)
  }

  /** The mix gains of `process`: `0.9 * sqrt(1 - w)` and `1.1 * sqrt(w)`. */
  function Gains(wet: real, sqrt: real -> real): (g: (real, real))
    requires 0.0 <= wet <= 1.0 && SqrtOracle(sqrt)
    ensures wet == 0.0 ==> g == (1.0 - Crossfade, 0.0)
    ensures wet == 1.0 ==> g == (0.0, 1.0 + Crossfade)
    ensures IsSqrt(g.0 / (1.0 - Crossfade), 1.0 - wet) && IsSqrt(g.1 / (1.0 + Crossfade), wet)
  {
    (sqrt(1.0 - wet) * (1.0 - Crossfade), sqrt(wet) * (1.0 + Crossfade))
  }

  /** One sample of `process` as a value: the left channel takes draws
      `vL`, the right channel `vR`, each through the folder and tone filter;
      then the mono mix. */
  function Sample(s: State, x: real, vL: seq<real>, vR: seq<real>, dryGain: real, wetGain: real, sinTurns: real -> real)
    : (res: (State, real))
    requires Inv(s) && ChannelDraws(vL, s.fold) && ChannelDraws(vR, s.fold)
    ensures Inv(res.0) && res.0.(lpL := s.lpL, lpR := s.lpR) == s
    ensures res.0.lpL == OnePole(s.lpL, Shape(x, s.fold, s.symmetry, vL, sinTurns), s.coeff)
    ensures res.0.lpR == OnePole(s.lpR, Shape(x, s.fold, s.symmetry, vR, sinTurns), s.coeff)
    ensures res.1 == MonoMix(x, res.0.lpL, res.0.lpR, dryGain, wetGain)
    ensures dryGain == 1.0 - Crossfade && wetGain == 0.0 ==> res.1 == x * 0.9
    ensures dryGain == 0.0 && wetGain == 1.0 + Crossfade ==> -1.1 <= res.1 <= 1.1
  {
    var shapedL := Shape(x, s.fold, s.symmetry, vL, sinTurns);
    var shapedR := Shape(x, s.fold, s.symmetry, vR, sinTurns);
    OnePoleKeepsBound(s.lpL, shapedL, s.coeff, 1.0);
    OnePoleKeepsBound(s.lpR, shapedR, s.coeff, 1.0);
    var l := OnePole(s.lpL, shapedL, s.coeff);
    var rr := OnePole(s.lpR, shapedR, s.coeff);
    DryGainMix(x, l, rr);
    WetGainMix(x, l, rr);
    (s.(lpL := l, lpR := rr), MonoMix(x, l, rr, dryGain, wetGain))
  }

  /** The sample loop of `process` as a value: sample `i` of `input` takes
      the draw rows `u[2i]` (left) and `u[2i + 1]` (right); rows past
      `2 * |input|` are not used. */
  function Block(s: State, input: seq<real>, u: seq<seq<real>>, dryGain: real, wetGain: real, sinTurns: real -> real)
    : (res: (State, seq<real>))
    requires Inv(s) && 2 * |input| <= |u| && DrawRows(u, s.fold)
    ensures Inv(res.0) && |res.1| == |input| && res.0.(lpL := s.lpL, lpR := s.lpR) == s
    decreases |input|
  {
    if |input| == 0 then (s, [])
    else
      var n := |input| - 1;
      var p := Block(s, input[..n], u, dryGain, wetGain, sinTurns);
      var q := Sample(p.0, input[n], u[2 * n], u[2 * n + 1], dryGain, wetGain, sinTurns);
      (q.0, p.1 + [q.1])
  }

  /** Wet 0: every output sample is its input sample scaled by 0.9. */
  lemma {:induction false} BlockDry(s: State, input: seq<real>, u: seq<seq<real>>, sinTurns: real -> real)
    requires Inv(s) && 2 * |input| <= |u| && DrawRows(u, s.fold)
    ensures var out := Block(s, input, u, 1.0 - Crossfade, 0.0, sinTurns).1;
            forall k :: 0 <= k < |input| ==> out[k] == input[k] * 0.9
    decreases |input|
  {
    if |input| > 0 {
      BlockDry(s, input[..|input| - 1], u, sinTurns);
    }
  }

  /** Wet 1: every output sample lies within the wet gain 1.1. */
  lemma {:induction false} BlockWet(s: State, input: seq<real>, u: seq<seq<real>>, sinTurns: real -> real)
    requires Inv(s) && 2 * |input| <= |u| && DrawRows(u, s.fold)
    ensures AllWithin(Block(s, input, u, 0.0, 1.0 + Crossfade, sinTurns).1, 1.1)
    decreases |input|
  {
    if |input| > 0 {
      BlockWet(s, input[..|input| - 1], u, sinTurns);
    }
  }

  /** `process`; `u` holds the draw rows of every sample, left channel
      first. A disabled effect passes the block through. */
  function Process(s: State, input: seq<real>, sqrt: real -> real, sinTurns: real -> real, u: seq<seq<real>>)
    : (res: (State, seq<real>))
    requires Inv(s) && SqrtOracle(sqrt)
    requires |u| == 2 * |input| && DrawRows(u, s.fold)
    ensures Inv(res.0) && |res.1| == |input| && res.0.(lpL := s.lpL, lpR := s.lpR) == s
    ensures !s.enabled ==> res == (s, input)
    ensures s.enabled && s.wet == 0.0 ==> forall k :: 0 <= k < |input| ==> res.1[k] == input[k] * 0.9
    ensures s.enabled && s.wet == 1.0 ==> AllWithin(res.1, 1.1)
  {
    if !s.enabled then (s, input)
    else
      var g := Gains(s.wet, sqrt);
      if s.wet == 0.0 then BlockDry(s, input, u, sinTurns); Block(s, input, u, g.0, g.1, sinTurns)
      else if s.wet == 1.0 then BlockWet(s, input, u, sinTurns); Block(s, input, u, g.0, g.1, sinTurns)
      else Block(s, input, u, g.0, g.1, sinTurns)
  }

  /** Wet gain 0: the mix is the input scaled by the dry gain. */
  lemma {:induction false} DryGainMix(x: real, left: real, right: real)
    ensures MonoMix(x, left, right, 1.0 - Crossfade, 0.0) == x * 0.9
  {
    MulUnit(left);
    MulUnit(right);
  }

  /** Dry gain 0: two channels within [-1, 1] mix to within the wet gain. */
  lemma {:induction false} WetGainMix(x: real, left: real, right: real)
    requires -1.0 <= left <= 1.0 && -1.0 <= right <= 1.0
    ensures -1.1 <= MonoMix(x, left, right, 0.0, 1.0 + Crossfade) <= 1.1
  {
    MulUnit(x);
    MulBounded(left, 1.0 + Crossfade, 1.1);
    MulBounded(right, 1.0 + Crossfade, 1.1);
  }

}
